=== FILE: README.md ===
# Dedougger in Dafny

This project models the core of Dedougger, a Windows user-mode debugger, and the
snapshot engine of its fuzzing harness built on top of it. It proves properties
of that model. Dedougger keeps a table of hardware breakpoints: four slots, plus
a register image of DR0-DR3 and DR7 (the `Dr7_Fields` union). It also keeps
software breakpoints (INT3 bytes with the original byte recorded), breakpoints
deferred until their module loads, a per-thread register cache
(`ThreadState`), and a dispatcher for debug events that calls registered
callbacks. The harness saves and restores the target between fuzzing runs. A
page restorer backs up the working set and tracks writes through page
protections. A thread restorer saves register contexts and kills threads created
after the snapshot. `StateFuzzer` ties both to the debugger's callbacks.

How the model is built:

- **Operations are pure functions** over immutable state. A C++ exception is an
  `Exec.Raised` result. It carries the state as far as the operation got, because
  the source mutates in place before it throws.
- **The target process is a value** (`TargetOs.Os`). It holds pages with data
  and protection, allocation bases, pages that refuse protection changes, live
  thread contexts, and the ids new threads will get. The Win32 calls the source
  makes are functions over that value: ReadProcessMemory, WriteProcessMemory,
  VirtualProtectEx, VirtualQueryEx, VirtualFreeEx, OpenThread,
  Get/SetThreadContext, TerminateThread and CreateRemoteThreadEx. Each one
  succeeds or fails according to that value.
- **The source's environment becomes parameters.** This covers the
  debug-event loop, Toolhelp snapshots, QueryWorkingSet, the PE entry-point
  offset and the registered callbacks' replies. Where the source lets the target
  run one instruction (`ContinueDebugEvent` followed by `WaitForDebugEvent`),
  that step is a parameter `step: Os -> StepReport`. It gives the target
  afterwards and the codes of the event WaitForDebugEvent returns, which the
  source asserts to be the single step.
- **Registers are 64-bit bit-vectors**, stored through fields 2, 4 or 8 bytes
  wide, as in the source's CONTEXT stores. Machine integers (`size_t`, `DWORD`,
  `uint16_t`) wrap explicitly.

Modules follow the source files:

- `Hwbp`: the descriptor header and DR7 union.
- `Deferred` and `Swbp`: the breakpoint headers.
- `ModuleInfos`: `moduleinfo.hpp`.
- `ThreadStates`: `ThreadState.cpp`.
- `Session`, `HwBreakpoints`, `SwBreakpoints`, `Resolution`, `Resume`,
  `HwStep`, `BreakpointEvent`, `MainModules` and `EventDispatch`: the parts of
  `Dedougger.cpp`.
- `PageBackups` and `PageRestorers`: the page restorer.
- `ThreadBackups` and `ThreadRestorers`: the thread restorer.
- `StateFuzzers`: the fuzzer.

Where the code as written misbehaves, both readings are modelled. A member
suffixed `AsWritten` follows the code. The corrected member carries the property
the code evidently intends. Together they show the difference (see Findings).
Some calls keep the code as written, so that the difference shows in the caller:

- the debugger's module-load path uses the ModuleInfo constructor and the
  resolution as written;
- the main-module walk uses the constructor as written;
- the page save uses the working-set translation as written;
- the first breakpoint reads the entry offset through the main module as written, so a snapshot without a ".exe" module faults;
- the fuzzer's SetStateSavePointDeferred and AddStateResetPointDeferred deliver their announcements to the resolution callback as written.

Other callers use the corrected members:

- the thread restorer's restore uses the corrected kill loop;
- the fuzzer's callbacks use the corrected lookup by address and the corrected
  touch.

## Model

| member | source | states |
|---|---|---|
| Text.EqualsIgnoringCase | Dedougger/source/Dedougger.cpp:197 | `_stricmp(a, b) == 0` as the module-name match; its meaning is stated by EqualsIgnoringCaseCharwise (same length, equal at every position once lower-cased), EqualsIgnoringCaseIsEquivalence and EqualsIgnoringCaseIsCoarser |
| Text.EqualsIgnoringCaseCharwise | Dedougger/source/Dedougger.cpp:197 | `_stricmp` finds two module names equal exactly when they have the same length and agree at every position once ASCII letters are lower-cased |
| Text.EqualsIgnoringCaseIsEquivalence | Dedougger/source/Dedougger.cpp:197-208 | the module-name match used to resolve deferred breakpoints is reflexive, symmetric and transitive |
| Text.EqualsIgnoringCaseIsCoarser | Dedougger/source/Dedougger.cpp:197 | identical names always match; on names without upper-case letters the match is exact equality |
| Text.CaseOnlyDifference | Dedougger/source/Dedougger.cpp:197 | "NTDLL.DLL" and "ntdll.dll" match although they are different strings |
| Registers.Width | Dedougger/source/targetstate/ThreadState.cpp:33-80 | every register the cache can read is a field of 2, 4 or 8 bytes |
| Registers.WidthsByClass | Dedougger/source/targetstate/ThreadState.cpp:33-80 | the segment registers are WORD fields, MxCsr and EFlags DWORD fields, and every other register an 8-byte field |
| Registers.Write | Dedougger/source/targetstate/ThreadState.cpp:88-149 | a store through a pointer of the field's width reads back as the value truncated to that width, and leaves every other register unchanged |
| Registers.ReadAfterWrite | Dedougger/source/targetstate/ThreadState.cpp:88-149 | a WORD field reads back the low 16 bits of what was stored, a DWORD field the low 32 bits, an 8-byte field the whole value |
| Registers.WriteReadIdentity | Dedougger/source/targetstate/ThreadState.cpp:88-149 | storing the value a register already holds changes no register |
| Registers.WriteAllFrame | Dedougger/source/targetstate/ThreadState.cpp:88-149 | a register that no store of a run names keeps its value |
| Registers.WriteAllLast | Dedougger/source/targetstate/ThreadState.cpp:88-149 | after a run of stores a register holds what the last store naming it wrote |
| Hwbp.LengthBytes | Dedougger/source/breakpoints/HwbpDescriptor.h:15-20 | a hardware breakpoint watches 1, 2, 4 or 8 bytes |
| Hwbp.ConditionEncodingMatchesSdm | Dedougger/source/breakpoints/HwbpDescriptor.h:9-13 | each BPCONDITION value placed in a DR7 R/W field means, under the field table of section 17.2.4 of the Intel SDM Volume 3B (2016 edition; 18.2.4 in later ones), the condition it is named after |
| Hwbp.LengthEncodingMatchesSdm | Dedougger/source/breakpoints/HwbpDescriptor.h:15-20 | each BPLEN value placed in a DR7 LEN field means the byte count it is named after |
| Hwbp.EncodingsInjective | Dedougger/source/breakpoints/HwbpDescriptor.h:9-20 | distinct conditions, and distinct lengths, get distinct field values |
| Hwbp.ConditionOf | Dedougger/source/breakpoints/HwbpDescriptor.h:9-13 | decoding a R/W field gives back the condition that encodes to it; only the I/O value 2 names none |
| Hwbp.LengthOf | Dedougger/source/breakpoints/HwbpDescriptor.h:15-20 | every LEN field value decodes to the length that encodes to it |
| Hwbp.ZeroDescriptorIsAllZero | Dedougger/source/breakpoints/HwbpDescriptor.h:48-54 | the descriptors the debugger starts with have address 0, are disabled, and encode to zero fields |
| Hwbp.Encode | Dedougger/source/breakpoints/HwbpDescriptor.h:22-46 | the `int32` view of the DR7 union built from its bit fields; EncodeDecode and DecodeEncode state that it and Decode are inverse, and ConditionEncodingMatchesSdm and LengthEncodingMatchesSdm what its fields mean |
| Hwbp.Decode | Dedougger/source/breakpoints/HwbpDescriptor.h:22-46 | the bit-field view of a DR7 `int32`; EncodeDecode and DecodeEncode state that it and Encode are inverse |
| Hwbp.EncodeDecode | Dedougger/source/breakpoints/HwbpDescriptor.h:22-46 | reading the `int32` member of the union as bit fields and back gives the same 32 bits: the fields cover each bit exactly once |
| Hwbp.DecodeEncode | Dedougger/source/breakpoints/HwbpDescriptor.h:22-46 | writing the bit fields and reading them back through `int32` gives the same fields |
| Hwbp.ZeroDr7IsZero | Dedougger/source/breakpoints/HwbpDescriptor.h:64-70 | the constructor's `int32 = 0` is the union with every field clear |
| Hwbp.WriteSlot | Dedougger/source/breakpoints/HwbpDescriptor.h:72-103 | loading a descriptor succeeds exactly for slots 0-3 and throws InvalidHWBPIndex otherwise with the state unchanged; it sets the slot's address register, local enable, condition and length, clears the global enable for slot 0 alone, and leaves the other slots alone |
| Hwbp.ReadAfterWriteSlot | Dedougger/source/breakpoints/HwbpDescriptor.h:72-103 | a slot just loaded reads back from the registers as the descriptor's address, condition and length, enabled |
| Hwbp.DisableSlot | Dedougger/source/breakpoints/HwbpDescriptor.h:105-123 | disabling clears exactly the slot's local enable and throws InvalidHWBPIndex outside 0-3 |
| Hwbp.EnableSlot | Dedougger/source/breakpoints/HwbpDescriptor.h:125-143 | enabling sets exactly the slot's local enable and throws InvalidHWBPIndex outside 0-3 |
| Hwbp.EnableAfterDisable | Dedougger/source/breakpoints/HwbpDescriptor.h:105-143 | re-enabling a slot that was enabled before a disable restores the register image exactly |
| Hwbp.DisableAfterEnable | Dedougger/source/breakpoints/HwbpDescriptor.h:105-143 | disabling a slot that was disabled before an enable restores the register image exactly |
| Hwbp.ClearLocal | Dedougger/source/targetstate/ThreadState.cpp:175-194 | the bit-field view with one slot's local enable cleared and every other field kept; an index outside 0-3 changes nothing |
| Hwbp.ThreadDr7 | Dedougger/source/Dedougger.cpp:150-155 | the DR7 fields written into threads have LE and GE clear, bit 10 set, and the image's four slots |
| Hwbp.ThreadDr7KeepsSlots | Dedougger/source/Dedougger.cpp:150-159 | the 32-bit DR7 value stored into a thread decodes to the same four slots as the image |
| Deferred.NewDeferredHwbp | Dedougger/source/breakpoints/deferredhwbp.h:12-22 | a deferred hardware breakpoint starts unresolved, enabled, at the unresolved address, with the name, offset, condition and length given |
| Deferred.NewDeferredSwbp | Dedougger/source/breakpoints/DeferredSWBP.h:14-20 | a deferred software breakpoint starts unresolved at address 0 with the name and offset given |
| Deferred.ResolveHwbp | Dedougger/source/breakpoints/deferredhwbp.h:24-30 | resolving marks the breakpoint resolved at base + offset modulo 2^64, recorded in its descriptor |
| Deferred.ResolveSwbp | Dedougger/source/breakpoints/DeferredSWBP.h:22-28 | resolving marks the breakpoint resolved at base + offset modulo 2^64 |
| Deferred.ResolvedAddressRecoversOffset | Dedougger/source/breakpoints/deferredhwbp.h:24-30 | subtracting the module base from a resolved address, wrapping, gives back the offset |
| Deferred.ResolveIdempotent | Dedougger/source/breakpoints/deferredhwbp.h:24-30 | resolving again against the same base changes nothing |
| Deferred.ResolveLastBaseWins | Dedougger/source/breakpoints/DeferredSWBP.h:22-28 | resolving against a second base gives what resolving against it alone gives |
| Swbp.DefaultSwbp | Dedougger/source/breakpoints/swbp.hpp:10-15 | the default software breakpoint record has every field zero or false |
| ModuleInfos.DefaultModuleInfo | Dedougger/source/targetstate/moduleinfo.hpp:11-13 | the default module record has base 0 and empty path and name |
| ModuleInfos.FindFirstOf | Dedougger/source/targetstate/moduleinfo.hpp:16 | `find_first_of` returns the first index holding any character of the set, and npos exactly when there is none |
| ModuleInfos.FindLastOf | Dedougger/source/targetstate/moduleinfo.hpp:25 | `find_last_of` returns the last index holding the character, and npos exactly when there is none |
| ModuleInfos.Substr | Dedougger/source/targetstate/moduleinfo.hpp:17-22 | `substr(pos)` gives the suffix from `pos`, and throws out_of_range exactly when `pos` is past the end |
| ModuleInfos.FileName | Dedougger/source/targetstate/moduleinfo.hpp:25-26 | the module name is a suffix of the path that holds no backslash and starts the path or follows a backslash |
| ModuleInfos.FromPathAsWritten | Dedougger/source/targetstate/moduleinfo.hpp:15-28 | the constructor as written succeeds exactly when the path holds a backslash or question mark with at least four characters from it to the end, and otherwise throws out_of_range; it keeps the path after those four characters and names the module by that path's file name |
| ModuleInfos.AsWrittenStripsPrefix | Dedougger/source/targetstate/moduleinfo.hpp:15-22 | on a `\\?\` path the constructor as written removes exactly the prefix |
| ModuleInfos.AsWrittenTruncatesDrivePath | Dedougger/source/targetstate/moduleinfo.hpp:15-28 | on the drive path `C:\a.dll` the constructor as written keeps the path "ll" and the name "ll" |
| ModuleInfos.StripPrefix | Dedougger/source/targetstate/moduleinfo.hpp:15-22 | the path with its `\\?\` prefix removed when it has one, and unchanged otherwise |
| ModuleInfos.FromPath | Dedougger/source/targetstate/moduleinfo.hpp:15-28 | the corrected constructor never throws; it keeps the path, without its `\\?\` prefix when present, and names the module by that path's file name |
| ModuleInfos.FromPathKeepsPlainPaths | Dedougger/source/targetstate/moduleinfo.hpp:15-28 | the corrected constructor keeps every path that has no prefix |
| ModuleInfos.FromPathAgreesOnPrefixedPaths | Dedougger/source/targetstate/moduleinfo.hpp:15-28 | on `\\?\` paths the constructor as written and the corrected one give the same module |
| ModuleInfos.FromPathNamesDrivePath | Dedougger/source/targetstate/moduleinfo.hpp:15-28 | the corrected constructor keeps `C:\a.dll` and names it "a.dll" |
| ModuleInfos.FileNameOfJoin | Dedougger/source/targetstate/moduleinfo.hpp:25-26 | the name of `dir\file` is `file` whenever `file` has no backslash |
| ModuleInfos.FromPathOfPrefixedJoin | Dedougger/source/targetstate/moduleinfo.hpp:15-28 | the corrected constructor makes `\\?\dir\file` the module `dir\file` named `file` |
| Session.CallbackAt | Dedougger/source/dedougger.hpp:26-39 | every index of the callback array belongs to the callback id stored there |
| Session.OneSlotPerCallback | Dedougger/source/dedougger.hpp:26-39 | the twelve callback ids occupy twelve distinct slots of the array |
| Session.InitialSession | Dedougger/source/Dedougger.cpp:81-89 | a new debugger has not hit its first breakpoint, has four zero descriptors, and has no callbacks, modules, threads, breakpoints or queued breakpoints |
| Session.InitialSessionIsIdle | Dedougger/source/Dedougger.cpp:81-89 | a new debugger has no slot enabled and an all-zero DR7 image |
| Session.RegisterEventCallback | Dedougger/source/Dedougger.cpp:839-844 | registering installs the pair for that event, returns the pair it replaces, and changes no other slot |
| Session.RegisterEventCallbackUndo | Dedougger/source/Dedougger.cpp:839-844 | registering the returned pair again undoes the registration |
| Session.RegisterResolvedCallback | Dedougger/source/Dedougger.cpp:846-851 | registering the resolution callback installs it, returns the previous one, and changes nothing else |
| Session.RegisterResolvedCallbackUndo | Dedougger/source/Dedougger.cpp:846-851 | registering the returned resolution callback again undoes the registration |
| Session.MapDll | Dedougger/source/Dedougger.cpp:550-553 | MapDll records the module under its name and its base; MapDllRecords states what each lookup then answers, and ResolveModuleAfterMapDll what resolution by name finds |
| Session.MapDllRecords | Dedougger/source/Dedougger.cpp:550-553 | after MapDll a name is known exactly when it was known before or is the module's, it then gives the new module for its own name and its old entry for any other; the same for base addresses; nothing else of the debugger changes |
| Session.FirstFree | Dedougger/source/Dedougger.cpp:221-226 | the slot search finds the lowest disabled slot, and none exactly when all four are enabled |
| Session.SetHwbp | Dedougger/source/Dedougger.cpp:218-236 | setting a hardware breakpoint succeeds exactly when a slot is free, and throws otherwise; it fills the lowest free slot, enables it, and loads it into the register image |
| Session.SetHwbpTakesOneSlot | Dedougger/source/Dedougger.cpp:218-236 | a successful set enables exactly one more slot, and that slot reads back from the image as the breakpoint |
| ThreadStates.FromId | Dedougger/source/targetstate/ThreadState.hpp:106-116 | a cache made from a thread id has no handle yet and is unread and clean |
| ThreadStates.FromHandle | Dedougger/source/targetstate/ThreadState.hpp:118-127 | a cache made from an id and handle uses that handle and is unread and clean |
| ThreadStates.FromContext | Dedougger/source/targetstate/ThreadState.hpp:129-138 | a cache made from a context holds it, counts as read, and is clean |
| ThreadStates.Pull | Dedougger/source/targetstate/ThreadState.cpp:9-19 | a pull opens a handle when it has none and keeps it; it reads the thread's context through that handle, or throws GetThreadContextFailure when the read fails |
| ThreadStates.EnsureRead | Dedougger/source/targetstate/ThreadState.cpp:27-29 | a register access pulls only when the cache has not been read |
| ThreadStates.Get | Dedougger/source/targetstate/ThreadState.cpp:21-86 | reading a register succeeds exactly when the pull does and the value names a register; it returns the field zero-extended, and otherwise throws InvalidRegister |
| ThreadStates.Set | Dedougger/source/targetstate/ThreadState.cpp:88-149 | storing succeeds exactly when the pull does and the value names a register; the cache then holds the truncated value and is dirty, and a failure leaves it clean |
| ThreadStates.GetAfterSet | Dedougger/source/targetstate/ThreadState.cpp:21-149 | a register reads back what was stored in it, truncated, whatever the thread holds by then |
| ThreadStates.SetLeavesOthers | Dedougger/source/targetstate/ThreadState.cpp:88-149 | storing one register leaves every other cached register as it was |
| ThreadStates.GetIsCached | Dedougger/source/targetstate/ThreadState.cpp:21-86 | once the cache has been read, reading a register gives the same answer whatever the target holds |
| ThreadStates.GetOnReadCache | Dedougger/source/targetstate/ThreadState.cpp:21-86 | on a cache already read, a read is answered from the cache |
| ThreadStates.SetOnReadCache | Dedougger/source/targetstate/ThreadState.cpp:88-149 | on a cache already read, a store writes the cache and marks it dirty |
| ThreadStates.SetAllOnReadCache | Dedougger/source/targetstate/ThreadState.cpp:88-149 | on a cache already read, a run of stores writes them all into the cache and marks it dirty |
| ThreadStates.SetAllPullsOnce | Dedougger/source/targetstate/ThreadState.cpp:88-149 | a run of stores succeeds exactly when its first pull does |
| ThreadStates.ContextCopy | Dedougger/source/targetstate/ThreadState.cpp:151-156 | the context copy pulls when the cache is unread, fails exactly when that pull fails, and returns the cached record |
| ThreadStates.EditContext | Dedougger/source/targetstate/ThreadState.hpp:155 | edits through the mutable context replace the record and mark it dirty, with no pull |
| ThreadStates.Invalidate | Dedougger/source/targetstate/ThreadState.hpp:157 | invalidation forgets the cache and any pending writes, and keeps the handle |
| ThreadStates.InvalidateRereads | Dedougger/source/targetstate/ThreadState.hpp:157 | after invalidation the next read of a live thread returns what the thread holds, not the discarded cache |
| ThreadStates.Flush | Dedougger/source/targetstate/ThreadState.cpp:158-173 | a flush does nothing unless the cache is dirty and read; then it writes the context, throwing SetThreadContextFailure when it cannot, and re-reads it |
| ThreadStates.FlushPublishes | Dedougger/source/targetstate/ThreadState.cpp:158-173 | a flush of a dirty cache of a live thread leaves the thread holding the cached registers, and the cache clean and still holding them |
| ThreadStates.Release | Dedougger/source/targetstate/ThreadState.hpp:140-150 | the destructor flushes exactly when the cache is dirty |
| ThreadStates.DisableHwbpByIndex | Dedougger/source/targetstate/ThreadState.cpp:175-194 | disabling by index succeeds exactly when the thread can be read and throws GetThreadContextFailure otherwise |
| ThreadStates.DisableHwbpByIndexClearsOneBit | Dedougger/source/targetstate/ThreadState.cpp:175-194 | afterwards DR7's bit fields are those of the low 32 bits read, with only the slot's local enable cleared |
| ThreadStates.DisableIsSet | Dedougger/source/targetstate/ThreadState.cpp:175-194 | once DR7 has been read, disabling is one store of the rebuilt DWORD |
| ThreadStates.DisableHwbpByIndexZeroesUpperHalf | Dedougger/source/targetstate/ThreadState.cpp:175-194 | disabling leaves the upper 32 bits of DR7 zero, whatever they held, because the value passes through a DWORD |
| ThreadStates.DwordSetReadsBack | Dedougger/source/targetstate/ThreadState.cpp:88-149 | a DWORD stored into DR7 reads back, in the low 32 bits, as itself |
| ThreadStates.DwordSetClearsUpperHalf | Dedougger/source/targetstate/ThreadState.cpp:88-149 | a DWORD stored into DR7 leaves its upper 32 bits zero |
| DwordEdits.DwordEditValue | Dedougger/source/Dedougger.cpp:891-901 | editing a register through a DWORD applies the edit to the low 32 bits and clears the upper 32 |
| DwordEdits.FittingStoreReadsBack | Dedougger/source/Dedougger.cpp:914 | a stored DWORD that fits a 4- or 8-byte field reads back unchanged |
| DwordEdits.TwoEditedReadsBack | Dedougger/source/Dedougger.cpp:891-901 | two DWORD edits of different registers both read back, each computed from the value the register held before, and no other register changes |
| DwordEdits.EditedThenStoredReadsBack | Dedougger/source/Dedougger.cpp:910-914 | an EFLAGS edit followed by a DR7 store both read back, and no other register changes |
| DwordEditFacts.EditTwoOnReadCache | Dedougger/source/Dedougger.cpp:891-901 | on a read cache the two edits land in the cache, which turns dirty, and the first register's old value is returned |
| DwordEditFacts.EditTwoReadsFirst | Dedougger/source/Dedougger.cpp:891-901 | the two edits read the thread first, and the rest happens on the read cache |
| DwordEditFacts.EditTwoFails | Dedougger/source/Dedougger.cpp:891-901 | a thread that cannot be read fails the edits as the read fails, with nothing stored |
| DwordEditFacts.EditThenStoreOnReadCache | Dedougger/source/Dedougger.cpp:910-914 | on a read cache the edit and the store land in the cache, which turns dirty |
| DwordEditFacts.EditThenStoreReadsFirst | Dedougger/source/Dedougger.cpp:910-914 | the edit and store read the thread first, and the rest happens on the read cache |
| RipRewind.Rewind | Dedougger/source/Dedougger.cpp:490-493 | moving RIP back over the INT3; RewindEffect states that it fails exactly when the thread cannot be read, RewindOnRead what it leaves, and RewindWrapsAtZero its wrap-around |
| RipRewind.Rewound | Dedougger/source/Dedougger.cpp:490-493 | the rewound cache is dirty and holds RIP - 1, with id, handle and read state kept |
| RipRewind.RewoundRip | Dedougger/source/Dedougger.cpp:490-493 | the rewound record holds RIP minus one, wrapping at zero, and every other register unchanged |
| RipRewind.RewindOnReadCache | Dedougger/source/Dedougger.cpp:490-493 | on a read cache the rewind needs nothing from the target and returns the new RIP |
| RipRewind.RewindOnRead | Dedougger/source/Dedougger.cpp:490-493 | a thread that can be read is rewound: the read cache with RIP moved back, and the new RIP |
| RipRewind.RewindFails | Dedougger/source/Dedougger.cpp:490 | a thread that cannot be read fails the rewind as the read does |
| RipRewind.RewindEffect | Dedougger/source/Dedougger.cpp:490-493 | the rewind fails exactly when the thread cannot be read |
| RipRewind.RewindWrapsAtZero | Dedougger/source/Dedougger.cpp:490-493 | a breakpoint reported at RIP 0 rewinds to 0xFFFFFFFFFFFFFFFF |
| Stepping.WithTrapBits | Dedougger/source/Dedougger.cpp:514-516 | the step sets the trap flag 0x100 and keeps every other EFLAGS bit |
| Stepping.AfterStepFlags | Dedougger/source/Dedougger.cpp:523-526 | after the step the trap flag is clear and the 0x1000 bit is set |
| Stepping.AfterStepKeepsOtherBits | Dedougger/source/Dedougger.cpp:523-526 | apart from those two bits the step leaves EFLAGS as it found it |
| Stepping.AfterStepUndoesTrap | Dedougger/source/Dedougger.cpp:514-526 | setting the trap flag and then applying the after-step edit is the same as the after-step edit alone |
| Stepping.EflagsEditReadsBack | Dedougger/source/Dedougger.cpp:514-516 | an EFLAGS DWORD edit reads back as the edit of the old DWORD, and changes no other register |
| Stepping.UpdateEflagsEffect | Dedougger/source/Dedougger.cpp:522-527 | on an invalidated cache of a live thread the EFLAGS update re-reads the thread, publishes the edited EFLAGS to it, and leaves the cache clean |
| Stepping.UpdateEflagsPublishes | Dedougger/source/Dedougger.cpp:522-527 | after the update the thread holds its old registers with EFLAGS edited |
| Stepping.UpdateEflagsOnReadCache | Dedougger/source/Dedougger.cpp:514-517 | on a read cache the update stores the edited EFLAGS, marks the cache dirty and flushes |
| Stepping.WriteIgnoringFailure | Dedougger/source/Dedougger.cpp:532 | an unchecked one-byte write puts the byte in place when the write can succeed, and otherwise changes nothing |
| Stepping.StepOver | Dedougger/source/Dedougger.cpp:510-533 | the single step over the restored instruction, with the asserts on the event after it; StepOverEffect states its outcome on both kinds of event |
| Stepping.StepOverEffect | Dedougger/source/Dedougger.cpp:510-533 | the step starts from the thread's registers with the trap flag set; it completes exactly when the event after it is an exception event with code EXCEPTION_SINGLE_STEP, and then the thread ends with the registers the step left, the trap flag clear and the 0x1000 bit set, with 0xCC written back at the address; on any other event the assert fails with AssertionFailed and the target is as the step left it |
| HwBreakpoints.DebugStores | Dedougger/source/Dedougger.cpp:150-159 | the stores that write breakpoints to a thread are five: DR0-DR3 from the image, then DR7 |
| HwBreakpoints.DebugImageAddresses | Dedougger/source/Dedougger.cpp:156-159 | after the stores DR0-DR3 hold the image's four addresses |
| HwBreakpoints.DebugImageControl | Dedougger/source/Dedougger.cpp:150-159 | after the stores the low 32 bits of DR7 decode to the image's slots with LE and GE clear and bit 10 set |
| HwBreakpoints.DebugImageFrame | Dedougger/source/Dedougger.cpp:150-159 | no register other than DR0-DR3 and DR7 changes |
| HwBreakpoints.WriteBreakpointsToThread | Dedougger/source/Dedougger.cpp:150-163 | writing the breakpoints to a thread succeeds exactly when its cache can be read; the cache then holds the debug image and is dirty |
| HwBreakpoints.EditThread | Dedougger/source/Dedougger.cpp:404-411 | an edit through a fresh cache succeeds exactly for a live thread and replaces its context with the edited one; otherwise it throws and writes nothing |
| HwBreakpoints.DisableInThreadEffect | Dedougger/source/Dedougger.cpp:404-411 | one iteration of ClearHWBP's thread loop is exactly the edit that clears the slot's local enable in that thread |
| HwBreakpoints.EditThreads | Dedougger/source/Dedougger.cpp:404-411 | the thread loop keeps the set of live threads |
| HwBreakpoints.EditThreadsEffect | Dedougger/source/Dedougger.cpp:404-411 | after the loop over distinct live threads each holds the edit of its context, and every other thread is untouched |
| HwBreakpoints.TrackedThreads | Dedougger/source/dedougger.hpp:129 | the thread table's values in key order, one per entry |
| HwBreakpoints.TrackedThreadsAreKeys | Dedougger/source/Dedougger.cpp:404-411 | when every thread is recorded under its own id, the loop visits exactly the tracked ids, in key order, each once |
| HwBreakpoints.SlotCleared | Dedougger/source/Dedougger.cpp:400-404 | ClearHWBP's own bookkeeping disables the slot in the descriptors and in the image |
| HwBreakpoints.ClearHwbp | Dedougger/source/Dedougger.cpp:400-412 | an index outside 0-3 throws with nothing changed; otherwise the slot is disabled and the loop runs over the tracked threads |
| HwBreakpoints.ClearHwbpReachesEveryThread | Dedougger/source/Dedougger.cpp:400-412 | when it completes, every tracked thread has the slot's local enable cleared, and no other thread is touched |
| HwBreakpoints.ClearHwbpThrowsOnExitedThread | Dedougger/source/Dedougger.cpp:400-412 | a tracked thread that has exited makes ClearHWBP throw, with the slot already disabled |
| HwBreakpoints.ClearHwbpByAddressAsWritten | Dedougger/source/Dedougger.cpp:414-422 | as written, only slot 0's address is compared: it clears slot 0 when that slot holds the address and returns -1 otherwise |
| HwBreakpoints.ClearHwbpByAddressMissesOtherSlots | Dedougger/source/Dedougger.cpp:416 | as written, a breakpoint in slot 1 is not found by its address and stays enabled, although the corrected lookup clears it |
| HwBreakpoints.SlotAt | Dedougger/source/Dedougger.cpp:415-421 | the lowest slot holding the address, and none exactly when no slot does |
| HwBreakpoints.ClearHwbpByAddress | Dedougger/source/Dedougger.cpp:414-422 | the corrected lookup clears the lowest slot holding the address and returns its index, or returns -1 when no slot holds it |
| HwBreakpoints.ClearHwbpByAddressAgreesOnSlotZero | Dedougger/source/Dedougger.cpp:414-422 | at slot 0's own address the code as written and the corrected lookup behave the same |
| SwBreakpoints.Recorded | Dedougger/source/Dedougger.cpp:328-331 | the breakpoint table holds a record at the address with the original byte and both options |
| SwBreakpoints.SetSwbp | Dedougger/source/Dedougger.cpp:258-335 | setting succeeds exactly when the byte can be read, the page made read-write and the INT3 written, and, when asked, the protection put back; success records the byte found, and failure leaves the table unchanged |
| SwBreakpoints.SetSwbpWritesInt3 | Dedougger/source/Dedougger.cpp:293-323 | after a success the target holds 0xCC at the address, under the page protection chosen |
| SwBreakpoints.SetSwbpTwiceRecordsInt3 | Dedougger/source/Dedougger.cpp:281-331 | setting again where a breakpoint is installed records 0xCC as the original byte |
| SwBreakpoints.ClearSwbp | Dedougger/source/Dedougger.cpp:337-397 | clearing reports not found exactly when no breakpoint is recorded at the address; a success forgets the record |
| SwBreakpoints.ClearSwbpRestoresByte | Dedougger/source/Dedougger.cpp:370-393 | a successful clear puts the recorded byte back under the page's previous protection |
| SwBreakpoints.SetThenClearRestores | Dedougger/source/Dedougger.cpp:258-397 | setting a breakpoint at a new address with the protection put back, then clearing it, gives back the debugger and the target exactly |
| Resolution.NoticesFor | Dedougger/source/Dedougger.cpp:200-212 | one announcement per matching offset, in order |
| Resolution.HwOffsets | Dedougger/source/Dedougger.cpp:196-205 | the hardware loop reaches exactly the queued entries whose module matches: every match's offset is in the result, every offset in it is a match's, and the result is empty exactly when nothing matches |
| Resolution.HwOffsetsInOrder | Dedougger/source/Dedougger.cpp:196-205 | the hardware loop visits the queue in order: two queues one after the other give the first's matches then the second's, and a single entry gives its offset exactly when it matches |
| Resolution.SwOffsets | Dedougger/source/Dedougger.cpp:206-215 | the software loop reaches exactly the queued entries whose module matches: every match's offset is in the result, every offset in it is a match's, and the result is empty exactly when nothing matches |
| Resolution.SwOffsetsInOrder | Dedougger/source/Dedougger.cpp:206-215 | the software loop visits the queue in order: two queues one after the other give the first's matches then the second's, and a single entry gives its offset exactly when it matches |
| Resolution.ResolveHwQueue | Dedougger/source/Dedougger.cpp:195-204 | the hardware half sets each matching breakpoint at its resolved address, announcing it when asked; running out of slots ends it, keeping what was set |
| Resolution.HwQueueSlots | Dedougger/source/Dedougger.cpp:195-204 | the hardware half succeeds exactly when a slot is free for every match, and then takes one slot per match |
| Resolution.HwQueueNotices | Dedougger/source/Dedougger.cpp:195-204 | a completed hardware half announces every match, in queue order, and nothing else |
| Resolution.HwQueueFrame | Dedougger/source/Dedougger.cpp:195-204 | the hardware half changes only the slots and the register image, and with no match changes nothing |
| Resolution.SwQueueNotices | Dedougger/source/Dedougger.cpp:205-214 | the software half announces every match, in queue order, whether or not SetSWBP succeeded |
| Resolution.SwQueueFrame | Dedougger/source/Dedougger.cpp:205-214 | the software half changes only the breakpoint table and the target |
| Resolution.SwQueueNoMatch | Dedougger/source/Dedougger.cpp:205-214 | with no match the software half changes nothing |
| Resolution.SwQueueKeys | Dedougger/source/Dedougger.cpp:205-214 | the software half never removes a breakpoint, and every breakpoint it adds sits at a matched address |
| Resolution.ResolveDeferredBps | Dedougger/source/Dedougger.cpp:193-216 | a resolution throws only when slots run out, and then leaves the target untouched |
| Resolution.ResolveDeferredBpsOutcome | Dedougger/source/Dedougger.cpp:193-216 | a resolution fails exactly when the hardware matches outnumber the free slots, and otherwise takes one slot per hardware match; with a callback registered it announces every match, hardware ones first |
| Resolution.ResolveDeferredBpsFrame | Dedougger/source/Dedougger.cpp:193-216 | a resolution leaves the queues, the module tables and the callbacks as they were, and with nothing matching changes nothing |
| Resolution.ResolveRefires | Dedougger/source/Dedougger.cpp:193-216 | queued entries are never consumed: resolving the same module again announces the same breakpoints again |
| Resolution.SetHwbpInModule | Dedougger/source/Dedougger.cpp:424-434 | the breakpoint is always queued, and is resolved at once only when a module is recorded under exactly that name |
| Resolution.SetSwbpInModule | Dedougger/source/Dedougger.cpp:436-446 | the software breakpoint is always queued, and is resolved at once only when a module is recorded under exactly that name |
| Resolution.SetHwbpInModuleResolvesLoaded | Dedougger/source/Dedougger.cpp:424-434 | with the module recorded and enough free slots, the new breakpoint is set at once and announced last among the hardware ones |
| Resolution.InModuleLookupIsCaseSensitive | Dedougger/source/Dedougger.cpp:555-561 | a module recorded as "NTDLL.DLL" does not resolve a breakpoint requested in "ntdll.dll" at once, although the match on load would accept it |
| Resolution.ModuleLoadedAsWritten | Dedougger/source/Dedougger.cpp:657-688 | as written, the load runs the ModuleInfo constructor as written and lets its out_of_range escape; otherwise it records the module and resolves against the full image path |
| Resolution.ModuleLoaded | Dedougger/source/Dedougger.cpp:657-688 | the corrected load records the module and resolves against its file name |
| Resolution.AsWrittenIgnoresBareNames | Dedougger/source/Dedougger.cpp:670 | as written, a load from a path with a directory part resolves nothing queued under a bare file name |
| Resolution.ModuleLoadedMatchesFileName | Dedougger/source/Dedougger.cpp:777-784 | resolving by file name reaches every entry queued under that name in any letter case |
| Resolution.LoadByPathMissesQueuedName | Dedougger/source/Dedougger.cpp:670 | as written, loading `\\?\dir\file` with a breakpoint queued under `file` completes and announces nothing |
| Resolution.LoadByFileNameFindsQueuedName | Dedougger/source/Dedougger.cpp:777-784 | the same load resolved by the file name announces the breakpoint |
| Resolution.ResolveModule | Dedougger/source/Dedougger.cpp:555-561 | a module is found exactly when it is recorded under exactly that name |
| Resolution.ResolveModuleAfterMapDll | Dedougger/source/Dedougger.cpp:550-561 | a module just recorded is found under its own name, and no other name changes its answer |
| MainModules.LastExeBase | Dedougger/source/Dedougger.cpp:767-786 | the base of the last snapshot module whose path is longer than four characters and ends in ".exe", and the starting value when there is none |
| MainModules.VisitModule | Dedougger/source/Dedougger.cpp:767-786 | one snapshot entry: a candidate becomes the base found, only out_of_range or exhausted slots can throw, and notices are only appended |
| MainModules.MainModuleWalk | Dedougger/source/Dedougger.cpp:749-797 | a completed walk returns the last candidate's base; only out_of_range or exhausted slots can throw, and notices are only appended |
| MainModules.GetMainModuleBase | Dedougger/source/Dedougger.cpp:749-797 | the main module's base is the last ".exe" module's, and 0 when the snapshot has none |
| MainModules.MainModuleResolvesByFileName | Dedougger/source/Dedougger.cpp:777-784 | for a snapshot holding only `dir\file.exe`, with a breakpoint queued under the file name in any case, the walk returns its base and announces the breakpoint |
| MainModules.BarePathThrows | Dedougger/source/Dedougger.cpp:771 | a snapshot path with neither backslash nor question mark makes the walk throw out_of_range before anything is recorded |
| Resume.ResumeFromBreakpoint | Dedougger/source/Dedougger.cpp:477-548 | resumption never reports the exception unhandled: a completed one continues or reports the exception handled |
| Resume.RestoreInstruction | Dedougger/source/Dedougger.cpp:496-540 | the found-breakpoint branch writes the original byte back, flushes and invalidates, and steps only when asked |
| Resume.Published | Dedougger/source/Dedougger.cpp:502-508 | the target after the original byte is written back and the rewound registers are published |
| Resume.RestoreInstructionPublishes | Dedougger/source/Dedougger.cpp:502-509 | on a dirty, read cache of a live thread, restoring publishes the registers and invalidates the cache; without a step that is the end |
| Resume.RestoreInstructionSteps | Dedougger/source/Dedougger.cpp:502-533 | with the step requested, the same publication is followed by the step over the instruction, which completes or fails, the failed single-step assert included, exactly as StepOver does from the published state |
| Resume.ResumeFailsOnUnreadableThread | Dedougger/source/Dedougger.cpp:490 | a thread whose registers cannot be read makes the resumption throw, with the target untouched |
| Resume.ResumeStatus | Dedougger/source/Dedougger.cpp:494-546 | the exception is reported handled exactly when a software breakpoint is recorded at the rewound address |
| Resume.ResumeWithoutBreakpoint | Dedougger/source/Dedougger.cpp:543-546 | without a breakpoint at the rewound address the target is untouched and the cache keeps the rewound RIP, dirty |
| Resume.ResumeRestoresInstruction | Dedougger/source/Dedougger.cpp:496-542 | at a breakpoint set to restore its instruction, the thread's RIP is moved back and published, the recorded byte is written back, and without a step the exception is reported handled |
| Resume.ResumeStepsOver | Dedougger/source/Dedougger.cpp:496-533 | with the step requested the resumption is that publication followed by the step over the instruction: it completes exactly when StepOver from the rewound registers does, so it fails the assert when the next event is not the single step, and ends in StepOver's state |
| HwStep.LocalsCleared | Dedougger/source/Dedougger.cpp:892-897 | the four local enables are cleared and every other slot field is kept |
| HwStep.SteppingDr7Bits | Dedougger/source/Dedougger.cpp:892-897 | clearing the four local enables clears exactly bits 0, 2, 4 and 6 of the DWORD |
| HwStep.EnteredStepDr7 | Dedougger/source/Dedougger.cpp:891-900 | during the step no slot is locally enabled, every other DR7 bit is kept, and DR7's upper half is clear |
| HwStep.EnteredStepReads | Dedougger/source/Dedougger.cpp:891-901 | the entry edits land in DR7 and EFLAGS and nowhere else |
| HwStep.EnteredStepEflags | Dedougger/source/Dedougger.cpp:898-901 | during the step the trap flag is set |
| HwStep.LeftStepRegisters | Dedougger/source/Dedougger.cpp:910-914 | after the step DR7 holds the saved DWORD zero-extended, and EFLAGS has the trap flag clear and 0x1000 set |
| HwStep.Dr7Restored | Dedougger/source/Dedougger.cpp:891-914 | the thread ends with the low 32 bits of DR7 it started with |
| HwStep.EntryStores | Dedougger/source/Dedougger.cpp:891-901 | entry on a fresh cache of a live thread reads the thread and stores the edited registers in the cache |
| HwStep.EntryPublishes | Dedougger/source/Dedougger.cpp:902-903 | the flush after entry publishes the edited registers to the thread |
| HwStep.ExitPublishes | Dedougger/source/Dedougger.cpp:909-915 | on exit the thread is re-read and the edited registers are published to it |
| HwStep.StepPastHwbp | Dedougger/source/Dedougger.cpp:886-916 | the step past a hardware breakpoint with the local enables cleared, with the asserts on the event after it; StepPastHwbpEffect, StepPastHwbpInterrupted and StepPastHwbpUnreadable state its outcome |
| HwStep.StepPastHwbpEffect | Dedougger/source/Dedougger.cpp:886-916 | the step is handed the thread with the local enables cleared and the trap flag set; when the next event is the single step the thread ends with the registers the step left, the trap flag clear, 0x1000 set, and its original DR7 DWORD; on any other event the assert fails with AssertionFailed and the target is as the step left it |
| HwStep.StepPastHwbpInterrupted | Dedougger/source/Dedougger.cpp:904-908 | when the event after the step is not an exception event with code EXCEPTION_SINGLE_STEP, the assert fails with AssertionFailed: the target is as the step left it and the cache, invalidated before the step, holds nothing to flush |
| HwStep.StepPastHwbpUnreadable | Dedougger/source/Dedougger.cpp:891 | a thread that cannot be read fails the step before anything is stored or run |
| BreakpointEvent.VisitThread | Dedougger/source/Dedougger.cpp:609-619 | one thread of the walk is recorded under its own id, and nothing else in the debugger changes |
| BreakpointEvent.RecordThreads | Dedougger/source/Dedougger.cpp:598-623 | the thread walk invokes no callback and announces nothing |
| BreakpointEvent.EntryPoint | Dedougger/source/Dedougger.cpp:595 | the entry point lies the PE entry offset into the main module: subtracting the base, modulo 2^64, gives the offset back, and subtracting the offset gives the base |
| BreakpointEvent.FindMainModule | Dedougger/source/Dedougger.cpp:594 | finding the main module keeps the event's cache and invokes no callback |
| BreakpointEvent.DefaultHandling | Dedougger/source/Dedougger.cpp:587-590 | the default handling changes nothing in the debugger, invokes no callback and announces nothing |
| BreakpointEvent.LaterBreakpoint | Dedougger/source/Dedougger.cpp:575-591 | a later breakpoint changes nothing in the debugger and announces nothing |
| BreakpointEventFacts.PushBreakpointsPublishes | Dedougger/source/Dedougger.cpp:617-618 | a live thread ends holding the debug image, and nothing else in the target changes |
| BreakpointEventFacts.PushBreakpointsFails | Dedougger/source/Dedougger.cpp:617-618 | a thread that has exited makes the push throw, with the target unchanged |
| BreakpointEventFacts.RecordThreadsFrame | Dedougger/source/Dedougger.cpp:598-623 | the walk changes nothing in the debugger but the thread table |
| BreakpointEventFacts.RecordThreadsKeys | Dedougger/source/Dedougger.cpp:610 | a completed walk's thread table holds the threads it held before and the ones visited |
| BreakpointEventFacts.RecordThreadsOwnIds | Dedougger/source/Dedougger.cpp:610-614 | a completed walk has recorded every visited thread under its own id |
| BreakpointEventFacts.RecordThreadsKeeps | Dedougger/source/Dedougger.cpp:610 | a thread the walk does not visit keeps its table entry |
| BreakpointEvent.FirstBreakpoint | Dedougger/source/Dedougger.cpp:592-630 | the setup at the first breakpoint; FirstBreakpointArms states what a completed one does, FirstBreakpointWithoutMainModule and EmptySnapshotFaults when it faults, and FirstBreakpointNotifies and FirstBreakpointRecordsThreads its callback and thread table |
| BreakpointEvent.HandleBreakpointEvent | Dedougger/source/Dedougger.cpp:570-632 | the breakpoint handler; BreakpointFlagOneWay states that it sets the first-breakpoint flag once and then leaves the debugger alone, and LaterBreakpointDeclined, LaterBreakpointDefaults and LaterBreakpointHandled what a later breakpoint does |
| BreakpointEventFacts.FirstBreakpointArms | Dedougger/source/Dedougger.cpp:592-630 | a completed first breakpoint has found a ".exe" module, sets the flag, fixes the entry point at the last ".exe" module's base plus the entry offset, records the entry breakpoint when SetSWBP succeeded, and reports the INITIAL_BREAKPOINT callback's status |
| BreakpointEventFacts.FirstBreakpointWithoutMainModule | Dedougger/source/Dedougger.cpp:592-597 | without a ".exe" module in the snapshot the main module keeps its null PE pointer: once the walk completes the entry offset read faults, before the entry breakpoint, the thread walk or any callback, and the flag stays clear |
| BreakpointEventFacts.EmptySnapshotFaults | Dedougger/source/Dedougger.cpp:749-796 | a failed or empty module snapshot leaves the debugger as it was and faults on the null pointer at the first breakpoint |
| BreakpointEventFacts.FirstBreakpointNotifies | Dedougger/source/Dedougger.cpp:624-628 | the first breakpoint invokes INITIAL_BREAKPOINT exactly when it is registered |
| BreakpointEventFacts.FirstBreakpointResolvesMainModule | Dedougger/source/Dedougger.cpp:594 | the first breakpoint keeps the main module's resolution notices, after those before it |
| BreakpointEventFacts.FirstBreakpointRecordsThreads | Dedougger/source/Dedougger.cpp:609-615 | afterwards every snapshot thread of the target is in the table under its own id, and no other thread was added |
| BreakpointEventFacts.BreakpointFlagOneWay | Dedougger/source/Dedougger.cpp:575-629 | once the flag is set, breakpoints leave the debugger as it is; before, a completed handling sets it |
| BreakpointEventFacts.LaterBreakpointDeclined | Dedougger/source/Dedougger.cpp:581-590 | when the BREAKPOINT callback answers BP_DONT_HANDLE, nothing is rewound or written and its status is reported |
| BreakpointEventFacts.LaterBreakpointDefaults | Dedougger/source/Dedougger.cpp:581-590 | unless declined, a later breakpoint is the default handling after the callback |
| BreakpointEventFacts.DefaultHandlingStatus | Dedougger/source/Dedougger.cpp:587-590 | the default handling reports the exception handled exactly when a breakpoint of the debugger's is at the rewound RIP |
| BreakpointEventFacts.DefaultHandlingForeign | Dedougger/source/Dedougger.cpp:587-590 | for an INT3 that is not the debugger's, the target is untouched and the cache holds the rewound RIP and the debug image, dirty |
| BreakpointEventFacts.LaterBreakpointHandled | Dedougger/source/Dedougger.cpp:581-590 | with the default handling the exception is reported handled exactly when a breakpoint of the debugger's is at the rewound RIP, and never reported unhandled |
| BreakpointEventFacts.ForeignInt3 | Dedougger/source/Dedougger.cpp:575-591 | a foreign INT3 with no callback leaves the target untouched and the cache dirty with the rewound RIP and the image, and continues |
| DebugEvents.Notify | Dedougger/source/Dedougger.cpp:862-865 | offering an event to its callback changes only the record of callbacks invoked |
| DebugEvents.NotifyUnregistered | Dedougger/source/Dedougger.cpp:862-865 | without a registered callback nothing is invoked, the status is kept, and the result is BP_HANDLE |
| DebugEvents.NotifyRegistered | Dedougger/source/Dedougger.cpp:862-865 | a registered callback is invoked once, and its reply decides the result and the status |
| EventDispatch.Notified | Dedougger/source/Dedougger.cpp:697-708 | a handler that only offers the event to its callback completes, and reports that callback's status |
| EventDispatch.HandleSingleStep | Dedougger/source/Dedougger.cpp:868-918 | the single-step handler changes nothing in the debugger and announces nothing |
| EventDispatch.HandleCreateThreadEvent | Dedougger/source/Dedougger.cpp:634-655 | the thread-creation handler changes neither the debugger nor the target; its effect goes through the event's cache |
| EventDispatch.Finish | Dedougger/source/targetstate/ThreadState.hpp:140-150 | releasing the event's cache keeps the debugger, and a handler's throw is reported over one of the flush |
| EventDispatchFacts.IsHwbpHitIff | Dedougger/source/Dedougger.cpp:877-885 | a single step counts as a hardware breakpoint hit exactly when one of the four slots holds its address |
| EventDispatchFacts.HitIgnoresEnabled | Dedougger/source/Dedougger.cpp:879-885 | whether a slot is enabled plays no part in the hit test |
| EventDispatchFacts.ClearedSlotStillHits | Dedougger/source/Dedougger.cpp:879-885 | a slot cleared by ClearHWBP keeps its address, so single steps there still count as hits |
| EventDispatchFacts.FinishClean | Dedougger/source/targetstate/ThreadState.hpp:140-150 | releasing a clean cache flushes nothing: the outcome is the handler's |
| EventDispatchFacts.FinishPublishes | Dedougger/source/targetstate/ThreadState.hpp:140-150 | releasing a dirty, read cache of a live thread publishes the cached registers |
| EventDispatchFacts.NotifiedEffect | Dedougger/source/Dedougger.cpp:697-745 | a handler that only offers the event to one callback leaves everything else as it found it |
| EventDispatchFacts.FinishNotified | Dedougger/source/Dedougger.cpp:697-745 | with a clean cache such a handler flushes nothing |
| EventDispatch.HandleException | Dedougger/source/Dedougger.cpp:858-935 | the exception switch; NotifyingEvents, OtherExceptions, SingleStepMiss, SingleStepHit and ForeignInt3Published state its outcome for each exception code |
| EventDispatch.HandleDebugEvent | Dedougger/source/Dedougger.cpp:853-964 | the event switch with the event thread's cache released at the end; NotifyingEvents, QuietEvents, CreateThreadPublishes, SingleStepHit, LoadDllResolves and FirstBreakpointFlag state its outcome per event |
| EventDispatchFacts.NotifyingEvents | Dedougger/source/Dedougger.cpp:861-961 | access violations, debug strings, process creation and exit, and DLL unloads change nothing; their callback is invoked exactly when registered, and its status is reported |
| EventDispatchFacts.QuietEvents | Dedougger/source/Dedougger.cpp:941-961 | thread exits, RIP events and unknown event codes are continued without any callback, EXIT_THREAD's included |
| EventDispatchFacts.OtherExceptions | Dedougger/source/Dedougger.cpp:923-933 | any other exception is passed back to the target on first chance and continued on the last |
| EventDispatchFacts.FreshCacheTakesImage | Dedougger/source/Dedougger.cpp:634-655 | writing the breakpoints through a fresh cache of a live thread reads the thread and stores the debug image in the cache |
| EventDispatchFacts.CreateThreadHandled | Dedougger/source/Dedougger.cpp:634-655 | the thread-creation handler puts the image in the cache, then offers THREAD_CREATE |
| EventDispatchFacts.CreateThreadFinish | Dedougger/source/Dedougger.cpp:634-655 | releasing the cache after thread creation publishes the image to the thread |
| EventDispatchFacts.CreateThreadPublishes | Dedougger/source/Dedougger.cpp:634-655 | a new live thread ends holding the debug image, and THREAD_CREATE is invoked exactly when registered |
| EventDispatchFacts.CreateThreadExited | Dedougger/source/Dedougger.cpp:634-655 | a thread that is gone by the time its creation is handled makes the handler throw before any callback |
| EventDispatchFacts.SingleStepMiss | Dedougger/source/Dedougger.cpp:868-885 | a single step away from every slot's address only offers the event to SINGLE_STEP |
| EventDispatchFacts.SingleStepHandled | Dedougger/source/Dedougger.cpp:868-918 | at a slot's address the handler offers SINGLE_STEP, then steps past the breakpoint, failing exactly when StepPastHwbp does, the single-step assert included |
| EventDispatchFacts.SingleStepFinish | Dedougger/source/Dedougger.cpp:886-916 | after the hardware-breakpoint step the release flushes nothing more, whether the step completed or its assert failed |
| EventDispatchFacts.SingleStepHit | Dedougger/source/Dedougger.cpp:868-918 | a single step at a slot's address, when the event after the step is the single step, leaves the thread with the trap flag clear, 0x1000 set and its original DR7 DWORD, and reports the callback's status; when it is another event, the handling fails with AssertionFailed after SINGLE_STEP, leaving the target as the step left it |
| EventDispatch.HandleLoadDllEvent | Dedougger/source/Dedougger.cpp:657-688 | the module-load handler; LoadDllWithoutPath, LoadDllResolves, LoadDllThrows and LoadDllByPathMisses state its outcome with and without a path |
| EventDispatchFacts.LoadDllWithoutPath | Dedougger/source/Dedougger.cpp:657-688 | a module load whose path could not be read only offers the event to LOAD_DLL |
| EventDispatchFacts.LoadDllResolves | Dedougger/source/Dedougger.cpp:657-688 | a load with a path records the module, resolves against that path, keeps the notices, then offers LOAD_DLL |
| EventDispatchFacts.LoadDllThrows | Dedougger/source/Dedougger.cpp:657-688 | a load throws before LOAD_DLL when the constructor rejects the path or slots run out |
| EventDispatchFacts.LoadDllByPathMisses | Dedougger/source/Dedougger.cpp:670 | loading `\\?\dir\file` with a breakpoint queued under `file` completes, sets no breakpoint and announces nothing |
| EventDispatchFacts.ForeignInt3Finish | Dedougger/source/Dedougger.cpp:575-591 | releasing the cache after a foreign INT3 publishes the rewound RIP and the image |
| EventDispatchFacts.ForeignInt3Published | Dedougger/source/Dedougger.cpp:575-591 | after a foreign INT3 the thread holds RIP - 1 and the debug image, and the event is continued |
| EventDispatchFacts.FirstBreakpointFlag | Dedougger/source/Dedougger.cpp:629 | the first-breakpoint flag only goes from clear to set: no event clears it, and a completed breakpoint event sets it |
| DwordEditFacts.EditTwoValueOnReadCache | Dedougger/source/Dedougger.cpp:891-901 | on a read cache the two edits succeed and return the first register's old value |
| DwordEditFacts.EditTwoStateOnReadCache | Dedougger/source/Dedougger.cpp:891-901 | on a read cache both edits land in the cache, which turns dirty |
| HwBreakpoints.DebugImageDr0 | Dedougger/source/Dedougger.cpp:156 | DR0 of a thread written with the breakpoints holds slot 0's address |
| HwBreakpoints.DebugImageDr1 | Dedougger/source/Dedougger.cpp:157 | DR1 holds slot 1's address |
| HwBreakpoints.DebugImageDr2 | Dedougger/source/Dedougger.cpp:158 | DR2 holds slot 2's address |
| HwBreakpoints.DebugImageDr3 | Dedougger/source/Dedougger.cpp:159 | DR3 holds slot 3's address |
| RipRewind.RewindValueOnReadCache | Dedougger/source/Dedougger.cpp:490-493 | on a read cache the rewind succeeds and returns RIP minus one |
| RipRewind.RewindStateOnReadCache | Dedougger/source/Dedougger.cpp:490-493 | on a read cache the rewind leaves the cache rewound |
| RipRewind.RewindReadsFirst | Dedougger/source/Dedougger.cpp:490 | the rewind first reads the thread, and the rest happens on the read cache |
| HwStep.SteppingState | Dedougger/source/Dedougger.cpp:902-905 | the process the step is handed: the thread holds its registers with the local enables cleared and the trap flag set |
| HwStep.Entered | Dedougger/source/Dedougger.cpp:891-901 | the cache after the entry stores holds those registers, read and dirty |
| PageBackups.NewPageBackup | Dedougger_Harness/source/pagerestorer/PageBackupEx.cpp:6-12 | a new page backup is clean, keeps the address and the tracking choice, and holds no region information, copy or protection yet |
| PageBackups.PageEnd | Dedougger_Harness/source/pagerestorer/PageBackupEx.h:26 | the last byte of the backed-up region lies region-size bytes past its address |
| PageBackups.TrackingProtection | Dedougger_Harness/source/pagerestorer/PageBackupEx.cpp:119-145 | the write-tracking protection exists exactly for the six base constants the switch names, without PAGE_NOCACHE. It keeps PAGE_GUARD and readability. Execute pages stay execute-only or execute-read. The result allows stores exactly for a write-copy page without guard |
| PageBackups.TrackingProtectionIsFixpoint | Dedougger_Harness/source/pagerestorer/PageBackupEx.cpp:119-145 | a page already protected for tracking is mapped to its own protection |
| PageBackups.ProtectBackedPage | Dedougger_Harness/source/pagerestorer/PageBackupEx.cpp:97-194 | ProtectPage throws VirtualQueryFailed exactly when the page cannot be queried, and UnknownProtection exactly for a protection the switch does not name; a throw changes nothing. Otherwise the page's data is kept, and it ends with the tracking protection unless the change failed and the record was marked dirty instead; dirty records stay dirty |
| PageBackups.ProtectBackedPageIdempotent | Dedougger_Harness/source/pagerestorer/PageBackupEx.cpp:97-194 | protecting a page a second time changes nothing |
| PageBackups.ReadRegion | Dedougger_Harness/source/pagerestorer/PageBackupEx.cpp:68-76 | the region read succeeds exactly when the page is readable and exactly region-size bytes long, and returns its bytes |
| PageBackups.CopyRegion | Dedougger_Harness/source/pagerestorer/PageBackupEx.cpp:60-83 | a completed copy holds the page's bytes; the copy changes no page's data, lifts PAGE_GUARD only for the read, and can throw only VirtualProtectFailed or ReadProcessMemoryFailed |
| PageBackups.Backup | Dedougger_Harness/source/pagerestorer/PageBackupEx.cpp:25-95 | backup records the region information and its protection, keeps the address and tracking choice, returns 0, and for an uncommitted or no-access region does nothing else |
| PageBackups.BackupCopiesPage | Dedougger_Harness/source/pagerestorer/PageBackupEx.cpp:25-95 | backing up a committed, accessible page without guard keeps a copy of its bytes, changes no page's data, and when tracking leaves the page under the tracking protection unless the record turned dirty |
| PageBackups.Restore | Dedougger_Harness/source/pagerestorer/PageBackupEx.cpp:229-247 | a clean record restores nothing and reports false; a dirty record without a copy throws; a completed restore of a dirty record reports whether the region is non-empty |
| PageBackups.RestoreWritesBack | Dedougger_Harness/source/pagerestorer/PageBackupEx.cpp:229-247 | a completed restore of a dirty record writes its copy back into its page and touches no other page or thread; when the record ends clean, the page is under the tracking protection again |
| PageBackups.RestoreFrame | Dedougger_Harness/source/pagerestorer/PageBackupEx.cpp:229-247 | a restore changes only the record's own page of the target |
| PageBackups.MarkDirty | Dedougger_Harness/source/pagerestorer/PageBackupEx.cpp:249-260 | marking a page dirty always sets the flag; it succeeds exactly when the original protection can be put back, which it then is with the data kept, and otherwise throws VirtualProtectFailed with the target unchanged |
| PageBackups.BackupThenRestore | Dedougger_Harness/source/pagerestorer/PageBackupEx.cpp:25-247 | backing up a committed, accessible page and later restoring the record once dirty gives the page its bytes from the time of the backup |
| PageRestorers.BlockAddress | Dedougger_Harness/source/pagerestorer/PageRestorerEx.cpp:316-317 | a working-set entry's address is page-aligned and lies on the entry's page |
| PageRestorers.BlockProtectionAsWritten | Dedougger_Harness/source/pagerestorer/PageRestorerEx.cpp:333-376 | as written, flag bit 8 gives PAGE_NOCACHE and bit 16 PAGE_GUARD, but any value of 8 or more gets no base constant |
| PageRestorers.BlockProtection | Dedougger_Harness/source/pagerestorer/PageRestorerEx.cpp:333-376 | the corrected translation takes the base constant from the low three bits and adds PAGE_NOCACHE and PAGE_GUARD for bits 8 and 16 |
| PageRestorers.BlockProtectionRoundTrip | Dedougger_Harness/source/pagerestorer/PageRestorerEx.cpp:333-376 | the corrected translation can be read back to the working-set flags it came from |
| PageRestorers.BlockProtectionAsWrittenDropsBase | Dedougger_Harness/source/pagerestorer/PageRestorerEx.cpp:351 | flags 0x11, a guarded read-only page, come out as PAGE_GUARD alone as written, and as PAGE_READONLY with guard when corrected |
| PageRestorers.BlockProtectionAgreesWithoutModifiers | Dedougger_Harness/source/pagerestorer/PageRestorerEx.cpp:351-373 | without modifier bits the two translations agree |
| PageRestorers.MemInfoOfBlock | Dedougger_Harness/source/pagerestorer/PageRestorerEx.cpp:316-331 | a working-set entry describes one committed page at its address, with base and allocation base equal and both protections as the translation as written gives them |
| PageRestorers.NewPageRestorer | Dedougger_Harness/source/pagerestorer/PageRestorerEx.cpp:7-17 | a new page restorer tracks no page |
| PageRestorers.RecordFor | Dedougger_Harness/source/pagerestorer/PageRestorerEx.cpp:56-66 | save_page uses the existing record for the base address, and otherwise a new tracking record |
| PageRestorers.SavePage | Dedougger_Harness/source/pagerestorer/PageRestorerEx.cpp:56-76 | save_page backs that record up, stores it under the base address whether or not the backup completes, and returns the backup's outcome |
| PageRestorers.SavePageKeepsOneRecord | Dedougger_Harness/source/pagerestorer/PageRestorerEx.cpp:56-76 | saving adds at most the one key, keeps a dirty record dirty, and leaves every other record alone |
| PageRestorers.SaveBlock | Dedougger_Harness/source/pagerestorer/PageRestorerEx.cpp:41-54 | saving a working-set entry tracks its page, whether or not the backup completes, with the entry's region information in its record; it adds no other key, changes no other record, and returns 0 on completion |
| PageRestorers.SaveStateWorkingSetTracks | Dedougger_Harness/source/pagerestorer/PageRestorerEx.cpp:78-123 | a completed working-set save counts every entry, tracks exactly the old records and the entries' addresses, and keeps each record on its own page |
| PageRestorers.SaveState | Dedougger_Harness/source/pagerestorer/PageRestorerEx.cpp:19-39 | a completed save_state reports one page per working-set entry and tracks exactly the pages tracked before and the entries' pages, each record on its own page |
| PageRestorers.FreeUntracked | Dedougger_Harness/source/pagerestorer/PageRestorerEx.cpp:250-263 | the first pass lists exactly the tracked addresses of the working set, releases exactly the allocations of untracked entries, and changes nothing else in the target |
| PageRestorers.RestoreDirty | Dedougger_Harness/source/pagerestorer/PageRestorerEx.cpp:267-273 | the second pass keeps the tracked keys and every record's copy, and counts at most one restore per key |
| PageRestorers.RestoreDirtyFrame | Dedougger_Harness/source/pagerestorer/PageRestorerEx.cpp:267-273 | the second pass leaves alone every page none of its keys names, and every thread |
| PageRestorers.RestoreDirtyKeepsRestored | Dedougger_Harness/source/pagerestorer/PageRestorerEx.cpp:267-273 | a page already holding its record's copy still holds it after the pass |
| PageRestorers.RestoreDirtyWritesBack | Dedougger_Harness/source/pagerestorer/PageRestorerEx.cpp:267-273 | every dirty record the pass visits has its copy written back into its page |
| PageRestorers.RestoreDirtyLeavesOthers | Dedougger_Harness/source/pagerestorer/PageRestorerEx.cpp:267-273 | a record the pass does not visit, or finds clean, is left as it was |
| PageRestorers.RestoreDirtyCount | Dedougger_Harness/source/pagerestorer/PageRestorerEx.cpp:267-273 | with distinct keys, a completed pass counts exactly the dirty records it visited |
| PageRestorers.RestoreStateWorkingSet | Dedougger_Harness/source/pagerestorer/PageRestorerEx.cpp:214-276 | the working-set restore keeps the set of tracked keys and their invariant |
| PageRestorers.RestoreStateWorkingSetEffect | Dedougger_Harness/source/pagerestorer/PageRestorerEx.cpp:214-276 | after a completed restore, an untracked allocation base of the working set is gone, every tracked dirty page holds its copy, and every clean record is unchanged |
| PageRestorers.RestoreAfterReleasedAllocation | Dedougger_Harness/source/pagerestorer/PageRestorerEx.cpp:250-273 | when the first pass releases an allocation holding a tracked dirty page, the restore throws |
| PageRestorers.RestoreStateLeavesNonResident | Dedougger_Harness/source/pagerestorer/PageRestorerEx.cpp:214-276 | a record whose page is not in the working set is left as it was |
| PageRestorers.RestoreState | Dedougger_Harness/source/pagerestorer/PageRestorerEx.cpp:278-285 | restore_state keeps the tracked pages, and a completed one has, for every working-set entry, released an untracked allocation it starts, written a tracked dirty page's copy back, and left a clean record as it was |
| PageRestorers.TouchAddressAsWritten | Dedougger_Harness/source/pagerestorer/PageRestorerEx.cpp:287-312 | as written, touch_address answers false, changing nothing, whenever no record starts above the address |
| PageRestorers.TouchRecord | Dedougger_Harness/source/pagerestorer/PageRestorerEx.cpp:296-310 | the end of the touch marks at most the record found, keeping the keys and their invariant |
| PageRestorers.TouchAddress | Dedougger_Harness/source/pagerestorer/PageRestorerEx.cpp:287-312 | the corrected touch keeps the tracked keys and their invariant |
| PageRestorers.TouchAddressIff | Dedougger_Harness/source/pagerestorer/PageRestorerEx.cpp:287-312 | the corrected touch answers true exactly when the address's page is tracked and its protection can be put back, marks that record dirty, and with the page untracked changes nothing |
| PageRestorers.TouchAddressAsWrittenMissesLastPage | Dedougger_Harness/source/pagerestorer/PageRestorerEx.cpp:288-291 | as written, a write to the highest tracked page is answered false with nothing marked, while the corrected touch marks it |
| PageRestorers.TouchAddressAgreesAboveLowest | Dedougger_Harness/source/pagerestorer/PageRestorerEx.cpp:287-312 | between the lowest and the highest record the two versions answer alike |
| PageRestorers.SaveModifiedBlockAsWritten | Dedougger_Harness/source/pagerestorer/PageRestorerEx.cpp:351 | a working-set page with a modifier bit is saved with no base protection. A later write then sets the dirty flag, but putting the saved protection back (PAGE_GUARD with no base constant) fails, so mark_dirty throws VirtualProtectFailed and the touch never answers true |
| ThreadBackups.NewThreadBackup | Dedougger_Harness/source/threadrestorer/ThreadBackupEx.cpp:3-13 | a new thread backup keeps the id and a blank context, with a handle to the thread when it exists and NULL otherwise |
| ThreadBackups.BackupThread | Dedougger_Harness/source/threadrestorer/ThreadBackupEx.cpp:15-24 | backup succeeds exactly when the handle names a live thread, and then records that thread's registers; otherwise nothing changes |
| ThreadBackups.RestoreThread | Dedougger_Harness/source/threadrestorer/ThreadBackupEx.cpp:26-43 | restore sets the saved registers through the handle. When that fails it re-creates the thread under the next id and sets them there, and when it cannot it throws SetThreadContextFailed with a NULL handle. Memory is untouched |
| ThreadBackups.RestoreThreadReapplies | Dedougger_Harness/source/threadrestorer/ThreadBackupEx.cpp:26-43 | after a completed restore the thread behind the record's handle holds the saved registers |
| ThreadBackups.BackupThenRestore | Dedougger_Harness/source/threadrestorer/ThreadBackupEx.cpp:15-43 | registers backed up and later restored are live again on the thread |
| ThreadRestorers.NewThreadRestorer | Dedougger_Harness/source/threadrestorer/ThreadRestorerEx.cpp:6-13 | a new thread restorer tracks no thread and has nothing to kill |
| ThreadRestorers.AddThreadToKill | Dedougger_Harness/source/threadrestorer/ThreadRestorerEx.hpp:25 | adding a thread to kill inserts or overwrites its handle and changes no other entry |
| ThreadRestorers.RemoveThreadFromKill | Dedougger_Harness/source/threadrestorer/ThreadRestorerEx.hpp:26 | removing erases that id only; an absent id changes nothing |
| ThreadRestorers.AddThenRemove | Dedougger_Harness/source/threadrestorer/ThreadRestorerEx.hpp:25-26 | removing an id undoes adding it |
| ThreadRestorers.HandleFor | Dedougger_Harness/source/threadrestorer/ThreadRestorerEx.cpp:94-101 | a saved thread is read through its record's handle, and a new one through a newly opened handle |
| ThreadRestorers.SaveThread | Dedougger_Harness/source/threadrestorer/ThreadRestorerEx.cpp:90-104 | save_thread tracks the id, creating its record when needed, leaves other records alone, and returns 1 exactly when the registers could be read, recording them |
| ThreadRestorers.SaveState | Dedougger_Harness/source/threadrestorer/ThreadRestorerEx.cpp:20-50 | save_state tracks exactly the old ids and the listed ones, and leaves the kill set alone |
| ThreadRestorers.SaveStateRecord | Dedougger_Harness/source/threadrestorer/ThreadRestorerEx.cpp:20-50 | a tracked thread that is not listed keeps its record, and no thread's handle changes |
| ThreadRestorers.SaveStateCount | Dedougger_Harness/source/threadrestorer/ThreadRestorerEx.cpp:44-49 | the count is the number of listed threads whose registers could be read |
| ThreadRestorers.SaveStateSaves | Dedougger_Harness/source/threadrestorer/ThreadRestorerEx.cpp:44-49 | every listed thread that could be read has its current registers in its record |
| ThreadRestorers.KillThreadsAsWritten | Dedougger_Harness/source/threadrestorer/ThreadRestorerEx.cpp:56-66 | as written, the loop runs up to the largest id plus one, terminating the handle of each id present and inserting NULL handles for the others. It returns that bound and empties the kill set |
| ThreadRestorers.KillCountAsWritten | Dedougger_Harness/source/threadrestorer/ThreadRestorerEx.cpp:58-62 | the count as written is never below the number of entries, and equals it exactly when the ids are 0 to n-1; a single thread with id 4 counts as 5 |
| ThreadRestorers.KillThreads | Dedougger_Harness/source/threadrestorer/ThreadRestorerEx.cpp:56-66 | the corrected kill terminates the thread behind every handle of the set, returns the number of entries, and empties it |
| ThreadRestorers.KillEntriesEffect | Dedougger_Harness/source/threadrestorer/ThreadRestorerEx.cpp:58-63 | terminating the entries one by one removes exactly the threads their handles name |
| ThreadRestorers.KillInKeyOrder | Dedougger_Harness/source/threadrestorer/ThreadRestorerEx.cpp:56-66 | walking the whole kill set in key order terminates every handle once, and counts the entries |
| ThreadRestorers.RestoreAll | Dedougger_Harness/source/threadrestorer/ThreadRestorerEx.cpp:76-79 | the restore loop keeps every record's registers and key, counts every key, and leaves memory alone |
| ThreadRestorers.RestoreState | Dedougger_Harness/source/threadrestorer/ThreadRestorerEx.cpp:72-82 | restore_state empties the kill set, keeps every tracked record's registers, counts every tracked thread, and leaves memory alone |
| ThreadRestorers.RestoreStateSingle | Dedougger_Harness/source/threadrestorer/ThreadRestorerEx.cpp:72-82 | with a single tracked thread, the saved registers end live on that thread |
| ThreadRestorers.RestoreTrackedThread | Dedougger_Harness/source/threadrestorer/ThreadRestorerEx.cpp:112-131 | restore_thread throws AttemptToRestoreUnTrackedThread, changing nothing, exactly for an untracked id; otherwise it returns 1 with the saved registers live on the thread |
| ThreadRestorers.Apply | Dedougger_Harness/source/threadrestorer/ThreadRestorerEx.cpp:20-131 | one public operation of the thread restorer; TrackedIdsOnlyGrow states that none erases a backup |
| ThreadRestorers.ApplyAll | Dedougger_Harness/source/threadrestorer/ThreadRestorerEx.cpp:20-131 | a sequence of those operations; TrackedIdsOnlyGrow states that the tracked ids only grow over it |
| ThreadRestorers.TrackedIdsOnlyGrow | Dedougger_Harness/source/threadrestorer/ThreadRestorerEx.cpp:20-131 | no sequence of thread-restorer operations erases a backup: the tracked ids only grow |
| StateFuzzers.CommonInit | Dedougger_Harness/source/fuzzer/StateFuzzer.cpp:7-16 | the fuzzer is registered for thread creation, thread exit, breakpoints, access violations and single steps, the breakpoint handler serving both, and for resolution; other callbacks are kept |
| StateFuzzers.NewFuzzer | Dedougger_Harness/source/fuzzer/StateFuzzer.hpp:55-64 | a new fuzzer has saved nothing, knows no point, has counted no restore, and its restorers are empty |
| StateFuzzers.SaveState | Dedougger_Harness/source/fuzzer/StateFuzzer.cpp:126-132 | SaveState is the page save, then the thread save, with the counts kept in 16 bits. Only a completed save sets the flag. A page-save throw leaves the thread backups alone |
| StateFuzzers.RestoreState | Dedougger_Harness/source/fuzzer/StateFuzzer.cpp:134-149 | RestoreState is the page restore, then the thread restore. A completed one empties the kill set and is counted once in 64 bits; points and the saved flag are untouched |
| StateFuzzers.RestoreStateRestoresBoth | Dedougger_Harness/source/fuzzer/StateFuzzer.cpp:134-138 | a completed restore writes every tracked dirty page of the working set back, empties the kill set, keeps every thread backup's registers, and counts once |
| StateFuzzers.ThreadCreateCallback | Dedougger_Harness/source/fuzzer/StateFuzzer.cpp:48-57 | once the state is saved, a created thread is queued for termination through the duplicate of its handle; before the save nothing is recorded; the result is BP_HANDLE |
| StateFuzzers.ExitThreadCallback | Dedougger_Harness/source/fuzzer/StateFuzzer.cpp:59-62 | an exiting thread leaves the kill set, saved or not; the result is BP_HANDLE |
| StateFuzzers.ThreadEventsFrame | Dedougger_Harness/source/fuzzer/StateFuzzer.cpp:48-62 | thread events move only the kill set |
| StateFuzzers.NothingQueuedBeforeSave | Dedougger_Harness/source/fuzzer/StateFuzzer.cpp:49 | before the save, thread events can only shrink the kill set |
| StateFuzzers.KillSetFollowsLastEvent | Dedougger_Harness/source/fuzzer/StateFuzzer.cpp:48-62 | after the save a thread is in the kill set exactly when its last event was its creation, or it had no event and was there already |
| StateFuzzers.BreakpointCallback | Dedougger_Harness/source/fuzzer/StateFuzzer.cpp:64-79 | the save point's first hit clears its hardware breakpoint by address and saves the state. A reset point's hit fails its assertion. Any other hit changes nothing. A completed call answers BP_HANDLE |
| StateFuzzers.SaveClearsItsBreakpoint | Dedougger_Harness/source/fuzzer/StateFuzzer.cpp:69-71 | the save point's first hit disables the slot holding it |
| StateFuzzers.SavedAtMostOnce | Dedougger_Harness/source/fuzzer/StateFuzzer.cpp:64-79 | over any run of breakpoint hits the state is saved at most once, and not at all when it was saved before |
| StateFuzzers.ExceptionCallback | Dedougger_Harness/source/fuzzer/StateFuzzer.cpp:81-92 | an access violation answers BP_HANDLE when it completes, never changes the saved flag or save point, and keeps the restorers' invariant |
| StateFuzzers.LastChanceRestores | Dedougger_Harness/source/fuzzer/StateFuzzer.cpp:85-89 | a last-chance violation restores the state |
| StateFuzzers.FirstChanceTouchResumes | Dedougger_Harness/source/fuzzer/StateFuzzer.cpp:85-86 | a first-chance write to a tracked page whose protection can be put back marks it dirty and restores nothing |
| StateFuzzers.UntrackedFaultRestores | Dedougger_Harness/source/fuzzer/StateFuzzer.cpp:85-89 | a first-chance violation outside every tracked page is handled as a last-chance one |
| StateFuzzers.MatchesIsEquivalence | Dedougger_Harness/source/fuzzer/StateFuzzer.cpp:166-168 | the point comparison is reflexive, symmetric and transitive on named points |
| StateFuzzers.PointsEqualAsWritten | Dedougger_Harness/source/fuzzer/StateFuzzer.cpp:166-168 | as written, the comparison fails with an invalid parameter exactly when a name is null, and otherwise compares names ignoring case and offsets exactly |
| StateFuzzers.Unmatched | Dedougger_Harness/source/fuzzer/StateFuzzer.cpp:112-120 | the deferred reset points left are exactly those the resolved point does not match |
| StateFuzzers.UnmatchedAppend | Dedougger_Harness/source/fuzzer/StateFuzzer.cpp:112-120 | the removal keeps the order: it distributes over concatenation |
| StateFuzzers.UnmatchedIdempotent | Dedougger_Harness/source/fuzzer/StateFuzzer.cpp:112-120 | removing the matches twice removes nothing more |
| StateFuzzers.EraseMatches | Dedougger_Harness/source/fuzzer/StateFuzzer.cpp:112-120 | the erase loop, which does not advance after an erase, leaves exactly the unmatched points in order, and reports whether any matched |
| StateFuzzers.ResolveResetPoints | Dedougger_Harness/source/fuzzer/StateFuzzer.cpp:112-120 | matching reset points leave the vector, and the address joins the set exactly when one matched; nothing else changes |
| StateFuzzers.ResolvedCallbackAsWritten | Dedougger_Harness/source/fuzzer/StateFuzzer.cpp:94-121 | as written, the callback fails exactly when the save point's name is null, which it is once cleared or never set, and otherwise does what the corrected one does |
| StateFuzzers.ResolvedCallback | Dedougger_Harness/source/fuzzer/StateFuzzer.cpp:94-121 | the corrected callback takes the address and clears the save point on a match, else keeps it; it resolves the reset points and never touches the saved state |
| StateFuzzers.ResolvedCallbackIdempotent | Dedougger_Harness/source/fuzzer/StateFuzzer.cpp:94-121 | announcing the same breakpoint twice changes nothing more |
| StateFuzzers.SavePointResolvedOnce | Dedougger_Harness/source/fuzzer/StateFuzzer.cpp:100-104 | once resolved, the save point's address never changes under later announcements |
| StateFuzzers.DeliverAsWritten | Dedougger_Harness/source/fuzzer/StateFuzzer.cpp:94-121 | announcements delivered in order as written, when none fails, end as the corrected delivery does |
| StateFuzzers.Deliver | Dedougger_Harness/source/fuzzer/StateFuzzer.cpp:94-121 | corrected delivery never touches the saved state or restorers; reset points only move from the vector to the set |
| StateFuzzers.AnnouncementAfterSavePointCrashes | Dedougger_Harness/source/fuzzer/StateFuzzer.cpp:100-103 | as written, the announcement after the save point's own fails on the cleared name, while the corrected delivery keeps the save point's address |
| StateFuzzers.AnnouncementWithoutSavePointCrashes | Dedougger_Harness/source/fuzzer/StateFuzzer.cpp:166-168 | as written, with no save point set the first announcement already fails; corrected, it changes nothing |
| StateFuzzers.SetStateSavePointDeferred | Dedougger_Harness/source/fuzzer/StateFuzzer.cpp:151-155 | the save point is recorded and a one-byte execution breakpoint is queued for it; with its module not loaded nothing else happens; with it loaded the announcements reach the callback as written; the saved state is untouched |
| StateFuzzers.AddStateResetPointDeferred | Dedougger_Harness/source/fuzzer/StateFuzzer.cpp:157-160 | the reset point is appended and a one-byte execution breakpoint is queued for it; with its module not loaded nothing else happens; with it loaded the announcements reach the callback as written; the saved state is untouched |
| StateFuzzers.Announce | Dedougger/source/Dedougger.cpp:424-434 | the announcements of SetHWBPInModule's resolution reach the callback as written: a failed comparison ends the process with InvalidParameter, and otherwise the fuzzer ends as the corrected delivery leaves it |
| StateFuzzers.DeliverPastSavePointFails | Dedougger_Harness/source/fuzzer/StateFuzzer.cpp:100-104 | once the save point's own announcement has cleared it, any further announcement of the same resolution fails on the null name |
| StateFuzzers.ResetPointWithoutSavePointCrashes | Dedougger_Harness/source/fuzzer/StateFuzzer.cpp:157-160 | a reset point added for a loaded module before any save point is set makes its own announcement compare a null name, and the process ends |
| StateFuzzers.SavePointBeforeQueuedSwbpCrashes | Dedougger_Harness/source/fuzzer/StateFuzzer.cpp:151-155 | a save point set for a loaded module with a software breakpoint queued there is announced and cleared first, and the software breakpoint's announcement then ends the process, where the corrected delivery takes the save point's address |
| StateFuzzers.DeliverKeepsResolvedSavePoint | Dedougger_Harness/source/fuzzer/StateFuzzer.cpp:100-104 | under the corrected callback a cleared save point keeps its resolved address through any later announcements |

## Left out

- Foreign state is not modelled. The CONTEXT floating-point and vector registers are left out, and `GetMutableContext` appears only as `ThreadStates.EditContext`.
- `BeginDebugging`, the event loop, `BreakProcess`, `GetCallStack`, `GetModuleByName`, `ApplyHWBPs`, `ResolveFunction` and the function-name forms of SetSWBP/SetHWBP are not modelled. They are I/O loops, or parse PE export tables.
- The constructors that open the process (`OpenProcess`) and the start of a new process are left out.
- The OUTPUT_DEBUG_STRING, CREATE_PROCESS, EXIT_PROCESS and UNLOAD_DLL handlers are modelled only as offering the event to their callback. Their printing and handle closing is I/O.
- The Win32 calls are oracles over `TargetOs.Os`. ReadProcessMemory, WriteProcessMemory, VirtualProtectEx, VirtualQueryEx, VirtualFreeEx, OpenThread, Get/SetThreadContext, TerminateThread and CreateRemoteThreadEx succeed or fail according to that value.
- The Toolhelp module and thread snapshots, QueryWorkingSet and the PE entry-point offset are parameters. So is the instruction the target runs between `ContinueDebugEvent` and the next `WaitForDebugEvent`. The QueryWorkingSet retry on a short buffer is not modelled.
- `wcstombs` truncation of module paths is not modelled: names are assumed to fit `MAX_PATH`.
- Writable: a write through WriteProcessMemory is refused on guard and read-only pages. Execute and execute-read pages are written through a temporary protection change, as the operating system does, and `locked` does not affect writes.
- TargetOs.Free: VirtualFreeEx with MEM_RELEASE releases a whole allocation when given its base, and fails elsewhere.
- Resume.ResumeFromBreakpoint: the `VirtualProtect` after the step acts on the debugger's own process, so it is modelled as having no effect on the target.
- Stepping.AfterStepFlags: the step's "resume flag" is 0x1000, as the code writes it. In EFLAGS that is bit 12, part of IOPL; the resume flag is bit 16. The model keeps 0x1000.
- Callbacks are modelled as replies without effects. The `Responder` of an event answers with a result and a status. Because of that, "the debugger is unchanged" in EventDispatch.HandleSingleStep and BreakpointEvent.LaterBreakpoint holds only for callbacks that change nothing. StateFuzzer's own callbacks do change state (StateFuzzers.SaveClearsItsBreakpoint); they are modelled on their own, and are not plugged into the dispatch.
- StateFuzzers.ExitThreadCallback: the dispatcher never invokes an EXIT_THREAD callback (EventDispatchFacts.QuietEvents), so, as written, this callback is never reached.
- StateFuzzers.BreakpointCallback: the reset-point `assert(false)` is modelled as in a debug build, as the AssertionFailed error; a release build would continue.
- Stepping.StepOver and HwStep.StepPastHwbp: the two asserts on the event after the step are modelled as in a debug build, as the AssertionFailed error. In a release build the other event would be consumed unhandled and the step would go on. That reading is not modelled.
- StateFuzzers.ThreadCreateCallback: `DuplicateThreadHandle` is a parameter, the handle copy, and its failure is not modelled.
- StateFuzzers.RestoreState: `tickStart`, GetTickCount64, the printed throughput and its floating point are not modelled.
- StateFuzzers.BreakpointCallback and StateFuzzers.ExceptionCallback use the corrected HwBreakpoints.ClearHwbpByAddress and PageRestorers.TouchAddress. ThreadRestorers.RestoreState uses the corrected ThreadRestorers.KillThreads. The as-written versions are modelled separately, under Findings.
- The first breakpoint resolves the main module through MainModules.GetMainModuleBase. That uses the ModuleInfo constructor as written, so a snapshot path without a backslash or question mark throws there (MainModules.BarePathThrows).
- PageRestorers.TouchAddressAsWritten: its `requires` excludes an address below the lowest record when some record lies above it. In that case the code decrements `begin()`, which is undefined behaviour in C++, so the model promises nothing for that input.
- ThreadRestorers.KillThreadsAsWritten: its `requires` keeps ids below INT_MAX, because the loop counter is an `int` and its overflow is undefined behaviour.
- PageRestorers.RestoreState: the `save_state_virtual_query` and `restore_state_virtual_query` walks are not modelled. The restore calls them only behind `if (false)`, and the save never calls them.
- PageRestorers.SaveState: the preliminary calls of `save_state` are not modelled. Its first QueryWorkingSet and the assert on its failure only size a buffer. The second QueryWorkingSet is passed the address of the pointer `completeSetInfo`, so it can write `completeSetSize` bytes over that stack slot. The malloc'd buffer leaks. The assert around InitializeProcessForWsWatch removes the call itself in a release build. The model's save starts from the working set given as a parameter.
- PageBackups.NewPageBackup: the constructor leaves `data` uninitialised, so the first backup's `if (data != nullptr) free(data)` reads an indeterminate pointer, which is undefined behaviour. The model starts every record with no copy (`None`) and promises nothing about that read.
- `PageBackupEx::resize` and the MEM_MAPPED branch of `ProtectPage` are not modelled, because their bodies are commented out.
- `ThreadRestorerEx::kill_thread` is not modelled, because nothing calls it.
- The debug-build VirtualQueryEx checks inside `restore_state_working_set` are not modelled. They only print.

## Findings

| source | as written | input that shows it | evidently intended | confidence | as-written member | corrected member |
|---|---|---|---|---|---|---|
| Dedougger/source/Dedougger.cpp:414-422 | ClearHWBPByAddress compares slot 0's address on every iteration | breakpoint in slot 1 at the address, slot 0 elsewhere: returns -1 and the breakpoint stays enabled (HwBreakpoints.ClearHwbpByAddressMissesOtherSlots) | compare slot `i`, clearing the slot that holds the address | not executed | HwBreakpoints.ClearHwbpByAddressAsWritten | HwBreakpoints.ClearHwbpByAddress |
| Dedougger_Harness/source/threadrestorer/ThreadRestorerEx.cpp:56-66 | kill_threads indexes the map with `operator[]` for ids 0..size-1, inserting NULL entries and growing size as it goes | one thread with id 4 to kill: the loop runs to 5 and returns 5 (ThreadRestorers.KillCountAsWritten) | terminate each entry once and return the number of entries | not executed | ThreadRestorers.KillThreadsAsWritten | ThreadRestorers.KillThreads |
| Dedougger/source/targetstate/moduleinfo.hpp:15-28 | `find_first_of("\\\\?\\")` searches for any of the characters `\` and `?` and then drops four characters | path `C:\a.dll` becomes path and name "ll"; a path without `\` or `?` throws out_of_range (ModuleInfos.AsWrittenTruncatesDrivePath, MainModules.BarePathThrows) | strip the prefix `\\?\` only where the path starts with it | not executed | ModuleInfos.FromPathAsWritten | ModuleInfos.FromPath |
| Dedougger/source/Dedougger.cpp:670 | a loaded DLL's deferred breakpoints are resolved against its full image path | `\\?\C:\W\ntdll.dll` loaded with a breakpoint queued in "ntdll.dll": nothing resolves (Resolution.LoadByPathMissesQueuedName, EventDispatchFacts.LoadDllByPathMisses) | resolve against the file name, as the main module is (Dedougger.cpp:777-784) | not executed | Resolution.ModuleLoadedAsWritten | Resolution.ModuleLoaded |
| Dedougger_Harness/source/pagerestorer/PageRestorerEx.cpp:351 | set_block_to_mem_info switches on the whole flag value, so any value with bit 8 or 16 set gets no base constant | flags 0x11, guarded read-only: saved as PAGE_GUARD alone; a later write sets the dirty flag, but mark_dirty then throws VirtualProtectFailed when it puts that protection back, so the touch never answers true (PageRestorers.BlockProtectionAsWrittenDropsBase, PageRestorers.SaveModifiedBlockAsWritten) | switch on the low three bits and add the modifiers | not executed | PageRestorers.BlockProtectionAsWritten | PageRestorers.BlockProtection |
| Dedougger_Harness/source/pagerestorer/PageRestorerEx.cpp:287-312 | touch_address returns false when `upper_bound` is `end()`, before stepping back to the record at or below the address | a write to the highest tracked page answers false and marks nothing (PageRestorers.TouchAddressAsWrittenMissesLastPage) | step back from `upper_bound` whenever it is not `begin()` | not executed | PageRestorers.TouchAddressAsWritten | PageRestorers.TouchAddress |
| Dedougger_Harness/source/fuzzer/StateFuzzer.cpp:100-104 | after it matches, the save point is reset to a default DeferredPoint with a null name, and every later comparison calls `_strcmpi` on it | a second announcement after the save point's, or any announcement before a save point is set: the CRT's invalid-parameter handler ends the process (StateFuzzers.AnnouncementAfterSavePointCrashes, StateFuzzers.AnnouncementWithoutSavePointCrashes) | a cleared save point matches nothing | not executed | StateFuzzers.ResolvedCallbackAsWritten | StateFuzzers.ResolvedCallback |

=== FILE: base.dfy ===
/**
 Machine-level building blocks shared by every component of the debugger and
 snapshot engine: the fixed-width unsigned integers of the Windows x64 ABI
 (BYTE, WORD, DWORD, SIZE_T) and the wrap-around arithmetic the C++ code gets
 from unsigned overflow.
 */
module Base {

  const BYTE_MOD: int := 0x100
  const WORD_MOD: int := 0x1_0000
  const DWORD_MOD: int := 0x1_0000_0000
  const QWORD_MOD: int := 0x1_0000_0000_0000_0000

  /** The largest value of a 32-bit signed `int` (INT_MAX). */
  const INT_MAX: int := 0x7FFF_FFFF

  type u8 = x: int | 0 <= x < 0x100
  type u16 = x: int | 0 <= x < 0x1_0000
  type u32 = x: int | 0 <= x < 0x1_0000_0000
  type u64 = x: int | 0 <= x < 0x1_0000_0000_0000_0000

  /** A Windows thread id (DWORD). */
  type ThreadId = u32

  /** `SIZE_T` addition: unsigned 64-bit wrap-around. */
  function WrapAdd(a: u64, b: u64): (r: u64)
    ensures a + b < QWORD_MOD ==> r == a + b
    ensures a + b >= QWORD_MOD ==> r == a + b - QWORD_MOD
  {
    (a + b) % QWORD_MOD
  }

  /** `SIZE_T` subtraction: unsigned 64-bit wrap-around. */
  function WrapSub(a: u64, b: u64): (r: u64)
    ensures a >= b ==> r == a - b
    ensures a < b ==> r == a - b + QWORD_MOD
  {
    (a - b) % QWORD_MOD
  }

  /** The implicit conversion of an `int` to `uint16_t`: reduction modulo 2^16. */
  function ToU16(x: int): (r: u16)
    ensures 0 <= x < WORD_MOD ==> r == x
    ensures (x - r) % WORD_MOD == 0
  {
    x % WORD_MOD
  }

  /** `uint64_t` increment, as `restoreCount++`. */
  function Inc64(x: u64): (r: u64)
    ensures x < QWORD_MOD - 1 ==> r == x + 1
    ensures x == QWORD_MOD - 1 ==> r == 0
  {
    (x + 1) % QWORD_MOD
  }

  datatype Option<+T> = None | Some(value: T)
}

=== FILE: breakpoint_event.dfy ===
/**
 HandleBreakpointEvent. The first breakpoint of the target is the loader's:
 it finds the main module, arms a software breakpoint on its entry point, pushes the
 hardware breakpoints to every thread of the target and records them. Every
 later breakpoint is offered to the BREAKPOINT callback, which may keep the
 default handling (RIP rewind, instruction restore and step) or decline it.
 */
module BreakpointEvent {
  import opened Base
  import opened Errors
  import opened TargetOs
  import opened ThreadStates
  import opened Session
  import opened SwBreakpoints
  import opened HwBreakpoints
  import opened MainModules
  import opened Resume
  import opened DebugEvents

  /**
   A temporary ThreadState for thread `id`: the hardware breakpoints are
   written through it and its destructor flushes them to the thread. A throw
   leaves the target as it was.
   */
  function PushBreakpoints(s: Session, os: Os, id: ThreadId): (r: Exec<Os, ()>)
  {
    var written := WriteBreakpointsToThread(s, FromId(id), os);
    if written.Raised? then Raised(os, written.error)
    else
      var released := Release(written.state, os);
      if released.Raised? then Raised(released.state.1, released.error)
      else Done(released.state.1, ())
  }

  /**
   One thread of the Toolhelp walk: record it in the thread table under its
   own id; the event thread gets the breakpoints through the event's cache
   (flushed when the event's cache is released), every other thread through a
   temporary one.
   */
  function VisitThread(w: World, id: ThreadId): (r: Exec<World, ()>)
    ensures r.state.session == w.session.(threads := w.session.threads[id := id])
    ensures r.state.calls == w.calls && r.state.notices == w.notices
  {
    var w1 := w.(session := w.session.(threads := w.session.threads[id := id]));
    if id == w.thread.threadId then
      var written := WriteBreakpointsToThread(w1.session, w1.thread, w1.os);
      if written.Raised? then Raised(w1.(thread := written.state), written.error)
      else Done(w1.(thread := written.state), ())
    else
      var pushed := PushBreakpoints(w1.session, w1.os, id);
      if pushed.Raised? then Raised(w1.(os := pushed.state), pushed.error)
      else Done(w1.(os := pushed.state), ())
  }

  /** The Toolhelp thread walk of the first breakpoint, over the target's threads in snapshot order. */
  function RecordThreads(w: World, ids: seq<ThreadId>): (r: Exec<World, ()>)
    ensures r.state.calls == w.calls && r.state.notices == w.notices
    decreases |ids|
  {
    if ids == [] then Done(w, ())
    else
      var visited := VisitThread(w, ids[0]);
      if visited.Raised? then visited
      else RecordThreads(visited.state, ids[1..])
  }

  /**
   The entry point address: the PE entry point offset added to the main
   module's base, wrapping in size_t. Subtracting either part gives back the
   other, so the address lies `entryOffset` bytes into the module.
   */
  function EntryPoint(mainBase: u64, entryOffset: u64): (a: u64)
    ensures WrapSub(a, mainBase) == entryOffset
    ensures WrapSub(a, entryOffset) == mainBase
  {
    WrapAdd(entryOffset, mainBase)
  }

  /**
   GetMainModuleBase on the event's world: the snapshot's modules are recorded
   and the main module's deferred breakpoints resolved, the notices appended.
   */
  function FindMainModule(w: World, env: Env): (r: Exec<World, u64>)
    ensures r.state.thread == w.thread && r.state.calls == w.calls
    ensures Keeps(r.state.session, w.session)
    ensures Extends(r.state.notices, w.notices)
    ensures r.Done? ==> r.value == LastExeBase(env.modules, 0)
    ensures r.Raised? ==> r.error == OutOfRange || r.error == SlotsExhausted
  {
    var found := GetMainModuleBase(w.session, w.os, env.modules);
    var w0 := w.(session := found.state.session, os := found.state.os, notices := w.notices + found.state.notices);
    assert w0.notices[..|w.notices|] == w.notices;
    if found.Raised? then Raised(w0, found.error) else Done(w0, found.value)
  }

  /**
   The first breakpoint: find the main module, compute the entry point, arm a
   software breakpoint there with both flags set (SetSWBP's defaults; its status
   is ignored), walk the target's threads, invoke the INITIAL_BREAKPOINT
   callback, and mark the first breakpoint as hit. The entry offset is read
   through the main module's PE information, which only a ".exe" module of the
   snapshot provides: without one the object's main module is still the default
   ModuleInfo, whose PE pointer is null, and the read faults in the debugger.
   */
  function FirstBreakpoint(w: World, env: Env): (r: Exec<World, ContinueStatus>)
  {
    var found := FindMainModule(w, env);
    if found.Raised? then Raised(found.state, found.error)
    else if !HasMainCandidate(env.modules) then Raised(found.state, NullDereference)
    else
      var w0 := found.state;
      var entry := EntryPoint(found.value, env.entryOffset);
      var (s1, os1, _) := SetSwbp(w0.session.(entryPoint := entry), w0.os, entry, true, true);
      var walked := RecordThreads(w0.(session := s1, os := os1), env.processThreads);
      if walked.Raised? then Raised(walked.state, walked.error)
      else
        var (w2, reply) := Notify(walked.state, env, InitialBreakpoint, Continue);
        Done(w2.(session := w2.session.(firstBreakpointHit := true)), reply.status)
  }

  /**
   The default handling of a later breakpoint: ResumeFromBreakpoint with the
   instruction replaced, then the hardware breakpoints written through the
   event's cache again. The status is ResumeFromBreakpoint's.
   */
  function DefaultHandling(w: World, env: Env): (r: Exec<World, ContinueStatus>)
    ensures r.state.session == w.session && r.state.calls == w.calls && r.state.notices == w.notices
    ensures r.Done? ==> r.value != ExceptionNotHandled
  {
    var resumed := ResumeFromBreakpoint(w.session, w.thread, w.os, true, env.step);
    if resumed.Raised? then Raised(w.(thread := resumed.state.0, os := resumed.state.1), resumed.error)
    else
      var written := WriteBreakpointsToThread(w.session, resumed.state.0, resumed.state.1);
      if written.Raised? then Raised(w.(thread := written.state, os := resumed.state.1), written.error)
      else Done(w.(thread := written.state, os := resumed.state.1), resumed.value)
  }

  /**
   A later breakpoint: at the entry point the event thread gets the hardware
   breakpoints through a temporary cache; then the BREAKPOINT callback, if any,
   is offered the event, and unless it answers BP_DONT_HANDLE the default
   handling runs. The debugger object is not changed.
   */
  function LaterBreakpoint(w: World, env: Env, address: u64): (r: Exec<World, ContinueStatus>)
    ensures r.state.session == w.session && r.state.notices == w.notices
  {
    var armed := if address == w.session.entryPoint then PushBreakpoints(w.session, w.os, w.thread.threadId)
                 else Done(w.os, ());
    if armed.Raised? then Raised(w.(os := armed.state), armed.error)
    else
      var (w1, reply) := Notify(w.(os := armed.state), env, Breakpoint, Continue);
      if reply.result == BpDontHandle then Done(w1, reply.status)
      else DefaultHandling(w1, env)
  }

  /** HandleBreakpointEvent: the first breakpoint or a later one, by the object's flag. */
  function HandleBreakpointEvent(w: World, env: Env, address: u64): (r: Exec<World, ContinueStatus>)
  {
    if w.session.firstBreakpointHit then LaterBreakpoint(w, env, address) else FirstBreakpoint(w, env)
  }
}

=== FILE: breakpoint_event_facts.dfy ===
/** What HandleBreakpointEvent does, for the first breakpoint and for later ones. */
module BreakpointEventFacts {
  import opened Base
  import opened Errors
  import opened Registers
  import opened TargetOs
  import opened ThreadStates
  import opened Swbp
  import opened Session
  import opened SwBreakpoints
  import opened HwBreakpoints
  import opened Stepping
  import opened RipRewind
  import opened Resume
  import opened DebugEvents
  import opened BreakpointEvent
  import opened MainModules

  /** A live thread ends holding the hardware breakpoints of the image; nothing else in the target changes. */
  lemma PushBreakpointsPublishes(s: Session, os: Os, id: ThreadId)
    requires id in os.threads
    ensures PushBreakpoints(s, os, id) == Done(os.(threads := os.threads[id := DebugImage(os.threads[id], s.hwbpState)]), ())
  {
    var pulled := FromId(id).(handle := ThreadHandle(id), ctx := os.threads[id], contextRead := true, ownThreadHandle := true);
    assert EnsureRead(FromId(id), os) == Done(pulled, ());
    FlushPublishes(pulled.(ctx := DebugImage(os.threads[id], s.hwbpState), dirty := true), os);
  }

  /** A thread that has exited makes the push throw, with the target unchanged. */
  lemma PushBreakpointsFails(s: Session, os: Os, id: ThreadId)
    requires id !in os.threads
    ensures PushBreakpoints(s, os, id) == Raised(os, GetThreadContextFailure)
  {
  }

  /** The walk changes nothing in the debugger object but the thread table. */
  lemma {:induction false} RecordThreadsFrame(w: World, ids: seq<ThreadId>)
    ensures RecordThreads(w, ids).state.session == w.session.(threads := RecordThreads(w, ids).state.session.threads)
    decreases |ids|
  {
    if ids != [] {
      var visited := VisitThread(w, ids[0]);
      if visited.Done? {
        RecordThreadsFrame(visited.state, ids[1..]);
      }
    }
  }

  /** A completed walk's thread table holds the threads it held before and the ones visited. */
  lemma {:induction false} RecordThreadsKeys(w: World, ids: seq<ThreadId>, k: ThreadId)
    requires RecordThreads(w, ids).Done?
    ensures k in RecordThreads(w, ids).state.session.threads <==> k in w.session.threads || k in ids
    decreases |ids|
  {
    if ids != [] {
      var visited := VisitThread(w, ids[0]);
      assert visited.Done?;
      RecordThreadsKeys(visited.state, ids[1..], k);
      assert k in ids <==> k == ids[0] || k in ids[1..];
    }
  }

  /** A completed walk has recorded every thread it visited under its own id. */
  lemma {:induction false} RecordThreadsOwnIds(w: World, ids: seq<ThreadId>, k: ThreadId)
    requires RecordThreads(w, ids).Done? && k in ids
    ensures k in RecordThreads(w, ids).state.session.threads
    ensures RecordThreads(w, ids).state.session.threads[k] == k
    decreases |ids|
  {
    var visited := VisitThread(w, ids[0]);
    assert visited.Done?;
    if k in ids[1..] {
      RecordThreadsOwnIds(visited.state, ids[1..], k);
    } else {
      RecordThreadsKeeps(visited.state, ids[1..], k);
    }
  }

  /** A thread the rest of the walk does not visit keeps its table entry. */
  lemma {:induction false} RecordThreadsKeeps(w: World, ids: seq<ThreadId>, k: ThreadId)
    requires RecordThreads(w, ids).Done? && k in w.session.threads && k !in ids
    ensures k in RecordThreads(w, ids).state.session.threads
    ensures RecordThreads(w, ids).state.session.threads[k] == w.session.threads[k]
    decreases |ids|
  {
    if ids != [] {
      var visited := VisitThread(w, ids[0]);
      assert visited.Done?;
      assert k !in ids[1..];
      RecordThreadsKeeps(visited.state, ids[1..], k);
    }
  }

  /**
   A completed first breakpoint has found a ".exe" module, sets the flag, fixes
   the entry point at the last ".exe" module's base plus the entry offset, has
   recorded the entry breakpoint when SetSWBP succeeded (both flags set, with the
   byte found there), and reports the INITIAL_BREAKPOINT callback's status, or
   DBG_CONTINUE without one.
   */
  lemma FirstBreakpointArms(w: World, env: Env)
    requires FirstBreakpoint(w, env).Done?
    ensures var r := FirstBreakpoint(w, env);
      var w0 := FindMainModule(w, env).state;
      var entry := EntryPoint(LastExeBase(env.modules, 0), env.entryOffset);
      && FindMainModule(w, env).Done?
      && HasMainCandidate(env.modules)
      && r.state.session.firstBreakpointHit
      && r.state.session.entryPoint == entry
      && (SetSwbp(w0.session.(entryPoint := entry), w0.os, entry, true, true).2 == Success ==>
            entry in r.state.session.swbps && r.state.session.swbps[entry] == SwbpRecord(entry, ReadByte(w0.os, entry).value, true, true))
      && (SetSwbp(w0.session.(entryPoint := entry), w0.os, entry, true, true).2 != Success ==> r.state.session.swbps == w0.session.swbps)
      && r.state.session.eventCallbacks == w.session.eventCallbacks
  {
    var w0 := FindMainModule(w, env).state;
    var entry := EntryPoint(FindMainModule(w, env).value, env.entryOffset);
    var (s1, os1, _) := SetSwbp(w0.session.(entryPoint := entry), w0.os, entry, true, true);
    RecordThreadsFrame(w0.(session := s1, os := os1), env.processThreads);
  }

  /**
   A snapshot without a ".exe" module, an empty or failed one included, leaves
   the main module unset: once the walk completes, the entry offset is read
   through a null pointer and the debugger faults before arming anything,
   walking the threads or invoking a callback.
   */
  lemma FirstBreakpointWithoutMainModule(w: World, env: Env, address: u64)
    requires !w.session.firstBreakpointHit
    requires forall i :: 0 <= i < |env.modules| ==> !IsMainCandidate(env.modules[i].exePath)
    ensures var r := HandleBreakpointEvent(w, env, address);
      && r.Raised?
      && (FindMainModule(w, env).Done? ==> r == Raised(FindMainModule(w, env).state, NullDereference))
      && r.state.session.threads == w.session.threads
      && r.state.calls == w.calls
      && !r.state.session.firstBreakpointHit
  {
  }

  /**
   The failed snapshot: with no module at all, the first breakpoint faults on the
   null pointer, whatever the exception address (the first breakpoint does not
   read it).
   */
  lemma EmptySnapshotFaults(w: World, env: Env, address: u64)
    requires !w.session.firstBreakpointHit && env.modules == []
    ensures HandleBreakpointEvent(w, env, address) == Raised(w, NullDereference)
  {
    assert w.notices + [] == w.notices;
  }

  /** The first breakpoint invokes INITIAL_BREAKPOINT exactly when it is registered, and reports its status. */
  lemma FirstBreakpointNotifies(w: World, env: Env)
    requires FirstBreakpoint(w, env).Done?
    ensures var r := FirstBreakpoint(w, env);
      var registered := Registered(CallbackFor(w.session, InitialBreakpoint));
      && r.state.calls == w.calls + (if registered then [InitialBreakpoint] else [])
      && r.value == (if registered then env.respond(InitialBreakpoint, Continue).status else Continue)
  {
    var w0 := FindMainModule(w, env).state;
    var entry := EntryPoint(FindMainModule(w, env).value, env.entryOffset);
    var (s1, os1, _) := SetSwbp(w0.session.(entryPoint := entry), w0.os, entry, true, true);
    RecordThreadsFrame(w0.(session := s1, os := os1), env.processThreads);
  }

  /**
   The first breakpoint keeps the notices of the main module's resolution: the
   event's notices are those before it followed by GetMainModuleBase's.
   */
  lemma FirstBreakpointResolvesMainModule(w: World, env: Env)
    requires FirstBreakpoint(w, env).Done?
    ensures FirstBreakpoint(w, env).state.notices == w.notices + GetMainModuleBase(w.session, w.os, env.modules).state.notices
  {
    var w0 := FindMainModule(w, env).state;
    var entry := EntryPoint(FindMainModule(w, env).value, env.entryOffset);
    var (s1, os1, _) := SetSwbp(w0.session.(entryPoint := entry), w0.os, entry, true, true);
    RecordThreadsFrame(w0.(session := s1, os := os1), env.processThreads);
  }

  /** After a completed first breakpoint every thread of the snapshot is in the table under its own id, and no other thread was added. */
  lemma FirstBreakpointRecordsThreads(w: World, env: Env, k: ThreadId)
    requires FirstBreakpoint(w, env).Done?
    ensures var table := FirstBreakpoint(w, env).state.session.threads;
      && (k in table <==> k in w.session.threads || k in env.processThreads)
      && (k in env.processThreads ==> table[k] == k)
  {
    var w0 := FindMainModule(w, env).state;
    var entry := EntryPoint(FindMainModule(w, env).value, env.entryOffset);
    var (s1, os1, _) := SetSwbp(w0.session.(entryPoint := entry), w0.os, entry, true, true);
    var w1 := w0.(session := s1, os := os1);
    RecordThreadsKeys(w1, env.processThreads, k);
    if k in env.processThreads {
      RecordThreadsOwnIds(w1, env.processThreads, k);
    }
  }

  /**
   The flag is one-way: once set, handling a breakpoint leaves the debugger
   object as it is; before, a completed handling sets it.
   */
  lemma BreakpointFlagOneWay(w: World, env: Env, address: u64)
    ensures w.session.firstBreakpointHit ==> HandleBreakpointEvent(w, env, address).state.session == w.session
    ensures HandleBreakpointEvent(w, env, address).Done? ==> HandleBreakpointEvent(w, env, address).state.session.firstBreakpointHit
  {
    if !w.session.firstBreakpointHit && FirstBreakpoint(w, env).Done? {
      FirstBreakpointArms(w, env);
    }
  }

  /**
   A later breakpoint away from the entry point whose BREAKPOINT callback answers
   BP_DONT_HANDLE: nothing is rewound or written, and the callback's status is reported.
   */
  lemma LaterBreakpointDeclined(w: World, env: Env, address: u64)
    requires w.session.firstBreakpointHit && address != w.session.entryPoint
    requires Registered(CallbackFor(w.session, Breakpoint)) && env.respond(Breakpoint, Continue).result == BpDontHandle
    ensures HandleBreakpointEvent(w, env, address) == Done(w.(calls := w.calls + [Breakpoint]), env.respond(Breakpoint, Continue).status)
  {
  }

  /** Away from the entry point, a later breakpoint not declined by its callback is the default handling after the notification. */
  lemma LaterBreakpointDefaults(w: World, env: Env, address: u64)
    requires w.session.firstBreakpointHit && address != w.session.entryPoint
    requires !Registered(CallbackFor(w.session, Breakpoint)) || env.respond(Breakpoint, Continue).result == BpHandle
    ensures HandleBreakpointEvent(w, env, address) == DefaultHandling(Notify(w, env, Breakpoint, Continue).0, env)
  {
  }

  /** The default handling reports the exception handled exactly when a breakpoint of the debugger's is at the rewound RIP. */
  lemma DefaultHandlingStatus(w: World, env: Env)
    requires DefaultHandling(w, env).Done?
    ensures Rewind(w.thread, w.os).Done?
    ensures DefaultHandling(w, env).value == ExceptionHandled <==> RewoundAddress(w.thread, w.os) in w.session.swbps
  {
    ResumeStatus(w.session, w.thread, w.os, true, env.step);
  }

  /**
   The default handling of an INT3 that is not the debugger's, on a fresh cache
   of a live thread: the target is not touched, and the cache holds the rewound
   RIP and the hardware breakpoints, dirty.
   */
  lemma DefaultHandlingForeign(w: World, env: Env)
    requires Opened(w.thread, w.os) && !w.thread.contextRead
    requires Rewind(w.thread, w.os).Done? && RewoundAddress(w.thread, w.os) !in w.session.swbps
    ensures var u := Rewind(w.thread, w.os).state;
      DefaultHandling(w, env) == Done(w.(thread := u.(ctx := DebugImage(u.ctx, w.session.hwbpState), dirty := true)), Continue)
  {
    ResumeWithoutBreakpoint(w.session, w.thread, w.os, true, env.step);
    RewindEffect(w.thread, w.os);
  }

  /**
   A later breakpoint away from the entry point with the default handling (no
   callback, or BP_HANDLE): the exception is reported handled exactly when a
   software breakpoint of the debugger's is recorded at the rewound RIP, and never
   reported unhandled.
   */
  lemma LaterBreakpointHandled(w: World, env: Env, address: u64)
    requires w.session.firstBreakpointHit && address != w.session.entryPoint
    requires !Registered(CallbackFor(w.session, Breakpoint)) || env.respond(Breakpoint, Continue).result == BpHandle
    requires HandleBreakpointEvent(w, env, address).Done?
    ensures Rewind(w.thread, w.os).Done?
    ensures HandleBreakpointEvent(w, env, address).value != ExceptionNotHandled
    ensures HandleBreakpointEvent(w, env, address).value == ExceptionHandled <==> RewoundAddress(w.thread, w.os) in w.session.swbps
  {
    LaterBreakpointDefaults(w, env, address);
    var w1 := Notify(w, env, Breakpoint, Continue).0;
    assert w1.thread == w.thread && w1.os == w.os && w1.session == w.session;
    DefaultHandlingStatus(w1, env);
  }

  /**
   An INT3 that is not the debugger's, away from the entry point, with no
   BREAKPOINT callback, on a fresh cache of a live thread: the target is not
   touched, the cache holds the rewound RIP and the hardware breakpoints, dirty,
   and the status is DBG_CONTINUE.
   */
  lemma ForeignInt3(w: World, env: Env, address: u64)
    requires w.session.firstBreakpointHit && address != w.session.entryPoint
    requires !Registered(CallbackFor(w.session, Breakpoint))
    requires Opened(w.thread, w.os) && !w.thread.contextRead
    requires Rewind(w.thread, w.os).Done? && RewoundAddress(w.thread, w.os) !in w.session.swbps
    ensures var u := Rewind(w.thread, w.os).state;
      HandleBreakpointEvent(w, env, address)
        == Done(w.(thread := u.(ctx := DebugImage(u.ctx, w.session.hwbpState), dirty := true)), Continue)
  {
    LaterBreakpointDefaults(w, env, address);
    NotifyUnregistered(w, env, Breakpoint, Continue);
    DefaultHandlingForeign(w, env);
  }
}

=== FILE: debug_event.dfy ===
/**
 HandleDebugEvent: one debug event, handled with a register cache of the event
 thread that is released (flushed when dirty) at the end. Exceptions are told
 apart by code; every other event code has its own small handler.
 */
module EventDispatch {
  import opened Base
  import opened Errors
  import opened TargetOs
  import opened ThreadStates
  import opened Session
  import opened HwBreakpoints
  import opened Resolution
  import opened HwStep
  import opened DebugEvents
  import opened BreakpointEvent

  /** The slot scan of the single-step handler from slot `i` on: the first slot whose address is the exception address, enabled or not. */
  function HitFrom(slots: Slots, address: u64, i: nat): (r: bool)
    requires i <= 4
    decreases 4 - i
  {
    if i == 4 then false
    else if slots[i].address == address then true
    else HitFrom(slots, address, i + 1)
  }

  /** Whether a single step at `address` counts as a hardware breakpoint hit. */
  function IsHwbpHit(slots: Slots, address: u64): bool {
    HitFrom(slots, address, 0)
  }

  /** The callback is invoked, if registered, with DBG_CONTINUE, and its status is reported. */
  function Notified(w: World, env: Env, id: CallbackId): (r: Exec<World, ContinueStatus>)
    ensures r.Done? && r.state == Notify(w, env, id, Continue).0
  {
    var (w1, reply) := Notify(w, env, id, Continue);
    Done(w1, reply.status)
  }

  /**
   EXCEPTION_SINGLE_STEP: the SINGLE_STEP callback first, then, when the address
   is a hardware breakpoint's, the thread is stepped past it with the local
   enables cleared. The status is the callback's.
   */
  function HandleSingleStep(w: World, env: Env, address: u64): (r: Exec<World, ContinueStatus>)
    ensures r.state.session == w.session && r.state.notices == w.notices
  {
    var (w1, reply) := Notify(w, env, SingleStep, Continue);
    if !IsHwbpHit(w1.session.breakpoints, address) then Done(w1, reply.status)
    else
      var stepped := StepPastHwbp(w1.thread, w1.os, env.step);
      var w2 := w1.(thread := stepped.state.0, os := stepped.state.1);
      if stepped.Raised? then Raised(w2, stepped.error) else Done(w2, reply.status)
  }

  /**
   EXCEPTION_DEBUG_EVENT: access violations go to their callback, single steps
   and breakpoints to their handlers; any other exception is passed back to the
   target on first chance and continued on the last.
   */
  function HandleException(w: World, env: Env, code: ExceptionCode, address: u64, firstChance: bool)
    : (r: Exec<World, ContinueStatus>)
  {
    match code
    case AccessViolationCode => Notified(w, env, AccessViolation)
    case SingleStepCode => HandleSingleStep(w, env, address)
    case BreakpointCode => HandleBreakpointEvent(w, env, address)
    case OtherCode(_) => Done(w, if firstChance then ExceptionNotHandled else Continue)
  }

  /** CREATE_THREAD_DEBUG_EVENT: the hardware breakpoints go into the event's cache, then the THREAD_CREATE callback. */
  function HandleCreateThreadEvent(w: World, env: Env): (r: Exec<World, ContinueStatus>)
    ensures r.state.session == w.session && r.state.os == w.os
  {
    var written := WriteBreakpointsToThread(w.session, w.thread, w.os);
    if written.Raised? then Raised(w.(thread := written.state), written.error)
    else Notified(w.(thread := written.state), env, ThreadCreate)
  }

  /**
   LOAD_DLL_DEBUG_EVENT: with a readable image path the module is recorded and
   the deferred breakpoints are resolved against that path, as written; then the
   LOAD_DLL callback.
   */
  function HandleLoadDllEvent(w: World, env: Env, imageBase: u64, imagePath: Option<string>): (r: Exec<World, ContinueStatus>)
  {
    var loaded := match imagePath
      case None => Done(Resolved(w.session, w.os, []), ())
      case Some(p) => ModuleLoadedAsWritten(w.session, w.os, p, imageBase);
    var w1 := w.(session := loaded.state.session, os := loaded.state.os, notices := w.notices + loaded.state.notices);
    if loaded.Raised? then Raised(w1, loaded.error) else Notified(w1, env, LoadDll)
  }

  /** The handler for each event code. EXIT_THREAD invokes no callback; RIP and unknown codes are continued. */
  function HandleEvent(w: World, env: Env, kind: EventKind): (r: Exec<World, ContinueStatus>)
  {
    match kind
    case ExceptionEvent(code, address, firstChance) => HandleException(w, env, code, address, firstChance)
    case CreateThreadEvent => HandleCreateThreadEvent(w, env)
    case LoadDllEvent(imageBase, imagePath) => HandleLoadDllEvent(w, env, imageBase, imagePath)
    case ExitThreadEvent => Done(w, Continue)
    case OutputDebugStringEvent => Notified(w, env, OutputDebugString)
    case CreateProcessEvent => Notified(w, env, CreateProcess)
    case ExitProcessEvent => Notified(w, env, ExitProcess)
    case UnloadDllEvent => Notified(w, env, UnloadDll)
    case RipDebugEvent => Done(w, Continue)
    case UnknownEvent(_) => Done(w, Continue)
  }

  /**
   The end of HandleDebugEvent: the event's cache goes out of scope and its
   destructor flushes it when dirty, also when the handler threw. A throw of the
   handler is reported over one of the flush.
   */
  function Finish(handled: Exec<World, ContinueStatus>): (r: Exec<Outcome, ContinueStatus>)
    ensures r.state.session == handled.state.session
    ensures r.state.calls == handled.state.calls && r.state.notices == handled.state.notices
    ensures handled.Raised? ==> r.Raised? && r.error == handled.error
  {
    var w := handled.state;
    var released := Release(w.thread, w.os);
    var outcome := Outcome(w.session, released.state.1, w.calls, w.notices);
    if handled.Raised? then Raised(outcome, handled.error)
    else if released.Raised? then Raised(outcome, released.error)
    else Done(outcome, handled.value)
  }

  /** HandleDebugEvent(debugEv): handle the event with a fresh cache of the event thread, then release the cache. */
  function HandleDebugEvent(s: Session, os: Os, ev: DebugEvent, env: Env): (r: Exec<Outcome, ContinueStatus>)
  {
    Finish(HandleEvent(World(s, FromId(ev.tid), os, [], []), env, ev.kind))
  }
}

=== FILE: debug_event_facts.dfy ===
/** What HandleDebugEvent reports and leaves behind, event code by event code. */
module EventDispatchFacts {
  import opened Base
  import opened Errors
  import opened Registers
  import opened Hwbp
  import opened TargetOs
  import opened ThreadStates
  import opened Session
  import opened HwBreakpoints
  import opened ModuleInfos
  import opened Deferred
  import opened Text
  import opened Resolution
  import opened RipRewind
  import opened Resume
  import opened Stepping
  import opened HwStep
  import opened DebugEvents
  import opened BreakpointEvent
  import opened BreakpointEventFacts
  import opened EventDispatch

  /** The slot scan from `i` finds a hit exactly when some slot from `i` on holds the address. */
  lemma {:induction false} HitFromExists(slots: Slots, address: u64, i: nat)
    requires i <= 4
    ensures HitFrom(slots, address, i) <==> exists j :: i <= j < 4 && slots[j].address == address
    decreases 4 - i
  {
    if i < 4 && slots[i].address != address {
      HitFromExists(slots, address, i + 1);
      assert (exists j :: i + 1 <= j < 4 && slots[j].address == address)
         <==> (exists j :: i <= j < 4 && slots[j].address == address);
    }
  }

  /** A single step is a hardware breakpoint hit exactly when one of the four slots holds its address. */
  lemma IsHwbpHitIff(slots: Slots, address: u64)
    ensures IsHwbpHit(slots, address) <==> exists j :: 0 <= j < 4 && slots[j].address == address
  {
    HitFromExists(slots, address, 0);
  }

  /** Whether a slot is enabled plays no part in the hit test. */
  lemma HitIgnoresEnabled(slots: Slots, address: u64, i: nat, enabled: bool)
    requires i < 4
    ensures IsHwbpHit(slots[i := slots[i].(enabled := enabled)], address) == IsHwbpHit(slots, address)
  {
    var other: Slots := slots[i := slots[i].(enabled := enabled)];
    IsHwbpHitIff(slots, address);
    IsHwbpHitIff(other, address);
    assert forall j :: 0 <= j < 4 ==> other[j].address == slots[j].address;
  }

  /** A slot cleared by ClearHWBP keeps its address, so single steps there still count as hits. */
  lemma ClearedSlotStillHits(s: Session, index: int, address: u64)
    requires 0 <= index < 4
    ensures IsHwbpHit(SlotCleared(s, index).breakpoints, address) == IsHwbpHit(s.breakpoints, address)
  {
    HitIgnoresEnabled(s.breakpoints, address, index, false);
  }

  /** The callbacks invoked, in order, when the callback for `id` is the only one considered. */
  function CallsFor(s: Session, id: CallbackId): (calls: seq<CallbackId>)
    ensures |calls| <= 1
  {
    if Registered(CallbackFor(s, id)) then [id] else []
  }

  /** The status reported by a handler that starts from DBG_CONTINUE and offers the event to the callback for `id`. */
  function StatusFor(s: Session, env: Env, id: CallbackId): ContinueStatus {
    if Registered(CallbackFor(s, id)) then env.respond(id, Continue).status else Continue
  }

  /** The event codes whose handler does nothing but offer the event to one callback. */
  function NotifiedBy(kind: EventKind): (id: Option<CallbackId>)
  {
    match kind
    case ExceptionEvent(AccessViolationCode, _, _) => Some(AccessViolation)
    case OutputDebugStringEvent => Some(OutputDebugString)
    case CreateProcessEvent => Some(CreateProcess)
    case ExitProcessEvent => Some(ExitProcess)
    case UnloadDllEvent => Some(UnloadDll)
    case _ => None
  }

  /** The release of a clean cache flushes nothing: the outcome is the handler's. */
  lemma FinishClean(handled: Exec<World, ContinueStatus>)
    requires !handled.state.thread.dirty
    ensures var w := handled.state;
      var o := Outcome(w.session, w.os, w.calls, w.notices);
      Finish(handled) == if handled.Done? then Done(o, handled.value) else Raised(o, handled.error)
  {
  }

  /** The release of a dirty, read cache of a live thread publishes the cached registers to the thread. */
  lemma FinishPublishes(handled: Exec<World, ContinueStatus>)
    requires var t := handled.state.thread;
      t.dirty && t.contextRead && t.handle == ThreadHandle(t.threadId) && t.threadId in handled.state.os.threads
    ensures var w := handled.state;
      var o := Outcome(w.session, w.os.(threads := w.os.threads[w.thread.threadId := w.thread.ctx]), w.calls, w.notices);
      Finish(handled) == if handled.Done? then Done(o, handled.value) else Raised(o, handled.error)
  {
    FlushPublishes(handled.state.thread, handled.state.os);
  }

  /** The world a debug event starts from: a fresh cache of the event thread, no callbacks, no notices. */
  function Start(s: Session, os: Os, ev: DebugEvent): (w: World)
    ensures w.session == s && w.os == os && w.thread == FromId(ev.tid) && w.calls == [] && w.notices == []
  {
    World(s, FromId(ev.tid), os, [], [])
  }

  /** A handler that only offers the event to the callback for `id` leaves everything else as it found it. */
  lemma NotifiedEffect(w: World, env: Env, id: CallbackId)
    ensures Notified(w, env, id) == Done(w.(calls := w.calls + CallsFor(w.session, id)), StatusFor(w.session, env, id))
  {
  }

  /** A clean cache and a handler that only offers the event to one callback: nothing is flushed. */
  lemma FinishNotified(w: World, env: Env, id: CallbackId)
    requires !w.thread.dirty
    ensures Finish(Notified(w, env, id))
         == Done(Outcome(w.session, w.os, w.calls + CallsFor(w.session, id), w.notices), StatusFor(w.session, env, id))
  {
    NotifiedEffect(w, env, id);
    FinishClean(Notified(w, env, id));
  }

  /**
   Access violations, debug strings, process creation and exit, and DLL unloads
   change nothing; their callback is invoked exactly when registered, and its
   status is reported, DBG_CONTINUE without one.
   */
  lemma NotifyingEvents(s: Session, os: Os, ev: DebugEvent, env: Env)
    requires NotifiedBy(ev.kind).Some?
    ensures var id := NotifiedBy(ev.kind).value;
      HandleDebugEvent(s, os, ev, env) == Done(Outcome(s, os, CallsFor(s, id), []), StatusFor(s, env, id))
  {
    var w := Start(s, os, ev);
    var id := NotifiedBy(ev.kind).value;
    assert HandleDebugEvent(s, os, ev, env) == Finish(Notified(w, env, id));
    FinishNotified(w, env, id);
    assert w.calls + CallsFor(s, id) == CallsFor(s, id);
  }

  /**
   Thread exits, RIP events and unknown event codes are continued without any
   callback, EXIT_THREAD's included.
   */
  lemma QuietEvents(s: Session, os: Os, ev: DebugEvent, env: Env)
    requires ev.kind.ExitThreadEvent? || ev.kind.RipDebugEvent? || ev.kind.UnknownEvent?
    ensures HandleDebugEvent(s, os, ev, env) == Done(Outcome(s, os, [], []), Continue)
  {
    var w := Start(s, os, ev);
    assert HandleEvent(w, env, ev.kind) == Done(w, Continue);
    FinishClean(Done(w, Continue));
  }

  /** An exception with any other code is passed back to the target on first chance and continued on the last. */
  lemma OtherExceptions(s: Session, os: Os, ev: DebugEvent, env: Env)
    requires ev.kind.ExceptionEvent? && ev.kind.code.OtherCode?
    ensures HandleDebugEvent(s, os, ev, env)
         == Done(Outcome(s, os, [], []), if ev.kind.firstChance then ExceptionNotHandled else Continue)
    ensures HandleDebugEvent(s, os, ev, env).value == ExceptionNotHandled <==> ev.kind.firstChance
  {
    var w := Start(s, os, ev);
    var status := if ev.kind.firstChance then ExceptionNotHandled else Continue;
    assert HandleEvent(w, env, ev.kind) == Done(w, status);
    FinishClean(Done(w, status));
  }

  /** The event cache of a live thread after the hardware breakpoints are written through it. */
  function Imaged(tid: ThreadId, os: Os, hw: RegisterState): (t: ThreadState)
    requires tid in os.threads
    ensures t.dirty && t.contextRead && t.handle == ThreadHandle(tid) && t.threadId == tid
  {
    FromId(tid).(handle := ThreadHandle(tid), ctx := DebugImage(os.threads[tid], hw), contextRead := true,
                 ownThreadHandle := true, dirty := true)
  }

  /** Writing the hardware breakpoints through a fresh cache of a live thread reads the thread and stores the image in the cache. */
  lemma FreshCacheTakesImage(s: Session, os: Os, tid: ThreadId)
    requires tid in os.threads
    ensures WriteBreakpointsToThread(s, FromId(tid), os) == Done(Imaged(tid, os, s.hwbpState), ())
  {
    var pulled := FromId(tid).(handle := ThreadHandle(tid), ctx := os.threads[tid], contextRead := true, ownThreadHandle := true);
    assert EnsureRead(FromId(tid), os) == Done(pulled, ());
    var written := WriteBreakpointsToThread(s, FromId(tid), os);
    assert written.state == pulled.(ctx := DebugImage(os.threads[tid], s.hwbpState), dirty := true);
    assert written.state == Imaged(tid, os, s.hwbpState);
    assert written.Done? && written.value == ();
  }

  /** The thread-creation handler on a fresh cache of a live thread: the image in the cache, then THREAD_CREATE. */
  lemma CreateThreadHandled(w: World, env: Env)
    requires w.thread == FromId(w.thread.threadId) && w.thread.threadId in w.os.threads
    ensures HandleCreateThreadEvent(w, env)
         == Done(w.(thread := Imaged(w.thread.threadId, w.os, w.session.hwbpState), calls := w.calls + CallsFor(w.session, ThreadCreate)),
                 StatusFor(w.session, env, ThreadCreate))
  {
    FreshCacheTakesImage(w.session, w.os, w.thread.threadId);
    NotifiedEffect(w.(thread := Imaged(w.thread.threadId, w.os, w.session.hwbpState)), env, ThreadCreate);
  }

  /** The release after the thread-creation handler on a fresh cache of a live thread publishes the image to the thread. */
  lemma CreateThreadFinish(w: World, env: Env)
    requires w.thread == FromId(w.thread.threadId) && w.thread.threadId in w.os.threads
    ensures var tid := w.thread.threadId;
      Finish(HandleCreateThreadEvent(w, env))
        == Done(Outcome(w.session, w.os.(threads := w.os.threads[tid := DebugImage(w.os.threads[tid], w.session.hwbpState)]),
                        w.calls + CallsFor(w.session, ThreadCreate), w.notices), StatusFor(w.session, env, ThreadCreate))
  {
    var handled := HandleCreateThreadEvent(w, env);
    CreateThreadHandled(w, env);
    var w1 := w.(thread := Imaged(w.thread.threadId, w.os, w.session.hwbpState), calls := w.calls + CallsFor(w.session, ThreadCreate));
    assert handled.Done? && handled.state == w1;
    FinishPublishes(handled);
  }

  /**
   A new live thread ends holding the hardware breakpoints of the image, through
   the release of the event's cache; THREAD_CREATE is invoked exactly when
   registered and its status reported.
   */
  lemma CreateThreadPublishes(s: Session, os: Os, ev: DebugEvent, env: Env)
    requires ev.kind.CreateThreadEvent? && ev.tid in os.threads
    ensures HandleDebugEvent(s, os, ev, env)
         == Done(Outcome(s, os.(threads := os.threads[ev.tid := DebugImage(os.threads[ev.tid], s.hwbpState)]),
                         CallsFor(s, ThreadCreate), []), StatusFor(s, env, ThreadCreate))
  {
    var w := Start(s, os, ev);
    assert HandleDebugEvent(s, os, ev, env) == Finish(HandleCreateThreadEvent(w, env));
    CreateThreadFinish(w, env);
    assert w.calls + CallsFor(s, ThreadCreate) == CallsFor(s, ThreadCreate);
  }

  /** A thread that is gone by the time its creation is handled makes the handler throw before any callback. */
  lemma CreateThreadExited(s: Session, os: Os, ev: DebugEvent, env: Env)
    requires ev.kind.CreateThreadEvent? && ev.tid !in os.threads
    ensures HandleDebugEvent(s, os, ev, env).Raised?
    ensures HandleDebugEvent(s, os, ev, env).error == GetThreadContextFailure
    ensures HandleDebugEvent(s, os, ev, env).state == Outcome(s, os, [], [])
  {
    var w := Start(s, os, ev);
    assert HandleEvent(w, env, ev.kind) == HandleCreateThreadEvent(w, env);
    FinishClean(HandleCreateThreadEvent(w, env));
  }

  /** A single step away from every slot's address only offers the event to SINGLE_STEP. */
  lemma SingleStepMiss(s: Session, os: Os, ev: DebugEvent, env: Env)
    requires ev.kind.ExceptionEvent? && ev.kind.code.SingleStepCode?
    requires !IsHwbpHit(s.breakpoints, ev.kind.address)
    ensures HandleDebugEvent(s, os, ev, env) == Done(Outcome(s, os, CallsFor(s, SingleStep), []), StatusFor(s, env, SingleStep))
  {
    var w := Start(s, os, ev);
    assert HandleSingleStep(w, env, ev.kind.address) == Notified(w, env, SingleStep);
    assert HandleDebugEvent(s, os, ev, env) == Finish(Notified(w, env, SingleStep));
    FinishNotified(w, env, SingleStep);
    assert w.calls + CallsFor(s, SingleStep) == CallsFor(s, SingleStep);
  }

  /** The single-step handler at a slot's address on a fresh cache: SINGLE_STEP, then the step past the breakpoint. */
  lemma SingleStepHandled(w: World, env: Env, address: u64)
    requires IsHwbpHit(w.session.breakpoints, address)
    requires w.thread == FromId(w.thread.threadId) && w.thread.threadId in w.os.threads
    ensures var stepped := StepPastHwbp(w.thread, w.os, env.step);
      HandleSingleStep(w, env, address)
        == (if stepped.Raised? then Raised(w.(thread := stepped.state.0, os := stepped.state.1, calls := w.calls + CallsFor(w.session, SingleStep)), stepped.error)
            else Done(w.(thread := stepped.state.0, os := stepped.state.1, calls := w.calls + CallsFor(w.session, SingleStep)),
                      StatusFor(w.session, env, SingleStep)))
  {
  }

  /**
   The release after a hardware-breakpoint step on a fresh cache flushes nothing
   more: after the single step the step has published its registers, and after
   any other event the assert has failed with the cache invalidated.
   */
  lemma SingleStepFinish(w: World, env: Env, address: u64)
    requires IsHwbpHit(w.session.breakpoints, address)
    requires w.thread == FromId(w.thread.threadId) && w.thread.threadId in w.os.threads
    requires w.thread.threadId in env.step(SteppingState(w.os, w.thread.threadId)).os.threads
    ensures var tid := w.thread.threadId;
      var rep := env.step(SteppingState(w.os, tid));
      var final := LeftStep(rep.os.threads[tid], LowDword(Read(w.os.threads[tid], Dr7)));
      && (IsSingleStep(rep) ==>
            Finish(HandleSingleStep(w, env, address))
              == Done(Outcome(w.session, rep.os.(threads := rep.os.threads[tid := final]), w.calls + CallsFor(w.session, SingleStep), w.notices),
                      StatusFor(w.session, env, SingleStep)))
      && (!IsSingleStep(rep) ==>
            Finish(HandleSingleStep(w, env, address))
              == Raised(Outcome(w.session, rep.os, w.calls + CallsFor(w.session, SingleStep), w.notices), AssertionFailed))
  {
    if IsSingleStep(env.step(SteppingState(w.os, w.thread.threadId))) {
      SingleStepFinishStepped(w, env, address);
    } else {
      SingleStepFinishInterrupted(w, env, address);
    }
  }

  lemma SingleStepFinishStepped(w: World, env: Env, address: u64)
    requires IsHwbpHit(w.session.breakpoints, address)
    requires w.thread == FromId(w.thread.threadId) && w.thread.threadId in w.os.threads
    requires w.thread.threadId in env.step(SteppingState(w.os, w.thread.threadId)).os.threads
    requires IsSingleStep(env.step(SteppingState(w.os, w.thread.threadId)))
    ensures var tid := w.thread.threadId;
      var rep := env.step(SteppingState(w.os, tid));
      var final := LeftStep(rep.os.threads[tid], LowDword(Read(w.os.threads[tid], Dr7)));
      Finish(HandleSingleStep(w, env, address))
        == Done(Outcome(w.session, rep.os.(threads := rep.os.threads[tid := final]), w.calls + CallsFor(w.session, SingleStep), w.notices),
                StatusFor(w.session, env, SingleStep))
  {
    StepPastHwbpEffect(w.thread, w.os, env.step);
    SingleStepHandled(w, env, address);
    var handled := HandleSingleStep(w, env, address);
    assert handled.Done? && !handled.state.thread.dirty;
    FinishClean(handled);
  }

  lemma SingleStepFinishInterrupted(w: World, env: Env, address: u64)
    requires IsHwbpHit(w.session.breakpoints, address)
    requires w.thread == FromId(w.thread.threadId) && w.thread.threadId in w.os.threads
    requires w.thread.threadId in env.step(SteppingState(w.os, w.thread.threadId)).os.threads
    requires !IsSingleStep(env.step(SteppingState(w.os, w.thread.threadId)))
    ensures var rep := env.step(SteppingState(w.os, w.thread.threadId));
      Finish(HandleSingleStep(w, env, address))
        == Raised(Outcome(w.session, rep.os, w.calls + CallsFor(w.session, SingleStep), w.notices), AssertionFailed)
  {
    StepPastHwbpInterrupted(w.thread, w.os, env.step);
    SingleStepHandled(w, env, address);
    var handled := HandleSingleStep(w, env, address);
    assert handled.Raised? && handled.error == AssertionFailed;
    assert !handled.state.thread.dirty;
    FinishClean(handled);
  }

  /**
   A single step at a slot's address, on a live thread that survives the step:
   after SINGLE_STEP the thread is stepped with the local enables cleared. When
   the next event is the single step, it ends with the trap flag cleared, the
   resume flag set and the DR7 DWORD it had, and the callback's status is
   reported; when it is any other event, the assert after WaitForDebugEvent
   fails.
   */
  lemma SingleStepHit(s: Session, os: Os, ev: DebugEvent, env: Env)
    requires ev.kind.ExceptionEvent? && ev.kind.code.SingleStepCode?
    requires IsHwbpHit(s.breakpoints, ev.kind.address)
    requires ev.tid in os.threads && ev.tid in env.step(SteppingState(os, ev.tid)).os.threads
    ensures var rep := env.step(SteppingState(os, ev.tid));
      var final := LeftStep(rep.os.threads[ev.tid], LowDword(Read(os.threads[ev.tid], Dr7)));
      && (IsSingleStep(rep) ==>
            HandleDebugEvent(s, os, ev, env)
              == Done(Outcome(s, rep.os.(threads := rep.os.threads[ev.tid := final]), CallsFor(s, SingleStep), []),
                      StatusFor(s, env, SingleStep)))
      && (!IsSingleStep(rep) ==>
            HandleDebugEvent(s, os, ev, env) == Raised(Outcome(s, rep.os, CallsFor(s, SingleStep), []), AssertionFailed))
  {
    var w := Start(s, os, ev);
    assert HandleDebugEvent(s, os, ev, env) == Finish(HandleSingleStep(w, env, ev.kind.address));
    SingleStepFinish(w, env, ev.kind.address);
    assert w.calls + CallsFor(s, SingleStep) == CallsFor(s, SingleStep);
  }

  /** A module load whose path could not be read only offers the event to LOAD_DLL. */
  lemma LoadDllWithoutPath(s: Session, os: Os, ev: DebugEvent, env: Env)
    requires ev.kind.LoadDllEvent? && ev.kind.imagePath.None?
    ensures HandleDebugEvent(s, os, ev, env) == Done(Outcome(s, os, CallsFor(s, LoadDll), []), StatusFor(s, env, LoadDll))
  {
    var w := Start(s, os, ev);
    var none: seq<Notice> := [];
    assert none + none == none;
    assert w.(session := w.session, os := w.os, notices := none + none) == w;
    assert HandleDebugEvent(s, os, ev, env) == Finish(Notified(w, env, LoadDll));
    FinishNotified(w, env, LoadDll);
    assert w.calls + CallsFor(s, LoadDll) == CallsFor(s, LoadDll);
  }

  /**
   A module load with a path records the module and resolves the deferred
   breakpoints against that path, keeping the notices of that resolution; then
   LOAD_DLL is offered the event.
   */
  lemma LoadDllResolves(s: Session, os: Os, ev: DebugEvent, env: Env)
    requires ev.kind.LoadDllEvent? && ev.kind.imagePath.Some?
    requires ModuleLoadedAsWritten(s, os, ev.kind.imagePath.value, ev.kind.imageBase).Done?
    ensures var loaded := ModuleLoadedAsWritten(s, os, ev.kind.imagePath.value, ev.kind.imageBase).state;
      HandleDebugEvent(s, os, ev, env)
        == Done(Outcome(loaded.session, loaded.os, CallsFor(s, LoadDll), loaded.notices), StatusFor(s, env, LoadDll))
  {
    var w := Start(s, os, ev);
    var loaded := ModuleLoadedAsWritten(s, os, ev.kind.imagePath.value, ev.kind.imageBase).state;
    var none: seq<Notice> := [];
    assert none + loaded.notices == loaded.notices;
    var w1 := w.(session := loaded.session, os := loaded.os, notices := loaded.notices);
    assert CallbackFor(w1.session, LoadDll) == CallbackFor(s, LoadDll);
    assert HandleDebugEvent(s, os, ev, env) == Finish(Notified(w1, env, LoadDll));
    FinishNotified(w1, env, LoadDll);
    assert w1.calls + CallsFor(s, LoadDll) == CallsFor(s, LoadDll);
  }

  /**
   A load throws before LOAD_DLL is invoked when the ModuleInfo constructor
   rejects the path (out_of_range) or the resolution runs out of hardware slots.
   */
  lemma LoadDllThrows(s: Session, os: Os, ev: DebugEvent, env: Env)
    requires ev.kind.LoadDllEvent? && ev.kind.imagePath.Some?
    requires ModuleLoadedAsWritten(s, os, ev.kind.imagePath.value, ev.kind.imageBase).Raised?
    ensures HandleDebugEvent(s, os, ev, env).Raised?
    ensures HandleDebugEvent(s, os, ev, env).error
         == if FromPathAsWritten(ev.kind.imageBase, ev.kind.imagePath.value).Err? then OutOfRange else SlotsExhausted
    ensures HandleDebugEvent(s, os, ev, env).state.calls == []
  {
  }

  /**
   The load of a module from the normalized path `\\?\<dir>\<file>`, with one
   hardware breakpoint queued under its file name: the event completes, sets no
   breakpoint and announces nothing.
   */
  lemma LoadDllByPathMisses(s: Session, os: Os, ev: DebugEvent, env: Env, b: DeferredHwbp, dir: string, file: string)
    requires ev.kind.LoadDllEvent? && ev.kind.imagePath == Some(LONG_PATH_PREFIX + dir + "\\" + file)
    requires NoBackslash(file) && EqualsIgnoringCase(file, b.moduleName)
    requires s.deferredHwbps == [b] && s.deferredSwbps == []
    ensures HandleDebugEvent(s, os, ev, env).Done?
    ensures HandleDebugEvent(s, os, ev, env).state.notices == []
    ensures HandleDebugEvent(s, os, ev, env).state.session.breakpoints == s.breakpoints
  {
    var path := LONG_PATH_PREFIX + dir + "\\" + file;
    LoadByPathMissesQueuedName(s, os, b, dir, file, ev.kind.imageBase);
    assert path[0] == '\\';
    NoBackslashMatches(file, b.moduleName);
    AsWrittenIgnoresBareNames(s, os, path, ev.kind.imageBase, 0);
    LoadDllResolves(s, os, ev, env);
  }

  /** The release after a foreign INT3 on a fresh cache of a live thread publishes the rewound RIP and the image. */
  lemma ForeignInt3Finish(w: World, env: Env, address: u64)
    requires w.session.firstBreakpointHit && address != w.session.entryPoint && !Registered(CallbackFor(w.session, Breakpoint))
    requires w.thread == FromId(w.thread.threadId) && w.thread.threadId in w.os.threads
    requires Rewind(w.thread, w.os).Done? && RewoundAddress(w.thread, w.os) !in w.session.swbps
    ensures var tid := w.thread.threadId;
      Finish(HandleBreakpointEvent(w, env, address))
        == Done(Outcome(w.session, w.os.(threads := w.os.threads[tid := DebugImage(RewoundContext(w.os.threads[tid]), w.session.hwbpState)]),
                        w.calls, w.notices), Continue)
  {
    var tid := w.thread.threadId;
    ForeignInt3(w, env, address);
    RewindEffect(w.thread, w.os);
    var pulled := FromId(tid).(handle := ThreadHandle(tid), ctx := w.os.threads[tid], contextRead := true, ownThreadHandle := true);
    assert EnsureRead(w.thread, w.os) == Done(pulled, ());
    var u := Rewound(pulled);
    assert Rewind(w.thread, w.os).state == u;
    var handled := HandleBreakpointEvent(w, env, address);
    assert handled.Done? && handled.state.thread == u.(ctx := DebugImage(u.ctx, w.session.hwbpState), dirty := true);
    FinishPublishes(handled);
  }

  /**
   An INT3 that is not the debugger's, after the first breakpoint, away from the
   entry point and with no BREAKPOINT callback, on a live thread: the thread
   ends with RIP moved back by one and the hardware breakpoints of the image,
   and the event is continued.
   */
  lemma ForeignInt3Published(s: Session, os: Os, ev: DebugEvent, env: Env)
    requires ev.kind.ExceptionEvent? && ev.kind.code.BreakpointCode?
    requires s.firstBreakpointHit && ev.kind.address != s.entryPoint && !Registered(CallbackFor(s, Breakpoint))
    requires ev.tid in os.threads
    requires Rewind(FromId(ev.tid), os).Done? && RewoundAddress(FromId(ev.tid), os) !in s.swbps
    ensures HandleDebugEvent(s, os, ev, env)
         == Done(Outcome(s, os.(threads := os.threads[ev.tid := DebugImage(RewoundContext(os.threads[ev.tid]), s.hwbpState)]), [], []),
                 Continue)
  {
    var w := Start(s, os, ev);
    assert HandleDebugEvent(s, os, ev, env) == Finish(HandleBreakpointEvent(w, env, ev.kind.address));
    ForeignInt3Finish(w, env, ev.kind.address);
  }

  /**
   The first-breakpoint flag only goes from clear to set: no event clears it,
   and a completed breakpoint event leaves it set.
   */
  lemma FirstBreakpointFlag(s: Session, os: Os, ev: DebugEvent, env: Env)
    ensures s.firstBreakpointHit ==> HandleDebugEvent(s, os, ev, env).state.session.firstBreakpointHit
    ensures (ev.kind.ExceptionEvent? && ev.kind.code.BreakpointCode? && HandleDebugEvent(s, os, ev, env).Done?)
              ==> HandleDebugEvent(s, os, ev, env).state.session.firstBreakpointHit
  {
    var w := World(s, FromId(ev.tid), os, [], []);
    match ev.kind {
      case ExceptionEvent(code, address, _) =>
        if code.BreakpointCode? {
          BreakpointFlagOneWay(w, env, address);
        }
      case LoadDllEvent(base, path) =>
        if path.Some? {
          assert ModuleLoadedAsWritten(s, os, path.value, base).state.session.firstBreakpointHit == s.firstBreakpointHit;
        }
      case _ =>
    }
  }
}

=== FILE: debug_events.dfy ===
/**
 Debug events as the event loop hands them to HandleDebugEvent, the parts of
 the harness and the OS the handlers consult, and the state they work on.
 */
module DebugEvents {
  import opened Base
  import opened Errors
  import opened TargetOs
  import opened ThreadStates
  import opened Session
  import opened Resolution
  import opened MainModules
  import opened Stepping

  /** The exception codes the handler tells apart; every other code is `OtherCode`. */
  datatype ExceptionCode =
    | AccessViolationCode
    | SingleStepCode
    | BreakpointCode
    | OtherCode(code: nat)

  /**
   The debug event codes, with the fields the handlers read. A LOAD_DLL event
   carries the normalized image path when the event has a file handle and the
   path could be read from it, and None otherwise.
   */
  datatype EventKind =
    | ExceptionEvent(code: ExceptionCode, address: u64, firstChance: bool)
    | CreateThreadEvent
    | LoadDllEvent(imageBase: u64, imagePath: Option<string>)
    | ExitThreadEvent
    | OutputDebugStringEvent
    | CreateProcessEvent
    | ExitProcessEvent
    | UnloadDllEvent
    | RipDebugEvent
    | UnknownEvent(eventCode: nat)

  /** DEBUG_EVENT: the thread it is reported on and what happened. */
  datatype DebugEvent = DebugEvent(tid: ThreadId, kind: EventKind)

  /**
   What the handlers learn from outside the debugger object: the replies of the
   harness's callbacks, one instruction of the target (the ContinueDebugEvent and
   WaitForDebugEvent pair of a single step), the target's modules and threads in
   Toolhelp snapshot order, and the entry point offset of the main module's PE
   header.
   */
  datatype Env = Env(
    respond: Responder,
    step: Os -> StepReport,
    modules: seq<ModuleEntry>,
    entryOffset: u64,
    processThreads: seq<ThreadId>)

  /**
   The state a handler works on: the debugger object, the event thread's
   register cache, the target, the callbacks invoked so far and the resolution
   notices produced so far.
   */
  datatype World = World(session: Session, thread: ThreadState, os: Os, calls: seq<CallbackId>, notices: seq<Notice>)

  /** What HandleDebugEvent leaves once the event thread's cache is released. */
  datatype Outcome = Outcome(session: Session, os: Os, calls: seq<CallbackId>, notices: seq<Notice>)

  /**
   Invoke the callback registered for `id`, handing it the continue status so
   far. Without one, the status is kept and the result is BP_HANDLE, the
   default HandleBreakpointEvent starts from.
   */
  function Notify(w: World, env: Env, id: CallbackId, status: ContinueStatus): (r: (World, Reply))
    ensures r.0 == w.(calls := r.0.calls)
    ensures r.0.calls == w.calls + (if Registered(CallbackFor(w.session, id)) then [id] else [])
  {
    if Registered(CallbackFor(w.session, id)) then (w.(calls := w.calls + [id]), env.respond(id, status))
    else (w, Reply(BpHandle, status))
  }

  /** Without a registered callback nothing is invoked, the status is kept and the default result is BP_HANDLE. */
  lemma NotifyUnregistered(w: World, env: Env, id: CallbackId, status: ContinueStatus)
    requires !Registered(CallbackFor(w.session, id))
    ensures Notify(w, env, id, status) == (w, Reply(BpHandle, status))
  {
  }

  /** A registered callback's reply decides the result and the status. */
  lemma NotifyRegistered(w: World, env: Env, id: CallbackId, status: ContinueStatus)
    requires Registered(CallbackFor(w.session, id))
    ensures Notify(w, env, id, status).1 == env.respond(id, status)
  {
  }
}

=== FILE: deferred.dfy ===
/**
 Breakpoints requested in a module that may not be loaded yet (DeferredHWBP and
 DeferredSWBP): a module name, an offset into the module, and, once the module's
 base is known, the absolute address `base + offset` with `SIZE_T` wrap-around.
 */
module Deferred {
  import opened Base
  import opened Text
  import opened Hwbp

  /** A deferred hardware breakpoint: the descriptor to install once resolved. */
  datatype DeferredHwbp = DeferredHwbp(moduleName: string, offset: u64, descriptor: Descriptor, resolved: bool)

  /** A deferred software breakpoint: the address to patch once resolved. */
  datatype DeferredSwbp = DeferredSwbp(moduleName: string, offset: u64, address: u64, resolved: bool)

  /** `(SIZE_T)-1`, the address a deferred hardware breakpoint holds until resolved. */
  const UNRESOLVED_ADDRESS: u64 := QWORD_MOD - 1

  /**
   The DeferredHWBP constructor. The name is copied into a MAX_PATH buffer by
   `strncpy_s`, which aborts on a name that does not fit, so the caller must pass
   one that does.
   */
  function NewDeferredHwbp(name: string, offset: u64, condition: Condition, len: Length): (b: DeferredHwbp)
    requires FitsMaxPath(name)
    ensures b.moduleName == name && b.offset == offset && !b.resolved
    ensures b.descriptor.address == UNRESOLVED_ADDRESS && b.descriptor.enabled
    ensures b.descriptor.condition == condition && b.descriptor.len == len
  {
    DeferredHwbp(name, offset, Descriptor(UNRESOLVED_ADDRESS, condition, len, true), false)
  }

  /** The DeferredSWBP constructor, with the same requirement on the name. */
  function NewDeferredSwbp(name: string, offset: u64): (b: DeferredSwbp)
    requires FitsMaxPath(name)
    ensures b.moduleName == name && b.offset == offset && b.address == 0 && !b.resolved
  {
    DeferredSwbp(name, offset, 0, false)
  }

  /**
   DeferredHWBP::resolve: the address the breakpoint lands on in a module loaded at
   `base`, recorded in the descriptor, which is otherwise unchanged.
   */
  function ResolveHwbp(b: DeferredHwbp, base: u64): (r: (DeferredHwbp, u64))
    ensures (r.1 - base - b.offset) % QWORD_MOD == 0
    ensures r.0.resolved && r.0.descriptor.address == r.1
    ensures r.0.moduleName == b.moduleName && r.0.offset == b.offset
    ensures r.0.descriptor.condition == b.descriptor.condition
    ensures r.0.descriptor.len == b.descriptor.len
    ensures r.0.descriptor.enabled == b.descriptor.enabled
  {
    var a := WrapAdd(base, b.offset);
    (b.(resolved := true, descriptor := b.descriptor.(address := a)), a)
  }

  /** DeferredSWBP::resolve. */
  function ResolveSwbp(b: DeferredSwbp, base: u64): (r: (DeferredSwbp, u64))
    ensures (r.1 - base - b.offset) % QWORD_MOD == 0
    ensures r.0.resolved && r.0.address == r.1
    ensures r.0.moduleName == b.moduleName && r.0.offset == b.offset
  {
    var a := WrapAdd(base, b.offset);
    (b.(resolved := true, address := a), a)
  }

  /** Subtracting the base from a resolved address gives back the offset. */
  lemma ResolvedAddressRecoversOffset(b: DeferredHwbp, s: DeferredSwbp, base: u64)
    ensures WrapSub(ResolveHwbp(b, base).1, base) == b.offset
    ensures WrapSub(ResolveSwbp(s, base).1, base) == s.offset
  {
  }

  /** The resolved address does not depend on earlier resolutions: resolving again with the same base changes nothing. */
  lemma ResolveIdempotent(b: DeferredHwbp, s: DeferredSwbp, base: u64)
    ensures ResolveHwbp(ResolveHwbp(b, base).0, base) == ResolveHwbp(b, base)
    ensures ResolveSwbp(ResolveSwbp(s, base).0, base) == ResolveSwbp(s, base)
  {
  }

  /** Resolving against a new base replaces the earlier address: only the last base counts. */
  lemma ResolveLastBaseWins(b: DeferredHwbp, s: DeferredSwbp, base1: u64, base2: u64)
    ensures ResolveHwbp(ResolveHwbp(b, base1).0, base2) == ResolveHwbp(b, base2)
    ensures ResolveSwbp(ResolveSwbp(s, base1).0, base2) == ResolveSwbp(s, base2)
  {
  }
}

=== FILE: dword_edit_facts.dfy ===
/** What the two-register update does to a thread's cache. */
module DwordEditFacts {
  import opened Base
  import opened Errors
  import opened Registers
  import opened TargetOs
  import opened ThreadStates
  import opened DwordEdits

  /** On a read cache the update succeeds and returns the value `a` held. */
  lemma EditTwoValueOnReadCache(t: ThreadState, os: Os, a: Reg, f: bv64 -> bv64, b: Reg, g: bv64 -> bv64)
    requires t.contextRead
    ensures EditTwo(t, os, a, f, b, g).Done? && EditTwo(t, os, a, f, b, g).value == Read(t.ctx, a)
  {
  }

  /** On a read cache both stores land in the cache, which turns dirty. */
  lemma EditTwoStateOnReadCache(t: ThreadState, os: Os, a: Reg, f: bv64 -> bv64, b: Reg, g: bv64 -> bv64)
    requires t.contextRead
    ensures EditTwo(t, os, a, f, b, g).state == t.(ctx := TwoEdited(t.ctx, a, f, b, g), dirty := true)
  {
  }

  /** On a read cache both stores land in the cache, which turns dirty, and the first value is returned. */
  lemma EditTwoOnReadCache(t: ThreadState, os: Os, a: Reg, f: bv64 -> bv64, b: Reg, g: bv64 -> bv64)
    requires t.contextRead
    ensures EditTwo(t, os, a, f, b, g) == Done(t.(ctx := TwoEdited(t.ctx, a, f, b, g), dirty := true), Read(t.ctx, a))
  {
    EditTwoValueOnReadCache(t, os, a, f, b, g);
    EditTwoStateOnReadCache(t, os, a, f, b, g);
  }

  /** The update reads the thread first; the rest happens on the read cache. */
  lemma EditTwoReadsFirst(t: ThreadState, os: Os, a: Reg, f: bv64 -> bv64, b: Reg, g: bv64 -> bv64)
    requires EnsureRead(t, os).Done?
    ensures EditTwo(t, os, a, f, b, g) == EditTwo(EnsureRead(t, os).state, os, a, f, b, g)
  {
  }

  /** A thread that cannot be read fails the update as the read fails, with nothing stored. */
  lemma EditTwoFails(t: ThreadState, os: Os, a: Reg, f: bv64 -> bv64, b: Reg, g: bv64 -> bv64)
    requires EnsureRead(t, os).Raised?
    ensures EditTwo(t, os, a, f, b, g) == Raised(EnsureRead(t, os).state, GetThreadContextFailure)
  {
  }

  /** On a read cache the edit and the store land in the cache, which turns dirty. */
  lemma EditThenStoreOnReadCache(t: ThreadState, os: Os, a: Reg, f: bv64 -> bv64, b: Reg, v: bv64)
    requires t.contextRead
    ensures EditThenStore(t, os, a, f, b, v) == Done(t.(ctx := EditedThenStored(t.ctx, a, f, b, v), dirty := true), ())
  {
    SetOnReadCache(t, os, a, f(Read(t.ctx, a)));
    SetOnReadCache(t.(ctx := Write(t.ctx, a, f(Read(t.ctx, a))), dirty := true), os, b, v);
  }

  /** The update reads the thread first; the rest happens on the read cache. */
  lemma EditThenStoreReadsFirst(t: ThreadState, os: Os, a: Reg, f: bv64 -> bv64, b: Reg, v: bv64)
    requires EnsureRead(t, os).Done?
    ensures EditThenStore(t, os, a, f, b, v) == EditThenStore(EnsureRead(t, os).state, os, a, f, b, v)
  {
  }
}

=== FILE: dword_edits.dfy ===
/**
 Register updates through a thread's cache that read registers, store edited
 values back, and keep the value first read. The edits are passed as functions,
 so the facts here hold for any edit; the DWORD edits of the single step
 (`(DWORD)GetRegisterValue(...)`, stored back zero-extended) are one kind.
 */
module DwordEdits {
  import opened Base
  import opened Errors
  import opened Registers
  import opened TargetOs
  import opened ThreadStates

  /** A DWORD edit applied to a register value: edit the low DWORD, zero-extend the result. */
  function OnDword(h: bv32 -> bv32, v: bv64): bv64 {
    h(LowDword(v)) as bv64
  }

  /** The same, as an edit of register values. */
  function DwordEdit(h: bv32 -> bv32): bv64 -> bv64 {
    v => OnDword(h, v)
  }

  /** The constant edit that stores the DWORD `w`. */
  function StoreDword(w: bv32): bv64 -> bv64 {
    v => OnDword(_ => w, v)
  }

  /** An edited DWORD read back as a DWORD is the edit of the DWORD, and its upper half is clear. */
  lemma DwordEditValue(h: bv32 -> bv32, v: bv64)
    ensures LowDword(DwordEdit(h)(v)) == h(LowDword(v))
    ensures DwordEdit(h)(v) & !0xFFFF_FFFF == 0
  {
    LowDwordOfDword(h(LowDword(v)));
    DwordUpperHalfClear(h(LowDword(v)));
  }

  /** Register `a` replaced by `f` of its value, then register `b` by `g` of its value as read before either store. */
  function TwoEdited(c: Context, a: Reg, f: bv64 -> bv64, b: Reg, g: bv64 -> bv64): Context {
    Write(Write(c, a, f(Read(c, a))), b, g(Read(c, b)))
  }

  /** A value that fits a register reads back as itself. */
  lemma FittingStoreReadsBack(c: Context, r: Reg, v: bv64)
    requires Width(r) >= 4 && v & !0xFFFF_FFFF == 0
    ensures Read(Write(c, r, v), r) == v
  {
    ReadAfterWrite(c, r, v);
    DwordSplit(v);
  }

  /** Both edits read back, from the values the registers held before, and nothing else changes. */
  lemma TwoEditedReadsBack(c: Context, a: Reg, f: bv64 -> bv64, b: Reg, g: bv64 -> bv64)
    requires a != b && Width(a) >= 4 && Width(b) >= 4
    requires f(Read(c, a)) & !0xFFFF_FFFF == 0 && g(Read(c, b)) & !0xFFFF_FFFF == 0
    ensures Read(TwoEdited(c, a, f, b, g), a) == f(Read(c, a))
    ensures Read(TwoEdited(c, a, f, b, g), b) == g(Read(c, b))
    ensures forall q :: q != a && q != b ==> Read(TwoEdited(c, a, f, b, g), q) == Read(c, q)
  {
    var c1 := Write(c, a, f(Read(c, a)));
    FittingStoreReadsBack(c, a, f(Read(c, a)));
    FittingStoreReadsBack(c1, b, g(Read(c, b)));
  }

  /**
   Read `a` and `b`, store `f` of the first into `a`, then `g` of the second
   into `b`. Returns the value first read from `a`.
   */
  function EditTwo(t: ThreadState, os: Os, a: Reg, f: bv64 -> bv64, b: Reg, g: bv64 -> bv64): (r: Exec<ThreadState, bv64>)
  {
    var ra := Get(t, os, Named(a));
    if ra.Raised? then Raised(ra.state, ra.error)
    else
      var rb := Get(ra.state, os, Named(b));
      if rb.Raised? then Raised(rb.state, rb.error)
      else
        var sa := Set(rb.state, os, Named(a), f(ra.value));
        if sa.Raised? then Raised(sa.state, sa.error)
        else
          var sb := Set(sa.state, os, Named(b), g(rb.value));
          if sb.Raised? then Raised(sb.state, sb.error)
          else Done(sb.state, ra.value)
  }

  /** Register `a` replaced by `f` of its value, then register `b` by `v`. */
  function EditedThenStored(c: Context, a: Reg, f: bv64 -> bv64, b: Reg, v: bv64): Context {
    Write(Write(c, a, f(Read(c, a))), b, v)
  }

  /** The edit and the store read back, and nothing else changes. */
  lemma EditedThenStoredReadsBack(c: Context, a: Reg, f: bv64 -> bv64, b: Reg, v: bv64)
    requires a != b && Width(a) >= 4 && Width(b) >= 4
    requires f(Read(c, a)) & !0xFFFF_FFFF == 0 && v & !0xFFFF_FFFF == 0
    ensures Read(EditedThenStored(c, a, f, b, v), a) == f(Read(c, a))
    ensures Read(EditedThenStored(c, a, f, b, v), b) == v
    ensures forall q :: q != a && q != b ==> Read(EditedThenStored(c, a, f, b, v), q) == Read(c, q)
  {
    var c1 := Write(c, a, f(Read(c, a)));
    FittingStoreReadsBack(c, a, f(Read(c, a)));
    FittingStoreReadsBack(c1, b, v);
  }

  /** Read `a`, store `f` of it, then store `v` into `b`. */
  function EditThenStore(t: ThreadState, os: Os, a: Reg, f: bv64 -> bv64, b: Reg, v: bv64): (r: Exec<ThreadState, ()>)
  {
    var ra := Get(t, os, Named(a));
    if ra.Raised? then Raised(ra.state, ra.error)
    else
      var sa := Set(ra.state, os, Named(a), f(ra.value));
      if sa.Raised? then sa
      else Set(sa.state, os, Named(b), v)
  }
}

=== FILE: errors.dfy ===
/**
 The exceptions the C++ code throws, as constructors of one error datatype,
 and the two result shapes used throughout the model.
 */
module Errors {

  datatype Error =
    // dexception.h
    | UnknownProtection
    | VirtualQueryFailed
    | VirtualAllocFailed
    | VirtualFreeFailed
    | VirtualProtectFailed
    | DuplicateHandleFailed
    | AttemptToRestoreUnTrackedThread
    | OpenThreadFailed
    | WriteProcessMemoryFailed
    | ReadProcessMemoryFailed
    | DebugActiveProcessFailed
    | OpenProcessFailed
    | SetThreadContextFailed
    // HwbpDescriptor.h
    | InvalidHWBPIndex
    // ThreadState.hpp
    | InvalidRegister
    | GetThreadContextFailure
    | SetThreadContextFailure
    // dedougger.hpp
    | ModuleNotFound
    | FunctionNotFound
    // a bare `throw std::exception()` (all hardware slots in use)
    | SlotsExhausted
    // std::out_of_range from std::string::substr
    | OutOfRange
    // the CRT's invalid-parameter handler, which ends the process (a null string given to _strcmpi)
    | InvalidParameter
    // an access violation in the debugger itself: a member read through a null pointer
    | NullDereference
    // a failed assert() in a debug build, which aborts the process
    | AssertionFailed

  /** The outcome of an operation that either returns a value or throws. */
  datatype Result<+T> = Ok(value: T) | Err(error: Error)

  /**
   The outcome of a member function that mutates its object: the object's state
   is kept whether the call returns or throws, because the C++ code does not roll
   back the assignments it made before the `throw`.
   */
  datatype Exec<+S, +T> = Done(state: S, value: T) | Raised(state: S, error: Error)
}

=== FILE: fuzzer.dfy ===
/**
 StateFuzzer, the base of the harness's fuzzers: it saves the target once, when
 the save point is hit, and restores it whenever an access violation is not
 explained by the page restorer's write tracking. Threads created after the save
 are queued for termination at the next restore. The save point and the reset
 points are given as (module, offset) pairs and become addresses when the
 debugger announces their resolution.

 The fuzzer's object is a value here; the callbacks that also act on the
 debugger or the target take and return those. What the fuzzer reads from the
 system at a save or a restore (the working set, the thread snapshot, the
 register block a thread backup starts from) is a parameter.
 */
module StateFuzzers {
  import opened Base
  import opened Errors
  import opened Text
  import opened Hwbp
  import opened TargetOs
  import opened Registers
  import opened Session
  import opened HwBreakpoints
  import opened Deferred
  import opened Resolution
  import opened PageBackups
  import PageRestorers
  import ThreadRestorers

  /** A (module, offset) pair; the name is None for the null pointer of a default-constructed point. */
  datatype DeferredPoint = DeferredPoint(moduleName: Option<string>, offset: u64)

  /** A point given by the user, who always passes a name. */
  type NamedPoint = p: DeferredPoint | p.moduleName.Some? witness DeferredPoint(Some(""), 0)

  /** DeferredPoint(): a null name and offset 0, what the save point is reset to once resolved. */
  const CLEARED_POINT: DeferredPoint := DeferredPoint(None, 0)

  /** The pair of counts each of SaveState and RestoreState returns, as uint16_t fields. */
  datatype Counts = Counts(pages: u16, threads: u16)

  datatype Fuzzer = Fuzzer(
    stateSaved: bool,
    stateSavePoint: u64,
    savePointDeferred: DeferredPoint,
    restoreCount: u64,
    resetPoints: set<u64>,
    resetPointsDeferred: seq<NamedPoint>,
    pages: PageRestorers.PageRestorer,
    threads: ThreadRestorers.ThreadRestorer)

  /** The fuzzer together with the debugger object and the target it drives. */
  datatype Harness = Harness(fuzzer: Fuzzer, session: Session, os: Os)

  /** What a save or a restore reads from the system: the working set, the thread ids, and the blank register block. */
  datatype Probe = Probe(workingSet: seq<PageRestorers.WorkingSetBlock>, threadIds: seq<ThreadId>, blank: Context)

  /** The fuzzer's standing invariant: every page record has the shape a working-set save gives it. */
  predicate Valid(f: Fuzzer) {
    PageRestorers.Tracked(f.pages)
  }

  /** The tokens standing for the fuzzer's static callback functions in the debugger's registry. */
  const THREAD_CREATE_HANDLER: nat := 1
  const EXIT_THREAD_HANDLER: nat := 2
  const BREAKPOINT_HANDLER: nat := 3
  const EXCEPTION_HANDLER: nat := 4
  const RESOLVED_HANDLER: nat := 5

  /**
   CommonInit: clear `stateSaved` and register the fuzzer, as object `self`, for
   thread creation, thread exit, breakpoints, access violations and single
   steps (the breakpoint function serves both), and for breakpoint resolution.
   */
  function CommonInit(s: Session, self: u64): (r: Session)
    ensures CallbackFor(r, ThreadCreate) == CallbackPair(Some(THREAD_CREATE_HANDLER), self)
    ensures CallbackFor(r, ExitThread) == CallbackPair(Some(EXIT_THREAD_HANDLER), self)
    ensures CallbackFor(r, Breakpoint) == CallbackPair(Some(BREAKPOINT_HANDLER), self)
    ensures CallbackFor(r, SingleStep) == CallbackFor(r, Breakpoint)
    ensures CallbackFor(r, AccessViolation) == CallbackPair(Some(EXCEPTION_HANDLER), self)
    ensures r.resolvedCallback == CallbackPair(Some(RESOLVED_HANDLER), self)
    ensures forall id :: id !in {ThreadCreate, ExitThread, Breakpoint, AccessViolation, SingleStep} ==>
      CallbackFor(r, id) == CallbackFor(s, id)
    ensures r == s.(eventCallbacks := r.eventCallbacks, resolvedCallback := r.resolvedCallback)
  {
    var s1 := RegisterEventCallback(s, ThreadCreate, CallbackPair(Some(THREAD_CREATE_HANDLER), self)).0;
    var s2 := RegisterEventCallback(s1, ExitThread, CallbackPair(Some(EXIT_THREAD_HANDLER), self)).0;
    var s3 := RegisterEventCallback(s2, Breakpoint, CallbackPair(Some(BREAKPOINT_HANDLER), self)).0;
    var s4 := RegisterEventCallback(s3, AccessViolation, CallbackPair(Some(EXCEPTION_HANDLER), self)).0;
    var s5 := RegisterEventCallback(s4, SingleStep, CallbackPair(Some(BREAKPOINT_HANDLER), self)).0;
    RegisterResolvedCallback(s5, CallbackPair(Some(RESOLVED_HANDLER), self)).0
  }

  /** The fuzzer after its member initialisers and CommonInit: nothing saved, no point known, empty restorers. */
  function NewFuzzer(): (f: Fuzzer)
    ensures Valid(f) && !f.stateSaved
    ensures f.stateSavePoint == 0 && f.restoreCount == 0
    ensures f.savePointDeferred == CLEARED_POINT
    ensures f.resetPoints == {} && f.resetPointsDeferred == []
    ensures f.pages.pages == map[] && f.threads.threads == map[] && f.threads.toKill == map[]
  {
    Fuzzer(false, 0, CLEARED_POINT, 0, {}, [], PageRestorers.NewPageRestorer(), ThreadRestorers.NewThreadRestorer())
  }

  // ---------------------------------------------------------------------
  // Saving and restoring
  // ---------------------------------------------------------------------

  /**
   SaveState: the page restorer's save, then the thread restorer's, each count
   stored in 16 bits; then `stateSaved` is set. A throw of the page save leaves
   the flag and the thread backups alone.
   */
  function SaveState(f: Fuzzer, os: Os, probe: Probe): (res: Exec<(Fuzzer, Os), Counts>)
    requires Valid(f)
    ensures var pagesSaved := PageRestorers.SaveState(f.pages, os, probe.workingSet);
      && res.state.0.pages == pagesSaved.state.0
      && res.state.1 == pagesSaved.state.1
      && (res.Raised? <==> pagesSaved.Raised?)
    ensures res.Raised? ==> res.state.0 == f.(pages := res.state.0.pages)
    ensures res.Done? ==> res.state.0.stateSaved && Valid(res.state.0)
    ensures res.Done? ==> res.state.0.pages.pages.Keys == f.pages.pages.Keys + PageRestorers.BlockAddresses(probe.workingSet)
    ensures res.Done? ==> res.value.pages == ToU16(|probe.workingSet|)
    ensures res.Done? ==> res.state.0.threads.toKill == f.threads.toKill
    ensures res.Done? ==> forall t :: t in res.state.0.threads.threads <==> t in f.threads.threads || t in probe.threadIds
    ensures res.state.0.restoreCount == f.restoreCount && res.state.0.stateSavePoint == f.stateSavePoint
    ensures res.state.0.resetPoints == f.resetPoints && res.state.0.resetPointsDeferred == f.resetPointsDeferred
    ensures res.state.0.savePointDeferred == f.savePointDeferred
  {
    var pagesSaved := PageRestorers.SaveState(f.pages, os, probe.workingSet);
    if pagesSaved.Raised? then Raised((f.(pages := pagesSaved.state.0), pagesSaved.state.1), pagesSaved.error)
    else
      PageRestorers.SaveStateWorkingSetTracks(f.pages, os, probe.workingSet);
      var os1 := pagesSaved.state.1;
      var (threads, threadsSaved) := ThreadRestorers.SaveState(f.threads, os1, probe.threadIds, probe.blank);
      var f1 := f.(pages := pagesSaved.state.0, threads := threads, stateSaved := true);
      Done((f1, os1), Counts(ToU16(pagesSaved.value), ToU16(threadsSaved)))
  }

  /**
   RestoreState: the page restorer's restore, then the thread restorer's; only
   when both complete is the restore counted, in 64 bits. The counts are stored
   in 16 bits.
   */
  function RestoreState(f: Fuzzer, os: Os, probe: Probe): (res: Exec<(Fuzzer, Os), Counts>)
    requires Valid(f)
    ensures Valid(res.state.0)
    ensures res.state.0.pages.pages.Keys == f.pages.pages.Keys
    ensures res.Done? ==> res.state.0.restoreCount == Inc64(f.restoreCount)
    ensures res.Raised? ==> res.state.0.restoreCount == f.restoreCount
    ensures res.Done? ==> res.state.0.threads.toKill == map[]
    ensures res.Done? ==> res.value.threads == ToU16(|f.threads.threads|)
    ensures res.state.0.threads.threads.Keys == f.threads.threads.Keys || res.state.0.threads == f.threads
    ensures res.state.0.stateSaved == f.stateSaved && res.state.0.stateSavePoint == f.stateSavePoint
    ensures res.state.0.resetPoints == f.resetPoints && res.state.0.resetPointsDeferred == f.resetPointsDeferred
    ensures res.state.0.savePointDeferred == f.savePointDeferred
  {
    var pagesRestored := PageRestorers.RestoreState(f.pages, os, probe.workingSet);
    var f1 := f.(pages := pagesRestored.state.0);
    if pagesRestored.Raised? then Raised((f1, pagesRestored.state.1), pagesRestored.error)
    else
      var threadsRestored := ThreadRestorers.RestoreState(f.threads, pagesRestored.state.1);
      var f2 := f1.(threads := threadsRestored.state.0);
      if threadsRestored.Raised? then Raised((f2, threadsRestored.state.1), threadsRestored.error)
      else
        Done((f2.(restoreCount := Inc64(f.restoreCount)), threadsRestored.state.1),
             Counts(ToU16(pagesRestored.value), ToU16(threadsRestored.value)))
  }

  /**
   A completed restore restores both halves: every tracked dirty page of the
   working set holds its saved copy again, the kill set is emptied, every
   tracked thread backup keeps its registers, and the restore is counted once.
   */
  lemma RestoreStateRestoresBoth(f: Fuzzer, os: Os, probe: Probe, i: nat)
    requires Valid(f) && RestoreState(f, os, probe).Done?
    requires i < |probe.workingSet|
    ensures var a := PageRestorers.BlockAddress(probe.workingSet[i].virtualPage);
      var vp := probe.workingSet[i].virtualPage;
      var res := RestoreState(f, os, probe);
      && (a in f.pages.pages && f.pages.pages[a].dirty ==>
            f.pages.pages[a].data.Some? && vp in res.state.1.pages
            && res.state.1.pages[vp].data == f.pages.pages[a].data.value)
      && res.state.0.threads.toKill == map[]
      && (forall k :: k in f.threads.threads ==> res.state.0.threads.threads[k].context == f.threads.threads[k].context)
      && res.state.0.restoreCount == Inc64(f.restoreCount)
  {
    PageRestorers.RestoreStateWorkingSetEffect(f.pages, os, probe.workingSet, i);
  }

  // ---------------------------------------------------------------------
  // Thread bookkeeping
  // ---------------------------------------------------------------------

  /**
   ThreadCreateCallback: once the state is saved, a thread the target creates
   is queued for termination at the next restore, through `copy`, the duplicate
   of its handle; before the save nothing is recorded.
   */
  function ThreadCreateCallback(f: Fuzzer, tid: ThreadId, copy: Handle): (r: (Fuzzer, CallbackResult))
    ensures r.1 == BpHandle
    ensures !f.stateSaved ==> r.0 == f
    ensures f.stateSaved ==> r.0 == f.(threads := r.0.threads)
    ensures f.stateSaved ==> tid in r.0.threads.toKill && r.0.threads.toKill[tid] == copy
    ensures f.stateSaved ==> r.0.threads.toKill.Keys == f.threads.toKill.Keys + {tid}
    ensures r.0.threads.threads == f.threads.threads
  {
    if f.stateSaved then (f.(threads := ThreadRestorers.AddThreadToKill(f.threads, tid, copy)), BpHandle)
    else (f, BpHandle)
  }

  /** ExitThreadCallback: the thread leaves the kill set, whether or not the state is saved. */
  function ExitThreadCallback(f: Fuzzer, tid: ThreadId): (r: (Fuzzer, CallbackResult))
    ensures r.1 == BpHandle
    ensures r.0 == f.(threads := r.0.threads)
    ensures r.0.threads.toKill.Keys == f.threads.toKill.Keys - {tid}
    ensures r.0.threads.threads == f.threads.threads
  {
    (f.(threads := ThreadRestorers.RemoveThreadFromKill(f.threads, tid)), BpHandle)
  }

  /** A thread event as the fuzzer's handlers see it. */
  datatype ThreadEvent = Created(tid: ThreadId, copy: Handle) | Exited(tid: ThreadId)

  function OnThreadEvent(f: Fuzzer, e: ThreadEvent): (g: Fuzzer)
    ensures g == f.(threads := g.threads)
  {
    match e
    case Created(tid, copy) => ThreadCreateCallback(f, tid, copy).0
    case Exited(tid) => ExitThreadCallback(f, tid).0
  }

  /** The handlers run over a sequence of thread events, in order. */
  function OnThreadEvents(f: Fuzzer, es: seq<ThreadEvent>): (g: Fuzzer)
    decreases |es|
  {
    if es == [] then f else OnThreadEvent(OnThreadEvents(f, es[..|es| - 1]), es[|es| - 1])
  }

  /** The last event of `es` about thread `t`, if any. */
  function LastEventOf(es: seq<ThreadEvent>, t: ThreadId): (e: Option<ThreadEvent>)
    ensures e.Some? ==> e.value in es && e.value.tid == t
    ensures e.None? ==> forall i :: 0 <= i < |es| ==> es[i].tid != t
    decreases |es|
  {
    if es == [] then None
    else if es[|es| - 1].tid == t then Some(es[|es| - 1])
    else LastEventOf(es[..|es| - 1], t)
  }

  /** Thread events never save or restore anything: only the kill set moves. */
  lemma {:induction false} ThreadEventsFrame(f: Fuzzer, es: seq<ThreadEvent>)
    ensures OnThreadEvents(f, es) == f.(threads := OnThreadEvents(f, es).threads)
    ensures OnThreadEvents(f, es).threads.threads == f.threads.threads
    decreases |es|
  {
    if es != [] {
      ThreadEventsFrame(f, es[..|es| - 1]);
    }
  }

  /** Before the save, thread events can only shrink the kill set: no created thread is recorded. */
  lemma {:induction false} NothingQueuedBeforeSave(f: Fuzzer, es: seq<ThreadEvent>)
    requires !f.stateSaved
    ensures OnThreadEvents(f, es).threads.toKill.Keys <= f.threads.toKill.Keys
    decreases |es|
  {
    if es != [] {
      NothingQueuedBeforeSave(f, es[..|es| - 1]);
      ThreadEventsFrame(f, es[..|es| - 1]);
    }
  }

  /**
   After the save, a thread is in the kill set exactly when its last event was
   its creation, or it has had no event and was in the set already.
   */
  lemma {:induction false} KillSetFollowsLastEvent(f: Fuzzer, es: seq<ThreadEvent>, t: ThreadId)
    requires f.stateSaved
    ensures t in OnThreadEvents(f, es).threads.toKill <==>
      match LastEventOf(es, t)
      case None => t in f.threads.toKill
      case Some(e) => e.Created?
    decreases |es|
  {
    if es != [] {
      KillSetFollowsLastEvent(f, es[..|es| - 1], t);
      ThreadEventsFrame(f, es[..|es| - 1]);
    }
  }

  // ---------------------------------------------------------------------
  // Breakpoints and access violations
  // ---------------------------------------------------------------------

  /** Whether a breakpoint at `address` is the save point's first hit. */
  predicate SavesAt(f: Fuzzer, address: u64) {
    address == f.stateSavePoint && !f.stateSaved
  }

  /**
   BreakpointCallback, for breakpoints and single steps alike: the first hit of
   the save point clears the hardware breakpoint set there and saves the state;
   a hit of a reset point fails its assertion; anything else is left to the
   debugger. The result is always BP_HANDLE.
   */
  function BreakpointCallback(h: Harness, address: u64, probe: Probe): (r: Exec<Harness, CallbackResult>)
    requires Valid(h.fuzzer)
    ensures r.Done? ==> r.value == BpHandle && Valid(r.state.fuzzer)
    ensures !SavesAt(h.fuzzer, address) ==> r.state == h
    ensures !SavesAt(h.fuzzer, address) ==> (r.Raised? <==> address in h.fuzzer.resetPoints)
    ensures r.Raised? && !SavesAt(h.fuzzer, address) ==> r.error == AssertionFailed
    ensures SavesAt(h.fuzzer, address) ==>
      r.state.session == ClearHwbpByAddress(h.session, h.os, address).state.0
    ensures SavesAt(h.fuzzer, address) && r.Done? ==> r.state.fuzzer.stateSaved
    ensures r.state.fuzzer.stateSavePoint == h.fuzzer.stateSavePoint
    ensures r.state.fuzzer.restoreCount == h.fuzzer.restoreCount
  {
    var f := h.fuzzer;
    if SavesAt(f, address) then
      var cleared := ClearHwbpByAddress(h.session, h.os, address);
      var (s1, os1) := cleared.state;
      if cleared.Raised? then Raised(Harness(f, s1, os1), cleared.error)
      else
        var saved := SaveState(f, os1, probe);
        var h1 := Harness(saved.state.0, s1, saved.state.1);
        if saved.Raised? then Raised(h1, saved.error) else Done(h1, BpHandle)
    else if address in f.resetPoints then Raised(h, AssertionFailed)
    else Done(h, BpHandle)
  }

  /** The save point's first hit disables the hardware breakpoint set at it, so the point cannot fire again. */
  lemma SaveClearsItsBreakpoint(h: Harness, address: u64, probe: Probe)
    requires Valid(h.fuzzer) && SavesAt(h.fuzzer, address)
    requires SlotAt(h.session.breakpoints, address).Some?
    ensures var i := SlotAt(h.session.breakpoints, address).value;
      !BreakpointCallback(h, address, probe).state.session.breakpoints[i].enabled
  {
  }

  /** A breakpoint hit with the probe the save and the restore would read. */
  datatype Hit = Hit(address: u64, probe: Probe)

  /** The breakpoint callback over a run of hits, stopping at the first throw; the value counts the saves. */
  function Hits(h: Harness, hits: seq<Hit>): (r: Exec<Harness, nat>)
    requires Valid(h.fuzzer)
    ensures r.Done? ==> Valid(r.state.fuzzer)
    decreases |hits|
  {
    if hits == [] then Done(h, 0)
    else
      var hit := BreakpointCallback(h, hits[0].address, hits[0].probe);
      if hit.Raised? then Raised(hit.state, hit.error)
      else
        var saves := if SavesAt(h.fuzzer, hits[0].address) then 1 else 0;
        var rest := Hits(hit.state, hits[1..]);
        if rest.Raised? then rest else Done(rest.state, rest.value + saves)
  }

  /**
   The state is saved at most once over any run of breakpoint hits, and not at
   all when it was saved before the run began.
   */
  lemma {:induction false} SavedAtMostOnce(h: Harness, hits: seq<Hit>)
    requires Valid(h.fuzzer)
    ensures Hits(h, hits).Done? ==> Hits(h, hits).value <= 1
    ensures Hits(h, hits).Done? && h.fuzzer.stateSaved ==> Hits(h, hits).value == 0
    ensures Hits(h, hits).Done? && Hits(h, hits).value == 1 ==> Hits(h, hits).state.fuzzer.stateSaved
    ensures h.fuzzer.stateSaved ==> Hits(h, hits).state == h
    decreases |hits|
  {
    if hits != [] {
      var hit := BreakpointCallback(h, hits[0].address, hits[0].probe);
      if hit.Done? {
        SavedAtMostOnce(hit.state, hits[1..]);
        if SavesAt(h.fuzzer, hits[0].address) {
          assert hit.state.fuzzer.stateSaved;
        } else {
          assert hit.state == h;
        }
      }
    }
  }

  /**
   ExceptionCallback, for access violations: on first chance the faulting
   address is offered to the page restorer, and a write to a tracked page it
   could make writable again is resumed; everything else restores the state.
   The result is BP_HANDLE either way.
   */
  function ExceptionCallback(f: Fuzzer, os: Os, firstChance: bool, faultAddress: u64, probe: Probe)
    : (r: Exec<(Fuzzer, Os), CallbackResult>)
    requires Valid(f)
    ensures r.Done? ==> r.value == BpHandle
    ensures Valid(r.state.0)
    ensures r.state.0.stateSaved == f.stateSaved && r.state.0.stateSavePoint == f.stateSavePoint
  {
    var touched := if firstChance then PageRestorers.TouchAddress(f.pages, os, faultAddress)
                   else Done((f.pages, os), false);
    var f1 := f.(pages := touched.state.0);
    if touched.Raised? then Raised((f1, touched.state.1), touched.error)
    else if touched.value then Done((f1, touched.state.1), BpHandle)
    else
      var restored := RestoreState(f1, touched.state.1, probe);
      if restored.Raised? then Raised(restored.state, restored.error) else Done(restored.state, BpHandle)
  }

  /** A last-chance violation never reaches the page restorer's touch: it restores the state. */
  lemma LastChanceRestores(f: Fuzzer, os: Os, faultAddress: u64, probe: Probe)
    requires Valid(f)
    ensures var r := ExceptionCallback(f, os, false, faultAddress, probe);
      var restored := RestoreState(f, os, probe);
      && r.state == restored.state
      && (r.Done? <==> restored.Done?)
  {
  }

  /**
   A first-chance violation on a tracked page whose protection can be given
   back is handled by the touch alone: the page is marked dirty and nothing is
   restored or counted.
   */
  lemma FirstChanceTouchResumes(f: Fuzzer, os: Os, faultAddress: u64, probe: Probe)
    requires Valid(f)
    requires var home := PageBase(PageOf(faultAddress));
      home in f.pages.pages && MarkDirty(f.pages.pages[home], os).Done?
    ensures var r := ExceptionCallback(f, os, true, faultAddress, probe);
      var home := PageBase(PageOf(faultAddress));
      && r.Done?
      && r.state.0.restoreCount == f.restoreCount
      && r.state.0.threads == f.threads
      && r.state.0.pages.pages[home].dirty
  {
    PageRestorers.TouchAddressIff(f.pages, os, faultAddress);
  }

  /** A first-chance violation outside every tracked page restores the state, as a last-chance one does. */
  lemma UntrackedFaultRestores(f: Fuzzer, os: Os, faultAddress: u64, probe: Probe)
    requires Valid(f)
    requires PageBase(PageOf(faultAddress)) !in f.pages.pages
    ensures ExceptionCallback(f, os, true, faultAddress, probe) == ExceptionCallback(f, os, false, faultAddress, probe)
  {
    PageRestorers.TouchAddressIff(f.pages, os, faultAddress);
  }

  // ---------------------------------------------------------------------
  // Deferred points
  // ---------------------------------------------------------------------

  /** Two points given by name: `_strcmpi` of the names and equal offsets. */
  predicate Matches(a: NamedPoint, b: NamedPoint) {
    EqualsIgnoringCase(a.moduleName.value, b.moduleName.value) && a.offset == b.offset
  }

  /** Matching is an equivalence on named points. */
  lemma MatchesIsEquivalence(a: NamedPoint, b: NamedPoint, c: NamedPoint)
    ensures Matches(a, a)
    ensures Matches(a, b) ==> Matches(b, a)
    ensures Matches(a, b) && Matches(b, c) ==> Matches(a, c)
  {
    EqualsIgnoringCaseIsEquivalence(a.moduleName.value, b.moduleName.value, c.moduleName.value);
  }

  /**
   DeferredPoint::eq as written: `_strcmpi` of the two names, which for a null
   name invokes the CRT's invalid-parameter handler and ends the process.
   */
  function PointsEqualAsWritten(a: DeferredPoint, b: DeferredPoint): (r: Result<bool>)
    ensures r.Err? <==> a.moduleName.None? || b.moduleName.None?
    ensures r.Err? ==> r.error == InvalidParameter
    ensures r.Ok? ==> r.value == Matches(a, b)
  {
    if a.moduleName.None? || b.moduleName.None? then Err(InvalidParameter)
    else Ok(Matches(a, b))
  }

  /** The save point as evidently intended: a cleared point matches nothing. */
  predicate SavePointMatches(a: DeferredPoint, b: NamedPoint) {
    a.moduleName.Some? && Matches(a, b)
  }

  /** The deferred reset points the resolved point does not match, in their order. */
  function Unmatched(points: seq<NamedPoint>, resolved: NamedPoint): (r: seq<NamedPoint>)
    ensures |r| <= |points|
    ensures forall p :: p in r <==> p in points && !Matches(p, resolved)
    decreases |points|
  {
    if points == [] then []
    else (if Matches(points[0], resolved) then [] else [points[0]]) + Unmatched(points[1..], resolved)
  }

  /** Removing the matches is order-preserving: it distributes over concatenation. */
  lemma {:induction false} UnmatchedAppend(a: seq<NamedPoint>, b: seq<NamedPoint>, resolved: NamedPoint)
    ensures Unmatched(a + b, resolved) == Unmatched(a, resolved) + Unmatched(b, resolved)
    decreases |a|
  {
    if a == [] {
      assert a + b == b;
    } else {
      assert (a + b)[0] == a[0] && (a + b)[1..] == a[1..] + b;
      UnmatchedAppend(a[1..], b, resolved);
    }
  }

  /** Removing the matches twice removes nothing more. */
  lemma {:induction false} UnmatchedIdempotent(points: seq<NamedPoint>, resolved: NamedPoint)
    ensures Unmatched(Unmatched(points, resolved), resolved) == Unmatched(points, resolved)
    decreases |points|
  {
    if points != [] {
      UnmatchedIdempotent(points[1..], resolved);
      var head := if Matches(points[0], resolved) then [] else [points[0]];
      UnmatchedAppend(head, Unmatched(points[1..], resolved), resolved);
      if !Matches(points[0], resolved) {
        assert Unmatched(head, resolved) == head by {
          assert head[1..] == [];
        }
      }
    }
  }

  /**
   The reset-point loop as written: walk the vector, and for each point that
   matches insert the address into the set and erase the point; the iterator
   stays in place after an erase and advances otherwise.
   */
  method EraseMatches(points: seq<NamedPoint>, resolved: NamedPoint) returns (kept: seq<NamedPoint>, matched: bool)
    ensures kept == Unmatched(points, resolved)
    ensures matched <==> exists i :: 0 <= i < |points| && Matches(points[i], resolved)
  {
    kept := [];
    matched := false;
    var i := 0;
    while i < |points|
      invariant 0 <= i <= |points|
      invariant kept == Unmatched(points[..i], resolved)
      invariant matched <==> exists j :: 0 <= j < i && Matches(points[j], resolved)
    {
      EraseStep(points, i, resolved);
      if Matches(points[i], resolved) {
        matched := true;
      } else {
        kept := kept + [points[i]];
      }
      i := i + 1;
    }
    assert points[..i] == points;
  }

  /** One step of the erase loop: the prefix grows by one point, kept exactly when it does not match. */
  lemma EraseStep(points: seq<NamedPoint>, i: nat, resolved: NamedPoint)
    requires i < |points|
    ensures Unmatched(points[..i + 1], resolved)
         == Unmatched(points[..i], resolved) + if Matches(points[i], resolved) then [] else [points[i]]
    ensures (exists j :: 0 <= j < i + 1 && Matches(points[j], resolved))
        <==> (exists j :: 0 <= j < i && Matches(points[j], resolved)) || Matches(points[i], resolved)
  {
    UnmatchedAppend(points[..i], [points[i]], resolved);
    assert points[..i + 1] == points[..i] + [points[i]];
    assert Unmatched([points[i]], resolved) == if Matches(points[i], resolved) then [] else [points[i]] by {
      assert [points[i]][1..] == [];
    }
  }

  /** The point the debugger announces: the name it resolved against, the breakpoint's offset. */
  function ResolvedPoint(n: Notice): (p: NamedPoint)
    ensures p.moduleName == Some(n.moduleName) && p.offset == n.offset
  {
    DeferredPoint(Some(n.moduleName), n.offset)
  }

  /** Some deferred reset point matches the announced one. */
  predicate AnyResetMatches(f: Fuzzer, n: Notice) {
    exists i :: 0 <= i < |f.resetPointsDeferred| && Matches(f.resetPointsDeferred[i], ResolvedPoint(n))
  }

  /** The reset-point half of the callback: matching points leave the vector, and their address joins the set. */
  function ResolveResetPoints(f: Fuzzer, n: Notice): (g: Fuzzer)
    ensures forall p :: p in g.resetPointsDeferred <==> p in f.resetPointsDeferred && !Matches(p, ResolvedPoint(n))
    ensures n.address in g.resetPoints <==> n.address in f.resetPoints || AnyResetMatches(f, n)
    ensures g.resetPoints - {n.address} == f.resetPoints - {n.address}
    ensures g == f.(resetPoints := g.resetPoints, resetPointsDeferred := g.resetPointsDeferred)
  {
    f.(resetPointsDeferred := Unmatched(f.resetPointsDeferred, ResolvedPoint(n)),
       resetPoints := if AnyResetMatches(f, n) then f.resetPoints + {n.address} else f.resetPoints)
  }

  /**
   DeferredBpResolvedCallback as written: compare the save point with the
   announced one, which fails once the save point has been cleared; on a match
   take the address and clear the point; then resolve the reset points.
   */
  function ResolvedCallbackAsWritten(f: Fuzzer, n: Notice): (r: Result<Fuzzer>)
    ensures r.Err? <==> f.savePointDeferred.moduleName.None?
    ensures r.Err? ==> r.error == InvalidParameter
    ensures r.Ok? ==> r.value == ResolvedCallback(f, n)
  {
    match PointsEqualAsWritten(f.savePointDeferred, ResolvedPoint(n))
    case Err(e) => Err(e)
    case Ok(hit) =>
      var f1 := if hit then f.(stateSavePoint := n.address, savePointDeferred := CLEARED_POINT) else f;
      Ok(ResolveResetPoints(f1, n))
  }

  /**
   DeferredBpResolvedCallback as evidently intended: a cleared save point
   matches nothing, so announcements after the save point's own are only
   checked against the reset points.
   */
  function ResolvedCallback(f: Fuzzer, n: Notice): (g: Fuzzer)
    ensures SavePointMatches(f.savePointDeferred, ResolvedPoint(n)) ==>
      g.stateSavePoint == n.address && g.savePointDeferred == CLEARED_POINT
    ensures !SavePointMatches(f.savePointDeferred, ResolvedPoint(n)) ==>
      g.stateSavePoint == f.stateSavePoint && g.savePointDeferred == f.savePointDeferred
    ensures forall p :: p in g.resetPointsDeferred <==> p in f.resetPointsDeferred && !Matches(p, ResolvedPoint(n))
    ensures n.address in g.resetPoints <==> n.address in f.resetPoints || AnyResetMatches(f, n)
    ensures g.resetPoints - {n.address} == f.resetPoints - {n.address}
    ensures g.stateSaved == f.stateSaved && g.restoreCount == f.restoreCount
    ensures g.pages == f.pages && g.threads == f.threads
  {
    var f1 := if SavePointMatches(f.savePointDeferred, ResolvedPoint(n))
      then f.(stateSavePoint := n.address, savePointDeferred := CLEARED_POINT) else f;
    ResolveResetPoints(f1, n)
  }

  /** The corrected callback is idempotent: announcing the same breakpoint twice changes nothing more. */
  lemma ResolvedCallbackIdempotent(f: Fuzzer, n: Notice)
    ensures ResolvedCallback(ResolvedCallback(f, n), n) == ResolvedCallback(f, n)
  {
    var g := ResolvedCallback(f, n);
    UnmatchedIdempotent(f.resetPointsDeferred, ResolvedPoint(n));
    assert !AnyResetMatches(g, n);
  }

  /** Once resolved, the save point's address never changes again under the corrected callback. */
  lemma SavePointResolvedOnce(f: Fuzzer, n: Notice, later: Notice)
    requires SavePointMatches(f.savePointDeferred, ResolvedPoint(n))
    ensures ResolvedCallback(ResolvedCallback(f, n), later).stateSavePoint == n.address
  {
  }

  /** The announcements of one resolution delivered in order, as written; the first failure ends the process. */
  function DeliverAsWritten(f: Fuzzer, ns: seq<Notice>): (r: Result<Fuzzer>)
    ensures r.Ok? ==> r.value == Deliver(f, ns)
    ensures r.Err? ==> r.error == InvalidParameter
    decreases |ns|
  {
    if ns == [] then Ok(f)
    else
      match ResolvedCallbackAsWritten(f, ns[0])
      case Err(e) => Err(e)
      case Ok(f1) => DeliverAsWritten(f1, ns[1..])
  }

  /** The announcements of one resolution delivered in order to the corrected callback. */
  function Deliver(f: Fuzzer, ns: seq<Notice>): (g: Fuzzer)
    ensures g.stateSaved == f.stateSaved && g.restoreCount == f.restoreCount
    ensures g.pages == f.pages && g.threads == f.threads
    ensures forall p :: p in g.resetPointsDeferred ==> p in f.resetPointsDeferred
    ensures f.resetPoints <= g.resetPoints
    decreases |ns|
  {
    if ns == [] then f else Deliver(ResolvedCallback(f, ns[0]), ns[1..])
  }

  /**
   The crash as written: once the save point has been announced, the next
   announcement of any breakpoint (a reset point in the same module, say)
   compares the cleared point's null name and ends the process, while the
   corrected callback takes it.
   */
  lemma AnnouncementAfterSavePointCrashes(f: Fuzzer, n: Notice, next: Notice)
    requires SavePointMatches(f.savePointDeferred, ResolvedPoint(n))
    ensures DeliverAsWritten(f, [n, next]) == Err(InvalidParameter)
    ensures Deliver(f, [n, next]).stateSavePoint == n.address
  {
    assert [n, next][1..] == [next];
    assert [next][1..] == [];
    SavePointResolvedOnce(f, n, next);
    assert Deliver(f, [n, next]) == Deliver(ResolvedCallback(ResolvedCallback(f, n), next), []);
  }

  /** Without a save point set, the first announcement already fails as written. */
  lemma AnnouncementWithoutSavePointCrashes(n: Notice)
    ensures ResolvedCallbackAsWritten(NewFuzzer(), n) == Err(InvalidParameter)
    ensures ResolvedCallback(NewFuzzer(), n) == NewFuzzer()
  {
    assert !AnyResetMatches(NewFuzzer(), n);
  }

  /**
   The announcements of SetHWBPInModule's resolution reach the callback as
   written. A failed comparison ends the process; the harness it leaves is the
   one the announcements started from, and nothing after it is meaningful.
   */
  function Announce(f: Fuzzer, queued: Exec<Resolved, ()>): (r: Exec<Harness, ()>)
    ensures r.Raised? ==> DeliverAsWritten(f, queued.state.notices).Err? || (queued.Raised? && r.error == queued.error)
    ensures r.state.session == queued.state.session && r.state.os == queued.state.os
    ensures r.state.fuzzer.stateSaved == f.stateSaved && r.state.fuzzer.pages == f.pages
    ensures r.state.fuzzer.threads == f.threads && r.state.fuzzer.restoreCount == f.restoreCount
    ensures DeliverAsWritten(f, queued.state.notices).Err? ==>
      r == Raised(Harness(f, queued.state.session, queued.state.os), InvalidParameter)
    ensures DeliverAsWritten(f, queued.state.notices).Ok? ==> r.state.fuzzer == Deliver(f, queued.state.notices)
  {
    match DeliverAsWritten(f, queued.state.notices)
    case Err(e) => Raised(Harness(f, queued.state.session, queued.state.os), e)
    case Ok(f1) =>
      var h1 := Harness(f1, queued.state.session, queued.state.os);
      if queued.Raised? then Raised(h1, queued.error) else Done(h1, ())
  }

  /**
   SetStateSavePointDeferred: record the point, then queue a one-byte execution
   breakpoint for it. When the module is already loaded the debugger resolves it
   at once and announces it, and the announcements reach the callback as written.
   */
  function SetStateSavePointDeferred(h: Harness, name: string, offset: u64): (r: Exec<Harness, ()>)
    requires FitsMaxPath(name)
    ensures r.state.session.deferredHwbps == h.session.deferredHwbps + [NewDeferredHwbp(name, offset, Execution, One)]
    ensures r.state.session.deferredSwbps == h.session.deferredSwbps
    ensures name !in h.session.modulesByName ==>
      r == Done(Harness(h.fuzzer.(savePointDeferred := DeferredPoint(Some(name), offset)),
                        h.session.(deferredHwbps := r.state.session.deferredHwbps), h.os), ())
    ensures r.state.fuzzer.stateSaved == h.fuzzer.stateSaved && r.state.fuzzer.pages == h.fuzzer.pages
    ensures r.state.fuzzer.threads == h.fuzzer.threads && r.state.fuzzer.restoreCount == h.fuzzer.restoreCount
  {
    var f1 := h.fuzzer.(savePointDeferred := DeferredPoint(Some(name), offset));
    var queued := SetHwbpInModule(h.session, h.os, name, offset, Execution, One);
    Announce(f1, queued)
  }

  /**
   AddStateResetPointDeferred: append the point, then queue a one-byte execution
   breakpoint for it, delivering any announcements as above.
   */
  function AddStateResetPointDeferred(h: Harness, name: string, offset: u64): (r: Exec<Harness, ()>)
    requires FitsMaxPath(name)
    ensures r.state.session.deferredHwbps == h.session.deferredHwbps + [NewDeferredHwbp(name, offset, Execution, One)]
    ensures r.state.session.deferredSwbps == h.session.deferredSwbps
    ensures name !in h.session.modulesByName ==>
      r == Done(Harness(h.fuzzer.(resetPointsDeferred := h.fuzzer.resetPointsDeferred + [DeferredPoint(Some(name), offset)]),
                        h.session.(deferredHwbps := r.state.session.deferredHwbps), h.os), ())
    ensures r.state.fuzzer.stateSaved == h.fuzzer.stateSaved && r.state.fuzzer.pages == h.fuzzer.pages
    ensures r.state.fuzzer.threads == h.fuzzer.threads && r.state.fuzzer.restoreCount == h.fuzzer.restoreCount
  {
    var point: NamedPoint := DeferredPoint(Some(name), offset);
    var f1 := h.fuzzer.(resetPointsDeferred := h.fuzzer.resetPointsDeferred + [point]);
    var queued := SetHwbpInModule(h.session, h.os, name, offset, Execution, One);
    Announce(f1, queued)
  }

  /** Once the save point has been announced, any further announcement of the same delivery fails as written. */
  lemma {:induction false} DeliverPastSavePointFails(f: Fuzzer, ns: seq<Notice>)
    requires |ns| >= 2 && SavePointMatches(f.savePointDeferred, ResolvedPoint(ns[0]))
    ensures DeliverAsWritten(f, ns) == Err(InvalidParameter)
  {
    var f1 := ResolvedCallbackAsWritten(f, ns[0]).value;
    assert f1.savePointDeferred == CLEARED_POINT;
    assert ns[1..][0] == ns[1];
    assert DeliverAsWritten(f1, ns[1..]) == Err(InvalidParameter);
  }

  /**
   A reset point added for a module that is already loaded, before any save
   point is set: its own announcement compares the save point's null name, and
   the process ends.
   */
  lemma ResetPointWithoutSavePointCrashes(h: Harness, name: string, offset: u64)
    requires FitsMaxPath(name) && name in h.session.modulesByName
    requires EnabledCount(h.session.breakpoints) + |HwOffsets(h.session.deferredHwbps, name)| < 4
    requires Registered(h.session.resolvedCallback)
    requires h.fuzzer.savePointDeferred.moduleName.None?
    ensures AddStateResetPointDeferred(h, name, offset).Raised?
    ensures AddStateResetPointDeferred(h, name, offset).error == InvalidParameter
  {
    SetHwbpInModuleResolvesLoaded(h.session, h.os, name, offset, Execution, One);
  }

  /**
   A save point set for a loaded module in which a software breakpoint is
   already queued: the save point is announced first and cleared, and the
   software breakpoint's announcement then compares the null name, so the process
   ends. The corrected delivery takes the save point's address instead.
   */
  lemma SavePointBeforeQueuedSwbpCrashes(h: Harness, name: string, offset: u64)
    requires FitsMaxPath(name) && name in h.session.modulesByName
    requires HwOffsets(h.session.deferredHwbps, name) == [] && SwOffsets(h.session.deferredSwbps, name) != []
    requires EnabledCount(h.session.breakpoints) < 4
    requires Registered(h.session.resolvedCallback)
    ensures SetStateSavePointDeferred(h, name, offset).Raised?
    ensures SetStateSavePointDeferred(h, name, offset).error == InvalidParameter
    ensures var ns := SetHwbpInModule(h.session, h.os, name, offset, Execution, One).state.notices;
      Deliver(h.fuzzer.(savePointDeferred := DeferredPoint(Some(name), offset)), ns).stateSavePoint
        == WrapAdd(h.session.modulesByName[name].base, offset)
  {
    var address := WrapAdd(h.session.modulesByName[name].base, offset);
    var f1 := h.fuzzer.(savePointDeferred := DeferredPoint(Some(name), offset));
    var ns := SetHwbpInModule(h.session, h.os, name, offset, Execution, One).state.notices;
    SavePointAnnouncedFirst(h.session, h.os, name, offset);
    EqualsIgnoringCaseIsEquivalence(name, name, name);
    assert SavePointMatches(f1.savePointDeferred, ResolvedPoint(ns[0]));
    DeliverPastSavePointFails(f1, ns);
    DeliverKeepsResolvedSavePoint(ResolvedCallback(f1, ns[0]), ns[1..], address);
  }

  /**
   The resolution SetHWBPInModule runs for a loaded module with no hardware
   entry queued there and a software one: the new breakpoint is announced first,
   and at least one announcement follows it.
   */
  lemma SavePointAnnouncedFirst(s: Session, os: Os, name: string, offset: u64)
    requires FitsMaxPath(name) && name in s.modulesByName
    requires HwOffsets(s.deferredHwbps, name) == [] && SwOffsets(s.deferredSwbps, name) != []
    requires EnabledCount(s.breakpoints) < 4
    requires Registered(s.resolvedCallback)
    ensures var ns := SetHwbpInModule(s, os, name, offset, Execution, One).state.notices;
      |ns| >= 2 && ns[0] == Notice(name, offset, WrapAdd(s.modulesByName[name].base, offset))
  {
    var b := NewDeferredHwbp(name, offset, Execution, One);
    var queued := s.(deferredHwbps := s.deferredHwbps + [b]);
    var base := s.modulesByName[name].base;
    EqualsIgnoringCaseIsEquivalence(name, name, name);
    HwOffsetsInOrder(s.deferredHwbps, [b], name);
    ResolveDeferredBpsOutcome(queued, os, name, base);
    NoticesForCons(name, base, offset, SwOffsets(s.deferredSwbps, name));
  }

  /** Under the corrected callback a cleared save point stays cleared, and its address stays put. */
  lemma {:induction false} DeliverKeepsResolvedSavePoint(f: Fuzzer, ns: seq<Notice>, address: u64)
    requires f.savePointDeferred == CLEARED_POINT && f.stateSavePoint == address
    ensures Deliver(f, ns).stateSavePoint == address
    decreases |ns|
  {
    if ns != [] {
      DeliverKeepsResolvedSavePoint(ResolvedCallback(f, ns[0]), ns[1..], address);
    }
  }
}

=== FILE: hw_breakpoints.dfy ===
/**
 Moving the hardware-breakpoint image between the debugger and the threads of the
 debugged process: WriteBreakpointsToThread copies it into one thread's register
 cache, ClearHWBP disables a slot in the image and in every tracked thread, and
 ClearHWBPByAddress finds the slot to clear by address.
 */
module HwBreakpoints {
  import opened Base
  import opened Errors
  import opened Registers
  import opened TargetOs
  import opened Hwbp
  import opened ThreadStates
  import opened Session
  import Ordered

  /**
   The five stores of WriteBreakpointsToThread: DR0-DR3 from the image, then DR7
   as the image's control word with LE and GE cleared and bit 10 set, widened
   from its 32-bit view.
   */
  function DebugStores(hw: RegisterState): (stores: seq<(Reg, bv64)>)
    ensures |stores| == 5
    ensures stores[0].0 == Dr0 && stores[1].0 == Dr1 && stores[2].0 == Dr2 && stores[3].0 == Dr3 && stores[4].0 == Dr7
  {
    [(Dr0, hw.dr0), (Dr1, hw.dr1), (Dr2, hw.dr2), (Dr3, hw.dr3),
     (Dr7, Encode(ThreadDr7(hw)) as bv64)]
  }

  /** The register file after those stores. */
  function DebugImage(c: Context, hw: RegisterState): Context {
    WriteAll(c, DebugStores(hw))
  }

  /** Each of the first four stores names a register no later store names, so it lands unchanged. */
  lemma DebugImageDr0(c: Context, hw: RegisterState)
    ensures Read(DebugImage(c, hw), Dr0) == hw.dr0
  {
    WriteAllLast(c, DebugStores(hw), 0);
  }

  lemma DebugImageDr1(c: Context, hw: RegisterState)
    ensures Read(DebugImage(c, hw), Dr1) == hw.dr1
  {
    WriteAllLast(c, DebugStores(hw), 1);
  }

  lemma DebugImageDr2(c: Context, hw: RegisterState)
    ensures Read(DebugImage(c, hw), Dr2) == hw.dr2
  {
    WriteAllLast(c, DebugStores(hw), 2);
  }

  lemma DebugImageDr3(c: Context, hw: RegisterState)
    ensures Read(DebugImage(c, hw), Dr3) == hw.dr3
  {
    WriteAllLast(c, DebugStores(hw), 3);
  }

  /** The address registers of the image land in DR0-DR3 unchanged. */
  lemma DebugImageAddresses(c: Context, hw: RegisterState)
    ensures Read(DebugImage(c, hw), Dr0) == hw.dr0
    ensures Read(DebugImage(c, hw), Dr1) == hw.dr1
    ensures Read(DebugImage(c, hw), Dr2) == hw.dr2
    ensures Read(DebugImage(c, hw), Dr3) == hw.dr3
  {
    DebugImageDr0(c, hw);
    DebugImageDr1(c, hw);
    DebugImageDr2(c, hw);
    DebugImageDr3(c, hw);
  }

  /**
   The thread's DR7 holds, in its low 32 bits, the image's slots with LE and GE
   clear and bit 10 set.
   */
  lemma DebugImageControl(c: Context, hw: RegisterState)
    ensures Decode(LowDword(Read(DebugImage(c, hw), Dr7))) == ThreadDr7(hw)
  {
    WriteAllLast(c, DebugStores(hw), 4);
    LowDwordOfDword(Encode(ThreadDr7(hw)));
    DecodeEncode(ThreadDr7(hw));
  }

  /** No register other than DR0-DR3 and DR7 changes. */
  lemma DebugImageFrame(c: Context, hw: RegisterState, q: Reg)
    requires q != Dr0 && q != Dr1 && q != Dr2 && q != Dr3 && q != Dr7
    ensures Read(DebugImage(c, hw), q) == Read(c, q)
  {
    WriteAllFrame(c, DebugStores(hw), q);
  }

  /**
   WriteBreakpointsToThread: store DR0-DR3 and the DR7 image through the
   thread's register cache. Only the first store can pull, so only it can throw.
   */
  function WriteBreakpointsToThread(s: Session, t: ThreadState, os: Os): (r: Exec<ThreadState, ()>)
    ensures r.Done? <==> EnsureRead(t, os).Done?
    ensures r.Raised? ==> r == EnsureRead(t, os)
    ensures r.Done? ==> r.state == EnsureRead(t, os).state.(ctx := DebugImage(EnsureRead(t, os).state.ctx, s.hwbpState), dirty := true)
  {
    SetAllPullsOnce(t, os, DebugStores(s.hwbpState));
    SetAll(t, os, DebugStores(s.hwbpState))
  }

  /** The context DisableHWBPByIndex leaves in a thread that held `c`. */
  function DisabledContext(c: Context, index: int): Context {
    Write(c, Dr7, DisabledDr7(Read(c, Dr7), index))
  }

  /**
   One iteration of ClearHWBP's thread loop: a fresh ThreadState for the thread
   id, DisableHWBPByIndex, FlushContext.
   */
  function DisableInThread(os: Os, tid: ThreadId, index: int): Exec<Os, ()> {
    match DisableHwbpByIndex(FromId(tid), os, index)
    case Raised(_, e) => Raised(os, e)
    case Done(t, _) =>
      match Flush(t, os)
      case Raised((_, os'), e) => Raised(os', e)
      case Done((_, os'), _) => Done(os', ())
  }

  /**
   An edit of one thread's registers through a fresh register cache: a live
   thread's context becomes `edit` of it; a thread that is no longer live fails
   the pull, throws GetThreadContextFailureException, and nothing is written.
   */
  function EditThread(os: Os, tid: ThreadId, edit: Context -> Context): (r: Exec<Os, ()>)
    ensures r.Done? <==> tid in os.threads
    ensures r.Raised? ==> r == Raised(os, GetThreadContextFailure)
    ensures r.Done? ==> r.state == os.(threads := os.threads[tid := edit(os.threads[tid])])
  {
    if tid in os.threads then Done(os.(threads := os.threads[tid := edit(os.threads[tid])]), ())
    else Raised(os, GetThreadContextFailure)
  }

  /** The edit DisableHWBPByIndex makes, as a function of the context. */
  function DisableEdit(index: int): Context -> Context {
    c => DisabledContext(c, index)
  }

  /** One iteration of ClearHWBP's loop is exactly that edit. */
  lemma DisableInThreadEffect(os: Os, tid: ThreadId, index: int)
    ensures DisableInThread(os, tid, index) == EditThread(os, tid, DisableEdit(index))
  {
    if tid in os.threads {
      var t := FromId(tid);
      var pulled := Pull(t, os).state;
      assert pulled.ctx == os.threads[tid];
      DisableIsSet(t, os, index);
      SetOnReadCache(pulled, os, Dr7, DisabledDr7(Read(pulled.ctx, Dr7), index));
      FlushPublishes(DisableHwbpByIndex(t, os, index).state, os);
    }
  }

  /** A loop over thread ids applying the edit to each in turn; the first throw ends it. */
  function EditThreads(ids: seq<ThreadId>, os: Os, edit: Context -> Context): (r: Exec<Os, ()>)
    ensures forall k :: k in r.state.threads <==> k in os.threads
    ensures r.state.pages == os.pages
    ensures r.Done? <==> forall i :: 0 <= i < |ids| ==> ids[i] in os.threads
    ensures r.Raised? ==> r.error == GetThreadContextFailure
    decreases |ids|
  {
    if ids == [] then Done(os, ())
    else
      match EditThread(os, ids[0], edit)
      case Raised(os', e) => Raised(os', e)
      case Done(os', _) => EditThreads(ids[1..], os', edit)
  }

  /**
   After the loop over distinct live threads, each of them holds the edit of its
   context, and every other thread is untouched.
   */
  lemma {:induction false} EditThreadsEffect(ids: seq<ThreadId>, os: Os, edit: Context -> Context, tid: ThreadId)
    requires forall i, j :: 0 <= i < j < |ids| ==> ids[i] != ids[j]
    requires EditThreads(ids, os, edit).Done?
    requires tid in os.threads
    ensures tid in ids ==> EditThreads(ids, os, edit).state.threads[tid] == edit(os.threads[tid])
    ensures tid !in ids ==> EditThreads(ids, os, edit).state.threads[tid] == os.threads[tid]
    decreases |ids|
  {
    if ids != [] {
      assert ids[0] in os.threads;
      var os' := EditThread(os, ids[0], edit).state;
      assert forall i, j :: 0 <= i < j < |ids[1..]| ==> ids[1..][i] != ids[1..][j] by {
        forall i, j | 0 <= i < j < |ids[1..]| ensures ids[1..][i] != ids[1..][j] {
          assert ids[1..][i] == ids[i + 1] && ids[1..][j] == ids[j + 1];
        }
      }
      EditThreadsEffect(ids[1..], os', edit, tid);
      if tid == ids[0] {
        assert tid !in ids[1..] by {
          forall i | 0 <= i < |ids[1..]| ensures ids[1..][i] != tid {
            assert ids[1..][i] == ids[i + 1];
          }
        }
      } else {
        assert tid in ids <==> tid in ids[1..] by {
          assert ids == [ids[0]] + ids[1..];
        }
      }
    }
  }

  /** The values stored under `keys`, in that order. */
  function ValuesAt(m: map<ThreadId, ThreadId>, keys: seq<ThreadId>): (vs: seq<ThreadId>)
    requires forall i :: 0 <= i < |keys| ==> keys[i] in m
    ensures |vs| == |keys|
    ensures forall i :: 0 <= i < |keys| ==> vs[i] == m[keys[i]]
    decreases |keys|
  {
    if keys == [] then [] else [m[keys[0]]] + ValuesAt(m, keys[1..])
  }

  /** Integers drawn from a set of thread ids, as thread ids. */
  function AsThreadIds(xs: seq<int>, ids: set<ThreadId>): (r: seq<ThreadId>)
    requires forall i :: 0 <= i < |xs| ==> xs[i] in ids
    ensures |r| == |xs|
    ensures forall i :: 0 <= i < |xs| ==> r[i] == xs[i]
    decreases |xs|
  {
    if xs == [] then [] else [xs[0] as ThreadId] + AsThreadIds(xs[1..], ids)
  }

  /** The thread table's keys in ascending order, the order `std::map` iteration visits them. */
  function ThreadKeys(s: Session): (keys: seq<ThreadId>)
    ensures |keys| == |s.threads|
    ensures forall k :: k in s.threads <==> k in keys
    ensures forall i, j :: 0 <= i < j < |keys| ==> keys[i] < keys[j]
  {
    var sorted := Ordered.SortedKeys(s.threads.Keys);
    SortedIdsListed(sorted, s.threads.Keys);
    AsThreadIdsKeepOrder(sorted, s.threads.Keys);
    AsThreadIds(sorted, s.threads.Keys)
  }

  /** A sequence drawn from a set holds a member of it at every index. */
  lemma SortedIdsListed(xs: seq<int>, ids: set<int>)
    requires forall x: int :: x in xs ==> x in ids
    ensures forall i :: 0 <= i < |xs| ==> xs[i] in ids
  {
    forall i | 0 <= i < |xs| ensures xs[i] in ids {
      var x := xs[i];
      assert x in xs;
    }
  }

  /** Reading integers as thread ids keeps their order and their membership. */
  lemma AsThreadIdsKeepOrder(xs: seq<int>, ids: set<ThreadId>)
    requires forall i :: 0 <= i < |xs| ==> xs[i] in ids
    requires forall x: int :: x in ids <==> x in xs
    requires Ordered.StrictlyIncreasing(xs)
    ensures var r := AsThreadIds(xs, ids);
      (forall k :: k in ids <==> k in r) && (forall i, j :: 0 <= i < j < |r| ==> r[i] < r[j])
  {
    var r := AsThreadIds(xs, ids);
    forall k ensures k in ids <==> k in r {
      if k in r {
        var i :| 0 <= i < |r| && r[i] == k;
        assert xs[i] == k;
      }
      if k in ids {
        var i :| 0 <= i < |xs| && xs[i] == k;
        assert r[i] == k;
      }
    }
  }

  /** The thread table's values in ascending key order. */
  function TrackedThreads(s: Session): (ids: seq<ThreadId>)
    ensures |ids| == |s.threads|
    ensures forall i :: 0 <= i < |ids| ==> ids[i] == s.threads[ThreadKeys(s)[i]]
  {
    ValuesAt(s.threads, ThreadKeys(s))
  }

  /** Every tracked thread is stored under its own id, as every insertion into the table does. */
  predicate ThreadsByOwnId(s: Session) {
    forall k :: k in s.threads ==> s.threads[k] == k
  }

  /** Under that invariant the loop visits exactly the tracked ids, in key order, each once. */
  lemma TrackedThreadsAreKeys(s: Session)
    requires ThreadsByOwnId(s)
    ensures TrackedThreads(s) == ThreadKeys(s)
  {
    var keys := ThreadKeys(s);
    var ids := TrackedThreads(s);
    forall i | 0 <= i < |ids| ensures ids[i] == keys[i] {
      assert keys[i] in keys;
    }
  }

  /** The session after ClearHWBP's own bookkeeping: the slot disabled in the descriptors and the image. */
  function SlotCleared(s: Session, index: int): (t: Session)
    requires 0 <= index < 4
    ensures !t.breakpoints[index].enabled
    ensures t.breakpoints[index].address == s.breakpoints[index].address
    ensures forall j :: 0 <= j < 4 && j != index ==> t.breakpoints[j] == s.breakpoints[j]
    ensures Ok(t.hwbpState) == DisableSlot(s.hwbpState, index)
    ensures t == s.(breakpoints := t.breakpoints, hwbpState := t.hwbpState)
  {
    s.(breakpoints := s.breakpoints[index := s.breakpoints[index].(enabled := false)],
       hwbpState := DisableSlot(s.hwbpState, index).value)
  }

  /**
   ClearHWBP(index): reject an index outside 0..3; otherwise disable the slot and
   its image bit, then clear that local enable in every tracked thread. A tracked
   thread that has exited makes it throw, with the slot already disabled.
   */
  function ClearHwbp(s: Session, os: Os, index: int): (r: Exec<(Session, Os), ()>)
    ensures !(0 <= index < 4) ==> r == Raised((s, os), InvalidHWBPIndex)
    ensures 0 <= index < 4 ==> r.state.0 == SlotCleared(s, index)
    ensures 0 <= index < 4 ==> r.state.1 == EditThreads(TrackedThreads(s), os, DisableEdit(index)).state
    ensures r.Done? <==> 0 <= index < 4 && forall i :: 0 <= i < |TrackedThreads(s)| ==> TrackedThreads(s)[i] in os.threads
  {
    if !(0 <= index < 4) then Raised((s, os), InvalidHWBPIndex)
    else
      var s' := SlotCleared(s, index);
      match EditThreads(TrackedThreads(s), os, DisableEdit(index))
      case Raised(os', e) => Raised((s', os'), e)
      case Done(os', _) => Done((s', os'), ())
  }

  /** ClearHWBP clears the local enable in every tracked thread and touches no other thread. */
  lemma ClearHwbpReachesEveryThread(s: Session, os: Os, index: int, tid: ThreadId)
    requires ThreadsByOwnId(s)
    requires ClearHwbp(s, os, index).Done?
    requires tid in os.threads
    ensures tid in s.threads ==> ClearHwbp(s, os, index).state.1.threads[tid] == DisabledContext(os.threads[tid], index)
    ensures tid !in s.threads ==> ClearHwbp(s, os, index).state.1.threads[tid] == os.threads[tid]
  {
    TrackedThreadsAreKeys(s);
    EditThreadsEffect(TrackedThreads(s), os, DisableEdit(index), tid);
  }

  /** A tracked thread that is no longer live makes ClearHWBP throw. */
  lemma ClearHwbpThrowsOnExitedThread(s: Session, os: Os, index: int, tid: ThreadId)
    requires ThreadsByOwnId(s)
    requires 0 <= index < 4 && tid in s.threads && tid !in os.threads
    ensures ClearHwbp(s, os, index) == Raised(ClearHwbp(s, os, index).state, GetThreadContextFailure)
  {
    TrackedThreadsAreKeys(s);
    var ids := TrackedThreads(s);
    assert tid in ids;
    assert !EditThreads(ids, os, DisableEdit(index)).Done?;
  }

  /**
   ClearHWBPByAddress as written: the loop compares `this->breakpoints->address`,
   which is slot 0's address, on every iteration, so it clears slot 0 or nothing.
   */
  function ClearHwbpByAddressAsWritten(s: Session, os: Os, address: u64): (r: Exec<(Session, Os), int>)
    ensures s.breakpoints[0].address != address ==> r == Done((s, os), -1)
    ensures s.breakpoints[0].address == address ==> r.state == ClearHwbp(s, os, 0).state
    ensures r.Done? ==> r.value in {0, -1}
  {
    if s.breakpoints[0].address == address then
      match ClearHwbp(s, os, 0)
      case Raised(st, e) => Raised(st, e)
      case Done(st, _) => Done(st, 0)
    else Done((s, os), -1)
  }

  /** A breakpoint in slot 1 is not found by address, and stays enabled. */
  lemma ClearHwbpByAddressMissesOtherSlots(s: Session, os: Os)
    requires s.breakpoints[0].address != s.breakpoints[1].address
    requires s.breakpoints[1].enabled
    ensures ClearHwbpByAddressAsWritten(s, os, s.breakpoints[1].address) == Done((s, os), -1)
    ensures ClearHwbpByAddress(s, os, s.breakpoints[1].address).state.0.breakpoints[1].enabled == false
    ensures ClearHwbpByAddress(s, os, s.breakpoints[1].address).Done? ==>
            ClearHwbpByAddress(s, os, s.breakpoints[1].address).value == 1
  {
  }

  /** The lowest slot whose descriptor holds `address`. */
  function SlotAt(slots: Slots, address: u64): (r: Option<nat>)
    ensures r.None? <==> forall i :: 0 <= i < 4 ==> slots[i].address != address
    ensures r.Some? ==> r.value < 4 && slots[r.value].address == address
    ensures r.Some? ==> forall i :: 0 <= i < r.value ==> slots[i].address != address
  {
    if slots[0].address == address then Some(0)
    else if slots[1].address == address then Some(1)
    else if slots[2].address == address then Some(2)
    else if slots[3].address == address then Some(3)
    else None
  }

  /**
   ClearHWBPByAddress as its loop means it: clear the lowest slot whose address
   matches and return its index, or return -1 when none does.
   */
  function ClearHwbpByAddress(s: Session, os: Os, address: u64): (r: Exec<(Session, Os), int>)
    ensures SlotAt(s.breakpoints, address).None? ==> r == Done((s, os), -1)
    ensures SlotAt(s.breakpoints, address).Some? ==>
      r.state == ClearHwbp(s, os, SlotAt(s.breakpoints, address).value).state
    ensures r.Done? && r.value != -1 ==>
      0 <= r.value < 4 && s.breakpoints[r.value].address == address && !r.state.0.breakpoints[r.value].enabled
  {
    match SlotAt(s.breakpoints, address)
    case None => Done((s, os), -1)
    case Some(i) =>
      match ClearHwbp(s, os, i)
      case Raised(st, e) => Raised(st, e)
      case Done(st, _) => Done(st, i as int)
  }

  /** Where slot 0 holds the address, the loop as written and as meant agree. */
  lemma ClearHwbpByAddressAgreesOnSlotZero(s: Session, os: Os)
    ensures ClearHwbpByAddressAsWritten(s, os, s.breakpoints[0].address) == ClearHwbpByAddress(s, os, s.breakpoints[0].address)
  {
  }
}

=== FILE: hw_step.dfy ===
/**
 Getting a thread past a hardware breakpoint it has just hit, as the
 single-step handler does: with DR7's four local enables cleared and the trap
 flag set, let the thread run one instruction, then clear the trap flag, set
 the resume flag and put the DR7 DWORD it read back.
 */
module HwStep {
  import opened Base
  import opened Errors
  import opened Registers
  import opened TargetOs
  import opened Hwbp
  import opened ThreadStates
  import opened Stepping
  import opened DwordEdits
  import opened DwordEditFacts

  /** Dr7_Fields with the local enables of all four slots cleared. */
  function LocalsCleared(d: Dr7Fields): (e: Dr7Fields)
    ensures forall i :: 0 <= i < 4 ==> Slot(e, i) == Slot(d, i).(local := false)
    ensures e.le == d.le && e.ge == d.ge && e.bit10 == d.bit10 && e.reserved == d.reserved
  {
    d.(slot0 := d.slot0.(local := false), slot1 := d.slot1.(local := false),
       slot2 := d.slot2.(local := false), slot3 := d.slot3.(local := false))
  }

  /** The DR7 DWORD the thread steps with. */
  function SteppingDr7(w: bv32): bv32 {
    Encode(LocalsCleared(Decode(w)))
  }

  /** The local enables are bits 0, 2, 4 and 6: clearing them clears exactly those bits. */
  lemma SteppingDr7Bits(w: bv32)
    ensures SteppingDr7(w) == w & !0x55
  {
    assert LocalsCleared(Decode(w)) == Decode(w & !0x55);
    EncodeDecode(w & !0x55);
  }

  /** The registers the thread steps with: DR7 with the local enables cleared, then EFLAGS with the trap flag. */
  function EnteredStep(c: Context): Context {
    TwoEdited(c, Dr7, DwordEdit(SteppingDr7), EFlags, DwordEdit(WithTrap))
  }

  /** The registers after the step: EFLAGS with the trap flag cleared and the resume flag set, then DR7 from `dr7`. */
  function LeftStep(c: Context, dr7: bv32): Context {
    EditedThenStored(c, EFlags, DwordEdit(AfterStep), Dr7, dr7 as bv64)
  }

  /** During the step no slot is locally enabled, every other DR7 bit is kept, and the upper half of DR7 is clear. */
  lemma EnteredStepDr7(c: Context)
    ensures LowDword(Read(EnteredStep(c), Dr7)) == LowDword(Read(c, Dr7)) & !0x55
    ensures Read(EnteredStep(c), Dr7) & !0xFFFF_FFFF == 0
  {
    EnteredStepReads(c);
    DwordEditValue(SteppingDr7, Read(c, Dr7));
    SteppingDr7Bits(LowDword(Read(c, Dr7)));
  }

  /** The two edits of the step land in DR7 and EFLAGS, and nowhere else. */
  lemma EnteredStepReads(c: Context)
    ensures Read(EnteredStep(c), Dr7) == DwordEdit(SteppingDr7)(Read(c, Dr7))
    ensures Read(EnteredStep(c), EFlags) == DwordEdit(WithTrap)(Read(c, EFlags))
    ensures forall q :: q != Dr7 && q != EFlags ==> Read(EnteredStep(c), q) == Read(c, q)
  {
    DwordEditValue(SteppingDr7, Read(c, Dr7));
    DwordEditValue(WithTrap, Read(c, EFlags));
    TwoEditedReadsBack(c, Dr7, DwordEdit(SteppingDr7), EFlags, DwordEdit(WithTrap));
  }

  /** During the step the trap flag is set, and no register besides DR7 and EFLAGS differs. */
  lemma EnteredStepEflags(c: Context)
    ensures Eflags32(EnteredStep(c)) == WithTrap(Eflags32(c))
    ensures forall q :: q != Dr7 && q != EFlags ==> Read(EnteredStep(c), q) == Read(c, q)
  {
    EnteredStepReads(c);
    DwordEditValue(WithTrap, Read(c, EFlags));
  }

  /** After the step DR7 holds `dr7` zero-extended, and EFLAGS has the trap flag cleared and the resume flag set. */
  lemma LeftStepRegisters(c: Context, dr7: bv32)
    ensures Read(LeftStep(c, dr7), Dr7) == dr7 as bv64
    ensures Eflags32(LeftStep(c, dr7)) == AfterStep(Eflags32(c))
    ensures forall q :: q != Dr7 && q != EFlags ==> Read(LeftStep(c, dr7), q) == Read(c, q)
  {
    DwordEditValue(AfterStep, Read(c, EFlags));
    DwordUpperHalfClear(dr7);
    EditedThenStoredReadsBack(c, EFlags, DwordEdit(AfterStep), Dr7, dr7 as bv64);
  }

  /**
   The DR7 the thread ends with is the one it started with, up to the upper 32
   bits, which the DWORD read drops; a DR7 written by WriteBreakpointsToThread
   has none, and comes back exactly.
   */
  lemma Dr7Restored(c0: Context, c1: Context)
    ensures LowDword(Read(LeftStep(c1, LowDword(Read(c0, Dr7))), Dr7)) == LowDword(Read(c0, Dr7))
    ensures Read(c0, Dr7) & !0xFFFF_FFFF == 0 ==> Read(LeftStep(c1, LowDword(Read(c0, Dr7))), Dr7) == Read(c0, Dr7)
  {
    var w := LowDword(Read(c0, Dr7));
    LeftStepRegisters(c1, w);
    LowDwordOfDword(w);
    DwordSplit(Read(c0, Dr7));
  }

  /**
   The stores before the step: read DR7 and EFLAGS as DWORDs, store DR7 with the
   local enables cleared, then EFLAGS with the trap flag set. Returns the DR7
   value read.
   */
  function EnterStep(t: ThreadState, os: Os): (r: Exec<ThreadState, bv64>)
  {
    EditTwo(t, os, Dr7, DwordEdit(SteppingDr7), EFlags, DwordEdit(WithTrap))
  }

  /** The stores after the step: read EFLAGS, store it with the trap flag cleared and the resume flag set, then DR7. */
  function LeaveStep(t: ThreadState, os: Os, dr7: bv32): (r: Exec<ThreadState, ()>)
  {
    EditThenStore(t, os, EFlags, DwordEdit(AfterStep), Dr7, dr7 as bv64)
  }

  /**
   The hardware-breakpoint step of the single-step handler: the entry stores,
   a flush and an invalidation, one instruction of the thread (`step`, the
   ContinueDebugEvent and WaitForDebugEvent pair), the asserts that the event it
   reports is the single step, another invalidation, the exit stores with the
   DR7 DWORD read on entry, and a flush. A failed assert ends the debugger with
   AssertionFailed.
   */
  function StepPastHwbp(t: ThreadState, os: Os, step: Os -> StepReport): (r: Exec<(ThreadState, Os), ()>)
  {
    var entered := EnterStep(t, os);
    if entered.Raised? then Raised((entered.state, os), entered.error)
    else
      var flushed := Flush(entered.state, os);
      if flushed.Raised? then flushed
      else
        var rep := step(flushed.state.1);
        if !IsSingleStep(rep) then Raised((Invalidate(flushed.state.0), rep.os), AssertionFailed)
        else
          var t1 := Invalidate(Invalidate(flushed.state.0));
          var left := LeaveStep(t1, rep.os, LowDword(entered.value));
          if left.Raised? then Raised((left.state, rep.os), left.error)
          else Flush(left.state, rep.os)
  }

  /** The process the step is handed: the thread's registers as EnteredStep leaves them. */
  function SteppingState(os: Os, tid: ThreadId): (r: Os)
    requires tid in os.threads
    ensures r.threads == os.threads[tid := EnteredStep(os.threads[tid])]
  {
    os.(threads := os.threads[tid := EnteredStep(os.threads[tid])])
  }

  /** The cache after the entry stores on a fresh cache of a live thread. */
  function Entered(t: ThreadState, os: Os): (u: ThreadState)
    requires t.threadId in os.threads
    ensures u.ctx == EnteredStep(os.threads[t.threadId]) && u.dirty && u.contextRead
  {
    t.(handle := ThreadHandle(t.threadId), ctx := EnteredStep(os.threads[t.threadId]), contextRead := true,
       ownThreadHandle := true, dirty := true)
  }

  /** Entry on a fresh cache of a live thread reads the thread, and stores the edited registers in the cache. */
  lemma EntryStores(t: ThreadState, os: Os)
    requires !t.contextRead && !t.dirty && Opened(t, os)
    ensures EnterStep(t, os) == Done(Entered(t, os), Read(os.threads[t.threadId], Dr7))
  {
    var tid := t.threadId;
    var pulled := t.(handle := ThreadHandle(tid), ctx := os.threads[tid], contextRead := true, ownThreadHandle := true);
    assert EnsureRead(t, os) == Done(pulled, ());
    EditTwoReadsFirst(t, os, Dr7, DwordEdit(SteppingDr7), EFlags, DwordEdit(WithTrap));
    EditTwoOnReadCache(pulled, os, Dr7, DwordEdit(SteppingDr7), EFlags, DwordEdit(WithTrap));
  }

  /** The flush after the entry stores publishes the edited registers to the thread. */
  lemma EntryPublishes(t: ThreadState, os: Os)
    requires Opened(t, os)
    ensures Flush(Entered(t, os), os) == Done((Entered(t, os).(dirty := false), SteppingState(os, t.threadId)), ())
  {
    FlushPublishes(Entered(t, os), os);
  }

  /** Exit on an invalidated cache of a live thread: the thread is re-read, and the edited registers are published to it. */
  lemma ExitPublishes(t: ThreadState, os: Os, dr7: bv32)
    requires !t.contextRead && !t.dirty && t.handle == ThreadHandle(t.threadId) && t.threadId in os.threads
    ensures var tid := t.threadId;
      var exit := t.(ctx := LeftStep(os.threads[tid], dr7), contextRead := true, ownThreadHandle := true, dirty := true);
      && LeaveStep(t, os, dr7) == Done(exit, ())
      && Flush(exit, os) == Done((exit.(dirty := false), os.(threads := os.threads[tid := LeftStep(os.threads[tid], dr7)])), ())
  {
    var tid := t.threadId;
    var pulled := t.(ctx := os.threads[tid], contextRead := true, ownThreadHandle := true);
    assert EnsureRead(t, os) == Done(pulled, ());
    EditThenStoreReadsFirst(t, os, EFlags, DwordEdit(AfterStep), Dr7, dr7 as bv64);
    EditThenStoreOnReadCache(pulled, os, EFlags, DwordEdit(AfterStep), Dr7, dr7 as bv64);
    FlushPublishes(pulled.(ctx := LeftStep(os.threads[tid], dr7), dirty := true), os);
  }

  /**
   On a fresh cache of a live thread that survives the step, the step is handed
   the thread with EnteredStep's registers. When the next event is the single
   step, the thread ends with the registers the step left, as LeftStep changes
   them with the DR7 DWORD read at the start; otherwise the assert fails with the
   thread still holding what the step left.
   */
  lemma StepPastHwbpEffect(t: ThreadState, os: Os, step: Os -> StepReport)
    requires !t.contextRead && !t.dirty && Opened(t, os)
    requires t.threadId in step(SteppingState(os, t.threadId)).os.threads
    ensures var tid := t.threadId;
      var rep := step(SteppingState(os, tid));
      var final := LeftStep(rep.os.threads[tid], LowDword(Read(os.threads[tid], Dr7)));
      && (IsSingleStep(rep) ==>
            StepPastHwbp(t, os, step)
              == Done((t.(handle := ThreadHandle(tid), ctx := final, contextRead := true, ownThreadHandle := true),
                       rep.os.(threads := rep.os.threads[tid := final])), ()))
      && (!IsSingleStep(rep) ==>
            StepPastHwbp(t, os, step).Raised? && StepPastHwbp(t, os, step).error == AssertionFailed
            && StepPastHwbp(t, os, step).state.1 == rep.os)
  {
    var tid := t.threadId;
    EntryStores(t, os);
    EntryPublishes(t, os);
    var entry := Entered(t, os).(dirty := false);
    var rep := step(SteppingState(os, tid));
    if IsSingleStep(rep) {
      var t2 := Invalidate(Invalidate(entry));
      assert t2 == entry.(contextRead := false);
      ExitPublishes(t2, rep.os, LowDword(Read(os.threads[tid], Dr7)));
    } else {
      StepPastHwbpInterrupted(t, os, step);
    }
  }

  /**
   When the event after the step is not the single step, the assert fails: the
   target is left as the step left it, and the cache, invalidated before the
   step, holds nothing to flush.
   */
  lemma StepPastHwbpInterrupted(t: ThreadState, os: Os, step: Os -> StepReport)
    requires !t.contextRead && !t.dirty && Opened(t, os)
    requires !IsSingleStep(step(SteppingState(os, t.threadId)))
    ensures var r := StepPastHwbp(t, os, step);
      && r == Raised((Entered(t, os).(dirty := false, contextRead := false), step(SteppingState(os, t.threadId)).os), AssertionFailed)
      && !r.state.0.dirty
  {
    EntryStores(t, os);
    EntryPublishes(t, os);
  }

  /** A thread that cannot be read fails the step before anything is stored or run. */
  lemma StepPastHwbpUnreadable(t: ThreadState, os: Os, step: Os -> StepReport)
    requires EnsureRead(t, os).Raised?
    ensures StepPastHwbp(t, os, step) == Raised((EnsureRead(t, os).state, os), GetThreadContextFailure)
  {
    EditTwoFails(t, os, Dr7, DwordEdit(SteppingDr7), EFlags, DwordEdit(WithTrap));
  }
}

=== FILE: hwbp.dfy ===
/**
 Hardware breakpoints: the four slot descriptors and the debug-register image
 (DR0-DR3 plus the DR7 control word) the debugger keeps and copies into threads.

 DR7 follows section 17.2.4, "Debug Control Register (DR7)", of the Intel 64
 and IA-32 Architectures Software Developer's Manual, Volume 3B (the 2016
 edition; later editions number the same section 18.2.4): for slot i, bit 2i is the local
 enable L_i, bit 2i+1 the global enable G_i, bits 16+4i..17+4i the R/W condition
 and bits 18+4i..19+4i the LEN field; bit 8 is LE, bit 9 is GE and bit 10 is
 reserved and reads as 1.
 */
module Hwbp {
  import opened Base
  import opened Errors

  /** BPCONDITION. */
  datatype Condition = Execution | DataWrite | DataReadWrite

  /** BPLEN. */
  datatype Length = One | Two | Four | Eight

  /** The enumerator values of BPCONDITION, which are written into the R/W fields. */
  function ConditionBits(c: Condition): (b: bv2)
  {
    match c
    case Execution => 0
    case DataWrite => 1
    case DataReadWrite => 3
  }

  /** The enumerator values of BPLEN, which are written into the LEN fields. */
  function LengthBits(l: Length): (b: bv2)
  {
    match l
    case One => 0
    case Two => 1
    case Eight => 2
    case Four => 3
  }

  /** How many bytes a breakpoint of this length watches. */
  function LengthBytes(l: Length): (n: nat)
    ensures n in {1, 2, 4, 8}
  {
    match l
    case One => 1
    case Two => 2
    case Four => 4
    case Eight => 8
  }

  /**
   The R/W encoding table of SDM Volume 3B section 17.2.4, indexed by field
   value: 00 break on execution, 01 on data writes, 10 on I/O (no BPCONDITION
   names it), 11 on data reads or writes.
   */
  const SDM_CONDITIONS: seq<Option<Condition>> :=
    [Some(Execution), Some(DataWrite), None, Some(DataReadWrite)]

  /** The LEN encoding table of the same section: 00 one byte, 01 two, 10 eight, 11 four. */
  const SDM_LENGTH_BYTES: seq<nat> := [1, 2, 8, 4]

  /** Every BPCONDITION value means, in the R/W field, the condition it is named after. */
  lemma ConditionEncodingMatchesSdm(c: Condition)
    ensures SDM_CONDITIONS[ConditionBits(c) as int] == Some(c)
  {
  }

  /** Every BPLEN value means, in the LEN field, the length it is named after. */
  lemma LengthEncodingMatchesSdm(l: Length)
    ensures SDM_LENGTH_BYTES[LengthBits(l) as int] == LengthBytes(l)
  {
  }

  /** Distinct enumerators get distinct field values, so the fields can be decoded. */
  lemma EncodingsInjective(c1: Condition, c2: Condition, l1: Length, l2: Length)
    ensures ConditionBits(c1) == ConditionBits(c2) ==> c1 == c2
    ensures LengthBits(l1) == LengthBits(l2) ==> l1 == l2
  {
  }

  /** The R/W field value back to the BPCONDITION it encodes; the I/O value 2 names none. */
  function ConditionOf(b: bv2): (c: Option<Condition>)
    ensures c.Some? <==> b != 2
    ensures c.Some? ==> ConditionBits(c.value) == b
  {
    if b == 0 then Some(Execution) else if b == 1 then Some(DataWrite)
    else if b == 3 then Some(DataReadWrite) else None
  }

  /** The LEN field value back to the BPLEN it encodes; every value names one. */
  function LengthOf(b: bv2): (l: Length)
    ensures LengthBits(l) == b
  {
    if b == 0 then One else if b == 1 then Two else if b == 2 then Eight else Four
  }

  /** HWBPDescriptor. */
  datatype Descriptor = Descriptor(address: u64, condition: Condition, len: Length, enabled: bool)

  /** A zero-initialised descriptor (`= { 0 }`): address 0, both enums 0, disabled. */
  const ZERO_DESCRIPTOR: Descriptor := Descriptor(0, Execution, One, false)

  lemma ZeroDescriptorIsAllZero()
    ensures ZERO_DESCRIPTOR.address == 0 && !ZERO_DESCRIPTOR.enabled
    ensures ConditionBits(ZERO_DESCRIPTOR.condition) == 0
    ensures LengthBits(ZERO_DESCRIPTOR.len) == 0
  {
  }

  /** One slot's part of the Dr7_Fields bit-field struct. */
  datatype SlotControl = SlotControl(local: bool, global: bool, rw: bv2, len: bv2)

  /** The Dr7_Fields bit-field struct, one member per named field. */
  datatype Dr7Fields = Dr7Fields(
    slot0: SlotControl, slot1: SlotControl, slot2: SlotControl, slot3: SlotControl,
    le: bool, ge: bool, bit10: bool, reserved: bv5)

  const ZERO_SLOT: SlotControl := SlotControl(false, false, 0, 0)

  /** The struct whose `int32` view is 0. */
  const ZERO_DR7: Dr7Fields := Dr7Fields(ZERO_SLOT, ZERO_SLOT, ZERO_SLOT, ZERO_SLOT, false, false, false, 0)

  function Bit(b: bool): bv32 {
    if b then 1 else 0
  }

  function Enables(s: SlotControl): bv32 {
    Bit(s.local) | (Bit(s.global) << 1)
  }

  function FieldBits(s: SlotControl): bv32 {
    (s.rw as bv32) | ((s.len as bv32) << 2)
  }

  /** Bits 0-15 of the `int32` view: the enables, LE, GE, bit 10 and the reserved bits. */
  function LowHalf(d: Dr7Fields): bv32 {
    Enables(d.slot0) | (Enables(d.slot1) << 2) | (Enables(d.slot2) << 4) | (Enables(d.slot3) << 6)
    | (Bit(d.le) << 8) | (Bit(d.ge) << 9) | (Bit(d.bit10) << 10) | ((d.reserved as bv32) << 11)
  }

  /** Bits 16-31, shifted down: the R/W and LEN fields of the four slots. */
  function HighHalf(d: Dr7Fields): bv32 {
    FieldBits(d.slot0) | (FieldBits(d.slot1) << 4) | (FieldBits(d.slot2) << 8) | (FieldBits(d.slot3) << 12)
  }

  /** The `int32` view of the union: each field at its position in the x64 DR7 layout. */
  function Encode(d: Dr7Fields): bv32 {
    LowHalf(d) | (HighHalf(d) << 16)
  }

  function DecodeSlot(enables: bv32, fields: bv32): SlotControl {
    SlotControl(enables & 1 == 1, (enables >> 1) & 1 == 1, (fields & 3) as bv2, ((fields >> 2) & 3) as bv2)
  }

  /** The bit-field view of a 32-bit value stored through `int32`. */
  function Decode(w: bv32): Dr7Fields {
    Dr7Fields(
      DecodeSlot(w, w >> 16), DecodeSlot(w >> 2, w >> 20),
      DecodeSlot(w >> 4, w >> 24), DecodeSlot(w >> 6, w >> 28),
      (w >> 8) & 1 == 1, (w >> 9) & 1 == 1, (w >> 10) & 1 == 1, ((w >> 11) & 31) as bv5)
  }

  /** The two views of the union agree: the fields cover all 32 bits exactly once. */
  lemma EncodeDecode(w: bv32)
    ensures Encode(Decode(w)) == w
  {
    LowHalfOfDecode(w);
    HighHalfOfDecode(w);
    HalvesJoin(w);
  }

  lemma LowHalfOfDecode(w: bv32)
    ensures LowHalf(Decode(w)) == w & 0xFFFF
  {
    var d := Decode(w);
    EnablesOfDecode(w);
    EnablesOfDecode(w >> 2);
    EnablesOfDecode(w >> 4);
    EnablesOfDecode(w >> 6);
    BitOfDecode(w >> 8);
    BitOfDecode(w >> 9);
    BitOfDecode(w >> 10);
    LowJoin(w);
  }

  lemma EnablesOfDecode(v: bv32)
    ensures forall f :: Enables(DecodeSlot(v, f)) == v & 3
  {
  }

  lemma BitOfDecode(v: bv32)
    ensures Bit(v & 1 == 1) == v & 1
  {
  }

  lemma LowJoin(w: bv32)
    ensures (w & 3) | (((w >> 2) & 3) << 2) | (((w >> 4) & 3) << 4) | (((w >> 6) & 3) << 6)
      | (((w >> 8) & 1) << 8) | (((w >> 9) & 1) << 9) | (((w >> 10) & 1) << 10)
      | ((((w >> 11) & 31) as bv5) as bv32 << 11) == w & 0xFFFF
  {
  }

  lemma HighHalfOfDecode(w: bv32)
    ensures HighHalf(Decode(w)) == w >> 16
  {
  }

  lemma HalvesJoin(w: bv32)
    ensures (w & 0xFFFF) | ((w >> 16) << 16) == w
  {
  }

  lemma DecodeEncode(d: Dr7Fields)
    ensures Decode(Encode(d)) == d
  {
  }

  /** Setting `int32` to 0 clears every field. */
  lemma ZeroDr7IsZero()
    ensures Encode(ZERO_DR7) == 0
    ensures Decode(0) == ZERO_DR7
  {
  }

  /** The controls of slot i. */
  function Slot(d: Dr7Fields, i: nat): SlotControl
    requires i < 4
  {
    if i == 0 then d.slot0 else if i == 1 then d.slot1 else if i == 2 then d.slot2 else d.slot3
  }

  function WithSlot(d: Dr7Fields, i: nat, c: SlotControl): (e: Dr7Fields)
    requires i < 4
    ensures Slot(e, i) == c
    ensures forall j :: 0 <= j < 4 && j != i ==> Slot(e, j) == Slot(d, j)
    ensures e.le == d.le && e.ge == d.ge && e.bit10 == d.bit10 && e.reserved == d.reserved
  {
    if i == 0 then d.(slot0 := c)
    else if i == 1 then d.(slot1 := c)
    else if i == 2 then d.(slot2 := c)
    else d.(slot3 := c)
  }

  /**
   The bit-field view with slot `index`'s local enable cleared, as
   `DisableHWBPByIndex` does it: any index outside 0..3 changes nothing.
   */
  function ClearLocal(d: Dr7Fields, index: int): (e: Dr7Fields)
    ensures 0 <= index < 4 ==> !Slot(e, index).local
    ensures 0 <= index < 4 ==> Slot(e, index) == Slot(d, index).(local := false)
    ensures forall j :: 0 <= j < 4 && j != index ==> Slot(e, j) == Slot(d, j)
    ensures e.le == d.le && e.ge == d.ge && e.bit10 == d.bit10 && e.reserved == d.reserved
  {
    if 0 <= index < 4 then WithSlot(d, index, Slot(d, index).(local := false)) else d
  }

  /** HWBPRegisterState: the breakpoint addresses and the DR7 image. */
  datatype RegisterState = RegisterState(dr0: bv64, dr1: bv64, dr2: bv64, dr3: bv64, dr7: Dr7Fields)

  /** A freshly constructed register state. */
  const INITIAL_STATE: RegisterState := RegisterState(0, 0, 0, 0, ZERO_DR7)

  /** The address register of slot i. */
  function Dr(s: RegisterState, i: nat): bv64
    requires i < 4
  {
    if i == 0 then s.dr0 else if i == 1 then s.dr1 else if i == 2 then s.dr2 else s.dr3
  }

  function WithDr(s: RegisterState, i: nat, a: bv64): (t: RegisterState)
    requires i < 4
    ensures Dr(t, i) == a && t.dr7 == s.dr7
    ensures forall j :: 0 <= j < 4 && j != i ==> Dr(t, j) == Dr(s, j)
  {
    if i == 0 then s.(dr0 := a)
    else if i == 1 then s.(dr1 := a)
    else if i == 2 then s.(dr2 := a)
    else s.(dr3 := a)
  }

  /** The registers of two states agree everywhere except on slot i. */
  predicate SameExceptSlot(s: RegisterState, t: RegisterState, i: nat)
    requires i < 4
  {
    && (forall j :: 0 <= j < 4 && j != i ==> Dr(t, j) == Dr(s, j) && Slot(t.dr7, j) == Slot(s.dr7, j))
    && t.dr7.le == s.dr7.le && t.dr7.ge == s.dr7.ge
    && t.dr7.bit10 == s.dr7.bit10 && t.dr7.reserved == s.dr7.reserved
  }

  /**
   WriteHWBPToState: load descriptor `d` into slot `index`: its condition, length and
   local enable, and for slot 0 alone a cleared global enable. Indexes outside 0..3
   throw InvalidHWBPIndexException and leave the state as it was.
   */
  function WriteSlot(s: RegisterState, d: Descriptor, index: int): (r: Result<RegisterState>)
    ensures r.Ok? <==> 0 <= index < 4
    ensures !r.Ok? ==> r.error == InvalidHWBPIndex
    ensures r.Ok? ==> Dr(r.value, index) == d.address as bv64
    ensures r.Ok? ==> Slot(r.value.dr7, index).local
    ensures r.Ok? ==> Slot(r.value.dr7, index).rw == ConditionBits(d.condition)
    ensures r.Ok? ==> Slot(r.value.dr7, index).len == LengthBits(d.len)
    ensures r.Ok? ==> Slot(r.value.dr7, index).global == (index != 0 && Slot(s.dr7, index).global)
    ensures r.Ok? ==> SameExceptSlot(s, r.value, index)
  {
    if 0 <= index < 4 then
      var prev := Slot(s.dr7, index);
      var c := SlotControl(true, index != 0 && prev.global, ConditionBits(d.condition), LengthBits(d.len));
      Ok(WithDr(s, index, d.address as bv64).(dr7 := WithSlot(s.dr7, index, c)))
    else Err(InvalidHWBPIndex)
  }

  /** What the registers say about one slot: its address register and the decoded DR7 fields. */
  datatype SlotView = SlotView(address: bv64, condition: Condition, len: Length, enabled: bool)

  /**
   The breakpoint a slot holds, read back from the registers. None when the R/W
   field holds the I/O value no BPCONDITION names.
   */
  function ReadSlot(s: RegisterState, i: nat): Option<SlotView>
    requires i < 4
  {
    var c := Slot(s.dr7, i);
    match ConditionOf(c.rw)
    case None => None
    case Some(cond) => Some(SlotView(Dr(s, i), cond, LengthOf(c.len), c.local))
  }

  /** A written descriptor reads back as itself, enabled. */
  lemma ReadAfterWriteSlot(s: RegisterState, d: Descriptor, index: int)
    requires 0 <= index < 4
    ensures ReadSlot(WriteSlot(s, d, index).value, index) == Some(SlotView(d.address as bv64, d.condition, d.len, true))
  {
    var t := WriteSlot(s, d, index).value;
    EncodingsInjective(ConditionOf(ConditionBits(d.condition)).value, d.condition,
                       LengthOf(LengthBits(d.len)), d.len);
  }

  /** DisableHWBP: clear L_index. */
  function DisableSlot(s: RegisterState, index: int): (r: Result<RegisterState>)
    ensures r.Ok? <==> 0 <= index < 4
    ensures !r.Ok? ==> r.error == InvalidHWBPIndex
    ensures r.Ok? ==> Slot(r.value.dr7, index) == Slot(s.dr7, index).(local := false)
    ensures r.Ok? ==> Dr(r.value, index) == Dr(s, index) && SameExceptSlot(s, r.value, index)
  {
    if 0 <= index < 4 then
      Ok(s.(dr7 := WithSlot(s.dr7, index, Slot(s.dr7, index).(local := false))))
    else Err(InvalidHWBPIndex)
  }

  /** EnsableHWBP: set L_index. */
  function EnableSlot(s: RegisterState, index: int): (r: Result<RegisterState>)
    ensures r.Ok? <==> 0 <= index < 4
    ensures !r.Ok? ==> r.error == InvalidHWBPIndex
    ensures r.Ok? ==> Slot(r.value.dr7, index) == Slot(s.dr7, index).(local := true)
    ensures r.Ok? ==> Dr(r.value, index) == Dr(s, index) && SameExceptSlot(s, r.value, index)
  {
    if 0 <= index < 4 then
      Ok(s.(dr7 := WithSlot(s.dr7, index, Slot(s.dr7, index).(local := true))))
    else Err(InvalidHWBPIndex)
  }

  /** Two states that agree on every slot and on the remaining DR7 fields are equal. */
  lemma {:induction false} StatesEqual(s: RegisterState, t: RegisterState, i: nat)
    requires i < 4
    requires SameExceptSlot(s, t, i) && Dr(t, i) == Dr(s, i) && Slot(t.dr7, i) == Slot(s.dr7, i)
    ensures s == t
  {
    forall j | 0 <= j < 4 ensures Dr(t, j) == Dr(s, j) && Slot(t.dr7, j) == Slot(s.dr7, j) {
      if j != i { }
    }
    assert Dr(t, 0) == Dr(s, 0) && Dr(t, 1) == Dr(s, 1) && Dr(t, 2) == Dr(s, 2) && Dr(t, 3) == Dr(s, 3);
    assert Slot(t.dr7, 0) == Slot(s.dr7, 0) && Slot(t.dr7, 1) == Slot(s.dr7, 1);
    assert Slot(t.dr7, 2) == Slot(s.dr7, 2) && Slot(t.dr7, 3) == Slot(s.dr7, 3);
  }

  /** Enabling a slot that was enabled before a disable gives back the original state. */
  lemma EnableAfterDisable(s: RegisterState, index: int)
    requires 0 <= index < 4
    requires Slot(s.dr7, index).local
    ensures EnableSlot(DisableSlot(s, index).value, index) == Ok(s)
  {
    var e := EnableSlot(DisableSlot(s, index).value, index).value;
    StatesEqual(s, e, index);
  }

  /** Disabling a slot that was disabled before an enable gives back the original state. */
  lemma DisableAfterEnable(s: RegisterState, index: int)
    requires 0 <= index < 4
    requires !Slot(s.dr7, index).local
    ensures DisableSlot(EnableSlot(s, index).value, index) == Ok(s)
  {
    var d := DisableSlot(EnableSlot(s, index).value, index).value;
    StatesEqual(s, d, index);
  }

  /**
   The DR7 fields `WriteBreakpointsToThread` stores into a thread: the image with LE
   and GE cleared and bit 10 set.
   */
  function ThreadDr7(s: RegisterState): (f: Dr7Fields)
    ensures !f.le && !f.ge && f.bit10
    ensures forall i :: 0 <= i < 4 ==> Slot(f, i) == Slot(s.dr7, i)
    ensures f.reserved == s.dr7.reserved
  {
    s.dr7.(le := false, ge := false, bit10 := true)
  }

  /** The 32-bit value stored into a thread's DR7 decodes to the slots of the image. */
  lemma ThreadDr7KeepsSlots(s: RegisterState, i: nat)
    requires i < 4
    ensures Slot(Decode(Encode(ThreadDr7(s))), i) == Slot(s.dr7, i)
    ensures Decode(Encode(ThreadDr7(s))).bit10
  {
    DecodeEncode(ThreadDr7(s));
  }
}

=== FILE: main_module.dfy ===
/**
 GetMainModuleBase, run at the target's first breakpoint: every module of the
 Toolhelp module snapshot with a path longer than four characters is recorded
 through the ModuleInfo constructor as written, and each one whose path ends in
 ".exe" becomes the main module: its deferred breakpoints are resolved against
 its file name, and its base is the one returned. The last such module wins; with
 none the result is 0.
 */
module MainModules {
  import opened Base
  import opened Errors
  import opened Text
  import opened Deferred
  import opened ModuleInfos
  import opened TargetOs
  import opened Session
  import opened Resolution

  /** One entry of the Toolhelp module snapshot: the module's path, converted to a multibyte string, and its base. */
  datatype ModuleEntry = ModuleEntry(exePath: string, base: u64)

  /** The path is longer than four characters and its last four are exactly ".exe" (`wcscmp` is case-sensitive). */
  predicate IsMainCandidate(path: string) {
    |path| > 4 && path[|path| - 4..] == ".exe"
  }

  /** Some entry of the snapshot is a candidate: GetMainModuleBase assigns the object's main module. */
  predicate HasMainCandidate(mods: seq<ModuleEntry>) {
    exists i :: 0 <= i < |mods| && IsMainCandidate(mods[i].exePath)
  }

  /** The base of the last candidate of the snapshot, or `found` when there is none. */
  function LastExeBase(mods: seq<ModuleEntry>, found: u64): (b: u64)
    ensures b == found || exists i :: 0 <= i < |mods| && IsMainCandidate(mods[i].exePath) && b == mods[i].base
    ensures (forall i :: 0 <= i < |mods| ==> !IsMainCandidate(mods[i].exePath)) ==> b == found
    decreases |mods|
  {
    if mods == [] then found
    else
      var n := |mods| - 1;
      if IsMainCandidate(mods[n].exePath) then mods[n].base
      else
        assert forall i :: 0 <= i < n ==> mods[..n][i] == mods[i];
        LastExeBase(mods[..n], found)
  }

  /** Seen from the front: after the first entry, the search goes on with that entry's base as the one found so far. */
  lemma {:induction false} LastExeBaseCons(mods: seq<ModuleEntry>, found: u64)
    requires mods != []
    ensures LastExeBase(mods, found)
         == LastExeBase(mods[1..], if IsMainCandidate(mods[0].exePath) then mods[0].base else found)
    decreases |mods|
  {
    var n := |mods| - 1;
    var next := if IsMainCandidate(mods[0].exePath) then mods[0].base else found;
    if n > 0 && !IsMainCandidate(mods[n].exePath) {
      LastExeBaseCons(mods[..n], found);
      assert mods[..n][1..] == mods[1..][..n - 1];
    }
  }

  /** What the walk leaves alone: everything of the debugger object but the breakpoints and the module tables. */
  predicate Keeps(t: Session, s: Session) {
    && t.threads == s.threads
    && t.eventCallbacks == s.eventCallbacks
    && t.resolvedCallback == s.resolvedCallback
    && t.firstBreakpointHit == s.firstBreakpointHit
    && t.entryPoint == s.entryPoint
    && t.deferredHwbps == s.deferredHwbps
    && t.deferredSwbps == s.deferredSwbps
  }

  /** The notices `b` are a prefix of `a`: notices are only ever appended. */
  predicate Extends(a: seq<Notice>, b: seq<Notice>) {
    |b| <= |a| && a[..|b|] == b
  }

  /**
   One entry of the snapshot: a path of four characters or fewer is skipped;
   otherwise the module is recorded, and a candidate is resolved by its file
   name and becomes the base found.
   */
  function VisitModule(r: Resolved, e: ModuleEntry, found: u64): (res: Exec<Resolved, u64>)
    ensures res.Done? ==> res.value == if IsMainCandidate(e.exePath) then e.base else found
    ensures res.Raised? ==> res.error == OutOfRange || res.error == SlotsExhausted
    ensures Keeps(res.state.session, r.session)
    ensures Extends(res.state.notices, r.notices)
  {
    if |e.exePath| <= 4 then Done(r, found)
    else
      match FromPathAsWritten(e.base, e.exePath)
      case Err(err) => Raised(r, err)
      case Ok(m) =>
        var s1 := MapDll(r.session, m);
        if !IsMainCandidate(e.exePath) then Done(r.(session := s1), found)
        else
          ResolveDeferredBpsFrame(s1, r.os, FileName(e.exePath), e.base);
          var resolved := ResolveDeferredBps(s1, r.os, FileName(e.exePath), e.base);
          var r1 := Resolved(resolved.state.session, resolved.state.os, r.notices + resolved.state.notices);
          assert r1.notices[..|r.notices|] == r.notices;
          if resolved.Raised? then Raised(r1, resolved.error) else Done(r1, e.base)
  }

  lemma ExtendsTransitive(a: seq<Notice>, b: seq<Notice>, c: seq<Notice>)
    requires Extends(a, b) && Extends(b, c)
    ensures Extends(a, c)
  {
    assert a[..|c|] == a[..|b|][..|c|];
  }

  /**
   The walk from the snapshot entry onwards, carrying the resolution so far and
   the base found so far. A constructor that throws out_of_range, or a
   resolution that runs out of hardware slots, ends the walk.
   */
  function MainModuleWalk(r: Resolved, mods: seq<ModuleEntry>, found: u64): (res: Exec<Resolved, u64>)
    ensures res.Done? ==> res.value == LastExeBase(mods, found)
    ensures res.Raised? ==> res.error == OutOfRange || res.error == SlotsExhausted
    ensures Keeps(res.state.session, r.session)
    ensures Extends(res.state.notices, r.notices)
    decreases |mods|
  {
    if mods == [] then Done(r, found)
    else
      var visited := VisitModule(r, mods[0], found);
      if visited.Raised? then visited
      else
        LastExeBaseCons(mods, found);
        var rest := MainModuleWalk(visited.state, mods[1..], visited.value);
        ExtendsTransitive(rest.state.notices, visited.state.notices, r.notices);
        rest
  }

  /** GetMainModuleBase over the snapshot `mods`, with no notices yet and nothing found. */
  function GetMainModuleBase(s: Session, os: Os, mods: seq<ModuleEntry>): (res: Exec<Resolved, u64>)
    ensures res.Done? ==> res.value == LastExeBase(mods, 0)
    ensures (forall i :: 0 <= i < |mods| ==> !IsMainCandidate(mods[i].exePath)) && res.Done? ==> res.value == 0
  {
    MainModuleWalk(Resolved(s, os, []), mods, 0)
  }

  /** A path with a directory part survives the constructor as written, and its file name is what follows the last backslash. */
  lemma JoinedPathParses(base: u64, dir: string, file: string)
    requires NoBackslash(file)
    ensures FromPathAsWritten(base, dir + "\\" + file).Ok? || |file| < 3
    ensures FileName(dir + "\\" + file) == file
  {
    var path := dir + "\\" + file;
    assert path[|dir|] == '\\';
    assert FindFirstOf(path, {'\\', '?'}).value <= |dir|;
    FileNameOfJoin(dir, file);
  }

  /** A candidate's name keeps it a candidate under any directory. */
  lemma CandidateJoin(dir: string, file: string)
    requires IsMainCandidate(file)
    ensures IsMainCandidate(dir + "\\" + file)
  {
    var path := dir + "\\" + file;
    assert path[|path| - 4..] == file[|file| - 4..];
  }

  /** The resolution of a snapshot's only candidate with one matching hardware breakpoint queued announces it. */
  lemma ResolveOneQueued(s: Session, os: Os, b: DeferredHwbp, file: string, base: u64)
    requires EqualsIgnoringCase(file, b.moduleName)
    requires s.deferredHwbps == [b] && s.deferredSwbps == []
    requires EnabledCount(s.breakpoints) < 4
    requires Registered(s.resolvedCallback)
    ensures ResolveDeferredBps(s, os, file, base).Done?
    ensures ResolveDeferredBps(s, os, file, base).state.notices == [Notice(file, b.offset, WrapAdd(base, b.offset))]
  {
    assert HwOffsets([b], file) == [b.offset];
    assert SwOffsets([], file) == [];
    ResolveDeferredBpsOutcome(s, os, file, base);
  }

  /** A candidate that survives the constructor is resolved by its file name, its notices appended to those so far. */
  lemma VisitCandidate(r: Resolved, e: ModuleEntry, found: u64)
    requires IsMainCandidate(e.exePath) && FromPathAsWritten(e.base, e.exePath).Ok?
    ensures var resolved := ResolveDeferredBps(MapDll(r.session, FromPathAsWritten(e.base, e.exePath).value), r.os, FileName(e.exePath), e.base);
      var v := VisitModule(r, e, found);
      && (v.Done? <==> resolved.Done?)
      && v.state.notices == r.notices + resolved.state.notices
  {
  }

  /** A snapshot of one entry is walked by visiting that entry. */
  lemma WalkOne(r: Resolved, e: ModuleEntry, found: u64)
    ensures MainModuleWalk(r, [e], found) == VisitModule(r, e, found)
  {
    var v := VisitModule(r, e, found);
    if v.Done? {
      assert [e][1..] == [];
    }
  }

  /**
   A snapshot holding only the executable `dir\file`, with one hardware
   breakpoint queued under its file name in any case and a free slot: the walk
   completes, returns the executable's base and announces the breakpoint. Unlike
   a module load, which resolves against the full path, the main module is found
   by its file name.
   */
  lemma MainModuleResolvesByFileName(s: Session, os: Os, b: DeferredHwbp, dir: string, file: string, base: u64)
    requires NoBackslash(file) && IsMainCandidate(file) && EqualsIgnoringCase(file, b.moduleName)
    requires s.deferredHwbps == [b] && s.deferredSwbps == []
    requires EnabledCount(s.breakpoints) < 4
    requires Registered(s.resolvedCallback)
    ensures var res := GetMainModuleBase(s, os, [ModuleEntry(dir + "\\" + file, base)]);
      && res.Done?
      && res.value == base
      && res.state.notices == [Notice(file, b.offset, WrapAdd(base, b.offset))]
  {
    var path := dir + "\\" + file;
    var e := ModuleEntry(path, base);
    JoinedPathParses(base, dir, file);
    CandidateJoin(dir, file);
    var s1 := MapDll(s, FromPathAsWritten(base, path).value);
    ResolveOneQueued(s1, os, b, file, base);
    VisitCandidate(Resolved(s, os, []), e, 0);
    WalkOne(Resolved(s, os, []), e, 0);
    var none: seq<Notice> := [];
    assert none + [Notice(file, b.offset, WrapAdd(base, b.offset))] == [Notice(file, b.offset, WrapAdd(base, b.offset))];
  }

  /**
   A snapshot whose only entry has a path with neither a backslash nor a question
   mark makes the constructor as written throw out_of_range, before anything is
   recorded.
   */
  lemma BarePathThrows(s: Session, os: Os, path: string, base: u64)
    requires |path| > 4
    requires forall i :: 0 <= i < |path| ==> path[i] != '\\' && path[i] != '?'
    ensures GetMainModuleBase(s, os, [ModuleEntry(path, base)]) == Raised(Resolved(s, os, []), OutOfRange)
  {
    assert FindFirstOf(path, {'\\', '?'}).None?;
    WalkOne(Resolved(s, os, []), ModuleEntry(path, base), 0);
  }
}

=== FILE: module_info.dfy ===
/**
 ModuleInfo: a loaded module's path, file name and base address, derived from the
 image path the debugger receives for it. The portable-executable view the class
 also builds is not part of this model.
 */
module ModuleInfos {
  import opened Base
  import opened Errors

  datatype ModuleInfo = ModuleInfo(path: string, name: string, base: u64)

  /** ModuleInfo(): base 0, empty strings. */
  function DefaultModuleInfo(): (m: ModuleInfo)
    ensures m.base == 0 && m.path == "" && m.name == ""
  {
    ModuleInfo("", "", 0)
  }

  /** The Win32 file-namespace prefix `\\?\`. */
  const LONG_PATH_PREFIX: string := "\\\\?\\"

  /** `std::string::find_first_of(chars)`: the first index holding one of `chars`. */
  function FindFirstOf(s: string, chars: set<char>): (r: Option<nat>)
    ensures r.None? <==> forall i :: 0 <= i < |s| ==> s[i] !in chars
    ensures r.Some? ==> r.value < |s| && s[r.value] in chars
    ensures r.Some? ==> forall i :: 0 <= i < r.value ==> s[i] !in chars
  {
    if s == [] then None
    else if s[0] in chars then Some(0)
    else match FindFirstOf(s[1..], chars)
      case None => None
      case Some(i) => Some(i + 1)
  }

  /** `std::string::find_last_of(c)`: the last index holding `c`. */
  function FindLastOf(s: string, c: char): (r: Option<nat>)
    ensures r.None? <==> forall i :: 0 <= i < |s| ==> s[i] != c
    ensures r.Some? ==> r.value < |s| && s[r.value] == c
    ensures r.Some? ==> forall i :: r.value < i < |s| ==> s[i] != c
  {
    if s == [] then None
    else if s[|s| - 1] == c then Some(|s| - 1)
    else FindLastOf(s[..|s| - 1], c)
  }

  /** `std::string::substr(pos)`: the suffix from `pos`, out_of_range beyond the end. */
  function Substr(s: string, pos: nat): (r: Result<string>)
    ensures r.Ok? <==> pos <= |s|
    ensures r.Ok? ==> s == s[..pos] + r.value
    ensures r.Err? ==> r.error == OutOfRange
  {
    if pos <= |s| then Ok(s[pos..]) else Err(OutOfRange)
  }

  /**
   The module's file name: what follows the last backslash of the path, or the
   whole path when it has none (`find_last_of` gives npos, and npos + 1 wraps to 0).
   */
  function FileName(path: string): (name: string)
    ensures forall i :: 0 <= i < |name| ==> name[i] != '\\'
    ensures exists k :: 0 <= k <= |path| && path == path[..k] + name && (k == 0 || path[k - 1] == '\\')
  {
    match FindLastOf(path, '\\')
    case None =>
      assert path == path[..0] + path;
      path
    case Some(j) =>
      assert path == path[..j + 1] + path[j + 1..];
      path[j + 1..]
  }

  /**
   The ModuleInfo(baseAddress, filePath, processHandle) constructor as written. It
   looks for the first character of "\\\\?\\" in the path, that is the first
   backslash or question mark, and keeps what follows the four characters starting
   there; with neither character present, `substr(npos)` throws out_of_range.
   */
  function FromPathAsWritten(base: u64, filePath: string): (r: Result<ModuleInfo>)
    ensures r.Ok? <==> FindFirstOf(filePath, {'\\', '?'}).Some? && FindFirstOf(filePath, {'\\', '?'}).value + 4 <= |filePath|
    ensures r.Err? ==> r.error == OutOfRange
    ensures r.Ok? ==> r.value.path == filePath[FindFirstOf(filePath, {'\\', '?'}).value + 4..]
    ensures r.Ok? ==> r.value.name == FileName(r.value.path) && r.value.base == base
  {
    match FindFirstOf(filePath, {'\\', '?'})
    case None => Err(OutOfRange)
    case Some(i) =>
      match Substr(filePath, i + 4)
      case Err(e) => Err(e)
      case Ok(path) => Ok(ModuleInfo(path, FileName(path), base))
  }

  /** A path in the `\\?\` namespace loses exactly its prefix. */
  lemma AsWrittenStripsPrefix(base: u64, p: string)
    ensures FromPathAsWritten(base, LONG_PATH_PREFIX + p).Ok?
    ensures FromPathAsWritten(base, LONG_PATH_PREFIX + p).value.path == p
  {
    var s := LONG_PATH_PREFIX + p;
    assert s[0] == '\\';
    assert s[4..] == p;
  }

  /** A drive-letter path loses its first six characters, and its name with them. */
  lemma AsWrittenTruncatesDrivePath()
    ensures FromPathAsWritten(0, "C:\\a.dll").Ok?
    ensures FromPathAsWritten(0, "C:\\a.dll").value.path == "ll"
    ensures FromPathAsWritten(0, "C:\\a.dll").value.name == "ll"
  {
    var s := "C:\\a.dll";
    assert s[2] == '\\' && s[0] !in {'\\', '?'} && s[1] !in {'\\', '?'};
    assert FindFirstOf(s, {'\\', '?'}) == Some(2);
    assert s[6..] == "ll";
    assert FindLastOf("ll", '\\') == None;
  }

  predicate HasLongPathPrefix(s: string) {
    |s| >= 4 && s[..4] == LONG_PATH_PREFIX
  }

  /** The path with the `\\?\` prefix removed when it has one, as the constructor means to compute it. */
  function StripPrefix(filePath: string): (path: string)
    ensures HasLongPathPrefix(filePath) ==> LONG_PATH_PREFIX + path == filePath
    ensures !HasLongPathPrefix(filePath) ==> path == filePath
  {
    if HasLongPathPrefix(filePath) then
      assert filePath == filePath[..4] + filePath[4..];
      filePath[4..]
    else filePath
  }

  /** The constructor with the prefix stripped only where present; it never throws. */
  function FromPath(base: u64, filePath: string): (m: ModuleInfo)
    ensures m.base == base
    ensures m.path == filePath || LONG_PATH_PREFIX + m.path == filePath
    ensures m.name == FileName(m.path)
  {
    ModuleInfo(StripPrefix(filePath), FileName(StripPrefix(filePath)), base)
  }

  /** The corrected constructor keeps every path that has no prefix, and names the module by its file name. */
  lemma FromPathKeepsPlainPaths(base: u64, filePath: string)
    requires !HasLongPathPrefix(filePath)
    ensures FromPath(base, filePath).path == filePath
    ensures FromPath(base, filePath).name == FileName(filePath)
  {
  }

  /** On `\\?\` paths, the only ones the constructor handles as meant, both versions agree. */
  lemma FromPathAgreesOnPrefixedPaths(base: u64, p: string)
    ensures FromPathAsWritten(base, LONG_PATH_PREFIX + p) == Ok(FromPath(base, LONG_PATH_PREFIX + p))
  {
    AsWrittenStripsPrefix(base, p);
    assert (LONG_PATH_PREFIX + p)[..4] == LONG_PATH_PREFIX;
  }

  /** The corrected constructor names the drive-letter example by its file name. */
  lemma FromPathNamesDrivePath()
    ensures FromPath(0, "C:\\a.dll").path == "C:\\a.dll"
    ensures FromPath(0, "C:\\a.dll").name == "a.dll"
  {
    var s := "C:\\a.dll";
    assert s[..4] != LONG_PATH_PREFIX by { assert s[..4][0] == 'C'; }
    assert FindLastOf(s, '\\') == Some(2) by {
      assert s[2] == '\\';
      assert forall i :: 2 < i < |s| ==> s[i] != '\\';
    }
    assert s[3..] == "a.dll";
  }

  /** The file name of `dir\file` is `file` whenever `file` holds no backslash. */
  lemma FileNameOfJoin(dir: string, file: string)
    requires forall i :: 0 <= i < |file| ==> file[i] != '\\'
    ensures FileName(dir + "\\" + file) == file
  {
    var p := dir + "\\" + file;
    var k := |dir|;
    assert p[k] == '\\';
    assert forall j :: k < j < |p| ==> p[j] == file[j - k - 1];
    var v := FindLastOf(p, '\\').value;
    assert v == k;
    assert p[k + 1..] == file;
  }

  /** A normalized path `\\?\dir\file` gives the module `dir\file` named `file`. */
  lemma FromPathOfPrefixedJoin(base: u64, dir: string, file: string)
    requires forall i :: 0 <= i < |file| ==> file[i] != '\\'
    ensures FromPath(base, LONG_PATH_PREFIX + dir + "\\" + file).path == dir + "\\" + file
    ensures FromPath(base, LONG_PATH_PREFIX + dir + "\\" + file).name == file
  {
    var p := LONG_PATH_PREFIX + dir + "\\" + file;
    assert p == LONG_PATH_PREFIX + (dir + "\\" + file);
    assert p[..4] == LONG_PATH_PREFIX;
    FileNameOfJoin(dir, file);
  }
}

=== FILE: ordered.dfy ===
/**
 The ordering facts the model needs about `std::map`: its keys are visited in
 ascending order, and `upper_bound` followed by a decrement finds the greatest
 key at or below a probe. Keys here are finite sets of integers.
 */
module Ordered {

  predicate StrictlyIncreasing(s: seq<int>) {
    forall i, j :: 0 <= i < j < |s| ==> s[i] < s[j]
  }

  ghost function Least(s: set<int>): (m: int)
    requires s != {}
    ensures m in s
    ensures forall x :: x in s ==> m <= x
    decreases |s|
  {
    if forall y :: y !in s then assert false; 0 else
    var y :| y in s;
    var rest := s - {y};
    if rest == {} then
      assert forall x :: x in s ==> x == y by {
        forall x | x in s ensures x == y { assert x !in rest; }
      }
      y
    else
      var m := Least(rest);
      assert forall x :: x in s ==> x == y || x in rest;
      if y < m then y else m
  }

  ghost function Greatest(s: set<int>): (m: int)
    requires s != {}
    ensures m in s
    ensures forall x :: x in s ==> x <= m
    decreases |s|
  {
    if forall y :: y !in s then assert false; 0 else
    var y :| y in s;
    var rest := s - {y};
    if rest == {} then
      assert forall x :: x in s ==> x == y by {
        forall x | x in s ensures x == y { assert x !in rest; }
      }
      y
    else
      var m := Greatest(rest);
      assert forall x :: x in s ==> x == y || x in rest;
      if m < y then y else m
  }

  lemma MinExists(s: set<int>)
    requires s != {}
    ensures exists m :: m in s && forall x :: x in s ==> m <= x
  {
    var m := Least(s);
    assert m in s && forall x :: x in s ==> m <= x;
  }

  lemma MaxExists(s: set<int>)
    requires s != {}
    ensures exists m :: m in s && forall x :: x in s ==> x <= m
  {
    var m := Greatest(s);
    assert m in s && forall x :: x in s ==> x <= m;
  }

  /** The least element of a non-empty finite set. */
  function Min(s: set<int>): (m: int)
    requires s != {}
    ensures m in s
    ensures forall x :: x in s ==> m <= x
  {
    MinExists(s);
    var m :| m in s && forall x :: x in s ==> m <= x;
    m
  }

  /** The greatest element of a non-empty finite set. */
  function Max(s: set<int>): (m: int)
    requires s != {}
    ensures m in s
    ensures forall x :: x in s ==> x <= m
  {
    MaxExists(s);
    var m :| m in s && forall x :: x in s ==> x <= m;
    m
  }

  /** The keys of a `std::map` in iteration order. */
  function SortedKeys(s: set<int>): (r: seq<int>)
    ensures StrictlyIncreasing(r)
    ensures |r| == |s|
    ensures forall x :: x in s <==> x in r
    decreases |s|
  {
    if s == {} then []
    else
      var m := Min(s);
      var rest := SortedKeys(s - {m});
      ConsSorted(m, rest, s);
      [m] + rest
  }

  /** Putting the least key in front of the sorted others sorts the whole set. */
  lemma ConsSorted(m: int, rest: seq<int>, s: set<int>)
    requires m in s && forall x :: x in s ==> m <= x
    requires StrictlyIncreasing(rest) && |rest| == |s - {m}|
    requires forall x :: x in s - {m} <==> x in rest
    ensures StrictlyIncreasing([m] + rest) && |[m] + rest| == |s|
    ensures forall x :: x in s <==> x in [m] + rest
  {
    var r := [m] + rest;
    forall i, j | 0 <= i < j < |r| ensures r[i] < r[j] {
      assert r[j] == rest[j - 1] && rest[j - 1] in rest;
      if i > 0 {
        assert r[i] == rest[i - 1];
      }
    }
  }

  /**
   `std::map::upper_bound(a)` followed by `--`: the greatest key not above `a`.
   The decrement is undefined when no key is at or below `a`.
   */
  function Floor(s: set<int>, a: int): (b: int)
    requires exists k :: k in s && k <= a
    ensures b in s && b <= a
    ensures forall k :: k in s && k <= a ==> k <= b
  {
    var below := set k | k in s && k <= a;
    var w :| w in s && w <= a;
    assert w in below;
    assert forall k :: k in s && k <= a ==> k in below;
    Max(below)
  }

  /** The integers `0 .. n-1`, the keys `operator[]` inserts while counting up to `n`. */
  function Below(n: nat): (r: set<int>)
    ensures forall j :: j in r <==> 0 <= j < n
    ensures |r| == n
  {
    if n == 0 then {} else
      var r := Below(n - 1);
      assert n - 1 !in r;
      r + {n - 1}
  }
}

=== FILE: page_backup.dfy ===
/**
 PageBackupEx: the saved copy of one page of the target and the flag that says
 whether the page must be written back on restore. With change tracking on, a
 backed-up page is write-protected, so the target's first write to it faults;
 the fault handler then marks the page dirty and gives it back its original
 protection.
 */
module PageBackups {
  import opened Base
  import opened Errors
  import opened TargetOs

  /** MEMORY_BASIC_INFORMATION.State. */
  datatype MemState = MemCommit | MemReserve | MemFree

  /** The MEMORY_BASIC_INFORMATION fields the snapshot engine fills in or reads. */
  datatype MemInfo = MemInfo(
    baseAddress: u64,
    allocationBase: u64,
    allocationProtect: Protection,
    regionSize: nat,
    state: MemState,
    protect: Protection)

  /** The protection word 0: no base constant and no modifier. */
  const ZERO_PROTECTION: Protection := Protection(NoBase, false, false)

  /** The default of the constructor's trackPageChanges argument. */
  const TRACK_BY_DEFAULT: bool := true

  /**
   One page record. The constructor leaves the region information and the copy
   unset (`None`); a backup sets the region information first, and the copy is
   unset again from the moment a backup allocates a fresh buffer until its read
   fills it.
   */
  datatype PageBackup = PageBackup(
    address: u64,
    info: Option<MemInfo>,
    data: Option<seq<u8>>,
    dirty: bool,
    trackChanges: bool,
    originalProtect: Protection)

  /** PageBackupEx(remote_page, process, trackPageChanges): a clean record with protection word 0. */
  function NewPageBackup(address: u64, trackChanges: bool): (b: PageBackup)
    ensures b.address == address && b.trackChanges == trackChanges
    ensures !b.dirty && b.originalProtect == ZERO_PROTECTION
    ensures b.info.None? && b.data.None?
  {
    PageBackup(address, None, None, false, trackChanges, ZERO_PROTECTION)
  }

  /** get_page_last_byte: the first address past the record's region. */
  function PageEnd(b: PageBackup): (e: nat)
    requires b.info.Some?
    ensures e - b.address == b.info.value.regionSize
  {
    b.address + b.info.value.regionSize
  }

  /** The page the record's own address lies in; VirtualQueryEx and VirtualProtectEx of the record go there. */
  function RecordPage(b: PageBackup): nat {
    PageOf(b.address)
  }

  /**
   The protection ProtectPage gives a page that currently has protection `p`,
   with PAGE_GUARD set aside and ORed back in: executable-readable pages become
   execute-read, readable pages read-only, execute-only and copy-on-write pages
   keep their protection, and any other word (PAGE_NOCACHE included, which the
   table does not strip) has no entry.
   */
  function TrackingProtection(p: Protection): (r: Option<Protection>)
    ensures r.Some? <==> !p.nocache && p.base in {ExecuteRead, ExecuteReadWrite, ReadOnly, ReadWrite, Execute, WriteCopy}
    ensures r.Some? ==> r.value.guard == p.guard && !r.value.nocache
    ensures r.Some? ==> (StoresAllowed(r.value) <==> p.base == WriteCopy && !p.guard)
    ensures r.Some? ==> (Readable(r.value) <==> Readable(p))
    ensures r.Some? && p.base in {ExecuteRead, ExecuteReadWrite, Execute} ==> r.value.base in {ExecuteRead, Execute}
  {
    if p.nocache then None
    else
      match p.base
      case ExecuteRead => Some(Protection(ExecuteRead, p.guard, false))
      case ExecuteReadWrite => Some(Protection(ExecuteRead, p.guard, false))
      case ReadOnly => Some(Protection(ReadOnly, p.guard, false))
      case ReadWrite => Some(Protection(ReadOnly, p.guard, false))
      case Execute => Some(p)
      case WriteCopy => Some(Protection(WriteCopy, p.guard, false))
      case _ => None
  }

  /** A page already protected for tracking is left as it is: the table maps its result to itself. */
  lemma TrackingProtectionIsFixpoint(p: Protection)
    requires TrackingProtection(p).Some?
    ensures TrackingProtection(TrackingProtection(p).value) == TrackingProtection(p)
  {
  }

  /**
   ProtectPage: query the record's page, look its protection up in the table,
   and change it only when the table gives a different word. A failed change
   is not an error: the page is marked dirty instead, so the next restore
   rewrites it.
   */
  function ProtectBackedPage(b: PageBackup, os: Os): (r: Exec<(PageBackup, Os), ()>)
    ensures r.state.0 == b.(dirty := r.state.0.dirty)
    ensures b.dirty ==> r.state.0.dirty
    ensures r.Raised? ==> r.state == (b, os)
    ensures Query(os, RecordPage(b)).None? <==> r.Raised? && r.error == VirtualQueryFailed
    ensures Query(os, RecordPage(b)).Some? && TrackingProtection(Query(os, RecordPage(b)).value).None?
            <==> r.Raised? && r.error == UnknownProtection
    ensures r.Done? ==> RecordPage(b) in os.pages && RecordPage(b) in r.state.1.pages
    ensures r.Done? ==> r.state.1 == os || r.state.1 == os.(pages := os.pages[RecordPage(b) := r.state.1.pages[RecordPage(b)]])
    ensures r.Done? ==> r.state.1.pages[RecordPage(b)].data == os.pages[RecordPage(b)].data
    ensures r.Done? ==> Some(r.state.1.pages[RecordPage(b)].prot) == TrackingProtection(os.pages[RecordPage(b)].prot)
                        || (r.state.0.dirty && r.state.1 == os)
  {
    var pg := RecordPage(b);
    match Query(os, pg)
    case None => Raised((b, os), VirtualQueryFailed)
    case Some(current) =>
      match TrackingProtection(current)
      case None => Raised((b, os), UnknownProtection)
      case Some(p) =>
        if p == current then Done((b, os), ())
        else
          match ProtectPage(os, pg, p)
          case None => Done((b.(dirty := true), os), ())
          case Some((os1, _)) => Done((b, os1), ())
  }

  /** Protecting a page a second time changes nothing: the first call either protected it or left it dirty for a reason that still holds. */
  lemma ProtectBackedPageIdempotent(b: PageBackup, os: Os)
    requires ProtectBackedPage(b, os).Done?
    ensures ProtectBackedPage(ProtectBackedPage(b, os).state.0, ProtectBackedPage(b, os).state.1)
         == Done(ProtectBackedPage(b, os).state, ())
  {
    var pg := RecordPage(b);
    var current := Query(os, pg).value;
    var p := TrackingProtection(current).value;
    TrackingProtectionIsFixpoint(current);
    if p != current && ProtectPage(os, pg, p).Some? {
      var os1 := ProtectPage(os, pg, p).value.0;
      assert Query(os1, pg) == Some(p);
    }
  }

  /** ReadProcessMemory of the region: it fails, or reads fewer bytes than the region size, exactly when the page cannot be read whole. */
  function ReadRegion(os: Os, info: MemInfo): (r: Option<seq<u8>>)
    ensures r.Some? <==> ReadPage(os, PageOf(info.baseAddress)).Some? && |os.pages[PageOf(info.baseAddress)].data| == info.regionSize
    ensures r.Some? ==> r.value == os.pages[PageOf(info.baseAddress)].data
  {
    match ReadPage(os, PageOf(info.baseAddress))
    case None => None
    case Some(d) => if |d| == info.regionSize then Some(d) else None
  }

  /**
   The copy step of backup: a guarded page is made read-only for the read and
   given its previous protection back afterwards; either change failing throws.
   */
  function CopyRegion(b: PageBackup, os: Os): (r: Exec<(PageBackup, Os), ()>)
    requires b.info.Some?
    ensures r.state.0 == b.(data := r.state.0.data)
    ensures r.Done? ==> var pg := PageOf(b.info.value.baseAddress);
      && pg in os.pages
      && r.state.0.data == Some(os.pages[pg].data)
      && |os.pages[pg].data| == b.info.value.regionSize
    ensures r.state.1.pages.Keys == os.pages.Keys
    ensures forall q :: q in os.pages ==> r.state.1.pages[q].data == os.pages[q].data
    ensures !b.info.value.protect.guard ==> r.state.1 == os
    ensures r.Raised? ==> r.error in {VirtualProtectFailed, ReadProcessMemoryFailed}
  {
    var info := b.info.value;
    var pg := RecordPage(b);
    if info.protect.guard then
      match ProtectPage(os, pg, Plain(ReadOnly))
      case None => Raised((b.(data := None), os), VirtualProtectFailed)
      case Some((os1, current)) =>
        match ReadRegion(os1, info)
        case None => Raised((b.(data := None), os1), ReadProcessMemoryFailed)
        case Some(d) =>
          match ProtectPage(os1, pg, current)
          case None => Raised((b.(data := Some(d)), os1), VirtualProtectFailed)
          case Some((os2, _)) => Done((b.(data := Some(d)), os2), ())
    else
      match ReadRegion(os, info)
      case None => Raised((b.(data := None), os), ReadProcessMemoryFailed)
      case Some(d) => Done((b.(data := Some(d)), os), ())
  }

  /**
   backup(process, memInfo): record the region information and its protection
   as the original one, then, for a committed page that is not PAGE_NOACCESS,
   copy it and, with tracking on, protect it. The result is always 0.
   */
  function Backup(b: PageBackup, os: Os, info: MemInfo): (r: Exec<(PageBackup, Os), int>)
    ensures r.state.0.info == Some(info) && r.state.0.originalProtect == info.protect
    ensures r.state.0.address == b.address && r.state.0.trackChanges == b.trackChanges
    ensures b.dirty ==> r.state.0.dirty
    ensures r.Done? ==> r.value == 0
    ensures info.state != MemCommit || info.protect == Plain(NoAccess)
            ==> r == Done((b.(info := Some(info), originalProtect := info.protect), os), 0)
  {
    var b1 := b.(info := Some(info), originalProtect := info.protect);
    if info.state != MemCommit || info.protect == Plain(NoAccess) then Done((b1, os), 0)
    else
      var copied := CopyRegion(b1, os);
      if copied.Raised? then Raised(copied.state, copied.error)
      else if !b.trackChanges then Done(copied.state, 0)
      else
        var tracked := ProtectBackedPage(copied.state.0, copied.state.1);
        if tracked.Raised? then Raised(tracked.state, tracked.error) else Done(tracked.state, 0)
  }

  /**
   A backup of a committed, accessible, unguarded page of its own address holds
   the page's bytes, and leaves every byte of the target as it was; with
   tracking on, the page is left protected by the table, or the record dirty.
   */
  lemma BackupCopiesPage(b: PageBackup, os: Os, info: MemInfo)
    requires info.state == MemCommit && info.protect != Plain(NoAccess) && !info.protect.guard
    requires info.baseAddress == b.address
    requires Backup(b, os, info).Done?
    ensures var pg := PageOf(b.address);
      && pg in os.pages
      && Backup(b, os, info).state.0.data == Some(os.pages[pg].data)
      && |os.pages[pg].data| == info.regionSize
      && Backup(b, os, info).state.1.pages.Keys == os.pages.Keys
      && (forall q :: q in os.pages ==> Backup(b, os, info).state.1.pages[q].data == os.pages[q].data)
      && (b.trackChanges && !Backup(b, os, info).state.0.dirty ==>
            Some(Backup(b, os, info).state.1.pages[pg].prot) == TrackingProtection(os.pages[pg].prot))
  {
    var b1 := b.(info := Some(info), originalProtect := info.protect);
    var copied := CopyRegion(b1, os);
    assert copied.state.1 == os;
  }

  /**
   restore(process): a clean record does nothing and reports false. A dirty one
   is marked clean, its copy is written back, and the page is protected again;
   a throw of the protection step comes first, then a failed write throws.
   */
  function Restore(b: PageBackup, os: Os): (r: Exec<(PageBackup, Os), bool>)
    requires b.info.Some?
    ensures !b.dirty ==> r == Done((b, os), false)
    ensures r.state.0 == b.(dirty := r.state.0.dirty)
    ensures b.dirty && b.data.None? ==> r.Raised?
    ensures b.dirty && r.Done? ==> (r.value <==> b.info.value.regionSize > 0)
  {
    if !b.dirty then Done((b, os), false)
    else
      var written :=
        if b.data.Some? && |b.data.value| == b.info.value.regionSize then WritePage(os, RecordPage(b), b.data.value)
        else None;
      var os1 := if written.Some? then written.value else os;
      var protected := ProtectBackedPage(b.(dirty := false), os1);
      if protected.Raised? then Raised(protected.state, protected.error)
      else if written.None? then Raised(protected.state, WriteProcessMemoryFailed)
      else Done(protected.state, b.info.value.regionSize > 0)
  }

  /**
   A successful restore of a dirty record puts its copy back into its page, and
   leaves the record clean unless the protection could not be applied again;
   no other page changes.
   */
  lemma RestoreWritesBack(b: PageBackup, os: Os)
    requires b.info.Some? && b.dirty && Restore(b, os).Done?
    ensures var pg := RecordPage(b);
      var os' := Restore(b, os).state.1;
      && b.data.Some? && pg in os.pages
      && pg in os' .pages && os'.pages[pg].data == b.data.value
      && os'.pages.Keys == os.pages.Keys
      && (forall q :: q in os.pages && q != pg ==> os'.pages[q] == os.pages[q])
      && os'.threads == os.threads
      && (!Restore(b, os).state.0.dirty ==> Some(os'.pages[pg].prot) == TrackingProtection(os.pages[pg].prot))
  {
    var pg := RecordPage(b);
    var os1 := WritePage(os, pg, b.data.value).value;
    assert os1.pages[pg].prot == os.pages[pg].prot;
  }

  /** A restore changes only the record's own page of the target. */
  lemma RestoreFrame(b: PageBackup, os: Os)
    requires b.info.Some?
    ensures var os' := Restore(b, os).state.1;
      && os'.pages.Keys == os.pages.Keys
      && (forall q :: q in os.pages && q != RecordPage(b) ==> os'.pages[q] == os.pages[q])
      && os'.threads == os.threads && os'.locked == os.locked && os'.spawnIds == os.spawnIds
  {
    if b.dirty {
      var pg := RecordPage(b);
      var written :=
        if b.data.Some? && |b.data.value| == b.info.value.regionSize then WritePage(os, pg, b.data.value) else None;
      var os1 := if written.Some? then written.value else os;
      assert os1.pages.Keys == os.pages.Keys;
      assert forall q :: q in os.pages && q != pg ==> os1.pages[q] == os.pages[q];
    }
  }

  /**
   mark_dirty(process): the record is dirty from the start, and the page gets
   the protection it had at the backup back; a failed change throws with the
   record still dirty.
   */
  function MarkDirty(b: PageBackup, os: Os): (r: Exec<(PageBackup, Os), ()>)
    requires b.info.Some?
    ensures r.state.0 == b.(dirty := true)
    ensures r.Done? <==> ProtectPage(os, PageOf(b.info.value.baseAddress), b.originalProtect).Some?
    ensures r.Done? ==> PageOf(b.info.value.baseAddress) in os.pages && PageOf(b.info.value.baseAddress) in r.state.1.pages
    ensures r.Done? ==> r.state.1.pages[PageOf(b.info.value.baseAddress)].prot == b.originalProtect
    ensures r.Done? ==> r.state.1.pages[PageOf(b.info.value.baseAddress)].data == os.pages[PageOf(b.info.value.baseAddress)].data
    ensures r.Raised? ==> r.error == VirtualProtectFailed && r.state.1 == os
  {
    var b1 := b.(dirty := true);
    match ProtectPage(os, PageOf(b.info.value.baseAddress), b.originalProtect)
    case None => Raised((b1, os), VirtualProtectFailed)
    case Some((os1, _)) => Done((b1, os1), ())
  }

  /**
   The snapshot round trip: after a backup that copied a page of the record's
   own address, whatever the target did to the page later, marking the record
   dirty and restoring it successfully brings the page's bytes back.
   */
  lemma BackupThenRestore(b: PageBackup, os: Os, info: MemInfo, later: Os)
    requires info.baseAddress == b.address
    requires info.state == MemCommit && info.protect != Plain(NoAccess)
    requires Backup(b, os, info).Done?
    requires Restore(Backup(b, os, info).state.0.(dirty := true), later).Done?
    ensures var pg := PageOf(b.address);
      && pg in os.pages
      && pg in Restore(Backup(b, os, info).state.0.(dirty := true), later).state.1.pages
      && Restore(Backup(b, os, info).state.0.(dirty := true), later).state.1.pages[pg].data == os.pages[pg].data
  {
    var b1 := b.(info := Some(info), originalProtect := info.protect);
    var copied := CopyRegion(b1, os);
    assert copied.Done?;
    if info.protect.guard {
      var os1 := ProtectPage(os, PageOf(b.address), Plain(ReadOnly)).value.0;
      assert ReadRegion(os1, info).Some?;
      assert os1.pages[PageOf(b.address)].data == os.pages[PageOf(b.address)].data;
    }
    var saved := Backup(b, os, info).state.0;
    assert saved.data == copied.state.0.data;
    RestoreWritesBack(saved.(dirty := true), later);
  }
}

=== FILE: page_restorer.dfy ===
/**
 PageRestorerEx: the page records of the snapshot, keyed by page address in a
 `std::map`, saved and restored by walking the target's working set.
 */
module PageRestorers {
  import opened Base
  import opened Errors
  import opened TargetOs
  import opened Ordered
  import opened PageBackups

  /** PSAPI_WORKING_SET_BLOCK.Protection, a 5-bit field. */
  type BlockProtectionBits = x: nat | x < 32

  /** PSAPI_WORKING_SET_BLOCK.VirtualPage, a 52-bit field. */
  type VirtualPageNumber = x: nat | x < 0x10_0000_0000_0000

  /** One working-set entry: a resident page and its protection flags. */
  datatype WorkingSetBlock = WorkingSetBlock(protection: BlockProtectionBits, virtualPage: VirtualPageNumber)

  /** `VirtualPage << 12`, the address of the entry's page. */
  function BlockAddress(vp: VirtualPageNumber): (a: u64)
    ensures a % PAGE_SIZE == 0 && PageOf(a) == vp
  {
    vp * PAGE_SIZE
  }

  /** The base constant of the working-set flag values 1..7, and none for 0. */
  function BaseOfFlags(f: nat): (b: BaseProtection)
    requires f < 8
    ensures b == NoBase <==> f == 0
  {
    match f
    case 1 => ReadOnly
    case 2 => Execute
    case 3 => ExecuteRead
    case 4 => ReadWrite
    case 5 => WriteCopy
    case 6 => ExecuteReadWrite
    case 7 => ExecuteWriteCopy
    case _ => NoBase
  }

  /** The flag value of a base constant, for the seven the working set can report. */
  function FlagsOfBase(b: BaseProtection): (f: nat)
    ensures f < 8
  {
    match b
    case ReadOnly => 1
    case Execute => 2
    case ExecuteRead => 3
    case ReadWrite => 4
    case WriteCopy => 5
    case ExecuteReadWrite => 6
    case ExecuteWriteCopy => 7
    case _ => 0
  }

  /** The working-set flags of a protection word: the base's value, 8 for PAGE_NOCACHE, 16 for PAGE_GUARD. */
  function BlockFlags(p: Protection): (f: nat)
    ensures f < 32
  {
    FlagsOfBase(p.base) + (if p.nocache then 8 else 0) + (if p.guard then 16 else 0)
  }

  /**
   set_block_protection_to_mem_info_protection as written: the modifier bits
   are translated, but the switch that adds the base constant is on the whole
   value, so with either modifier set no base constant is added.
   */
  function BlockProtectionAsWritten(f: BlockProtectionBits): (p: Protection)
    ensures p.nocache <==> (f / 8) % 2 == 1
    ensures p.guard <==> f >= 16
    ensures f >= 8 ==> p.base == NoBase
    ensures f < 8 ==> p.base == BaseOfFlags(f)
  {
    var nocache := (f / 8) % 2 == 1;
    var guard := f >= 16;
    Protection(if f < 8 then BaseOfFlags(f) else NoBase, guard, nocache)
  }

  /**
   The translation the function evidently means, with the switch on the base
   flags `protection & 7` it computes: base constant and modifiers separately.
   */
  function BlockProtection(f: BlockProtectionBits): (p: Protection)
    ensures p.nocache <==> (f / 8) % 2 == 1
    ensures p.guard <==> f >= 16
    ensures p.base == BaseOfFlags(f % 8)
  {
    Protection(BaseOfFlags(f % 8), f >= 16, (f / 8) % 2 == 1)
  }

  /** The corrected translation loses nothing: the flags can be read back from the protection word. */
  lemma BlockProtectionRoundTrip(f: BlockProtectionBits)
    ensures BlockFlags(BlockProtection(f)) == f
  {
    var p := BlockProtection(f);
    assert FlagsOfBase(BaseOfFlags(f % 8)) == f % 8;
    assert f == f % 8 + (if (f / 8) % 2 == 1 then 8 else 0) + (if f >= 16 then 16 else 0);
  }

  /** A guarded read-only page (flags 0x11) comes out as PAGE_GUARD alone, with no base constant. */
  lemma BlockProtectionAsWrittenDropsBase()
    ensures BlockProtectionAsWritten(17) == Protection(NoBase, true, false)
    ensures BlockProtection(17) == Protection(ReadOnly, true, false)
    ensures BlockFlags(BlockProtectionAsWritten(17)) != 17
  {
  }

  /** Without modifier bits the two translations agree. */
  lemma BlockProtectionAgreesWithoutModifiers(f: BlockProtectionBits)
    requires f < 8
    ensures BlockProtectionAsWritten(f) == BlockProtection(f)
  {
  }

  /**
   set_block_to_mem_info: the entry's page as a committed 4096-byte region
   whose base and allocation base are the page address and whose protection
   and allocation protection are the flags as the translation is written.
   */
  function MemInfoOfBlock(blk: WorkingSetBlock): (m: MemInfo)
    ensures m.baseAddress == m.allocationBase == BlockAddress(blk.virtualPage)
    ensures m.regionSize == PAGE_SIZE && m.state == MemCommit
    ensures m.protect == m.allocationProtect == BlockProtectionAsWritten(blk.protection)
  {
    var prot := BlockProtectionAsWritten(blk.protection);
    MemInfo(BlockAddress(blk.virtualPage), BlockAddress(blk.virtualPage), prot, PAGE_SIZE, MemCommit, prot)
  }

  /** The page records, by page address. */
  datatype PageRestorer = PageRestorer(pages: map<u64, PageBackup>)

  /** PageRestorerEx(processId): no page is tracked yet. */
  function NewPageRestorer(): (r: PageRestorer)
    ensures r.pages == map[]
  {
    PageRestorer(map[])
  }

  /**
   The shape every record has once the working set has been saved: the record
   of key `k` is for address `k`, a page boundary, and holds the 4096-byte
   region information of that page.
   */
  predicate Tracked(r: PageRestorer) {
    forall k :: k in r.pages ==> TrackedRecord(k, r.pages[k])
  }

  predicate TrackedRecord(k: u64, b: PageBackup) {
    && b.address == k && k % PAGE_SIZE == 0
    && b.info.Some? && b.info.value.baseAddress == k && b.info.value.regionSize == PAGE_SIZE
  }

  /** The record save_page backs up: the existing one for the base address, or a new tracking record. */
  function RecordFor(r: PageRestorer, base: u64): (b: PageBackup)
    ensures base in r.pages ==> b == r.pages[base]
    ensures base !in r.pages ==> b == NewPageBackup(base, TRACK_BY_DEFAULT)
  {
    if base in r.pages then r.pages[base] else NewPageBackup(base, TRACK_BY_DEFAULT)
  }

  /**
   save_page(mem_info): the record for the region's base is created on first
   sight and reused afterwards; it is stored whether or not its backup throws,
   and the backup's result is the result.
   */
  function SavePage(r: PageRestorer, os: Os, info: MemInfo): (res: Exec<(PageRestorer, Os), int>)
    ensures res.state.0.pages == r.pages[info.baseAddress := Backup(RecordFor(r, info.baseAddress), os, info).state.0]
    ensures res.state.1 == Backup(RecordFor(r, info.baseAddress), os, info).state.1
    ensures res.Done? <==> Backup(RecordFor(r, info.baseAddress), os, info).Done?
    ensures res.Done? ==> res.value == 0
    ensures res.Raised? ==> res.error == Backup(RecordFor(r, info.baseAddress), os, info).error
  {
    var base := info.baseAddress;
    var backed := Backup(RecordFor(r, base), os, info);
    var r1 := r.(pages := r.pages[base := backed.state.0]);
    if backed.Raised? then Raised((r1, backed.state.1), backed.error) else Done((r1, backed.state.1), backed.value)
  }

  /**
   Saving a page twice keeps one record for it, and a record that was dirty
   stays dirty: a backup never clears the flag.
   */
  lemma SavePageKeepsOneRecord(r: PageRestorer, os: Os, info: MemInfo)
    ensures SavePage(r, os, info).state.0.pages.Keys == r.pages.Keys + {info.baseAddress}
    ensures info.baseAddress in r.pages && r.pages[info.baseAddress].dirty ==> SavePage(r, os, info).state.0.pages[info.baseAddress].dirty
    ensures forall k :: k in r.pages && k != info.baseAddress ==> SavePage(r, os, info).state.0.pages[k] == r.pages[k]
  {
  }

  /**
   save_page(block): the entry's page, translated by set_block_to_mem_info. The
   page's address is tracked afterwards, its record holding the entry's region
   information, whether or not the backup completes; no other record changes,
   so records keyed by their own page stay so.
   */
  function SaveBlock(r: PageRestorer, os: Os, blk: WorkingSetBlock): (res: Exec<(PageRestorer, Os), int>)
    ensures var a := BlockAddress(blk.virtualPage);
      && res.state.0.pages.Keys == r.pages.Keys + {a}
      && (a !in r.pages || r.pages[a].address == a ==> TrackedRecord(a, res.state.0.pages[a]))
      && (Tracked(r) ==> Tracked(res.state.0))
      && res.state.0.pages[a].info == Some(MemInfoOfBlock(blk))
      && (forall k :: k in r.pages && k != a ==> res.state.0.pages[k] == r.pages[k])
      && (res.Done? ==> res.value == 0)
  {
    SavePage(r, os, MemInfoOfBlock(blk))
  }

  /** The addresses of a sequence of working-set entries. */
  function BlockAddresses(ws: seq<WorkingSetBlock>): (s: set<u64>)
    ensures forall a :: a in s <==> exists i :: 0 <= i < |ws| && BlockAddress(ws[i].virtualPage) == a
  {
    set i | 0 <= i < |ws| :: BlockAddress(ws[i].virtualPage)
  }

  /**
   save_state_working_set over the entries QueryWorkingSet returned: every
   entry is saved in order, and the count is the number of entries visited,
   whatever each backup did. A throw stops the walk.
   */
  function SaveStateWorkingSet(r: PageRestorer, os: Os, ws: seq<WorkingSetBlock>): (res: Exec<(PageRestorer, Os), int>)
    decreases |ws|
  {
    if ws == [] then Done((r, os), 0)
    else
      var saved := SaveBlock(r, os, ws[0]);
      if saved.Raised? then Raised(saved.state, saved.error)
      else
        var rest := SaveStateWorkingSet(saved.state.0, saved.state.1, ws[1..]);
        if rest.Raised? then rest else Done(rest.state, rest.value + 1)
  }

  /**
   A completed save counts every entry, tracks exactly the pages tracked before
   and the entries' pages, and leaves every record in the tracked shape.
   */
  lemma {:induction false} SaveStateWorkingSetTracks(r: PageRestorer, os: Os, ws: seq<WorkingSetBlock>)
    requires Tracked(r)
    requires SaveStateWorkingSet(r, os, ws).Done?
    ensures SaveStateWorkingSet(r, os, ws).value == |ws|
    ensures SaveStateWorkingSet(r, os, ws).state.0.pages.Keys == r.pages.Keys + BlockAddresses(ws)
    ensures Tracked(SaveStateWorkingSet(r, os, ws).state.0)
    decreases |ws|
  {
    if ws != [] {
      var saved := SaveBlock(r, os, ws[0]);
      SaveStateWorkingSetTracks(saved.state.0, saved.state.1, ws[1..]);
      BlockAddressesCons(ws);
    }
  }

  lemma BlockAddressesCons(ws: seq<WorkingSetBlock>)
    requires ws != []
    ensures BlockAddresses(ws) == {BlockAddress(ws[0].virtualPage)} + BlockAddresses(ws[1..])
  {
    forall a | a in BlockAddresses(ws) ensures a in {BlockAddress(ws[0].virtualPage)} + BlockAddresses(ws[1..]) {
      var i :| 0 <= i < |ws| && BlockAddress(ws[i].virtualPage) == a;
      if i > 0 { assert ws[1..][i - 1] == ws[i]; }
    }
    forall a | a in BlockAddresses(ws[1..]) ensures a in BlockAddresses(ws) {
      var i :| 0 <= i < |ws[1..]| && BlockAddress(ws[1..][i].virtualPage) == a;
      assert ws[i + 1] == ws[1..][i];
    }
  }

  /**
   save_state: the working-set save. On a restorer whose records are each
   keyed by their own page, a completed save reports one page per entry, adds
   exactly the entries' pages to the tracked ones, and keeps every record so keyed.
   */
  function SaveState(r: PageRestorer, os: Os, ws: seq<WorkingSetBlock>): (res: Exec<(PageRestorer, Os), int>)
    ensures Tracked(r) && res.Done? ==>
      && res.value == |ws|
      && res.state.0.pages.Keys == r.pages.Keys + BlockAddresses(ws)
      && Tracked(res.state.0)
  {
    var saved := SaveStateWorkingSet(r, os, ws);
    if Tracked(r) && saved.Done? then SaveStateWorkingSetTracks(r, os, ws); saved else saved
  }

  /**
   The first pass of restore_state_working_set: the addresses of the entries
   with a record, in order, while every entry without one is released with
   VirtualFreeEx, its failure ignored. A release at the start of an allocation
   takes every page of that allocation with it, tracked ones included.
   */
  function FreeUntracked(r: PageRestorer, os: Os, ws: seq<WorkingSetBlock>): (res: (seq<u64>, Os))
    ensures forall k :: k in res.0 ==> k in r.pages && k in BlockAddresses(ws)
    ensures forall i :: 0 <= i < |ws| && BlockAddress(ws[i].virtualPage) in r.pages ==> BlockAddress(ws[i].virtualPage) in res.0
    ensures res.1.threads == os.threads && res.1.locked == os.locked && res.1.spawnIds == os.spawnIds
    ensures res.1.allocationBase == os.allocationBase
    ensures forall pg :: pg in res.1.pages <==> pg in os.pages && !Released(r, os, ws, pg)
    ensures forall pg :: pg in res.1.pages ==> res.1.pages[pg] == os.pages[pg]
    decreases |ws|
  {
    if ws == [] then ([], os)
    else
      var a := BlockAddress(ws[0].virtualPage);
      var os1 := if a in r.pages then os else Free(os, ws[0].virtualPage);
      var (keys, os2) := FreeUntracked(r, os1, ws[1..]);
      FreeUntrackedStep(r, os, ws, os2);
      FreeUntrackedKeysStep(r, ws, keys);
      (if a in r.pages then [a] + keys else keys, os2)
  }

  /**
   Page `q` is released by the first pass: some entry without a record starts
   the allocation `q` belongs to.
   */
  predicate Released(r: PageRestorer, os: Os, ws: seq<WorkingSetBlock>, q: nat) {
    exists i :: 0 <= i < |ws| && BlockAddress(ws[i].virtualPage) !in r.pages && FreedBy(os, ws[i].virtualPage, q)
  }

  lemma ReleasedCons(r: PageRestorer, os: Os, ws: seq<WorkingSetBlock>, q: nat)
    requires ws != []
    ensures Released(r, os, ws, q)
        <==> (BlockAddress(ws[0].virtualPage) !in r.pages && FreedBy(os, ws[0].virtualPage, q)) || Released(r, os, ws[1..], q)
  {
    if Released(r, os, ws[1..], q) {
      var i :| 0 <= i < |ws[1..]| && BlockAddress(ws[1..][i].virtualPage) !in r.pages && FreedBy(os, ws[1..][i].virtualPage, q);
      assert ws[i + 1] == ws[1..][i];
    }
    if Released(r, os, ws, q) {
      var i :| 0 <= i < |ws| && BlockAddress(ws[i].virtualPage) !in r.pages && FreedBy(os, ws[i].virtualPage, q);
      if i > 0 { assert ws[1..][i - 1] == ws[i]; }
    }
  }

  /**
   A page that survives one release is released by a later one exactly when it
   would have been before it: the allocations that remain are untouched.
   */
  lemma FreeKeepsFreedBy(os: Os, p: nat, v: nat, q: nat)
    requires q in Free(os, p).pages
    ensures FreedBy(Free(os, p), v, q) <==> FreedBy(os, v, q)
  {
    if FreedBy(os, v, q) && IsAllocationBase(os, p) {
      assert !FreedBy(os, p, q);
      assert !FreedBy(os, p, v);
    }
  }

  lemma ReleasedAfterFree(r: PageRestorer, os: Os, p: nat, ws: seq<WorkingSetBlock>, q: nat)
    requires q in Free(os, p).pages
    ensures Released(r, Free(os, p), ws, q) <==> Released(r, os, ws, q)
  {
    forall i | 0 <= i < |ws| ensures FreedBy(Free(os, p), ws[i].virtualPage, q) <==> FreedBy(os, ws[i].virtualPage, q) {
      FreeKeepsFreedBy(os, p, ws[i].virtualPage, q);
    }
  }

  /** One step of the first pass: releasing the first entry, if untracked, then the rest, releases what the whole pass does. */
  /** The addresses the first pass lists, one entry further back. */
  lemma FreeUntrackedKeysStep(r: PageRestorer, ws: seq<WorkingSetBlock>, keys: seq<u64>)
    requires ws != []
    requires forall k :: k in keys ==> k in r.pages && k in BlockAddresses(ws[1..])
    requires forall i :: 0 <= i < |ws[1..]| && BlockAddress(ws[1..][i].virtualPage) in r.pages ==> BlockAddress(ws[1..][i].virtualPage) in keys
    ensures var a := BlockAddress(ws[0].virtualPage);
      var all := if a in r.pages then [a] + keys else keys;
      && (forall k :: k in all ==> k in r.pages && k in BlockAddresses(ws))
      && (forall i :: 0 <= i < |ws| && BlockAddress(ws[i].virtualPage) in r.pages ==> BlockAddress(ws[i].virtualPage) in all)
  {
    BlockAddressesCons(ws);
    assert forall i :: 1 <= i < |ws| ==> ws[i] == ws[1..][i - 1];
  }

  lemma FreeUntrackedStep(r: PageRestorer, os: Os, ws: seq<WorkingSetBlock>, os2: Os)
    requires ws != []
    requires var os1 := if BlockAddress(ws[0].virtualPage) in r.pages then os else Free(os, ws[0].virtualPage);
      forall q :: q in os2.pages <==> q in os1.pages && !Released(r, os1, ws[1..], q)
    ensures forall q :: q in os2.pages <==> q in os.pages && !Released(r, os, ws, q)
  {
    var a := BlockAddress(ws[0].virtualPage);
    var os1 := if a in r.pages then os else Free(os, ws[0].virtualPage);
    forall q ensures q in os2.pages <==> q in os.pages && !Released(r, os, ws, q) {
      ReleasedCons(r, os, ws, q);
      if a !in r.pages && q in os1.pages {
        ReleasedAfterFree(r, os, ws[0].virtualPage, ws[1..], q);
      }
    }
  }

  /**
   The second pass: the collected records from the last to the first; each
   dirty one is restored and counted, clean ones are skipped. A throw stops the
   pass.
   */
  function RestoreDirty(r: PageRestorer, os: Os, keys: seq<u64>): (res: Exec<(PageRestorer, Os), int>)
    requires Tracked(r)
    requires forall k :: k in keys ==> k in r.pages
    ensures res.state.0.pages.Keys == r.pages.Keys
    ensures Tracked(res.state.0)
    ensures forall k :: k in r.pages ==> res.state.0.pages[k].data == r.pages[k].data
    ensures res.Done? ==> 0 <= res.value <= |keys|
    decreases |keys|
  {
    if keys == [] then Done((r, os), 0)
    else
      var k := keys[|keys| - 1];
      var b := r.pages[k];
      var init := keys[..|keys| - 1];
      assert forall j :: j in init ==> j in keys;
      if !b.dirty then RestoreDirty(r, os, init)
      else
        var restored := Restore(b, os);
        var r1 := r.(pages := r.pages[k := restored.state.0]);
        assert TrackedRecord(k, restored.state.0);
        if restored.Raised? then Raised((r1, restored.state.1), restored.error)
        else
          var rest := RestoreDirty(r1, restored.state.1, init);
          if rest.Raised? then rest else Done(rest.state, rest.value + 1)
  }

  /** Distinct keys of a tracked restorer name distinct pages of the target. */
  lemma TrackedPagesDistinct(r: PageRestorer, j: u64, k: u64)
    requires Tracked(r) && j in r.pages && k in r.pages && j != k
    ensures RecordPage(r.pages[j]) != RecordPage(r.pages[k])
  {
    assert r.pages[j].address == j && r.pages[k].address == k;
  }

  /**
   The second pass touches only the pages of the records it visits: every
   other page of the target, and the threads, are left as they were.
   */
  lemma {:induction false} RestoreDirtyFrame(r: PageRestorer, os: Os, keys: seq<u64>, pg: nat)
    requires Tracked(r)
    requires forall k :: k in keys ==> k in r.pages
    requires forall k :: k in keys ==> PageOf(k) != pg
    ensures var os' := RestoreDirty(r, os, keys).state.1;
      && (pg in os'.pages <==> pg in os.pages)
      && (pg in os.pages ==> os'.pages[pg] == os.pages[pg])
      && os'.threads == os.threads
    decreases |keys|
  {
    if keys != [] {
      var k := keys[|keys| - 1];
      var b := r.pages[k];
      var init := keys[..|keys| - 1];
      assert forall j :: j in init ==> j in keys;
      if !b.dirty {
        RestoreDirtyFrame(r, os, init, pg);
      } else {
        var restored := Restore(b, os);
        RestoreFrame(b, os);
        var r1 := r.(pages := r.pages[k := restored.state.0]);
        assert TrackedRecord(k, restored.state.0);
        if restored.Done? {
          RestoreDirtyFrame(r1, restored.state.1, init, pg);
        }
      }
    }
  }

  /**
   A page whose bytes already equal its record's copy keeps them through the
   second pass: the only write to it is a restore of that same record.
   */
  lemma {:induction false} RestoreDirtyKeepsRestored(r: PageRestorer, os: Os, keys: seq<u64>, k: u64)
    requires Tracked(r)
    requires forall j :: j in keys ==> j in r.pages
    requires k in r.pages && r.pages[k].data.Some?
    requires PageOf(k) in os.pages && os.pages[PageOf(k)].data == r.pages[k].data.value
    requires RestoreDirty(r, os, keys).Done?
    ensures PageOf(k) in RestoreDirty(r, os, keys).state.1.pages
    ensures RestoreDirty(r, os, keys).state.1.pages[PageOf(k)].data == r.pages[k].data.value
    decreases |keys|
  {
    if keys != [] {
      var last := keys[|keys| - 1];
      var b := r.pages[last];
      var init := keys[..|keys| - 1];
      assert forall j :: j in init ==> j in keys;
      if !b.dirty {
        RestoreDirtyKeepsRestored(r, os, init, k);
      } else {
        var restored := Restore(b, os);
        RestoreFrame(b, os);
        var r1 := r.(pages := r.pages[last := restored.state.0]);
        assert TrackedRecord(last, restored.state.0);
        if last == k {
          RestoreWritesBack(b, os);
        } else {
          TrackedPagesDistinct(r, last, k);
        }
        assert r1.pages[k].data == r.pages[k].data;
        RestoreDirtyKeepsRestored(r1, restored.state.1, init, k);
      }
    }
  }

  /**
   A completed second pass leaves every visited record that was dirty with its
   copy back in its page; the records' copies themselves never change.
   */
  lemma {:induction false} RestoreDirtyWritesBack(r: PageRestorer, os: Os, keys: seq<u64>, k: u64)
    requires Tracked(r)
    requires forall j :: j in keys ==> j in r.pages
    requires k in keys && r.pages[k].dirty
    requires RestoreDirty(r, os, keys).Done?
    ensures r.pages[k].data.Some?
    ensures PageOf(k) in os.pages
    ensures PageOf(k) in RestoreDirty(r, os, keys).state.1.pages
    ensures RestoreDirty(r, os, keys).state.1.pages[PageOf(k)].data == r.pages[k].data.value
    decreases |keys|
  {
    var last := keys[|keys| - 1];
    var b := r.pages[last];
    var init := keys[..|keys| - 1];
    assert forall j :: j in init ==> j in keys;
    if k != last { assert k in init; }
    if !b.dirty {
      RestoreDirtyWritesBack(r, os, init, k);
    } else {
      var restored := Restore(b, os);
      RestoreFrame(b, os);
      var r1 := r.(pages := r.pages[last := restored.state.0]);
      assert TrackedRecord(last, restored.state.0);
      if last == k {
        RestoreWritesBack(b, os);
        RestoreDirtyKeepsRestored(r1, restored.state.1, init, k);
      } else {
        assert r1.pages[k] == r.pages[k];
        RestoreDirtyWritesBack(r1, restored.state.1, init, k);
      }
    }
  }

  /**
   The second pass leaves a record it does not restore, because it is clean or
   not among the visited ones, exactly as it was.
   */
  lemma {:induction false} RestoreDirtyLeavesOthers(r: PageRestorer, os: Os, keys: seq<u64>, k: u64)
    requires Tracked(r)
    requires forall j :: j in keys ==> j in r.pages
    requires k in r.pages && (k !in keys || !r.pages[k].dirty)
    ensures RestoreDirty(r, os, keys).state.0.pages[k] == r.pages[k]
    decreases |keys|
  {
    if keys != [] {
      var last := keys[|keys| - 1];
      var b := r.pages[last];
      var init := keys[..|keys| - 1];
      assert forall j :: j in init ==> j in keys;
      if b.dirty {
        var restored := Restore(b, os);
        var r1 := r.(pages := r.pages[last := restored.state.0]);
        assert TrackedRecord(last, restored.state.0);
        assert last != k;
        if restored.Done? {
          RestoreDirtyLeavesOthers(r1, restored.state.1, init, k);
        }
      } else {
        RestoreDirtyLeavesOthers(r, os, init, k);
      }
    }
  }

  /** The visited records that are dirty. */
  function DirtyAmong(r: PageRestorer, keys: seq<u64>): set<u64> {
    set k | k in keys && k in r.pages && r.pages[k].dirty
  }

  /** Visiting one more record adds it to the dirty ones exactly when it is dirty. */
  lemma DirtyAmongSnoc(r: PageRestorer, init: seq<u64>, last: u64)
    requires last in r.pages
    ensures DirtyAmong(r, init + [last]) == DirtyAmong(r, init) + (if r.pages[last].dirty then {last} else {})
  {
    assert forall k :: k in init + [last] <==> k in init || k == last;
  }

  /** Records whose dirty flags agree give the same dirty set. */
  lemma DirtyAmongAgree(r: PageRestorer, r1: PageRestorer, keys: seq<u64>)
    requires forall k :: k in keys ==> k in r.pages && k in r1.pages && r1.pages[k].dirty == r.pages[k].dirty
    ensures DirtyAmong(r1, keys) == DirtyAmong(r, keys)
  {
  }

  /** With distinct keys, the count of a completed second pass is the number of visited records that were dirty. */
  lemma {:induction false} RestoreDirtyCount(r: PageRestorer, os: Os, keys: seq<u64>)
    requires Tracked(r)
    requires forall j :: j in keys ==> j in r.pages
    requires forall i, j :: 0 <= i < j < |keys| ==> keys[i] != keys[j]
    requires RestoreDirty(r, os, keys).Done?
    ensures RestoreDirty(r, os, keys).value == |DirtyAmong(r, keys)|
    decreases |keys|, 1
  {
    if keys == [] {
      assert DirtyAmong(r, keys) == {};
    } else if !r.pages[keys[|keys| - 1]].dirty {
      var last := keys[|keys| - 1];
      var init := keys[..|keys| - 1];
      assert keys == init + [last];
      assert forall j :: j in init ==> j in keys;
      DirtyAmongSnoc(r, init, last);
      RestoreDirtyCount(r, os, init);
    } else {
      RestoreDirtyCountDirty(r, os, keys);
    }
  }

  /** The step of the count when the last visited record is dirty: it is restored and counted once. */
  lemma {:induction false} RestoreDirtyCountDirty(r: PageRestorer, os: Os, keys: seq<u64>)
    requires Tracked(r)
    requires forall j :: j in keys ==> j in r.pages
    requires forall i, j :: 0 <= i < j < |keys| ==> keys[i] != keys[j]
    requires RestoreDirty(r, os, keys).Done?
    requires keys != [] && r.pages[keys[|keys| - 1]].dirty
    ensures RestoreDirty(r, os, keys).value == |DirtyAmong(r, keys)|
    decreases |keys|, 0
  {
    var last := keys[|keys| - 1];
    var b := r.pages[last];
    var init := keys[..|keys| - 1];
    assert keys == init + [last];
    assert forall j :: j in init ==> j in keys;
    assert last !in init;
    DirtyAmongSnoc(r, init, last);
    var restored := Restore(b, os);
    var r1 := r.(pages := r.pages[last := restored.state.0]);
    assert TrackedRecord(last, restored.state.0);
    RestoreDirtyCount(r1, restored.state.1, init);
    DirtyAmongAgree(r, r1, init);
    assert last !in DirtyAmong(r, init);
  }

  /**
   restore_state_working_set: release the untracked entries of the working set,
   then restore the tracked dirty ones from the last to the first. The count is
   the number of pages restored.
   */
  function RestoreStateWorkingSet(r: PageRestorer, os: Os, ws: seq<WorkingSetBlock>): (res: Exec<(PageRestorer, Os), int>)
    requires Tracked(r)
    ensures res.state.0.pages.Keys == r.pages.Keys && Tracked(res.state.0)
  {
    var (keys, os1) := FreeUntracked(r, os, ws);
    RestoreDirty(r, os1, keys)
  }

  /**
   After a completed restore, every entry without a record that starts an
   allocation has been released, every tracked dirty resident page holds its
   copy again, and every record not restored is as it was.
   */
  lemma RestoreStateWorkingSetEffect(r: PageRestorer, os: Os, ws: seq<WorkingSetBlock>, i: nat)
    requires Tracked(r) && RestoreStateWorkingSet(r, os, ws).Done?
    requires i < |ws|
    ensures var a := BlockAddress(ws[i].virtualPage);
      var res := RestoreStateWorkingSet(r, os, ws);
      && (a !in r.pages && IsAllocationBase(os, ws[i].virtualPage) ==> ws[i].virtualPage !in res.state.1.pages)
      && (a in r.pages && r.pages[a].dirty ==>
            r.pages[a].data.Some? && ws[i].virtualPage in res.state.1.pages
            && res.state.1.pages[ws[i].virtualPage].data == r.pages[a].data.value)
      && (a in r.pages && !r.pages[a].dirty ==> res.state.0.pages[a] == r.pages[a])
  {
    var (keys, os1) := FreeUntracked(r, os, ws);
    var a := BlockAddress(ws[i].virtualPage);
    if a !in r.pages && IsAllocationBase(os, ws[i].virtualPage) {
      assert FreedBy(os, ws[i].virtualPage, ws[i].virtualPage);
      assert Released(r, os, ws, ws[i].virtualPage);
      RestoreDirtyFrame(r, os1, keys, ws[i].virtualPage);
    } else if a in r.pages && r.pages[a].dirty {
      RestoreDirtyWritesBack(r, os1, keys, a);
    } else if a in r.pages {
      RestoreDirtyLeavesOthers(r, os1, keys, a);
    }
  }

  /**
   An untracked entry that starts an allocation releases the tracked pages of
   that allocation too: when one of them is dirty and resident, the restore of
   its record finds no page and the whole restore throws.
   */
  lemma RestoreAfterReleasedAllocation(r: PageRestorer, os: Os, ws: seq<WorkingSetBlock>, i: nat, j: nat)
    requires Tracked(r)
    requires i < |ws| && j < |ws|
    requires BlockAddress(ws[i].virtualPage) !in r.pages
    requires BlockAddress(ws[j].virtualPage) in r.pages && r.pages[BlockAddress(ws[j].virtualPage)].dirty
    requires FreedBy(os, ws[i].virtualPage, ws[j].virtualPage)
    ensures RestoreStateWorkingSet(r, os, ws).Raised?
  {
    var (keys, os1) := FreeUntracked(r, os, ws);
    var a := BlockAddress(ws[j].virtualPage);
    assert Released(r, os, ws, ws[j].virtualPage);
    assert PageOf(a) !in os1.pages;
    if RestoreDirty(r, os1, keys).Done? {
      RestoreDirtyWritesBack(r, os1, keys, a);
    }
  }

  /** A record none of whose page is resident is left as it was by a restore. */
  lemma RestoreStateLeavesNonResident(r: PageRestorer, os: Os, ws: seq<WorkingSetBlock>, k: u64)
    requires Tracked(r) && k in r.pages
    requires k !in BlockAddresses(ws)
    ensures RestoreStateWorkingSet(r, os, ws).state.0.pages[k] == r.pages[k]
  {
    var (keys, os1) := FreeUntracked(r, os, ws);
    assert k !in keys;
    RestoreDirtyLeavesOthers(r, os1, keys, k);
  }

  /**
   What a completed restore leaves for one working-set entry `blk`, starting
   from the records `r` and the target `os` and ending in `t`: an untracked
   entry that starts an allocation is gone, a tracked dirty page holds its copy
   again, and a clean record is unchanged.
   */
  predicate RestoredBlock(r: PageRestorer, os: Os, t: (PageRestorer, Os), blk: WorkingSetBlock) {
    var a := BlockAddress(blk.virtualPage);
    && (a !in r.pages && IsAllocationBase(os, blk.virtualPage) ==> blk.virtualPage !in t.1.pages)
    && (a in r.pages && r.pages[a].dirty ==>
          r.pages[a].data.Some? && blk.virtualPage in t.1.pages
          && t.1.pages[blk.virtualPage].data == r.pages[a].data.value)
    && (a in r.pages && !r.pages[a].dirty ==> a in t.0.pages && t.0.pages[a] == r.pages[a])
  }

  /**
   restore_state: always the working-set restore; the virtual-query walk sits
   behind `if (false)`. It keeps the tracked pages, and a completed one has
   rolled every entry of the working set back.
   */
  function RestoreState(r: PageRestorer, os: Os, ws: seq<WorkingSetBlock>): (res: Exec<(PageRestorer, Os), int>)
    requires Tracked(r)
    ensures res.state.0.pages.Keys == r.pages.Keys && Tracked(res.state.0)
    ensures res.Done? ==> forall i :: 0 <= i < |ws| ==> RestoredBlock(r, os, res.state, ws[i])
  {
    var restored := RestoreStateWorkingSet(r, os, ws);
    if restored.Done? then
      assert forall i :: 0 <= i < |ws| ==> RestoredBlock(r, os, restored.state, ws[i]) by {
        forall i | 0 <= i < |ws| ensures RestoredBlock(r, os, restored.state, ws[i]) {
          RestoreStateWorkingSetEffect(r, os, ws, i);
        }
      }
      restored
    else restored
  }

  /**
   touch_address as written: with no record above the address it returns
   false at once; otherwise it takes the greatest record at or below the
   address (`upper_bound` then `--`, undefined when there is none) and, when
   the address is inside its region, marks it dirty and returns true.
   */
  function TouchAddressAsWritten(r: PageRestorer, os: Os, address: u64): (res: Exec<(PageRestorer, Os), bool>)
    requires Tracked(r)
    requires (exists k :: k in r.pages && k > address) ==> (exists k :: k in r.pages && k <= address)
    ensures !(exists k :: k in r.pages && k > address) ==> res == Done((r, os), false)
  {
    if !(exists k :: k in r.pages && k > address) then Done((r, os), false)
    else
      var base := Floor(r.pages.Keys, address);
      TouchRecord(r, os, base, address)
  }

  /** The end of both versions: mark the record dirty when the address is inside its region. */
  function TouchRecord(r: PageRestorer, os: Os, base: u64, address: u64): (res: Exec<(PageRestorer, Os), bool>)
    requires Tracked(r) && base in r.pages
    ensures res.state.0.pages.Keys == r.pages.Keys && Tracked(res.state.0)
    ensures forall k :: k in r.pages && k != base ==> res.state.0.pages[k] == r.pages[k]
  {
    var b := r.pages[base];
    if address < PageEnd(b) then
      var marked := MarkDirty(b, os);
      var r1 := r.(pages := r.pages[base := marked.state.0]);
      assert TrackedRecord(base, marked.state.0);
      if marked.Raised? then Raised((r1, marked.state.1), marked.error) else Done((r1, marked.state.1), true)
    else Done((r, os), false)
  }

  /**
   touch_address as evidently intended: the early return for the case where
   no record is at or below the address, the one the decrement cannot handle.
   */
  function TouchAddress(r: PageRestorer, os: Os, address: u64): (res: Exec<(PageRestorer, Os), bool>)
    requires Tracked(r)
    ensures res.state.0.pages.Keys == r.pages.Keys && Tracked(res.state.0)
  {
    if !(exists k :: k in r.pages && k <= address) then Done((r, os), false)
    else
      var base := Floor(r.pages.Keys, address);
      TouchRecord(r, os, base, address)
  }

  /**
   The corrected touch reports true exactly when the page of the address is
   tracked and could be given its original protection back, and that record,
   and no other, is then dirty.
   */
  lemma TouchAddressIff(r: PageRestorer, os: Os, address: u64)
    requires Tracked(r)
    ensures var home := PageBase(PageOf(address));
      var res := TouchAddress(r, os, address);
      && (res.Done? && res.value <==> home in r.pages && MarkDirty(r.pages[home], os).Done?)
      && (home in r.pages && res.Done? ==> res.state.0.pages[home].dirty)
      && (home !in r.pages ==> res == Done((r, os), false))
  {
    var home := PageBase(PageOf(address));
    assert home <= address < home + PAGE_SIZE;
    if home in r.pages {
      var base := Floor(r.pages.Keys, address);
      assert home <= base;
      assert base == home;
    } else if exists k :: k in r.pages && k <= address {
      var base := Floor(r.pages.Keys, address);
      assert base % PAGE_SIZE == 0 && base != home;
      assert base < home;
      assert PageEnd(r.pages[base]) <= home;
    }
  }

  /**
   The as-written touch never marks the highest tracked page: for an address
   inside it no record lies above, and the early return gives false.
   */
  lemma TouchAddressAsWrittenMissesLastPage(r: PageRestorer, os: Os, address: u64)
    requires Tracked(r)
    requires PageBase(PageOf(address)) in r.pages
    requires forall k :: k in r.pages ==> k <= PageBase(PageOf(address))
    ensures TouchAddressAsWritten(r, os, address) == Done((r, os), false)
    ensures MarkDirty(r.pages[PageBase(PageOf(address))], os).Done? ==> TouchAddress(r, os, address).value
  {
    TouchAddressIff(r, os, address);
  }

  /** Below the lowest record both versions answer false; only the corrected one needs no precondition for it. */
  lemma TouchAddressAgreesAboveLowest(r: PageRestorer, os: Os, address: u64)
    requires Tracked(r)
    requires exists k :: k in r.pages && k > address
    requires exists k :: k in r.pages && k <= address
    ensures TouchAddressAsWritten(r, os, address) == TouchAddress(r, os, address)
  {
  }

  /**
   What the as-written translation does to a saved working set: a page whose
   flags carry PAGE_NOCACHE or PAGE_GUARD is recorded with an original
   protection that has no base constant. VirtualProtectEx refuses that word, so
   whatever the target does later, marking the record dirty fails, and a touch of
   any address of the page never reports the access as handled.
   */
  lemma SaveModifiedBlockAsWritten(r: PageRestorer, os: Os, blk: WorkingSetBlock, later: Os, address: u64)
    requires Tracked(r) && blk.protection >= 8
    requires BlockAddress(blk.virtualPage) <= address < BlockAddress(blk.virtualPage) + PAGE_SIZE
    ensures var saved := SaveBlock(r, os, blk).state.0;
      var a := BlockAddress(blk.virtualPage);
      && Tracked(saved) && a in saved.pages
      && saved.pages[a].originalProtect.base == NoBase
      && MarkDirty(saved.pages[a], later).Raised?
      && MarkDirty(saved.pages[a], later).error == VirtualProtectFailed
      && MarkDirty(saved.pages[a], later).state.0.dirty
      && !(TouchAddress(saved, later, address).Done? && TouchAddress(saved, later, address).value)
  {
    var a := BlockAddress(blk.virtualPage);
    var saved := SaveBlock(r, os, blk).state.0;
    assert TrackedRecord(a, saved.pages[a]);
    assert PageBase(PageOf(address)) == a;
    TouchAddressIff(saved, later, address);
  }
}

=== FILE: registers.dfy ===
/**
 The x64 thread context as the register cache sees it: the registers named by
 the CONTEXTREGISTER enumeration, the width of each one's field in the CONTEXT
 record, and a context as a total map from register to value.
 */
module Registers {
  import opened Base

  datatype Reg =
    | P1Home | P2Home | P3Home | P4Home | P5Home | P6Home
    | MxCsr
    | SegCs | SegDs | SegEs | SegFs | SegGs | SegSs
    | EFlags
    | Dr0 | Dr1 | Dr2 | Dr3 | Dr6 | Dr7
    | Rax | Rcx | Rdx | Rbx | Rsp | Rbp | Rsi | Rdi
    | R8 | R9 | R10 | R11 | R12 | R13 | R14 | R15
    | Rip
    | DebugControl | LastBranchToRip | LastBranchFromRip
    | LastExceptionToRip | LastExceptionFromRip

  /**
   A CONTEXTREGISTER argument. The C++ enumeration is a set of CONTEXT offsets, and
   any integer can be cast to it; `Unlisted` stands for a value that is none of the
   enumerators.
   */
  datatype RegId = Named(reg: Reg) | Unlisted(offset: int)

  const AllRegs: set<Reg> := {
    P1Home, P2Home, P3Home, P4Home, P5Home, P6Home,
    MxCsr,
    SegCs, SegDs, SegEs, SegFs, SegGs, SegSs,
    EFlags,
    Dr0, Dr1, Dr2, Dr3, Dr6, Dr7,
    Rax, Rcx, Rdx, Rbx, Rsp, Rbp, Rsi, Rdi,
    R8, R9, R10, R11, R12, R13, R14, R15,
    Rip,
    DebugControl, LastBranchToRip, LastBranchFromRip,
    LastExceptionToRip, LastExceptionFromRip
  }

  lemma AllRegsListed(r: Reg)
    ensures r in AllRegs
  {
  }

  /** The size in bytes of the register's field in the CONTEXT record. */
  function Width(r: Reg): (w: nat)
    ensures w == 2 || w == 4 || w == 8
  {
    match r
    case SegCs | SegDs | SegEs | SegFs | SegGs | SegSs => 2
    case MxCsr | EFlags => 4
    case _ => 8
  }

  /** Storing a `size_t` into a field of width w keeps the low 8w bits. */
  function Truncate(r: Reg, v: bv64): (t: bv64)
  {
    if Width(r) == 8 then v
    else if Width(r) == 4 then v & 0xFFFF_FFFF
    else v & 0xFFFF
  }

  /** A value that a field of the register's width holds unchanged. */
  predicate Fits(r: Reg, v: bv64) {
    Truncate(r, v) == v
  }

  /** What a store keeps fits the field: storing it again changes nothing. */
  lemma {:induction false} TruncateFits(r: Reg, v: bv64)
    ensures Fits(r, Truncate(r, v))
  {
    if Width(r) == 4 {
      AndIdempotent(v, 0xFFFF_FFFF);
    } else if Width(r) == 2 {
      AndIdempotent(v, 0xFFFF);
    }
  }

  lemma AndIdempotent(v: bv64, m: bv64)
    ensures (v & m) & m == v & m
  {
  }

  /** A value fits a narrow field exactly when the bits above the field are clear. */
  lemma {:induction false} FitsMeansUpperBitsClear(r: Reg, v: bv64)
    ensures Width(r) == 2 ==> (Fits(r, v) <==> v & 0xFFFF_FFFF_FFFF_0000 == 0)
    ensures Width(r) == 4 ==> (Fits(r, v) <==> v & 0xFFFF_FFFF_0000_0000 == 0)
    ensures Width(r) == 8 ==> Fits(r, v)
  {
    if Width(r) == 2 {
      WordSplit(v);
    } else if Width(r) == 4 {
      DwordSplit(v);
    }
  }

  lemma WordSplit(v: bv64)
    ensures v & 0xFFFF == v <==> v & 0xFFFF_FFFF_FFFF_0000 == 0
  {
  }

  lemma DwordSplit(v: bv64)
    ensures v & 0xFFFF_FFFF == v <==> v & 0xFFFF_FFFF_0000_0000 == 0
  {
  }

  /** The register file with every register present. */
  predicate IsContext(m: map<Reg, bv64>) {
    forall r: Reg :: r in m
  }

  /** The all-zero register file. */
  function ZeroContext(): (m: map<Reg, bv64>)
    ensures forall r: Reg :: r in m && m[r] == 0
  {
    assert forall r: Reg :: r in AllRegs by {
      forall r: Reg ensures r in AllRegs {
        AllRegsListed(r);
      }
    }
    map r: Reg | r in AllRegs :: 0
  }

  /** A CONTEXT record: one value for every register. */
  type Context = m: map<Reg, bv64> | IsContext(m) witness ZeroContext()

  /** The value of a register, zero-extended to `size_t`. */
  function Read(c: Context, r: Reg): bv64 {
    c[r]
  }

  /** A store of `v` through a pointer of the field's width. */
  function Write(c: Context, r: Reg, v: bv64): (d: Context)
    ensures Read(d, r) == Truncate(r, v)
    ensures forall q :: q != r ==> Read(d, q) == Read(c, q)
  {
    c[r := Truncate(r, v)]
  }

  /**
   A context whose every register holds a value its field can hold, as a CONTEXT
   record read from the kernel does.
   */
  predicate WellFormed(c: Context) {
    forall r: Reg :: Fits(r, Read(c, r))
  }

  /** The zero context is well formed, and stores keep a context well formed. */
  lemma WriteKeepsWellFormed(c: Context, r: Reg, v: bv64)
    ensures WellFormed(ZeroContext())
    ensures WellFormed(c) ==> WellFormed(Write(c, r, v))
  {
    TruncateFits(r, v);
  }

  /** Reading back a stored register gives the low 8·width bits of the value, zero-extended. */
  lemma ReadAfterWrite(c: Context, r: Reg, v: bv64)
    ensures Width(r) == 2 ==> Read(Write(c, r, v), r) == v & 0xFFFF
    ensures Width(r) == 4 ==> Read(Write(c, r, v), r) == v & 0xFFFF_FFFF
    ensures Width(r) == 8 ==> Read(Write(c, r, v), r) == v
  {
  }

  /** Storing what a register already holds changes nothing. */
  lemma WriteReadIdentity(c: Context, r: Reg)
    requires Fits(r, Read(c, r))
    ensures Write(c, r, Read(c, r)) == c
  {
  }

  /** A run of stores, applied in order. */
  function WriteAll(c: Context, stores: seq<(Reg, bv64)>): Context
    decreases |stores|
  {
    if stores == [] then c else WriteAll(Write(c, stores[0].0, stores[0].1), stores[1..])
  }

  /** A register no store of the run names keeps its value. */
  lemma {:induction false} WriteAllFrame(c: Context, stores: seq<(Reg, bv64)>, q: Reg)
    requires forall i :: 0 <= i < |stores| ==> stores[i].0 != q
    ensures Read(WriteAll(c, stores), q) == Read(c, q)
    decreases |stores|
  {
    if stores != [] {
      WriteAllFrame(Write(c, stores[0].0, stores[0].1), stores[1..], q);
    }
  }

  /** A register holds what the last store naming it stored. */
  lemma {:induction false} WriteAllLast(c: Context, stores: seq<(Reg, bv64)>, i: nat)
    requires i < |stores|
    requires forall j :: i < j < |stores| ==> stores[j].0 != stores[i].0
    ensures Read(WriteAll(c, stores), stores[i].0) == Truncate(stores[i].0, stores[i].1)
    decreases |stores|
  {
    var d := Write(c, stores[0].0, stores[0].1);
    if i == 0 {
      WriteAllFrame(d, stores[1..], stores[0].0);
    } else {
      WriteAllLast(d, stores[1..], i - 1);
    }
  }

  /** The widths of the CONTEXT fields, by register class. */
  lemma WidthsByClass(r: Reg)
    ensures Width(r) == 2 <==> r in {SegCs, SegDs, SegEs, SegFs, SegGs, SegSs}
    ensures Width(r) == 4 <==> r == MxCsr || r == EFlags
    ensures Width(r) == 8 <==> r in {P1Home, P2Home, P3Home, P4Home, P5Home, P6Home,
                                      Dr0, Dr1, Dr2, Dr3, Dr6, Dr7,
                                      Rax, Rcx, Rdx, Rbx, Rsp, Rbp, Rsi, Rdi,
                                      R8, R9, R10, R11, R12, R13, R14, R15, Rip,
                                      DebugControl, LastBranchToRip, LastBranchFromRip,
                                      LastExceptionToRip, LastExceptionFromRip}
  {
  }
}

=== FILE: resolution.dfy ===
/**
 Resolving deferred breakpoints (ResolveDeferredBps, SetHWBPInModule,
 SetSWBPInModule): every queued hardware and then software breakpoint whose module
 name equals the loaded module's name, ignoring case, is set at `base + offset`,
 and the resolution callback, when one is registered, is told about it. Queued
 entries are visited by copy and never removed, so they fire again on every
 later resolution of a module with a matching name.
 */
module Resolution {
  import opened Base
  import opened Errors
  import opened Text
  import opened Hwbp
  import opened Deferred
  import opened ModuleInfos
  import opened TargetOs
  import opened Session
  import opened SwBreakpoints

  /** One call of the resolution callback: (moduleName, offset, resolvedAddress). */
  datatype Notice = Notice(moduleName: string, offset: u64, address: u64)

  /** The debugger, the process and the callback calls made so far. */
  datatype Resolved = Resolved(session: Session, os: Os, notices: seq<Notice>)

  /** The callback calls announcing breakpoints at `offsets` in module `name` loaded at `base`. */
  function NoticesFor(name: string, base: u64, offsets: seq<u64>): (n: seq<Notice>)
    ensures |n| == |offsets|
    ensures forall i :: 0 <= i < |offsets| ==> n[i] == Notice(name, offsets[i], WrapAdd(base, offsets[i]))
  {
    seq(|offsets|, i requires 0 <= i < |offsets| => Notice(name, offsets[i], WrapAdd(base, offsets[i])))
  }

  lemma NoticesForAppend(name: string, base: u64, xs: seq<u64>, ys: seq<u64>)
    ensures NoticesFor(name, base, xs + ys) == NoticesFor(name, base, xs) + NoticesFor(name, base, ys)
  {
  }

  lemma NoticesForCons(name: string, base: u64, offset: u64, ys: seq<u64>)
    ensures NoticesFor(name, base, [offset] + ys) == [Notice(name, offset, WrapAdd(base, offset))] + NoticesFor(name, base, ys)
  {
    NoticesForAppend(name, base, [offset], ys);
    assert NoticesFor(name, base, [offset]) == [Notice(name, offset, WrapAdd(base, offset))];
  }

  /** The addresses the offsets land on in a module loaded at `base`. */
  function AddressesFor(base: u64, offsets: seq<u64>): (a: set<u64>)
    ensures forall i :: 0 <= i < |offsets| ==> WrapAdd(base, offsets[i]) in a
    ensures forall x :: x in a ==> exists i :: 0 <= i < |offsets| && x == WrapAdd(base, offsets[i])
  {
    set i | 0 <= i < |offsets| :: WrapAdd(base, offsets[i])
  }

  lemma AddressesForCons(base: u64, offset: u64, later: seq<u64>)
    ensures AddressesFor(base, [offset] + later) == {WrapAdd(base, offset)} + AddressesFor(base, later)
  {
    var offsets := [offset] + later;
    assert offsets[0] == offset;
    forall a | a in AddressesFor(base, later) ensures a in AddressesFor(base, offsets) {
      var i :| 0 <= i < |later| && a == WrapAdd(base, later[i]);
      assert offsets[i + 1] == later[i];
    }
    forall a | a in AddressesFor(base, offsets) ensures a == WrapAdd(base, offset) || a in AddressesFor(base, later) {
      var i :| 0 <= i < |offsets| && a == WrapAdd(base, offsets[i]);
      if i > 0 {
        assert offsets[i] == later[i - 1];
      }
    }
  }

  /**
   The offsets of the queued hardware breakpoints that match `name`, in queue
   order: every matching entry contributes its offset and nothing else is in the
   result. HwOffsetsInOrder pins down the order.
   */
  function HwOffsets(queue: seq<DeferredHwbp>, name: string): (r: seq<u64>)
    ensures |r| <= |queue|
    ensures r == [] <==> forall i :: 0 <= i < |queue| ==> !EqualsIgnoringCase(name, queue[i].moduleName)
    ensures forall i :: 0 <= i < |queue| && EqualsIgnoringCase(name, queue[i].moduleName) ==> queue[i].offset in r
    ensures forall x :: x in r ==> exists i :: 0 <= i < |queue| && EqualsIgnoringCase(name, queue[i].moduleName) && queue[i].offset == x
  {
    if queue == [] then []
    else
      assert forall i :: 1 <= i < |queue| ==> queue[i] == queue[1..][i - 1];
      if EqualsIgnoringCase(name, queue[0].moduleName) then [queue[0].offset] + HwOffsets(queue[1..], name)
      else HwOffsets(queue[1..], name)
  }

  /**
   The order of HwOffsets: the offsets of two queues one after the other are
   those of the first followed by those of the second, and a single entry gives
   its offset exactly when it matches. Together these fix the result entry by
   entry, in queue order.
   */
  lemma HwOffsetsInOrder(a: seq<DeferredHwbp>, b: seq<DeferredHwbp>, name: string)
    ensures HwOffsets(a + b, name) == HwOffsets(a, name) + HwOffsets(b, name)
    ensures forall e :: HwOffsets([e], name) == if EqualsIgnoringCase(name, e.moduleName) then [e.offset] else []
  {
    HwOffsetsAppend(a, b, name);
    forall e ensures HwOffsets([e], name) == if EqualsIgnoringCase(name, e.moduleName) then [e.offset] else [] {
      assert [e][1..] == [];
    }
  }

  lemma {:induction false} HwOffsetsAppend(a: seq<DeferredHwbp>, b: seq<DeferredHwbp>, name: string)
    ensures HwOffsets(a + b, name) == HwOffsets(a, name) + HwOffsets(b, name)
    decreases |a|
  {
    if a == [] {
      assert a + b == b;
    } else {
      assert (a + b)[0] == a[0];
      assert (a + b)[1..] == a[1..] + b;
      HwOffsetsAppend(a[1..], b, name);
    }
  }

  /**
   The offsets of the queued software breakpoints that match `name`, in queue
   order: every matching entry contributes its offset and nothing else is in the
   result. SwOffsetsInOrder pins down the order.
   */
  function SwOffsets(queue: seq<DeferredSwbp>, name: string): (r: seq<u64>)
    ensures |r| <= |queue|
    ensures r == [] <==> forall i :: 0 <= i < |queue| ==> !EqualsIgnoringCase(name, queue[i].moduleName)
    ensures forall i :: 0 <= i < |queue| && EqualsIgnoringCase(name, queue[i].moduleName) ==> queue[i].offset in r
    ensures forall x :: x in r ==> exists i :: 0 <= i < |queue| && EqualsIgnoringCase(name, queue[i].moduleName) && queue[i].offset == x
  {
    if queue == [] then []
    else
      assert forall i :: 1 <= i < |queue| ==> queue[i] == queue[1..][i - 1];
      if EqualsIgnoringCase(name, queue[0].moduleName) then [queue[0].offset] + SwOffsets(queue[1..], name)
      else SwOffsets(queue[1..], name)
  }

  /**
   The order of SwOffsets: the offsets of two queues one after the other are
   those of the first followed by those of the second, and a single entry gives
   its offset exactly when it matches. Together these fix the result entry by
   entry, in queue order.
   */
  lemma SwOffsetsInOrder(a: seq<DeferredSwbp>, b: seq<DeferredSwbp>, name: string)
    ensures SwOffsets(a + b, name) == SwOffsets(a, name) + SwOffsets(b, name)
    ensures forall e :: SwOffsets([e], name) == if EqualsIgnoringCase(name, e.moduleName) then [e.offset] else []
  {
    SwOffsetsAppend(a, b, name);
    forall e ensures SwOffsets([e], name) == if EqualsIgnoringCase(name, e.moduleName) then [e.offset] else [] {
      assert [e][1..] == [];
    }
  }

  lemma {:induction false} SwOffsetsAppend(a: seq<DeferredSwbp>, b: seq<DeferredSwbp>, name: string)
    ensures SwOffsets(a + b, name) == SwOffsets(a, name) + SwOffsets(b, name)
    decreases |a|
  {
    if a == [] {
      assert a + b == b;
    } else {
      assert (a + b)[0] == a[0];
      assert (a + b)[1..] == a[1..] + b;
      SwOffsetsAppend(a[1..], b, name);
    }
  }

  /**
   The hardware half of ResolveDeferredBps: set each matching entry at its resolved
   address and announce it when `notify`. SetHWBP throwing on exhausted slots ends
   the resolution; the breakpoints set and announced before it stay.
   */
  function ResolveHwQueue(s: Session, queue: seq<DeferredHwbp>, name: string, base: u64, notify: bool)
    : (r: Exec<(Session, seq<Notice>), ()>)
    ensures r.Raised? ==> r.error == SlotsExhausted
    decreases |queue|
  {
    if queue == [] then Done((s, []), ())
    else
      var bp := queue[0];
      if EqualsIgnoringCase(name, bp.moduleName) then
        var address := ResolveHwbp(bp, base).1;
        match SetHwbp(s, address, bp.descriptor.condition, bp.descriptor.len)
        case Err(e) => Raised((s, []), e)
        case Ok((s1, _)) =>
          var told := if notify then [Notice(name, bp.offset, address)] else [];
          match ResolveHwQueue(s1, queue[1..], name, base, notify)
          case Done((s2, n), _) => Done((s2, told + n), ())
          case Raised((s2, n), e) => Raised((s2, told + n), e)
      else ResolveHwQueue(s, queue[1..], name, base, notify)
  }

  /** The hardware half succeeds iff a slot is free for every match, and then takes one slot per match. */
  lemma {:induction false} HwQueueSlots(s: Session, queue: seq<DeferredHwbp>, name: string, base: u64, notify: bool)
    ensures var r := ResolveHwQueue(s, queue, name, base, notify);
      && (r.Done? <==> EnabledCount(s.breakpoints) + |HwOffsets(queue, name)| <= 4)
      && (r.Done? ==> EnabledCount(r.state.0.breakpoints) == EnabledCount(s.breakpoints) + |HwOffsets(queue, name)|)
    decreases |queue|
  {
    if queue != [] {
      var bp := queue[0];
      if EqualsIgnoringCase(name, bp.moduleName) {
        var address := ResolveHwbp(bp, base).1;
        match SetHwbp(s, address, bp.descriptor.condition, bp.descriptor.len)
        case Err(_) =>
        case Ok((s1, i)) =>
          EnabledCountEnable(s.breakpoints, i, Descriptor(address, bp.descriptor.condition, bp.descriptor.len, true));
          HwQueueSlots(s1, queue[1..], name, base, notify);
      } else {
        HwQueueSlots(s, queue[1..], name, base, notify);
      }
    }
  }

  /** A completed hardware half announces every match, in queue order, and nothing else. */
  lemma {:induction false} HwQueueNotices(s: Session, queue: seq<DeferredHwbp>, name: string, base: u64, notify: bool)
    ensures var r := ResolveHwQueue(s, queue, name, base, notify);
      r.Done? ==> r.state.1 == (if notify then NoticesFor(name, base, HwOffsets(queue, name)) else [])
    decreases |queue|
  {
    if queue != [] {
      var bp := queue[0];
      if EqualsIgnoringCase(name, bp.moduleName) {
        var address := ResolveHwbp(bp, base).1;
        assert address == WrapAdd(base, bp.offset);
        var set1 := SetHwbp(s, address, bp.descriptor.condition, bp.descriptor.len);
        if set1.Ok? {
          HwQueueNotices(set1.value.0, queue[1..], name, base, notify);
          NoticesForCons(name, base, bp.offset, HwOffsets(queue[1..], name));
        }
      } else {
        HwQueueNotices(s, queue[1..], name, base, notify);
      }
    }
  }

  /** The hardware half changes only the slots and the register image; with no match it changes nothing. */
  lemma {:induction false} HwQueueFrame(s: Session, queue: seq<DeferredHwbp>, name: string, base: u64, notify: bool)
    ensures var r := ResolveHwQueue(s, queue, name, base, notify);
      r.state.0 == s.(breakpoints := r.state.0.breakpoints, hwbpState := r.state.0.hwbpState)
    ensures HwOffsets(queue, name) == [] ==> ResolveHwQueue(s, queue, name, base, notify) == Done((s, []), ())
    decreases |queue|
  {
    if queue != [] {
      var bp := queue[0];
      if EqualsIgnoringCase(name, bp.moduleName) {
        var address := ResolveHwbp(bp, base).1;
        match SetHwbp(s, address, bp.descriptor.condition, bp.descriptor.len)
        case Err(_) =>
        case Ok((s1, _)) =>
          HwQueueFrame(s1, queue[1..], name, base, notify);
      } else {
        HwQueueFrame(s, queue[1..], name, base, notify);
      }
    }
  }

  /**
   The software half: SetSWBP(address) with both options on for each matching
   entry, its status ignored, and the announcement made whether or not it succeeded.
   */
  function ResolveSwQueue(s: Session, os: Os, queue: seq<DeferredSwbp>, name: string, base: u64, notify: bool)
    : (r: Resolved)
    decreases |queue|
  {
    if queue == [] then Resolved(s, os, [])
    else
      var bp := queue[0];
      if EqualsIgnoringCase(name, bp.moduleName) then
        var address := ResolveSwbp(bp, base).1;
        var (s1, os1, _) := SetSwbp(s, os, address, true, true);
        var rest := ResolveSwQueue(s1, os1, queue[1..], name, base, notify);
        Resolved(rest.session, rest.os, (if notify then [Notice(name, bp.offset, address)] else []) + rest.notices)
      else ResolveSwQueue(s, os, queue[1..], name, base, notify)
  }

  /** The software half announces every match, in queue order, and nothing else. */
  lemma {:induction false} SwQueueNotices(s: Session, os: Os, queue: seq<DeferredSwbp>, name: string, base: u64, notify: bool)
    ensures ResolveSwQueue(s, os, queue, name, base, notify).notices
         == (if notify then NoticesFor(name, base, SwOffsets(queue, name)) else [])
    decreases |queue|
  {
    if queue != [] {
      var bp := queue[0];
      if EqualsIgnoringCase(name, bp.moduleName) {
        var (s1, os1, _) := SetSwbp(s, os, ResolveSwbp(bp, base).1, true, true);
        SwQueueNotices(s1, os1, queue[1..], name, base, notify);
        NoticesForCons(name, base, bp.offset, SwOffsets(queue[1..], name));
      } else {
        SwQueueNotices(s, os, queue[1..], name, base, notify);
      }
    }
  }

  /** The software half changes only the breakpoint table and the process. */
  lemma {:induction false} SwQueueFrame(s: Session, os: Os, queue: seq<DeferredSwbp>, name: string, base: u64, notify: bool)
    ensures ResolveSwQueue(s, os, queue, name, base, notify).session
         == s.(swbps := ResolveSwQueue(s, os, queue, name, base, notify).session.swbps)
    decreases |queue|
  {
    if queue != [] {
      var bp := queue[0];
      if EqualsIgnoringCase(name, bp.moduleName) {
        var (s1, os1, _) := SetSwbp(s, os, ResolveSwbp(bp, base).1, true, true);
        SwQueueFrame(s1, os1, queue[1..], name, base, notify);
      } else {
        SwQueueFrame(s, os, queue[1..], name, base, notify);
      }
    }
  }

  /** With no match the software half changes nothing. */
  lemma {:induction false} SwQueueNoMatch(s: Session, os: Os, queue: seq<DeferredSwbp>, name: string, base: u64, notify: bool)
    requires SwOffsets(queue, name) == []
    ensures ResolveSwQueue(s, os, queue, name, base, notify) == Resolved(s, os, [])
    decreases |queue|
  {
    if queue != [] {
      SwQueueNoMatch(s, os, queue[1..], name, base, notify);
    }
  }

  /** The software half never removes a breakpoint, and the ones it adds sit at matched addresses. */
  lemma {:induction false} SwQueueKeys(s: Session, os: Os, queue: seq<DeferredSwbp>, name: string, base: u64, notify: bool)
    ensures var t := ResolveSwQueue(s, os, queue, name, base, notify).session;
      && (forall a :: a in s.swbps ==> a in t.swbps)
      && (forall a :: a in t.swbps ==> a in s.swbps || a in AddressesFor(base, SwOffsets(queue, name)))
    decreases |queue|
  {
    if queue != [] {
      var bp := queue[0];
      if EqualsIgnoringCase(name, bp.moduleName) {
        var address := ResolveSwbp(bp, base).1;
        var (s1, os1, _) := SetSwbp(s, os, address, true, true);
        SwQueueKeys(s1, os1, queue[1..], name, base, notify);
        AddressesForCons(base, bp.offset, SwOffsets(queue[1..], name));
        assert address == WrapAdd(base, bp.offset);
      } else {
        SwQueueKeys(s, os, queue[1..], name, base, notify);
      }
    }
  }

  /**
   ResolveDeferredBps(moduleName, base): the hardware queue, then the software
   queue, with the callback registered at the start.
   */
  function ResolveDeferredBps(s: Session, os: Os, name: string, base: u64): (r: Exec<Resolved, ()>)
    ensures r.Raised? ==> r.error == SlotsExhausted && r.state.os == os
  {
    var notify := Registered(s.resolvedCallback);
    match ResolveHwQueue(s, s.deferredHwbps, name, base, notify)
    case Raised((s1, n), e) => Raised(Resolved(s1, os, n), e)
    case Done((s1, n), _) =>
      var sw := ResolveSwQueue(s1, os, s.deferredSwbps, name, base, notify);
      Done(Resolved(sw.session, sw.os, n + sw.notices), ())
  }

  /**
   A resolution fails iff the hardware matches outnumber the free slots, and
   otherwise takes one slot per hardware match; every match is announced when a
   callback is registered, the hardware ones first.
   */
  lemma ResolveDeferredBpsOutcome(s: Session, os: Os, name: string, base: u64)
    ensures var r := ResolveDeferredBps(s, os, name, base);
      && (r.Done? <==> EnabledCount(s.breakpoints) + |HwOffsets(s.deferredHwbps, name)| <= 4)
      && (r.Done? ==> EnabledCount(r.state.session.breakpoints) == EnabledCount(s.breakpoints) + |HwOffsets(s.deferredHwbps, name)|)
      && (r.Done? ==>
            r.state.notices == if Registered(s.resolvedCallback)
                               then NoticesFor(name, base, HwOffsets(s.deferredHwbps, name) + SwOffsets(s.deferredSwbps, name))
                               else [])
  {
    var notify := Registered(s.resolvedCallback);
    HwQueueSlots(s, s.deferredHwbps, name, base, notify);
    HwQueueNotices(s, s.deferredHwbps, name, base, notify);
    HwQueueFrame(s, s.deferredHwbps, name, base, notify);
    var hw := ResolveHwQueue(s, s.deferredHwbps, name, base, notify);
    if hw.Done? {
      SwQueueNotices(hw.state.0, os, s.deferredSwbps, name, base, notify);
      SwQueueFrame(hw.state.0, os, s.deferredSwbps, name, base, notify);
      NoticesForAppend(name, base, HwOffsets(s.deferredHwbps, name), SwOffsets(s.deferredSwbps, name));
    }
  }

  /**
   A resolution leaves the queues, the module tables and the callbacks as they
   were; with nothing matching it changes nothing at all.
   */
  lemma ResolveDeferredBpsFrame(s: Session, os: Os, name: string, base: u64)
    ensures var r := ResolveDeferredBps(s, os, name, base);
      r.state.session == s.(breakpoints := r.state.session.breakpoints, hwbpState := r.state.session.hwbpState,
                            swbps := r.state.session.swbps)
    ensures HwOffsets(s.deferredHwbps, name) == [] && SwOffsets(s.deferredSwbps, name) == [] ==>
      ResolveDeferredBps(s, os, name, base) == Done(Resolved(s, os, []), ())
  {
    var notify := Registered(s.resolvedCallback);
    HwQueueFrame(s, s.deferredHwbps, name, base, notify);
    var hw := ResolveHwQueue(s, s.deferredHwbps, name, base, notify);
    if hw.Done? {
      SwQueueFrame(hw.state.0, os, s.deferredSwbps, name, base, notify);
      if HwOffsets(s.deferredHwbps, name) == [] && SwOffsets(s.deferredSwbps, name) == [] {
        SwQueueNoMatch(s, os, s.deferredSwbps, name, base, notify);
        var none: seq<Notice> := [];
        assert none + none == none;
      }
    }
  }

  /**
   Queued entries are not consumed: resolving the same module again announces the
   same breakpoints again, and sets the hardware ones again in further slots.
   */
  lemma ResolveRefires(s: Session, os: Os, name: string, base: u64)
    requires ResolveDeferredBps(s, os, name, base).Done?
    ensures var first := ResolveDeferredBps(s, os, name, base).state;
      var again := ResolveDeferredBps(first.session, first.os, name, base);
      && (again.Done? <==> EnabledCount(s.breakpoints) + 2 * |HwOffsets(s.deferredHwbps, name)| <= 4)
      && (again.Done? ==> again.state.notices == first.notices)
  {
    var first := ResolveDeferredBps(s, os, name, base).state;
    ResolveDeferredBpsOutcome(s, os, name, base);
    ResolveDeferredBpsFrame(s, os, name, base);
    ResolveDeferredBpsOutcome(first.session, first.os, name, base);
  }

  /**
   SetHWBPInModule: always queue the breakpoint, then resolve at once only when a
   module is recorded under exactly this name (the table lookup is case-sensitive).
   */
  function SetHwbpInModule(s: Session, os: Os, name: string, offset: u64, condition: Condition, len: Length)
    : (r: Exec<Resolved, ()>)
    requires FitsMaxPath(name)
    ensures r.state.session.deferredHwbps == s.deferredHwbps + [NewDeferredHwbp(name, offset, condition, len)]
    ensures r.state.session.deferredSwbps == s.deferredSwbps
    ensures name !in s.modulesByName ==>
      r == Done(Resolved(s.(deferredHwbps := r.state.session.deferredHwbps), os, []), ())
  {
    var queued := s.(deferredHwbps := s.deferredHwbps + [NewDeferredHwbp(name, offset, condition, len)]);
    if name in queued.modulesByName then
      ResolveDeferredBpsFrame(queued, os, name, queued.modulesByName[name].base);
      ResolveDeferredBps(queued, os, name, queued.modulesByName[name].base)
    else Done(Resolved(queued, os, []), ())
  }

  /** SetSWBPInModule: the same, for a software breakpoint. */
  function SetSwbpInModule(s: Session, os: Os, name: string, offset: u64): (r: Exec<Resolved, ()>)
    requires FitsMaxPath(name)
    ensures r.state.session.deferredSwbps == s.deferredSwbps + [NewDeferredSwbp(name, offset)]
    ensures r.state.session.deferredHwbps == s.deferredHwbps
    ensures name !in s.modulesByName ==>
      r == Done(Resolved(s.(deferredSwbps := r.state.session.deferredSwbps), os, []), ())
  {
    var queued := s.(deferredSwbps := s.deferredSwbps + [NewDeferredSwbp(name, offset)]);
    if name in queued.modulesByName then
      ResolveDeferredBpsFrame(queued, os, name, queued.modulesByName[name].base);
      ResolveDeferredBps(queued, os, name, queued.modulesByName[name].base)
    else Done(Resolved(queued, os, []), ())
  }

  /**
   With the module recorded under exactly this name and a slot to spare for every
   matching entry, the new hardware breakpoint is set at once, and announced last
   among the hardware ones when a callback is registered.
   */
  lemma {:induction false} SetHwbpInModuleResolvesLoaded(s: Session, os: Os, name: string, offset: u64,
                                                         condition: Condition, len: Length)
    requires FitsMaxPath(name)
    requires name in s.modulesByName
    requires EnabledCount(s.breakpoints) + |HwOffsets(s.deferredHwbps, name)| < 4
    ensures var r := SetHwbpInModule(s, os, name, offset, condition, len);
      && r.Done?
      && EnabledCount(r.state.session.breakpoints) == EnabledCount(s.breakpoints) + |HwOffsets(s.deferredHwbps, name)| + 1
      && (Registered(s.resolvedCallback) ==>
            |HwOffsets(s.deferredHwbps, name)| < |r.state.notices| &&
            r.state.notices[|HwOffsets(s.deferredHwbps, name)|]
              == Notice(name, offset, WrapAdd(s.modulesByName[name].base, offset)))
  {
    var b := NewDeferredHwbp(name, offset, condition, len);
    var queued := s.(deferredHwbps := s.deferredHwbps + [b]);
    EqualsIgnoringCaseIsEquivalence(name, name, name);
    HwOffsetsInOrder(s.deferredHwbps, [b], name);
    ResolveDeferredBpsOutcome(queued, os, name, s.modulesByName[name].base);
  }

  /**
   The table lookup is exact: a module recorded as "NTDLL.DLL" does not resolve a
   breakpoint requested in "ntdll.dll", though a load of that module would.
   */
  lemma InModuleLookupIsCaseSensitive(s: Session, os: Os, m: ModuleInfo, offset: u64)
    requires m.name == "NTDLL.DLL"
    requires s.modulesByName == map[m.name := m]
    ensures SetHwbpInModule(s, os, "ntdll.dll", offset, Execution, One).state.notices == []
    ensures SetHwbpInModule(s, os, "ntdll.dll", offset, Execution, One).state.session.breakpoints == s.breakpoints
    ensures EqualsIgnoringCase("ntdll.dll", m.name)
  {
    CaseOnlyDifference();
    EqualsIgnoringCaseIsEquivalence("ntdll.dll", "NTDLL.DLL", "ntdll.dll");
  }

  predicate NoBackslash(s: string) {
    forall i :: 0 <= i < |s| ==> s[i] != '\\'
  }

  /** A name with a backslash never equals, ignoring case, one without. */
  lemma BackslashNeverMatches(a: string, k: nat, b: string)
    requires k < |a| && a[k] == '\\'
    requires NoBackslash(b)
    ensures !EqualsIgnoringCase(a, b)
  {
    EqualsIgnoringCaseCharwise(a, b);
    if |a| == |b| {
      assert LowerChar(a[k]) == '\\';
      assert LowerChar(b[k]) != '\\';
    }
  }

  /**
   The module-load path as written (HandleLoadDllEvent): the ModuleInfo
   constructor as written runs on the image path, and its out_of_range escapes
   the handler; otherwise the module is recorded and the deferred breakpoints
   are resolved against the full normalized image path rather than the
   module's file name.
   */
  function ModuleLoadedAsWritten(s: Session, os: Os, imagePath: string, base: u64): (r: Exec<Resolved, ()>)
    ensures FromPathAsWritten(base, imagePath).Err? ==> r == Raised(Resolved(s, os, []), OutOfRange)
    ensures FromPathAsWritten(base, imagePath).Ok? ==>
      var m := FromPathAsWritten(base, imagePath).value;
      r.state.session.modulesByName == s.modulesByName[m.name := m]
    ensures r.state.session.deferredHwbps == s.deferredHwbps && r.state.session.deferredSwbps == s.deferredSwbps
    ensures r.state.session.eventCallbacks == s.eventCallbacks && r.state.session.firstBreakpointHit == s.firstBreakpointHit
  {
    match FromPathAsWritten(base, imagePath)
    case Err(e) => Raised(Resolved(s, os, []), e)
    case Ok(m) =>
      ResolveDeferredBpsFrame(MapDll(s, m), os, imagePath, base);
      ResolveDeferredBps(MapDll(s, m), os, imagePath, base)
  }

  /** The module-load path resolving against the module's file name, as GetMainModuleBase does. */
  function ModuleLoaded(s: Session, os: Os, imagePath: string, base: u64): (r: Exec<Resolved, ()>)
    ensures r.state.session.modulesByName == s.modulesByName[FromPath(base, imagePath).name := FromPath(base, imagePath)]
    ensures r.state.session.deferredHwbps == s.deferredHwbps && r.state.session.deferredSwbps == s.deferredSwbps
  {
    var m := FromPath(base, imagePath);
    ResolveDeferredBpsFrame(MapDll(s, m), os, m.name, base);
    ResolveDeferredBps(MapDll(s, m), os, m.name, base)
  }

  /**
   As written, a load whose path has a directory part resolves nothing that was
   queued under a bare file name: no breakpoint is set and no callback is made,
   and the load completes whenever the path survives the ModuleInfo constructor.
   */
  lemma {:induction false} AsWrittenIgnoresBareNames(s: Session, os: Os, imagePath: string, base: u64, k: nat)
    requires k < |imagePath| && imagePath[k] == '\\'
    requires forall i :: 0 <= i < |s.deferredHwbps| ==> NoBackslash(s.deferredHwbps[i].moduleName)
    requires forall i :: 0 <= i < |s.deferredSwbps| ==> NoBackslash(s.deferredSwbps[i].moduleName)
    ensures var r := ModuleLoadedAsWritten(s, os, imagePath, base);
      r.state.notices == [] && r.state.session.breakpoints == s.breakpoints && r.state.session.swbps == s.swbps
    ensures FromPathAsWritten(base, imagePath).Ok? ==> ModuleLoadedAsWritten(s, os, imagePath, base).Done?
  {
    forall i | 0 <= i < |s.deferredHwbps| ensures !EqualsIgnoringCase(imagePath, s.deferredHwbps[i].moduleName) {
      BackslashNeverMatches(imagePath, k, s.deferredHwbps[i].moduleName);
    }
    forall i | 0 <= i < |s.deferredSwbps| ensures !EqualsIgnoringCase(imagePath, s.deferredSwbps[i].moduleName) {
      BackslashNeverMatches(imagePath, k, s.deferredSwbps[i].moduleName);
    }
    if FromPathAsWritten(base, imagePath).Ok? {
      var s1 := MapDll(s, FromPathAsWritten(base, imagePath).value);
      assert HwOffsets(s1.deferredHwbps, imagePath) == [];
      assert SwOffsets(s1.deferredSwbps, imagePath) == [];
      ResolveDeferredBpsFrame(s1, os, imagePath, base);
    }
  }

  /** Resolving against the file name reaches every entry queued under that name in any case. */
  lemma ModuleLoadedMatchesFileName(s: Session, os: Os, imagePath: string, base: u64, i: nat)
    requires i < |s.deferredHwbps|
    requires EqualsIgnoringCase(FromPath(base, imagePath).name, s.deferredHwbps[i].moduleName)
    ensures s.deferredHwbps[i].offset in HwOffsets(MapDll(s, FromPath(base, imagePath)).deferredHwbps, FromPath(base, imagePath).name)
  {
  }

  /** Case-insensitive equality keeps backslashes where they are. */
  lemma NoBackslashMatches(a: string, b: string)
    requires NoBackslash(a) && EqualsIgnoringCase(a, b)
    ensures NoBackslash(b)
  {
    EqualsIgnoringCaseIsEquivalence(a, b, a);
    if k :| 0 <= k < |b| && b[k] == '\\' {
      BackslashNeverMatches(b, k, a);
    }
  }

  /**
   A breakpoint queued under a file name, in any case, and the module loaded from
   the normalized path `\\?\<dir>\<file>`: as written the load completes and
   nothing is announced.
   */
  lemma LoadByPathMissesQueuedName(s: Session, os: Os, b: DeferredHwbp, dir: string, file: string, base: u64)
    requires NoBackslash(file) && EqualsIgnoringCase(file, b.moduleName)
    requires s.deferredHwbps == [b] && s.deferredSwbps == []
    ensures ModuleLoadedAsWritten(s, os, LONG_PATH_PREFIX + dir + "\\" + file, base).Done?
    ensures ModuleLoadedAsWritten(s, os, LONG_PATH_PREFIX + dir + "\\" + file, base).state.notices == []
  {
    var path := LONG_PATH_PREFIX + dir + "\\" + file;
    assert path[0] == '\\';
    assert path == LONG_PATH_PREFIX + (dir + "\\" + file);
    AsWrittenStripsPrefix(base, dir + "\\" + file);
    NoBackslashMatches(file, b.moduleName);
    AsWrittenIgnoresBareNames(s, os, path, base, 0);
  }

  /** The same load resolved by the module's file name announces the breakpoint. */
  lemma LoadByFileNameFindsQueuedName(s: Session, os: Os, b: DeferredHwbp, dir: string, file: string, base: u64)
    requires NoBackslash(file) && EqualsIgnoringCase(file, b.moduleName)
    requires s.deferredHwbps == [b] && s.deferredSwbps == []
    requires EnabledCount(s.breakpoints) < 4
    requires Registered(s.resolvedCallback)
    ensures ModuleLoaded(s, os, LONG_PATH_PREFIX + dir + "\\" + file, base).state.notices
         == [Notice(file, b.offset, WrapAdd(base, b.offset))]
  {
    var path := LONG_PATH_PREFIX + dir + "\\" + file;
    FromPathOfPrefixedJoin(base, dir, file);
    assert HwOffsets([b], file) == [b.offset];
    assert SwOffsets([], file) == [];
    ResolveDeferredBpsOutcome(MapDll(s, FromPath(base, path)), os, file, base);
  }

  /** ResolveModule: the module recorded under exactly this name, if any. */
  function ResolveModule(s: Session, name: string): (r: Option<ModuleInfo>)
    ensures r.Some? <==> name in s.modulesByName
  {
    if name in s.modulesByName then Some(s.modulesByName[name]) else None
  }

  /** A module just recorded is found under its name, and under no other new name. */
  lemma ResolveModuleAfterMapDll(s: Session, m: ModuleInfo, other: string)
    ensures ResolveModule(MapDll(s, m), m.name) == Some(m)
    ensures other != m.name ==> ResolveModule(MapDll(s, m), other) == ResolveModule(s, other)
  {
  }
}

=== FILE: resume.dfy ===
/**
 ResumeFromBreakpoint: after an INT3 the thread's RIP points one byte past the
 breakpoint, so it is moved back by one. When a software breakpoint of the
 debugger's is recorded there and was set to restore the instruction, the
 original byte goes back, and, when asked, the thread is single-stepped over the
 instruction with the trap flag and the 0xCC written again behind it.
 */
module Resume {
  import opened Base
  import opened Errors
  import opened Registers
  import opened TargetOs
  import opened Swbp
  import opened Session
  import opened ThreadStates
  import opened Stepping
  import opened RipRewind

  /**
   ResumeFromBreakpoint(debugEv, threadState, replaceBreakpoint): rewind RIP;
   without a software breakpoint of the debugger's at the rewound address,
   continue, with the rewound RIP left in the dirty cache. With one, restore the
   instruction if it was set to, and report the exception handled. The page
   protection calls go to the debugger's own process and have no effect on the
   target.
   */
  function ResumeFromBreakpoint(s: Session, t: ThreadState, os: Os, replaceBreakpoint: bool, step: Os -> StepReport)
    : (r: Exec<(ThreadState, Os), ContinueStatus>)
    ensures r.Done? ==> r.value != ExceptionNotHandled
  {
    var rewound := Rewind(t, os);
    if rewound.Raised? then Raised((rewound.state, os), rewound.error)
    else
      var address: u64 := rewound.value as int;
      if address !in s.swbps then Done((rewound.state, os), Continue)
      else if !s.swbps[address].replaceInst then Done((rewound.state, os), ExceptionHandled)
      else RestoreInstruction(rewound.state, os, address, s.swbps[address].overwrittenByte, replaceBreakpoint, step)
  }

  /**
   The found-breakpoint branch: write the original byte back (its failure is
   ignored), flush and invalidate the cache, and step over the instruction if
   asked.
   */
  function RestoreInstruction(t: ThreadState, os: Os, address: u64, original: u8, replaceBreakpoint: bool, step: Os -> StepReport)
    : (r: Exec<(ThreadState, Os), ContinueStatus>)
    ensures r.Done? ==> r.value == ExceptionHandled
  {
    var flushed := Flush(t, WriteIgnoringFailure(os, address, original));
    if flushed.Raised? then Raised(flushed.state, flushed.error)
    else
      var t1 := Invalidate(flushed.state.0);
      if !replaceBreakpoint then Done((t1, flushed.state.1), ExceptionHandled)
      else
        var stepped := StepOver(t1, flushed.state.1, address, step);
        if stepped.Raised? then Raised(stepped.state, stepped.error)
        else Done(stepped.state, ExceptionHandled)
  }

  /** The process after the byte is written back and the rewound registers of thread `tid` are published. */
  function Published(os: Os, address: u64, original: u8, tid: ThreadId, c: Context): (r: Os)
    ensures r.threads == os.threads[tid := c]
  {
    WriteIgnoringFailure(os, address, original).(threads := os.threads[tid := c])
  }

  /**
   On a dirty, read cache of a live thread, restoring the instruction publishes
   the cached registers and leaves the cache invalidated; without a step that is
   the end.
   */
  lemma RestoreInstructionPublishes(t: ThreadState, os: Os, address: u64, original: u8, step: Os -> StepReport)
    requires t.dirty && t.contextRead && t.handle == ThreadHandle(t.threadId) && t.threadId in os.threads
    ensures RestoreInstruction(t, os, address, original, false, step)
         == Done((t.(dirty := false, contextRead := false, ownThreadHandle := true),
                  Published(os, address, original, t.threadId, t.ctx)), ExceptionHandled)
  {
    FlushPublishes(t, WriteIgnoringFailure(os, address, original));
  }

  /** With the step requested, the same publication is followed by the step over the instruction. */
  lemma RestoreInstructionSteps(t: ThreadState, os: Os, address: u64, original: u8, step: Os -> StepReport)
    requires t.dirty && t.contextRead && t.handle == ThreadHandle(t.threadId) && t.threadId in os.threads
    ensures var stepped := StepOver(t.(dirty := false, contextRead := false, ownThreadHandle := true),
                                    Published(os, address, original, t.threadId, t.ctx), address, step);
      && (RestoreInstruction(t, os, address, original, true, step).Done? <==> stepped.Done?)
      && RestoreInstruction(t, os, address, original, true, step).state == stepped.state
  {
    FlushPublishes(t, WriteIgnoringFailure(os, address, original));
  }

  /** The address the rewound RIP points at. */
  function RewoundAddress(t: ThreadState, os: Os): (a: u64)
    requires Rewind(t, os).Done?
  {
    Rewind(t, os).value as int
  }

  /** A thread whose registers cannot be read makes the resumption throw, with the process untouched. */
  lemma ResumeFailsOnUnreadableThread(s: Session, t: ThreadState, os: Os, replaceBreakpoint: bool, step: Os -> StepReport)
    requires EnsureRead(t, os).Raised?
    ensures ResumeFromBreakpoint(s, t, os, replaceBreakpoint, step) == Raised((EnsureRead(t, os).state, os), GetThreadContextFailure)
  {
    RewindFails(t, os);
  }

  /**
   The continue status: the exception is reported handled exactly when a
   software breakpoint is recorded at the rewound address.
   */
  lemma ResumeStatus(s: Session, t: ThreadState, os: Os, replaceBreakpoint: bool, step: Os -> StepReport)
    requires ResumeFromBreakpoint(s, t, os, replaceBreakpoint, step).Done?
    ensures Rewind(t, os).Done?
    ensures ResumeFromBreakpoint(s, t, os, replaceBreakpoint, step).value == ExceptionHandled
            <==> RewoundAddress(t, os) in s.swbps
  {
  }

  /**
   Without a breakpoint of the debugger's at the rewound address the process is
   untouched, and the cache keeps RIP moved back by one, to be published by the
   next flush.
   */
  lemma ResumeWithoutBreakpoint(s: Session, t: ThreadState, os: Os, replaceBreakpoint: bool, step: Os -> StepReport)
    requires Rewind(t, os).Done? && RewoundAddress(t, os) !in s.swbps
    ensures ResumeFromBreakpoint(s, t, os, replaceBreakpoint, step) == Done((Rewind(t, os).state, os), Continue)
    ensures Read(Rewind(t, os).state.ctx, Rip) == Read(EnsureRead(t, os).state.ctx, Rip) - 1
    ensures Rewind(t, os).state.dirty
  {
    RewindEffect(t, os);
    RewoundRip(EnsureRead(t, os).state.ctx);
  }

  /**
   A breakpoint set to restore its instruction, on a live thread whose cache has
   not been read: the thread's RIP is moved back and published, the recorded
   byte is written back, and, without a step, the exception is reported handled.
   */
  lemma ResumeRestoresInstruction(s: Session, t: ThreadState, os: Os, step: Os -> StepReport)
    requires Opened(t, os) && !t.contextRead
    requires Rewind(t, os).Done? && RewoundAddress(t, os) in s.swbps
    requires s.swbps[RewoundAddress(t, os)].replaceInst
    ensures var a := RewoundAddress(t, os);
      var tid := t.threadId;
      ResumeFromBreakpoint(s, t, os, false, step)
        == Done((FromHandle(tid, ThreadHandle(tid)).(ownThreadHandle := true, ctx := RewoundContext(os.threads[tid])),
                 Published(os, a, s.swbps[a].overwrittenByte, tid, RewoundContext(os.threads[tid]))), ExceptionHandled)
  {
    RewindEffect(t, os);
    var a := RewoundAddress(t, os);
    var u := Rewind(t, os).state;
    RestoreInstructionPublishes(u, os, a, s.swbps[a].overwrittenByte, step);
  }

  /**
   With the step requested, on a live thread whose cache has not been read, the
   resumption is the publication followed by StepOver from the rewound
   registers; StepOverEffect gives the end state.
   */
  lemma ResumeStepsOver(s: Session, t: ThreadState, os: Os, step: Os -> StepReport)
    requires Opened(t, os) && !t.contextRead
    requires Rewind(t, os).Done? && RewoundAddress(t, os) in s.swbps
    requires s.swbps[RewoundAddress(t, os)].replaceInst
    ensures var a := RewoundAddress(t, os);
      var tid := t.threadId;
      var published := Published(os, a, s.swbps[a].overwrittenByte, tid, RewoundContext(os.threads[tid]));
      var stepped := StepOver(FromHandle(tid, ThreadHandle(tid)).(ownThreadHandle := true, ctx := RewoundContext(os.threads[tid])),
                              published, a, step);
      && (ResumeFromBreakpoint(s, t, os, true, step).Done? <==> stepped.Done?)
      && ResumeFromBreakpoint(s, t, os, true, step).state == stepped.state
  {
    RewindEffect(t, os);
    var a := RewoundAddress(t, os);
    var u := Rewind(t, os).state;
    RestoreInstructionSteps(u, os, a, s.swbps[a].overwrittenByte, step);
  }
}

=== FILE: rip_rewind.dfy ===
/**
 Moving RIP back over the INT3 a breakpoint exception reports past: read RIP
 through the thread's register cache, subtract one with 64-bit wrap-around, and
 store it back, leaving the cache dirty.
 */
module RipRewind {
  import opened Base
  import opened Errors
  import opened Registers
  import opened TargetOs
  import opened ThreadStates

  /** The RIP rewind: read RIP, subtract one with 64-bit wrap-around, store it back. */
  function Rewind(t: ThreadState, os: Os): (r: Exec<ThreadState, bv64>)
  {
    var got := Get(t, os, Named(Rip));
    if got.Raised? then Raised(got.state, got.error)
    else
      var rip := got.value - 1;
      var stored := Set(got.state, os, Named(Rip), rip);
      if stored.Raised? then Raised(stored.state, stored.error)
      else Done(stored.state, rip)
  }

  /** A register record with RIP moved back by one. */
  function RewoundContext(c: Context): Context {
    Write(c, Rip, Read(c, Rip) - 1)
  }

  /** A cache with RIP moved back by one and marked dirty. */
  function Rewound(u: ThreadState): (v: ThreadState)
    ensures v.dirty && v.ctx == RewoundContext(u.ctx)
    ensures v.threadId == u.threadId && v.handle == u.handle && v.contextRead == u.contextRead
    ensures v.ownThreadHandle == u.ownThreadHandle
  {
    u.(ctx := RewoundContext(u.ctx), dirty := true)
  }

  /** The rewound record holds RIP minus one, wrapping at zero, and every other register unchanged. */
  lemma RewoundRip(c: Context)
    ensures Read(RewoundContext(c), Rip) == Read(c, Rip) - 1
    ensures forall q :: q != Rip ==> Read(RewoundContext(c), q) == Read(c, q)
  {
    ReadAfterWrite(c, Rip, Read(c, Rip) - 1);
  }

  /** On a cache that has been read, the rewind succeeds and returns RIP minus one. */
  lemma RewindValueOnReadCache(t: ThreadState, os: Os)
    requires t.contextRead
    ensures Rewind(t, os).Done? && Rewind(t, os).value == Read(t.ctx, Rip) - 1
  {
  }

  /** On a cache that has been read, the rewind leaves it rewound. */
  lemma RewindStateOnReadCache(t: ThreadState, os: Os)
    requires t.contextRead
    ensures Rewind(t, os).state == Rewound(t)
  {
  }

  /** On a cache that has been read, the rewind needs nothing from the OS. */
  lemma RewindOnReadCache(t: ThreadState, os: Os)
    requires t.contextRead
    ensures Rewind(t, os) == Done(Rewound(t), Read(t.ctx, Rip) - 1)
  {
    RewindValueOnReadCache(t, os);
    RewindStateOnReadCache(t, os);
  }

  /** The rewind reads the thread first; the rest happens on the read cache. */
  lemma RewindReadsFirst(t: ThreadState, os: Os)
    requires EnsureRead(t, os).Done?
    ensures Rewind(t, os) == Rewind(EnsureRead(t, os).state, os)
  {
  }

  /** A thread that can be read is rewound: the read cache with RIP moved back, and the new RIP. */
  lemma RewindOnRead(t: ThreadState, os: Os)
    requires EnsureRead(t, os).Done?
    ensures Rewind(t, os) == Done(Rewound(EnsureRead(t, os).state), Read(EnsureRead(t, os).state.ctx, Rip) - 1)
  {
    RewindReadsFirst(t, os);
    RewindOnReadCache(EnsureRead(t, os).state, os);
  }

  /** A thread that cannot be read fails the rewind as the read fails. */
  lemma RewindFails(t: ThreadState, os: Os)
    requires EnsureRead(t, os).Raised?
    ensures Rewind(t, os) == Raised(EnsureRead(t, os).state, GetThreadContextFailure)
  {
  }

  /**
   The rewind fails only when the thread cannot be read, and then as the read
   does; otherwise it leaves the read cache rewound and returns the new RIP.
   */
  lemma RewindEffect(t: ThreadState, os: Os)
    ensures Rewind(t, os).Done? <==> EnsureRead(t, os).Done?
    ensures Rewind(t, os).Raised? ==> Rewind(t, os) == Raised(EnsureRead(t, os).state, GetThreadContextFailure)
    ensures Rewind(t, os).Done? ==>
      Rewind(t, os) == Done(Rewound(EnsureRead(t, os).state), Read(EnsureRead(t, os).state.ctx, Rip) - 1)
  {
    if EnsureRead(t, os).Done? {
      RewindOnRead(t, os);
    } else {
      RewindFails(t, os);
    }
  }

  /** A breakpoint at address 0 rewinds to the top of the address space. */
  lemma RewindWrapsAtZero(t: ThreadState, os: Os)
    requires EnsureRead(t, os).Done? && Read(EnsureRead(t, os).state.ctx, Rip) == 0
    ensures Rewind(t, os).value == 0xFFFF_FFFF_FFFF_FFFF
  {
    RewindEffect(t, os);
  }
}

=== FILE: session.dfy ===
/**
 The debugger object (Dedougger) as a value: the hardware-breakpoint slots and
 their register image, the software-breakpoint table, the deferred-breakpoint
 queues, the module and thread tables, and the callback registry. Operations
 that touch the debugged process live in the modules that import this one.
 */
module Session {
  import opened Base
  import opened Errors
  import opened Hwbp
  import opened Swbp
  import opened Deferred
  import opened ModuleInfos

  /** DEBUGEVENTCALLBACKID, in enumerator order. */
  datatype CallbackId =
    | ThreadCreate
    | CreateProcess
    | ExitThread
    | ExitProcess
    | LoadDll
    | UnloadDll
    | OutputDebugString
    | RipEvent
    | AccessViolation
    | SingleStep
    | Breakpoint
    | InitialBreakpoint

  /** The enumerator value of a callback id. */
  function CallbackIndex(id: CallbackId): (i: nat)
  {
    match id
    case ThreadCreate => 0
    case CreateProcess => 1
    case ExitThread => 2
    case ExitProcess => 3
    case LoadDll => 4
    case UnloadDll => 5
    case OutputDebugString => 6
    case RipEvent => 7
    case AccessViolation => 8
    case SingleStep => 9
    case Breakpoint => 10
    case InitialBreakpoint => 11
  }

  /** The size of the callback array: INITIAL_BREAKPOINT_CALLBACK + 1. */
  const CALLBACK_SLOTS: nat := CallbackIndex(InitialBreakpoint) + 1

  /** The callback id stored at each slot of the array. */
  function CallbackAt(i: nat): (id: CallbackId)
    requires i < CALLBACK_SLOTS
    ensures CallbackIndex(id) == i
  {
    [ThreadCreate, CreateProcess, ExitThread, ExitProcess, LoadDll, UnloadDll,
     OutputDebugString, RipEvent, AccessViolation, SingleStep, Breakpoint, InitialBreakpoint][i]
  }

  /** Every callback id has its own slot, and every slot belongs to one id. */
  lemma OneSlotPerCallback(a: CallbackId, b: CallbackId)
    ensures CALLBACK_SLOTS == 12
    ensures CallbackIndex(a) < CALLBACK_SLOTS
    ensures CallbackIndex(a) == CallbackIndex(b) ==> a == b
    ensures CallbackAt(CallbackIndex(a)) == a
  {
  }

  /** CALLBACKRESULT. */
  datatype CallbackResult = BpHandle | BpDontHandle

  /** The continue statuses passed to ContinueDebugEvent. */
  datatype ContinueStatus = Continue | ExceptionHandled | ExceptionNotHandled

  /**
   A (function pointer, object pointer) pair. The function is None for nullptr, or
   a token naming one of the harness's functions; the object pointer is an address.
   */
  datatype CallbackPair = CallbackPair(callback: Option<nat>, object: u64)

  /** The default pair (nullptr, nullptr): no callback registered. */
  const NO_CALLBACK: CallbackPair := CallbackPair(None, 0)

  predicate Registered(p: CallbackPair) {
    p.callback.Some?
  }

  /**
   What a registered event callback does, as far as the debugger can see: its
   CALLBACKRESULT and the continue status it leaves behind the pointer it is given.
   */
  datatype Reply = Reply(result: CallbackResult, status: ContinueStatus)

  /** The harness's event callbacks, given the event and the continue status before the call. */
  type Responder = (CallbackId, ContinueStatus) -> Reply

  type Slots = s: seq<Descriptor> | |s| == 4
    witness [ZERO_DESCRIPTOR, ZERO_DESCRIPTOR, ZERO_DESCRIPTOR, ZERO_DESCRIPTOR]

  type CallbackTable = s: seq<CallbackPair> | |s| == CALLBACK_SLOTS
    witness seq(CALLBACK_SLOTS, _ => NO_CALLBACK)

  datatype Session = Session(
    firstBreakpointHit: bool,
    breakpoints: Slots,
    hwbpState: RegisterState,
    swbps: map<u64, SwbpRecord>,
    deferredHwbps: seq<DeferredHwbp>,
    deferredSwbps: seq<DeferredSwbp>,
    modulesByName: map<string, ModuleInfo>,
    modulesByAddress: map<u64, ModuleInfo>,
    threads: map<ThreadId, ThreadId>,
    eventCallbacks: CallbackTable,
    resolvedCallback: CallbackPair,
    /** The function-static `entryPointAddress` of HandleBreakpointEvent, zero until the first breakpoint. */
    entryPoint: u64)

  /** The object after its member initialisers and CommonInit. */
  function InitialSession(): (s: Session)
    ensures !s.firstBreakpointHit
    ensures forall i :: 0 <= i < 4 ==> s.breakpoints[i] == ZERO_DESCRIPTOR
    ensures s.hwbpState == INITIAL_STATE
    ensures s.swbps == map[] && s.threads == map[]
    ensures s.deferredHwbps == [] && s.deferredSwbps == []
    ensures s.modulesByName == map[] && s.modulesByAddress == map[]
    ensures forall id :: s.eventCallbacks[CallbackIndex(id)] == NO_CALLBACK
    ensures s.resolvedCallback == NO_CALLBACK
  {
    Session(false, [ZERO_DESCRIPTOR, ZERO_DESCRIPTOR, ZERO_DESCRIPTOR, ZERO_DESCRIPTOR], INITIAL_STATE,
            map[], [], [], map[], map[], map[], seq(CALLBACK_SLOTS, _ => NO_CALLBACK), NO_CALLBACK, 0)
  }

  /** A fresh debugger has no slot enabled and an all-zero register image. */
  lemma InitialSessionIsIdle()
    ensures EnabledCount(InitialSession().breakpoints) == 0
    ensures Encode(InitialSession().hwbpState.dr7) == 0
  {
    ZeroDr7IsZero();
  }

  /** The pair registered for an event. */
  function CallbackFor(s: Session, id: CallbackId): CallbackPair
  {
    s.eventCallbacks[CallbackIndex(id)]
  }

  /** RegisterEventCallback: install a pair for one event and return the pair it replaces. */
  function RegisterEventCallback(s: Session, id: CallbackId, p: CallbackPair): (r: (Session, CallbackPair))
    ensures r.1 == CallbackFor(s, id)
    ensures CallbackFor(r.0, id) == p
    ensures forall other :: other != id ==> CallbackFor(r.0, other) == CallbackFor(s, other)
    ensures r.0 == s.(eventCallbacks := r.0.eventCallbacks)
  {
    (s.(eventCallbacks := s.eventCallbacks[CallbackIndex(id) := p]), s.eventCallbacks[CallbackIndex(id)])
  }

  /** Registering the pair a registration returned undoes that registration. */
  lemma RegisterEventCallbackUndo(s: Session, id: CallbackId, p: CallbackPair)
    ensures RegisterEventCallback(RegisterEventCallback(s, id, p).0, id, RegisterEventCallback(s, id, p).1).0 == s
  {
    var (s1, prev) := RegisterEventCallback(s, id, p);
    var s2 := RegisterEventCallback(s1, id, prev).0;
    assert s2.eventCallbacks == s.eventCallbacks;
  }

  /** RegisterBreakpointResolvedCallback: install the resolution callback and return the previous one. */
  function RegisterResolvedCallback(s: Session, p: CallbackPair): (r: (Session, CallbackPair))
    ensures r.1 == s.resolvedCallback && r.0.resolvedCallback == p
    ensures r.0 == s.(resolvedCallback := p)
  {
    (s.(resolvedCallback := p), s.resolvedCallback)
  }

  lemma RegisterResolvedCallbackUndo(s: Session, p: CallbackPair)
    ensures RegisterResolvedCallback(RegisterResolvedCallback(s, p).0, RegisterResolvedCallback(s, p).1).0 == s
  {
  }

  /** MapDll: record a module under its name and under its base address, replacing earlier entries. */
  function MapDll(s: Session, m: ModuleInfo): (t: Session)
    ensures t.modulesByName == s.modulesByName[m.name := m]
    ensures t.modulesByAddress == s.modulesByAddress[m.base := m]
    ensures t == s.(modulesByName := t.modulesByName, modulesByAddress := t.modulesByAddress)
  {
    s.(modulesByName := s.modulesByName[m.name := m], modulesByAddress := s.modulesByAddress[m.base := m])
  }

  /**
   What MapDll means for a lookup: afterwards a name is known exactly when it
   was known before or is the module's, and it gives the module when it is the
   module's name and its old entry otherwise; the same holds for addresses. No
   other part of the debugger changes.
   */
  lemma MapDllRecords(s: Session, m: ModuleInfo, n: string, a: u64)
    ensures var t := MapDll(s, m);
      && (n in t.modulesByName <==> n in s.modulesByName || n == m.name)
      && (n in t.modulesByName ==> t.modulesByName[n] == if n == m.name then m else s.modulesByName[n])
      && (a in t.modulesByAddress <==> a in s.modulesByAddress || a == m.base)
      && (a in t.modulesByAddress ==> t.modulesByAddress[a] == if a == m.base then m else s.modulesByAddress[a])
      && t.(modulesByName := s.modulesByName, modulesByAddress := s.modulesByAddress) == s
  {
  }

  /** The number of enabled hardware slots. */
  function EnabledCount(slots: seq<Descriptor>): (n: nat)
    ensures n <= |slots|
    ensures n == |slots| <==> forall i :: 0 <= i < |slots| ==> slots[i].enabled
  {
    if slots == [] then 0
    else (if slots[0].enabled then 1 else 0) + EnabledCount(slots[1..])
  }

  /** Enabling one disabled slot raises the count by one. */
  lemma {:induction false} EnabledCountEnable(slots: seq<Descriptor>, i: nat, d: Descriptor)
    requires i < |slots| && !slots[i].enabled && d.enabled
    ensures EnabledCount(slots[i := d]) == EnabledCount(slots) + 1
  {
    if i > 0 {
      EnabledCountEnable(slots[1..], i - 1, d);
      assert slots[i := d][1..] == slots[1..][i - 1 := d];
    } else {
      assert slots[i := d][1..] == slots[1..];
    }
  }

  /** The lowest-index slot that is not enabled. */
  function FirstFree(slots: Slots): (r: Option<nat>)
    ensures r.None? <==> forall i :: 0 <= i < 4 ==> slots[i].enabled
    ensures r.Some? ==> r.value < 4 && !slots[r.value].enabled
    ensures r.Some? ==> forall i :: 0 <= i < r.value ==> slots[i].enabled
  {
    if !slots[0].enabled then Some(0)
    else if !slots[1].enabled then Some(1)
    else if !slots[2].enabled then Some(2)
    else if !slots[3].enabled then Some(3)
    else None
  }

  /**
   SetHWBP(address, condition, len): claim the lowest free slot, fill its
   descriptor, enable it and load it into the register image. With every slot in
   use it throws. No thread is touched: the image reaches threads only through
   WriteBreakpointsToThread.
   */
  function SetHwbp(s: Session, address: u64, condition: Condition, len: Length): (r: Result<(Session, nat)>)
    ensures r.Ok? <==> EnabledCount(s.breakpoints) < 4
    ensures r.Err? ==> r.error == SlotsExhausted
    ensures r.Ok? ==> r.value.1 < 4 && !s.breakpoints[r.value.1].enabled
    ensures r.Ok? ==> forall j :: 0 <= j < r.value.1 ==> s.breakpoints[j].enabled
    ensures r.Ok? ==> r.value.0.breakpoints == s.breakpoints[r.value.1 := Descriptor(address, condition, len, true)]
    ensures r.Ok? ==> r.value.0.hwbpState == WriteSlot(s.hwbpState, Descriptor(address, condition, len, true), r.value.1).value
    ensures r.Ok? ==> r.value.0 == s.(breakpoints := r.value.0.breakpoints, hwbpState := r.value.0.hwbpState)
  {
    match FirstFree(s.breakpoints)
    case None => Err(SlotsExhausted)
    case Some(i) =>
      var d := Descriptor(address, condition, len, true);
      Ok((s.(breakpoints := s.breakpoints[i := d], hwbpState := WriteSlot(s.hwbpState, d, i).value), i))
  }

  /** A breakpoint set in a slot uses up exactly that slot and reads back from the image as itself. */
  lemma SetHwbpTakesOneSlot(s: Session, address: u64, condition: Condition, len: Length)
    requires SetHwbp(s, address, condition, len).Ok?
    ensures EnabledCount(SetHwbp(s, address, condition, len).value.0.breakpoints) == EnabledCount(s.breakpoints) + 1
    ensures ReadSlot(SetHwbp(s, address, condition, len).value.0.hwbpState, SetHwbp(s, address, condition, len).value.1)
         == Some(SlotView(address as bv64, condition, len, true))
  {
    var (t, i) := SetHwbp(s, address, condition, len).value;
    EnabledCountEnable(s.breakpoints, i, Descriptor(address, condition, len, true));
    ReadAfterWriteSlot(s.hwbpState, Descriptor(address, condition, len, true), i);
  }
}

=== FILE: stepping.dfy ===
/**
 The register work of stepping over a breakpoint: moving RIP back over the
 INT3, and the trap-flag single step with the EFLAGS updates around it, as
 ResumeFromBreakpoint and the single-step handler perform them.
 */
module Stepping {
  import opened Base
  import opened Errors
  import opened Registers
  import opened TargetOs
  import opened Swbp
  import opened ThreadStates

  /** The trap flag (TF, bit 8 of EFLAGS): the thread stops after one instruction. */
  const TRAP_FLAG: bv32 := 0x100

  /** The resume flag (bit 12 of EFLAGS, as the source sets it) that lets the instruction run again. */
  const RESUME_FLAG: bv32 := 0x1000

  /** DEBUG_EVENT's code for an exception event. */
  const EXCEPTION_DEBUG_EVENT: nat := 1

  /** The exception code of a trap-flag single step. */
  const EXCEPTION_SINGLE_STEP: nat := 0x8000_0004

  /**
   What one instruction of the thread leaves: ContinueDebugEvent lets the target
   run, and WaitForDebugEvent returns the next debug event, of which the step
   reads the event code and the exception code, with the target as it then is.
   */
  datatype StepReport = StepReport(os: Os, eventCode: nat, exceptionCode: nat)

  /**
   The two asserts after WaitForDebugEvent: the event is an exception event whose
   code is EXCEPTION_SINGLE_STEP, that is, the step the trap flag asked for and not
   another thread's event or a fault of the instruction itself.
   */
  predicate IsSingleStep(rep: StepReport) {
    rep.eventCode == EXCEPTION_DEBUG_EVENT && rep.exceptionCode == EXCEPTION_SINGLE_STEP
  }

  /** The EFLAGS DWORD for the single step: the trap flag set. */
  function WithTrap(e: bv32): bv32 {
    e | TRAP_FLAG
  }

  /** The EFLAGS DWORD after the step: the trap flag cleared and the resume flag set. */
  function AfterStep(e: bv32): bv32 {
    (e & !TRAP_FLAG) | RESUME_FLAG
  }

  /** The step sets the trap flag and leaves every other bit as it was. */
  lemma WithTrapBits(e: bv32)
    ensures WithTrap(e) & TRAP_FLAG == TRAP_FLAG
    ensures WithTrap(e) & !TRAP_FLAG == e & !TRAP_FLAG
  {
  }

  /** After the step the trap flag is clear and the resume flag set. */
  lemma AfterStepFlags(e: bv32)
    ensures AfterStep(e) & TRAP_FLAG == 0
    ensures AfterStep(e) & RESUME_FLAG == RESUME_FLAG
  {
  }

  /** Apart from the two flags, the step leaves EFLAGS as it found it. */
  lemma AfterStepKeepsOtherBits(e: bv32)
    ensures AfterStep(e) & !(TRAP_FLAG | RESUME_FLAG) == e & !(TRAP_FLAG | RESUME_FLAG)
  {
  }

  /** Setting the trap flag and then clearing it is the same as only clearing it. */
  lemma AfterStepUndoesTrap(e: bv32)
    ensures AfterStep(WithTrap(e)) == AfterStep(e)
  {
  }

  /** The low DWORD of EFLAGS, as `(DWORD)GetRegisterValue(EFLAGS)` reads it. */
  function Eflags32(c: Context): bv32 {
    LowDword(Read(c, EFlags))
  }

  /** The context with its EFLAGS DWORD replaced by `f` of it, zero-extended. */
  function EflagsEdited(c: Context, f: bv32 -> bv32): Context {
    Write(c, EFlags, f(Eflags32(c)) as bv64)
  }

  /** The same replacement, as an edit of a thread's registers. */
  function EflagsEdit(f: bv32 -> bv32): Context -> Context {
    c => EflagsEdited(c, f)
  }

  /** The edited context holds `f` of the old EFLAGS DWORD, and every other register as before. */
  lemma EflagsEditReadsBack(f: bv32 -> bv32, c: Context)
    ensures Eflags32(EflagsEdit(f)(c)) == f(Eflags32(c))
    ensures forall q :: q != EFlags ==> Read(EflagsEdit(f)(c), q) == Read(c, q)
  {
    var w := f(Eflags32(c));
    ReadAfterWrite(c, EFlags, w as bv64);
    DwordSurvivesTruncation(w);
  }

  lemma DwordSurvivesTruncation(w: bv32)
    ensures LowDword(Truncate(EFlags, w as bv64)) == w
  {
    LowDwordOfDword(w);
  }

  /** The thread behind a cache is alive, and the cache's handle, if any, is one to it. */
  predicate Opened(t: ThreadState, os: Os) {
    && (t.handle == InvalidHandle || t.handle == ThreadHandle(t.threadId))
    && t.threadId in os.threads
  }

  /**
   The EFLAGS update of the single step: read EFLAGS as a DWORD, store `f` of it,
   and flush.
   */
  function UpdateEflags(t: ThreadState, os: Os, f: bv32 -> bv32): (r: Exec<(ThreadState, Os), ()>)
  {
    var got := Get(t, os, Named(EFlags));
    if got.Raised? then Raised((got.state, os), got.error)
    else
      var stored := Set(got.state, os, Named(EFlags), f(LowDword(got.value)) as bv64);
      if stored.Raised? then Raised((stored.state, os), stored.error)
      else Flush(stored.state, os)
  }

  /**
   On an invalidated cache of a live thread, the update re-reads the thread,
   publishes the edited EFLAGS to it, and leaves the cache clean and holding
   what the thread holds.
   */
  lemma UpdateEflagsEffect(t: ThreadState, os: Os, f: bv32 -> bv32)
    requires !t.contextRead && !t.dirty && Opened(t, os)
    ensures var edited := EflagsEdit(f)(os.threads[t.threadId]);
      UpdateEflags(t, os, f) == Done((t.(handle := ThreadHandle(t.threadId), ctx := edited, contextRead := true,
                                         ownThreadHandle := true),
                                      os.(threads := os.threads[t.threadId := edited])), ())
  {
    assert EflagsEdit(f)(os.threads[t.threadId]) == EflagsEdited(os.threads[t.threadId], f);
    UpdateEflagsPublishes(t, os, f);
  }

  lemma UpdateEflagsPublishes(t: ThreadState, os: Os, f: bv32 -> bv32)
    requires !t.contextRead && !t.dirty && Opened(t, os)
    ensures var edited := EflagsEdited(os.threads[t.threadId], f);
      UpdateEflags(t, os, f) == Done((t.(handle := ThreadHandle(t.threadId), ctx := edited, contextRead := true,
                                         ownThreadHandle := true),
                                      os.(threads := os.threads[t.threadId := edited])), ())
  {
    var tid := t.threadId;
    var t1 := t.(handle := ThreadHandle(tid), ctx := os.threads[tid], contextRead := true, ownThreadHandle := true);
    assert EnsureRead(t, os) == Done(t1, ());
    UpdateEflagsSamePull(t, t1, os, f);
    UpdateEflagsOnReadCache(t1, os, f);
    FlushPublishes(t1.(ctx := EflagsEdited(t1.ctx, f), dirty := true), os);
  }

  /** The update depends on the cache only through what reading EFLAGS makes of it. */
  lemma UpdateEflagsSamePull(t: ThreadState, t1: ThreadState, os: Os, f: bv32 -> bv32)
    requires EnsureRead(t, os) == EnsureRead(t1, os)
    ensures UpdateEflags(t, os, f) == UpdateEflags(t1, os, f)
  {
  }

  /** On a cache already read, the update stores the edited EFLAGS, marks the cache dirty, and flushes. */
  lemma UpdateEflagsOnReadCache(t: ThreadState, os: Os, f: bv32 -> bv32)
    requires t.contextRead
    ensures UpdateEflags(t, os, f) == Flush(t.(ctx := EflagsEdited(t.ctx, f), dirty := true), os)
  {
    var w := f(LowDword(Read(t.ctx, EFlags))) as bv64;
    GetOnReadCache(t, os, EFlags);
    SetOnReadCache(t, os, EFlags, w);
    UpdateEflagsSteps(t, os, f, Read(t.ctx, EFlags), t.(ctx := Write(t.ctx, EFlags, w), dirty := true));
    EflagsEditedStore(t, f);
  }

  lemma EflagsEditedStore(t: ThreadState, f: bv32 -> bv32)
    ensures t.(ctx := Write(t.ctx, EFlags, f(LowDword(Read(t.ctx, EFlags))) as bv64), dirty := true)
         == t.(ctx := EflagsEdited(t.ctx, f), dirty := true)
  {
  }

  /** The update is the flush of what the store leaves, once the read and the store are known. */
  lemma UpdateEflagsSteps(t: ThreadState, os: Os, f: bv32 -> bv32, v: bv64, x: ThreadState)
    requires Get(t, os, Named(EFlags)) == Done(t, v)
    requires Set(t, os, Named(EFlags), f(LowDword(v)) as bv64) == Done(x, ())
    ensures UpdateEflags(t, os, f) == Flush(x, os)
  {
  }

  /** WriteProcessMemory of one byte whose result is ignored. */
  function WriteIgnoringFailure(os: Os, a: u64, b: u8): (r: Os)
    ensures WriteByte(os, a, b).Some? ==> ReadByte(r, a) == Some(b)
    ensures WriteByte(os, a, b).None? ==> r == os
    ensures r.threads == os.threads
  {
    match WriteByte(os, a, b)
    case None => os
    case Some(os1) =>
      WriteThenRead(os, a, b, a);
      os1
  }

  /**
   Stepping over the restored instruction: set the trap flag and flush, let the
   thread run one instruction (`step`, the ContinueDebugEvent and
   WaitForDebugEvent pair), assert that the event it reports is the single step,
   clear the trap flag and set the resume flag, flush, and write 0xCC back. A
   failed assert ends the debugger with AssertionFailed.
   */
  function StepOver(t: ThreadState, os: Os, address: u64, step: Os -> StepReport): (r: Exec<(ThreadState, Os), ()>)
  {
    match UpdateEflags(t, os, WithTrap)
    case Raised(st, e) => Raised(st, e)
    case Done((t1, os1), _) =>
      var rep := step(os1);
      if !IsSingleStep(rep) then Raised((t1, rep.os), AssertionFailed)
      else
        match UpdateEflags(Invalidate(t1), rep.os, AfterStep)
        case Raised(st, e) => Raised(st, e)
        case Done((t2, os3), _) => Done((Invalidate(t2), WriteIgnoringFailure(os3, address, INT3)), ())
  }

  /** The process the step is handed: the thread's registers with the trap flag set. */
  function Trapped(os: Os, tid: ThreadId): (r: Os)
    requires tid in os.threads
    ensures r.threads == os.threads[tid := EflagsEdit(WithTrap)(os.threads[tid])]
  {
    os.(threads := os.threads[tid := EflagsEdit(WithTrap)(os.threads[tid])])
  }

  /**
   For a live thread that stays alive through the step, the step starts from the
   thread's registers with the trap flag set. When the next event is the single
   step, the thread ends with the registers the step left, the trap flag cleared
   and the resume flag set, and 0xCC written back at the address; when it is
   any other event, the assert fails and nothing more is done.
   */
  lemma StepOverEffect(t: ThreadState, os: Os, address: u64, step: Os -> StepReport)
    requires !t.contextRead && !t.dirty && Opened(t, os)
    requires t.threadId in step(Trapped(os, t.threadId)).os.threads
    ensures var tid := t.threadId;
      var rep := step(Trapped(os, tid));
      var resumed := EflagsEdit(AfterStep)(rep.os.threads[tid]);
      && (StepOver(t, os, address, step).Done? <==> IsSingleStep(rep))
      && (IsSingleStep(rep) ==>
            StepOver(t, os, address, step).state.1
              == WriteIgnoringFailure(rep.os.(threads := rep.os.threads[tid := resumed]), address, INT3))
      && (!IsSingleStep(rep) ==> StepOver(t, os, address, step).error == AssertionFailed
                                 && StepOver(t, os, address, step).state.1 == rep.os)
  {
    var tid := t.threadId;
    UpdateEflagsEffect(t, os, WithTrap);
    var trapped := EflagsEdit(WithTrap)(os.threads[tid]);
    var t1 := t.(handle := ThreadHandle(tid), ctx := trapped, contextRead := true, ownThreadHandle := true);
    var rep := step(Trapped(os, tid));
    if IsSingleStep(rep) {
      UpdateEflagsEffect(Invalidate(t1), rep.os, AfterStep);
    }
  }
}

=== FILE: sw_breakpoints.dfy ===
/**
 Installing and removing software breakpoints (SetSWBP, ClearSWBP): a 0xCC byte
 written over the instruction, with the page made writable around the write. The
 table entry is added or removed only when every OS call succeeded; a failure
 returns the failing call and leaves the table as it was, though memory changes
 made before the failure stay.
 */
module SwBreakpoints {
  import opened Base
  import opened TargetOs
  import opened Swbp
  import opened Session

  /** The OS call whose failure a status reports. */
  datatype OsCall = ReadProcessMemory | VirtualProtectEx | WriteProcessMemory

  /** The int result: ERROR_SUCCESS, the GetLastError of a failed call, or -1 for an unknown breakpoint. */
  datatype SwStatus = Success | Failed(call: OsCall) | NotFound

  /** The table after installing a breakpoint whose instruction byte was `b`. */
  function Recorded(s: Session, address: u64, b: u8, protectPage: bool, replaceInst: bool): (t: Session)
    ensures address in t.swbps && t.swbps[address] == SwbpRecord(address, b, protectPage, replaceInst)
    ensures forall a :: a != address ==> (a in t.swbps <==> a in s.swbps)
    ensures forall a :: a != address && a in s.swbps ==> t.swbps[a] == s.swbps[a]
    ensures t == s.(swbps := t.swbps)
  {
    s.(swbps := s.swbps[address := SwbpRecord(address, b, protectPage, replaceInst)])
  }

  /**
   SetSWBP(address, replacePageProtection, replaceInstOnBPHit): read the original
   byte, make the page read-write, write 0xCC, optionally put the old protection
   back, then record the breakpoint (overwriting any entry at that address).
   */
  function SetSwbp(s: Session, os: Os, address: u64, replacePageProtection: bool, replaceInst: bool)
    : (r: (Session, Os, SwStatus))
    ensures r.2 == Success <==>
      && ReadByte(os, address).Some?
      && ProtectPage(os, PageOf(address), Plain(ReadWrite)).Some?
      && (replacePageProtection ==> os.pages[PageOf(address)].prot.base != NoBase)
    ensures r.2 == Success ==> r.0 == Recorded(s, address, ReadByte(os, address).value, replacePageProtection, replaceInst)
    ensures r.2 != Success ==> r.0 == s && r.2.Failed?
    ensures ReadByte(os, address).None? ==> r == (s, os, Failed(ReadProcessMemory))
  {
    var pg := PageOf(address);
    match ReadByte(os, address)
    case None => (s, os, Failed(ReadProcessMemory))
    case Some(orig) =>
      match ProtectPage(os, pg, Plain(ReadWrite))
      case None => (s, os, Failed(VirtualProtectEx))
      case Some((os1, prev)) =>
        match WriteByte(os1, address, INT3)
        case None => (s, os1, Failed(WriteProcessMemory))
        case Some(os2) =>
          if replacePageProtection then
            match ProtectPage(os2, pg, prev)
            case None => (s, os2, Failed(VirtualProtectEx))
            case Some((os3, _)) => (Recorded(s, address, orig, replacePageProtection, replaceInst), os3, Success)
          else (Recorded(s, address, orig, replacePageProtection, replaceInst), os2, Success)
  }

  /** The process after a successful SetSWBP: 0xCC at the address, the page's protection as chosen. */
  lemma SetSwbpWritesInt3(s: Session, os: Os, address: u64, replacePageProtection: bool, replaceInst: bool)
    requires SetSwbp(s, os, address, replacePageProtection, replaceInst).2 == Success
    ensures ReadByte(SetSwbp(s, os, address, replacePageProtection, replaceInst).1, address) == Some(INT3)
    ensures replacePageProtection ==>
      SetSwbp(s, os, address, replacePageProtection, replaceInst).1.pages[PageOf(address)].prot == os.pages[PageOf(address)].prot
    ensures !replacePageProtection ==>
      SetSwbp(s, os, address, replacePageProtection, replaceInst).1.pages[PageOf(address)].prot == Plain(ReadWrite)
  {
    var pg := PageOf(address);
    var (os1, prev) := ProtectPage(os, pg, Plain(ReadWrite)).value;
    var os2 := WriteByte(os1, address, INT3).value;
    WriteThenRead(os1, address, INT3, address);
  }

  /**
   Setting a breakpoint where one is installed records the 0xCC it finds there as
   the original byte.
   */
  lemma SetSwbpTwiceRecordsInt3(s: Session, os: Os, address: u64, replaceInst: bool)
    requires SetSwbp(s, os, address, true, replaceInst).2 == Success
    ensures var (s1, os1, _) := SetSwbp(s, os, address, true, replaceInst);
      SetSwbp(s1, os1, address, true, replaceInst).2 == Success &&
      SetSwbp(s1, os1, address, true, replaceInst).0.swbps[address].overwrittenByte == INT3
  {
    SetSwbpWritesInt3(s, os, address, true, replaceInst);
  }

  /**
   ClearSWBP(address): -1 when no breakpoint is recorded there; otherwise make the
   page read-write, write the recorded byte back, restore the protection, and only
   then forget the breakpoint.
   */
  function ClearSwbp(s: Session, os: Os, address: u64): (r: (Session, Os, SwStatus))
    ensures address !in s.swbps <==> r.2 == NotFound
    ensures r.2 == NotFound ==> r.0 == s && r.1 == os
    ensures r.2 == Success ==> r.0 == s.(swbps := s.swbps - {address})
    ensures r.2 != Success ==> r.0 == s
    ensures r.2 == Success <==>
      && address in s.swbps
      && ProtectPage(os, PageOf(address), Plain(ReadWrite)).Some?
      && WriteByte(ProtectPage(os, PageOf(address), Plain(ReadWrite)).value.0, address, s.swbps[address].overwrittenByte).Some?
      && os.pages[PageOf(address)].prot.base != NoBase
  {
    if address !in s.swbps then (s, os, NotFound)
    else
      var pg := PageOf(address);
      var orig := s.swbps[address].overwrittenByte;
      match ProtectPage(os, pg, Plain(ReadWrite))
      case None => (s, os, Failed(VirtualProtectEx))
      case Some((os1, prev)) =>
        match WriteByte(os1, address, orig)
        case None => (s, os1, Failed(WriteProcessMemory))
        case Some(os2) =>
          match ProtectPage(os2, pg, prev)
          case None => (s, os2, Failed(VirtualProtectEx))
          case Some((os3, _)) => (s.(swbps := s.swbps - {address}), os3, Success)
  }

  /** A successful clear puts the recorded byte back under the page's previous protection. */
  lemma ClearSwbpRestoresByte(s: Session, os: Os, address: u64)
    requires ClearSwbp(s, os, address).2 == Success
    requires Readable(os.pages[PageOf(address)].prot)
    ensures ReadByte(ClearSwbp(s, os, address).1, address) == Some(s.swbps[address].overwrittenByte)
    ensures ClearSwbp(s, os, address).1.pages[PageOf(address)].prot == os.pages[PageOf(address)].prot
  {
    var pg := PageOf(address);
    var (os1, prev) := ProtectPage(os, pg, Plain(ReadWrite)).value;
    WriteThenRead(os1, address, s.swbps[address].overwrittenByte, address);
  }

  /**
   Installing a breakpoint at a fresh address with the page protection put back, and
   then clearing it, gives back the debugger and the process exactly as they were.
   */
  lemma SetThenClearRestores(s: Session, os: Os, address: u64, replaceInst: bool)
    requires address !in s.swbps
    requires SetSwbp(s, os, address, true, replaceInst).2 == Success
    ensures var (s1, os1, _) := SetSwbp(s, os, address, true, replaceInst);
      ClearSwbp(s1, os1, address) == (s, os, Success)
  {
    var pg := PageOf(address);
    var off := OffsetOf(address);
    var orig := ReadByte(os, address).value;
    var (os1, prev) := ProtectPage(os, pg, Plain(ReadWrite)).value;
    var os2 := WriteByte(os1, address, INT3).value;
    var os3 := ProtectPage(os2, pg, prev).value.0;
    var (s1, osA, _) := SetSwbp(s, os, address, true, replaceInst);
    assert osA == os3;
    var (os4, prev4) := ProtectPage(os3, pg, Plain(ReadWrite)).value;
    assert prev4 == os.pages[pg].prot;
    var os5 := WriteByte(os4, address, orig).value;
    var os6 := ProtectPage(os5, pg, prev4).value.0;
    var data: seq<u8> := os.pages[pg].data;
    var patched: seq<u8> := data[off := INT3];
    assert os6.pages[pg].data == patched[off := orig];
    assert patched[off := orig] == data;
    assert os6.pages[pg] == os.pages[pg];
    assert os6.pages == os.pages;
    assert s1.swbps - {address} == s.swbps;
  }
}

=== FILE: swbp.dfy ===
/**
 The SWBP record: one installed software breakpoint, the byte its 0xCC replaced
 and the two options it was set with. The record has accessors and no mutator,
 so it is a value and its copy constructor is plain assignment.
 */
module Swbp {
  import opened Base

  /** The INT3 opcode a software breakpoint writes over the instruction. */
  const INT3: u8 := 0xCC

  datatype SwbpRecord = SwbpRecord(address: u64, overwrittenByte: u8, protectPage: bool, replaceInst: bool)

  /** SWBP(): every field zero. */
  function DefaultSwbp(): (s: SwbpRecord)
    ensures s.address == 0 && s.overwrittenByte == 0 && !s.protectPage && !s.replaceInst
  {
    SwbpRecord(0, 0, false, false)
  }
}

=== FILE: target_os.dfy ===
/**
 The debugged process as the Win32 calls the core makes observe it. This is an
 abstract oracle, not a model of Windows: memory is a map from page index to the
 page's bytes and protection, threads are a map from id to saved register file,
 and the calls succeed or fail by fixed rules stated on each function below.

 - `locked` lists the pages whose protection VirtualProtectEx cannot change (the
   code meets one such region in practice and handles the failure).
 - `allocationBase` gives, for a page, the first page of the VirtualAllocEx
   allocation it belongs to.
 - `spawnIds` lists the ids CreateRemoteThreadEx hands out, in order; when it is
   empty thread creation fails.
 */
module TargetOs {
  import opened Base
  import opened Registers

  const PAGE_SIZE: nat := 4096

  /** The first page index above the x64 user address space (0x7FFF_FFFF_FFFF). */
  const USER_PAGE_LIMIT: nat := 0x8_0000_0000

  /** The PAGE_* base constants; `NoBase` is a protection word with no base constant. */
  datatype BaseProtection =
    | NoBase
    | NoAccess
    | ReadOnly
    | ReadWrite
    | WriteCopy
    | Execute
    | ExecuteRead
    | ExecuteReadWrite
    | ExecuteWriteCopy

  /** A protection word: a base constant plus the PAGE_GUARD and PAGE_NOCACHE modifier bits. */
  datatype Protection = Protection(base: BaseProtection, guard: bool, nocache: bool)

  /** A protection word with neither modifier set. */
  function Plain(b: BaseProtection): (p: Protection)
    ensures p.base == b && !p.guard && !p.nocache
  {
    Protection(b, false, false)
  }

  /** ReadProcessMemory can read the page. */
  predicate Readable(p: Protection) {
    p.base !in {NoBase, NoAccess} && !p.guard
  }

  /** The target's own stores to the page go through without an access violation. */
  predicate StoresAllowed(p: Protection) {
    p.base in {ReadWrite, WriteCopy, ExecuteReadWrite, ExecuteWriteCopy} && !p.guard
  }

  /**
   WriteProcessMemory can write the page: directly when the target could store
   to it, and through a temporary change of protection, undone afterwards, when
   it is execute-only or execute-read. Read-only, no-access and guard pages
   refuse the write.
   */
  predicate Writable(p: Protection) {
    (p.base in {ReadWrite, WriteCopy, ExecuteReadWrite, ExecuteWriteCopy, Execute, ExecuteRead}) && !p.guard
  }

  datatype Page = Page(data: seq<u8>, prot: Protection)

  /** A thread HANDLE: INVALID_HANDLE_VALUE, NULL, or a handle to a thread id. */
  datatype Handle = InvalidHandle | NullHandle | ThreadHandle(tid: ThreadId)

  datatype Os = Os(
    pages: map<nat, Page>,
    allocationBase: map<nat, nat>,
    locked: set<nat>,
    threads: map<ThreadId, Context>,
    spawnIds: seq<ThreadId>)

  function PageOf(a: u64): (pg: nat)
    ensures pg * PAGE_SIZE <= a < (pg + 1) * PAGE_SIZE
  {
    a / PAGE_SIZE
  }

  function OffsetOf(a: u64): (off: nat)
    ensures off < PAGE_SIZE
    ensures PageOf(a) * PAGE_SIZE + off == a
  {
    a % PAGE_SIZE
  }

  /** The address of the first byte of page `pg`. */
  function PageBase(pg: nat): (a: nat)
    ensures a % PAGE_SIZE == 0
    ensures a / PAGE_SIZE == pg
  {
    pg * PAGE_SIZE
  }

  predicate Mapped(os: Os, a: u64) {
    PageOf(a) in os.pages && OffsetOf(a) < |os.pages[PageOf(a)].data|
  }

  /** ReadProcessMemory of one byte: fails on unmapped memory and on unreadable pages. */
  function ReadByte(os: Os, a: u64): (r: Option<u8>)
    ensures r.Some? <==> Mapped(os, a) && Readable(os.pages[PageOf(a)].prot)
    ensures r.Some? ==> r.value == os.pages[PageOf(a)].data[OffsetOf(a)]
  {
    if Mapped(os, a) && Readable(os.pages[PageOf(a)].prot) then
      Some(os.pages[PageOf(a)].data[OffsetOf(a)])
    else None
  }

  /** WriteProcessMemory of one byte: fails on unmapped memory and on pages that are not writable. */
  function WriteByte(os: Os, a: u64, b: u8): (r: Option<Os>)
    ensures r.Some? <==> Mapped(os, a) && Writable(os.pages[PageOf(a)].prot)
    ensures r.Some? ==> r.value.threads == os.threads && r.value.locked == os.locked
    ensures r.Some? ==> r.value.pages.Keys == os.pages.Keys
    ensures r.Some? ==> r.value.pages[PageOf(a)].prot == os.pages[PageOf(a)].prot
  {
    if Mapped(os, a) && Writable(os.pages[PageOf(a)].prot) then
      var pg := PageOf(a);
      var p := os.pages[pg];
      Some(os.(pages := os.pages[pg := p.(data := p.data[OffsetOf(a) := b])]))
    else None
  }

  /** The byte at `a` after a successful write is the byte written; every other byte is unchanged. */
  lemma WriteThenRead(os: Os, a: u64, b: u8, x: u64)
    requires WriteByte(os, a, b).Some?
    ensures Mapped(WriteByte(os, a, b).value, x) == Mapped(os, x)
    ensures x == a ==> ReadByte(WriteByte(os, a, b).value, x) == Some(b)
    ensures x != a ==> ReadByte(WriteByte(os, a, b).value, x) == ReadByte(os, x)
  {
    var os' := WriteByte(os, a, b).value;
    if x != a && PageOf(x) == PageOf(a) {
      assert OffsetOf(x) != OffsetOf(a);
    }
  }

  /** VirtualQueryEx: the protection of a page, none for free memory, failure above user space. */
  function Query(os: Os, pg: nat): (r: Option<Protection>)
    ensures r.Some? <==> pg < USER_PAGE_LIMIT
    ensures r.Some? && pg in os.pages ==> r.value == os.pages[pg].prot
    ensures r.Some? && pg !in os.pages ==> r.value.base == NoBase
  {
    if pg >= USER_PAGE_LIMIT then None
    else if pg in os.pages then Some(os.pages[pg].prot)
    else Some(Plain(NoBase))
  }

  /**
   VirtualProtectEx over one page. It fails on an unmapped page, on a locked page
   and for a protection word with no base constant; on success it returns the
   previous protection and changes nothing else.
   */
  function ProtectPage(os: Os, pg: nat, p: Protection): (r: Option<(Os, Protection)>)
    ensures r.Some? <==> pg in os.pages && pg !in os.locked && p.base != NoBase
    ensures r.Some? ==> r.value.1 == os.pages[pg].prot
    ensures r.Some? ==> r.value.0 == os.(pages := os.pages[pg := os.pages[pg].(prot := p)])
  {
    if pg in os.pages && pg !in os.locked && p.base != NoBase then
      Some((os.(pages := os.pages[pg := os.pages[pg].(prot := p)]), os.pages[pg].prot))
    else None
  }

  /** Putting back the protection a successful VirtualProtectEx returned restores the process exactly. */
  lemma ProtectRoundTrip(os: Os, pg: nat, p: Protection)
    requires ProtectPage(os, pg, p).Some?
    requires os.pages[pg].prot.base != NoBase
    ensures ProtectPage(ProtectPage(os, pg, p).value.0, pg, ProtectPage(os, pg, p).value.1).Some?
    ensures ProtectPage(ProtectPage(os, pg, p).value.0, pg, ProtectPage(os, pg, p).value.1).value.0 == os
  {
    var (os1, prev) := ProtectPage(os, pg, p).value;
    var os2 := ProtectPage(os1, pg, prev).value.0;
    assert os2.pages == os.pages;
  }

  /** ReadProcessMemory of a whole page. */
  function ReadPage(os: Os, pg: nat): (r: Option<seq<u8>>)
    ensures r.Some? <==> pg in os.pages && Readable(os.pages[pg].prot)
    ensures r.Some? ==> r.value == os.pages[pg].data
  {
    if pg in os.pages && Readable(os.pages[pg].prot) then Some(os.pages[pg].data) else None
  }

  /**
   WriteProcessMemory of a whole page. It fails, writing nothing, on an unmapped or
   unwritable page and when the buffer is not the page's size.
   */
  function WritePage(os: Os, pg: nat, data: seq<u8>): (r: Option<Os>)
    ensures r.Some? <==> pg in os.pages && Writable(os.pages[pg].prot) && |data| == |os.pages[pg].data|
    ensures r.Some? ==> r.value == os.(pages := os.pages[pg := os.pages[pg].(data := data)])
  {
    if pg in os.pages && Writable(os.pages[pg].prot) && |data| == |os.pages[pg].data| then
      Some(os.(pages := os.pages[pg := os.pages[pg].(data := data)]))
    else None
  }

  /** Page `pg` is mapped and starts its allocation: the one address VirtualFreeEx(MEM_RELEASE) accepts. */
  predicate IsAllocationBase(os: Os, pg: nat) {
    pg in os.pages && pg in os.allocationBase && os.allocationBase[pg] == pg
  }

  /** Releasing page `pg` releases page `q`: `pg` starts an allocation and `q` belongs to it. */
  predicate FreedBy(os: Os, pg: nat, q: nat) {
    IsAllocationBase(os, pg) && q in os.allocationBase && os.allocationBase[q] == pg
  }

  /**
   VirtualFreeEx(page, 0, MEM_RELEASE): at the start of an allocation every page
   of that allocation is released; at any other page the call fails and nothing
   changes.
   */
  function Free(os: Os, pg: nat): (r: Os)
    ensures forall q :: q in r.pages <==> q in os.pages && !FreedBy(os, pg, q)
    ensures forall q :: q in r.pages ==> r.pages[q] == os.pages[q]
    ensures !IsAllocationBase(os, pg) ==> r == os
    ensures IsAllocationBase(os, pg) ==> pg !in r.pages
    ensures r.allocationBase == os.allocationBase
    ensures r.threads == os.threads && r.locked == os.locked && r.spawnIds == os.spawnIds
  {
    if IsAllocationBase(os, pg) then
      os.(pages := map q | q in os.pages && !FreedBy(os, pg, q) :: os.pages[q])
    else os
  }

  /** OpenThread: a handle to a live thread, NULL otherwise. */
  function OpenThread(os: Os, tid: ThreadId): (h: Handle)
    ensures tid in os.threads <==> h == ThreadHandle(tid)
    ensures tid !in os.threads <==> h == NullHandle
  {
    if tid in os.threads then ThreadHandle(tid) else NullHandle
  }

  /** GetThreadContext: succeeds exactly for a handle to a live thread. */
  function GetContext(os: Os, h: Handle): (r: Option<Context>)
    ensures r.Some? <==> h.ThreadHandle? && h.tid in os.threads
    ensures r.Some? ==> r.value == os.threads[h.tid]
  {
    if h.ThreadHandle? && h.tid in os.threads then Some(os.threads[h.tid]) else None
  }

  /** SetThreadContext: succeeds exactly for a handle to a live thread and replaces its registers. */
  function SetContext(os: Os, h: Handle, c: Context): (r: Option<Os>)
    ensures r.Some? <==> h.ThreadHandle? && h.tid in os.threads
    ensures r.Some? ==> r.value == os.(threads := os.threads[h.tid := c])
  {
    if h.ThreadHandle? && h.tid in os.threads then Some(os.(threads := os.threads[h.tid := c])) else None
  }

  /** A context written by SetThreadContext is what GetThreadContext returns next. */
  lemma SetThenGetContext(os: Os, h: Handle, c: Context)
    requires SetContext(os, h, c).Some?
    ensures GetContext(SetContext(os, h, c).value, h) == Some(c)
  {
  }

  /** TerminateThread: ends a live thread; fails without effect on any other handle. */
  function Terminate(os: Os, h: Handle): (r: Os)
    ensures h.ThreadHandle? ==> r.threads == os.threads - {h.tid}
    ensures !h.ThreadHandle? ==> r.threads == os.threads
    ensures r.pages == os.pages && r.locked == os.locked && r.spawnIds == os.spawnIds
  {
    if h.ThreadHandle? then os.(threads := os.threads - {h.tid}) else os
  }

  /**
   CreateRemoteThreadEx starting at `start`: the next id from `spawnIds` becomes a live
   thread whose registers are zero except RIP. With no id left it fails.
   */
  function Spawn(os: Os, start: u64): (r: Option<(Os, ThreadId)>)
    ensures r.Some? <==> |os.spawnIds| > 0
    ensures r.Some? ==> r.value.1 == os.spawnIds[0]
    ensures r.Some? ==> r.value.0.spawnIds == os.spawnIds[1..]
    ensures r.Some? ==> r.value.1 in r.value.0.threads
    ensures r.Some? ==> Read(r.value.0.threads[r.value.1], Rip) == start as bv64
    ensures r.Some? ==> r.value.0.pages == os.pages
  {
    if |os.spawnIds| == 0 then None
    else
      var t := os.spawnIds[0];
      var c := Write(ZeroContext(), Rip, start as bv64);
      ReadAfterWrite(ZeroContext(), Rip, start as bv64);
      Some((os.(threads := os.threads[t := c], spawnIds := os.spawnIds[1..]), t))
  }
}

=== FILE: text.dfy ===
/**
 C strings as the breakpoint and fuzzer code treats them: bounded by MAX_PATH and
 compared with `_stricmp`/`_strcmpi`, which fold ASCII upper case to lower case
 in the "C" locale.
 */
module Text {

  /** Windows MAX_PATH: the size of the fixed `char` buffers, NUL included. */
  const MAX_PATH: nat := 260

  /** A string that can be passed as a `const char*`: no embedded NUL. */
  predicate IsCString(s: string) {
    forall i :: 0 <= i < |s| ==> s[i] != '\0'
  }

  /** A C string that `strncpy_s` copies into a MAX_PATH buffer without truncation. */
  predicate FitsMaxPath(s: string) {
    IsCString(s) && |s| < MAX_PATH
  }

  function LowerChar(c: char): (d: char)
    ensures 'A' <= c <= 'Z' ==> d as int == c as int + 32
    ensures !('A' <= c <= 'Z') ==> d == c
  {
    if 'A' <= c <= 'Z' then (c as int + 32) as char else c
  }

  function Lower(s: string): (r: string)
    ensures |r| == |s|
    ensures forall i :: 0 <= i < |s| ==> r[i] == LowerChar(s[i])
  {
    if s == [] then [] else [LowerChar(s[0])] + Lower(s[1..])
  }

  /** `_stricmp(a, b) == 0`. */
  predicate EqualsIgnoringCase(a: string, b: string) {
    Lower(a) == Lower(b)
  }

  /** Case-insensitive equality, character by character. */
  lemma EqualsIgnoringCaseCharwise(a: string, b: string)
    ensures EqualsIgnoringCase(a, b) <==>
      |a| == |b| && forall i :: 0 <= i < |a| ==> LowerChar(a[i]) == LowerChar(b[i])
  {
    if |a| == |b| && forall i :: 0 <= i < |a| ==> LowerChar(a[i]) == LowerChar(b[i]) {
      assert forall i :: 0 <= i < |a| ==> Lower(a)[i] == Lower(b)[i];
    }
  }

  /** `_stricmp` equality is an equivalence relation. */
  lemma EqualsIgnoringCaseIsEquivalence(a: string, b: string, c: string)
    ensures EqualsIgnoringCase(a, a)
    ensures EqualsIgnoringCase(a, b) ==> EqualsIgnoringCase(b, a)
    ensures EqualsIgnoringCase(a, b) && EqualsIgnoringCase(b, c) ==> EqualsIgnoringCase(a, c)
  {
  }

  /**
   Exact equality implies case-insensitive equality, and on strings with no
   upper-case letter the two coincide.
   */
  lemma EqualsIgnoringCaseIsCoarser(a: string, b: string)
    ensures a == b ==> EqualsIgnoringCase(a, b)
    ensures Lower(a) == a && Lower(b) == b ==> (EqualsIgnoringCase(a, b) <==> a == b)
  {
  }

  /** The converse fails: two strings differing only in case compare equal. */
  lemma CaseOnlyDifference()
    ensures EqualsIgnoringCase("NTDLL.DLL", "ntdll.dll")
    ensures "NTDLL.DLL" != "ntdll.dll"
  {
    assert Lower("NTDLL.DLL")[0] == 'n';
    EqualsIgnoringCaseCharwise("NTDLL.DLL", "ntdll.dll");
  }
}

=== FILE: thread_backup.dfy ===
/**
 ThreadBackupEx: the saved register file of one thread of the target, with the
 handle it was read through. A thread that is gone by the time of the restore
 is created again at the saved RIP and given the saved registers.
 */
module ThreadBackups {
  import opened Base
  import opened Errors
  import opened Registers
  import opened TargetOs

  /** One thread record: the id and handle it restores through, and the saved CONTEXT. */
  datatype ThreadBackup = ThreadBackup(threadId: ThreadId, handle: Handle, context: Context)

  /**
   ThreadBackupEx(remote_thread_id): open the thread; a failure to open it is
   only reported, leaving a NULL handle. `blank` is what the record's CONTEXT
   holds before the first backup, which the constructor does not initialise.
   */
  function NewThreadBackup(os: Os, tid: ThreadId, blank: Context): (b: ThreadBackup)
    ensures b.threadId == tid && b.context == blank
    ensures tid in os.threads ==> b.handle == ThreadHandle(tid)
    ensures tid !in os.threads ==> b.handle == NullHandle
  {
    ThreadBackup(tid, OpenThread(os, tid), blank)
  }

  /**
   backup(): GetThreadContext through the record's handle. It never throws: the
   result says whether the registers were read, and a failed read leaves the
   record as it was.
   */
  function BackupThread(b: ThreadBackup, os: Os): (r: (ThreadBackup, bool))
    ensures r.1 <==> b.handle.ThreadHandle? && b.handle.tid in os.threads
    ensures r.1 ==> r.0 == b.(context := os.threads[b.handle.tid])
    ensures !r.1 ==> r.0 == b
  {
    match GetContext(os, b.handle)
    case Some(c) => (b.(context := c), true)
    case None => (b, false)
  }

  /** The address CreateRemoteThreadEx starts a re-created thread at: the saved RIP. */
  function SavedRip(b: ThreadBackup): u64 {
    Read(b.context, Rip) as int
  }

  /**
   restore(processHandle): SetThreadContext through the record's handle. When
   that fails, a thread is created at the saved RIP, its id and handle replace
   the record's, and the registers are set on it; failing again throws.
   */
  function RestoreThread(b: ThreadBackup, os: Os): (r: Exec<(ThreadBackup, Os), int>)
    ensures r.state.0.context == b.context
    ensures r.Done? ==> r.value == 1
    ensures r.state.1.pages == os.pages
    ensures SetContext(os, b.handle, b.context).Some? ==> r == Done((b, SetContext(os, b.handle, b.context).value), 1)
    ensures SetContext(os, b.handle, b.context).None? && |os.spawnIds| > 0 ==>
              r.Done? && r.state.0 == b.(threadId := os.spawnIds[0], handle := ThreadHandle(os.spawnIds[0]))
    ensures SetContext(os, b.handle, b.context).None? && |os.spawnIds| == 0 ==>
              r == Raised((b.(handle := NullHandle), os), SetThreadContextFailed)
  {
    match SetContext(os, b.handle, b.context)
    case Some(os1) => Done((b, os1), 1)
    case None =>
      match Spawn(os, SavedRip(b))
      case None => Raised((b.(handle := NullHandle), os), SetThreadContextFailed)
      case Some((os1, tid)) =>
        var b1 := b.(threadId := tid, handle := ThreadHandle(tid));
        match SetContext(os1, b1.handle, b.context)
        case Some(os2) => Done((b1, os2), 1)
        case None => Raised((b1, os1), SetThreadContextFailed)
  }

  /**
   A completed restore leaves the saved registers live on the thread the record
   now names, by the original handle or by the re-created thread's.
   */
  lemma RestoreThreadReapplies(b: ThreadBackup, os: Os)
    requires RestoreThread(b, os).Done?
    ensures GetContext(RestoreThread(b, os).state.1, RestoreThread(b, os).state.0.handle) == Some(b.context)
    ensures RestoreThread(b, os).state.0.handle == b.handle || RestoreThread(b, os).state.0.handle == ThreadHandle(RestoreThread(b, os).state.0.threadId)
  {
    match SetContext(os, b.handle, b.context)
    case Some(os1) => SetThenGetContext(os, b.handle, b.context);
    case None =>
      var (os1, tid) := Spawn(os, SavedRip(b)).value;
      SetThenGetContext(os1, ThreadHandle(tid), b.context);
  }

  /**
   The thread round trip: registers read by a backup are the ones a later
   completed restore puts back, whatever the thread did in between.
   */
  lemma BackupThenRestore(b: ThreadBackup, os: Os, later: Os)
    requires BackupThread(b, os).1
    requires RestoreThread(BackupThread(b, os).0, later).Done?
    ensures var r := RestoreThread(BackupThread(b, os).0, later);
      GetContext(r.state.1, r.state.0.handle) == Some(os.threads[b.handle.tid])
  {
    RestoreThreadReapplies(BackupThread(b, os).0, later);
  }
}

=== FILE: thread_restorer.dfy ===
/**
 ThreadRestorerEx: one ThreadBackupEx per thread id of the snapshot, and the
 handles of the threads created since, to be terminated before the restore.
 */
module ThreadRestorers {
  import opened Base
  import opened Errors
  import opened Registers
  import opened TargetOs
  import opened Ordered
  import opened ThreadBackups

  /** The tracked backups and the kill set, both `std::map`s keyed by thread id. */
  datatype ThreadRestorer = ThreadRestorer(threads: map<ThreadId, ThreadBackup>, toKill: map<ThreadId, Handle>)

  /** ThreadRestorerEx(process_id): nothing tracked, nothing to kill. */
  function NewThreadRestorer(): (r: ThreadRestorer)
    ensures r.threads == map[] && r.toKill == map[]
  {
    ThreadRestorer(map[], map[])
  }

  /** add_thread_to_kill(threadId, threadHandle): insert or overwrite the handle of the id. */
  function AddThreadToKill(r: ThreadRestorer, id: ThreadId, h: Handle): (r': ThreadRestorer)
    ensures r'.threads == r.threads
    ensures r'.toKill.Keys == r.toKill.Keys + {id} && r'.toKill[id] == h
    ensures forall k :: k in r.toKill && k != id ==> r'.toKill[k] == r.toKill[k]
  {
    r.(toKill := r.toKill[id := h])
  }

  /** remove_thread_from_kill(threadId): erase that key only; an absent key changes nothing. */
  function RemoveThreadFromKill(r: ThreadRestorer, id: ThreadId): (r': ThreadRestorer)
    ensures r'.threads == r.threads
    ensures r'.toKill.Keys == r.toKill.Keys - {id}
    ensures forall k :: k in r'.toKill ==> r'.toKill[k] == r.toKill[k]
    ensures id !in r.toKill ==> r' == r
  {
    r.(toKill := r.toKill - {id})
  }

  /** Removing an id undoes adding it: the kill set is as if the id had been removed from the start. */
  lemma AddThenRemove(r: ThreadRestorer, id: ThreadId, h: Handle)
    ensures RemoveThreadFromKill(AddThreadToKill(r, id, h), id) == RemoveThreadFromKill(r, id)
    ensures id !in r.toKill ==> RemoveThreadFromKill(AddThreadToKill(r, id, h), id) == r
  {
    assert (r.toKill[id := h] - {id}).Keys == (r.toKill - {id}).Keys;
  }

  /** The handle GetThreadContext goes through when the id is saved: the record's, or a newly opened one. */
  function HandleFor(r: ThreadRestorer, os: Os, tid: ThreadId): (h: Handle)
    ensures tid in r.threads ==> h == r.threads[tid].handle
    ensures tid !in r.threads ==> h == OpenThread(os, tid)
  {
    if tid in r.threads then r.threads[tid].handle else OpenThread(os, tid)
  }

  /** Whether saving the id reads its registers. */
  predicate CanBackUp(r: ThreadRestorer, os: Os, tid: ThreadId) {
    HandleFor(r, os, tid).ThreadHandle? && HandleFor(r, os, tid).tid in os.threads
  }

  /**
   save_thread(thread_id): back up the id's record, created on first sight
   with `blank` as its uninitialised CONTEXT; 1 when the registers were read.
   */
  function SaveThread(r: ThreadRestorer, os: Os, tid: ThreadId, blank: Context): (res: (ThreadRestorer, int))
    ensures res.0.toKill == r.toKill
    ensures res.0.threads.Keys == r.threads.Keys + {tid}
    ensures forall k :: k in r.threads && k != tid ==> res.0.threads[k] == r.threads[k]
    ensures res.0.threads[tid].handle == HandleFor(r, os, tid) && res.0.threads[tid].threadId == (if tid in r.threads then r.threads[tid].threadId else tid)
    ensures res.1 == (if CanBackUp(r, os, tid) then 1 else 0)
    ensures CanBackUp(r, os, tid) ==> res.0.threads[tid].context == os.threads[HandleFor(r, os, tid).tid]
  {
    var b := if tid in r.threads then r.threads[tid] else NewThreadBackup(os, tid, blank);
    var (b1, ok) := BackupThread(b, os);
    (r.(threads := r.threads[tid := b1]), if ok then 1 else 0)
  }

  /** The positions of `ids` whose save reads the registers. */
  function SavedPositions(r: ThreadRestorer, os: Os, ids: seq<ThreadId>): set<int> {
    set i | 0 <= i < |ids| && CanBackUp(r, os, ids[i])
  }

  /**
   save_state over the target's threads in Toolhelp snapshot order: each id is
   saved in turn and the count is the number of saves that read the registers.
   The target is only read.
   */
  function SaveState(r: ThreadRestorer, os: Os, ids: seq<ThreadId>, blank: Context): (res: (ThreadRestorer, int))
    ensures res.0.toKill == r.toKill
    ensures forall t :: t in res.0.threads <==> t in r.threads || t in ids
    decreases |ids|
  {
    if ids == [] then (r, 0)
    else
      var init := ids[..|ids| - 1];
      var (r1, count) := SaveState(r, os, init, blank);
      var (r2, saved) := SaveThread(r1, os, ids[|ids| - 1], blank);
      assert forall k :: k in ids <==> k in init || k == ids[|ids| - 1] by {
        assert ids == init + [ids[|ids| - 1]];
      }
      (r2, count + saved)
  }

  /**
   save_state keeps the handle each id is read through, so whether an id can be
   backed up does not depend on the ids saved before it; an unlisted record is untouched.
   */
  lemma {:induction false} SaveStateRecord(r: ThreadRestorer, os: Os, ids: seq<ThreadId>, blank: Context, t: ThreadId)
    ensures HandleFor(SaveState(r, os, ids, blank).0, os, t) == HandleFor(r, os, t)
    ensures t in r.threads && t !in ids ==> SaveState(r, os, ids, blank).0.threads[t] == r.threads[t]
    decreases |ids|
  {
    if ids != [] {
      var init := ids[..|ids| - 1];
      SaveStateRecord(r, os, init, blank, t);
      assert t !in ids ==> t !in init by {
        assert ids == init + [ids[|ids| - 1]];
      }
    }
  }

  /** The count of save_state is the number of listed threads whose registers could be read. */
  lemma {:induction false} SaveStateCount(r: ThreadRestorer, os: Os, ids: seq<ThreadId>, blank: Context)
    ensures SaveState(r, os, ids, blank).1 == |SavedPositions(r, os, ids)|
    ensures SaveState(r, os, ids, blank).1 <= |ids|
    decreases |ids|
  {
    if ids == [] {
      assert SavedPositions(r, os, ids) == {};
    } else {
      var n := |ids| - 1;
      var init := ids[..n];
      SaveStateCount(r, os, init, blank);
      SaveStateRecord(r, os, init, blank, ids[n]);
      SavedPositionsSnoc(r, os, ids);
      assert SavedPositions(r, os, ids) <= Below(|ids|);
      SubsetSize(SavedPositions(r, os, ids), Below(|ids|));
    }
  }

  lemma SavedPositionsSnoc(r: ThreadRestorer, os: Os, ids: seq<ThreadId>)
    requires ids != []
    ensures var n := |ids| - 1;
      SavedPositions(r, os, ids) == SavedPositions(r, os, ids[..n]) + (if CanBackUp(r, os, ids[n]) then {n} else {})
    ensures |ids| - 1 !in SavedPositions(r, os, ids[..|ids| - 1])
  {
    var n := |ids| - 1;
    assert forall i :: 0 <= i < n ==> ids[..n][i] == ids[i];
  }

  lemma SubsetSize<T>(a: set<T>, b: set<T>)
    requires a <= b
    ensures |a| <= |b|
  {
    assert b == a + (b - a);
  }

  /** After save_state, every listed thread that could be read has its current registers in its record. */
  lemma {:induction false} SaveStateSaves(r: ThreadRestorer, os: Os, ids: seq<ThreadId>, blank: Context, t: ThreadId)
    requires t in ids && CanBackUp(r, os, t)
    ensures t in SaveState(r, os, ids, blank).0.threads
    ensures SaveState(r, os, ids, blank).0.threads[t].context == os.threads[HandleFor(r, os, t).tid]
    decreases |ids|
  {
    var n := |ids| - 1;
    var init := ids[..n];
    SaveStateRecord(r, os, init, blank, t);
    if ids[n] != t {
      assert t in init by {
        var i :| 0 <= i < |ids| && ids[i] == t;
        assert init[i] == t;
      }
      SaveStateSaves(r, os, init, blank, t);
    }
  }

  /** The largest id of the kill set plus one, or 0 for an empty set: how far kill_threads counts. */
  function KillBound(m: map<ThreadId, Handle>): (n: nat)
    ensures forall k :: k in m ==> k < n
    ensures m != map[] ==> n - 1 in m
  {
    if m == map[] then 0
    else
      var keys: set<int> := m.Keys;
      assert keys != {} by { var k :| k in m; assert k in keys; }
      Max(keys) + 1
  }

  /** The threads the handles of the kill set name. */
  function HandledThreads(m: map<ThreadId, Handle>): (s: set<ThreadId>)
    ensures forall t :: t in s <==> exists k :: k in m && m[k] == ThreadHandle(t)
  {
    set k | k in m && m[k].ThreadHandle? :: m[k].tid
  }

  /** The same, for the ids below `n`: the handles the as-written loop has terminated after `n` rounds. */
  function HandledBelow(m: map<ThreadId, Handle>, n: int): (s: set<ThreadId>)
    ensures forall t :: t in s <==> exists k :: k in m && k < n && m[k] == ThreadHandle(t)
  {
    set k | k in m && k < n && m[k].ThreadHandle? :: m[k].tid
  }

  /** The target once the handles of the kill set have been terminated (TerminateThread fails on the rest). */
  function Killed(os: Os, s: set<ThreadId>): (os': Os)
    ensures os'.threads == os.threads - s
    ensures os'.pages == os.pages && os'.locked == os.locked && os'.spawnIds == os.spawnIds
  {
    os.(threads := os.threads - s)
  }

  /**
   kill_threads as written: `i` counts up from 0 while it is below the map's
   size, and `threads_to_kill[i]` inserts a NULL handle for every id that is
   not a key, so the map grows as the loop runs. The loop therefore visits every
   id from 0 to the largest key: it terminates every handle of the set, and
   returns the largest id plus one rather than the number of threads; the map
   is cleared at the end. An id of INT_MAX or more would overflow `i`.
   */
  method KillThreadsAsWritten(r: ThreadRestorer, os: Os) returns (r': ThreadRestorer, os': Os, killed: int)
    requires forall k :: k in r.toKill ==> k < INT_MAX
    ensures killed == KillBound(r.toKill)
    ensures r' == r.(toKill := map[])
    ensures os' == Killed(os, HandledThreads(r.toKill))
  {
    var m := r.toKill;
    var i := 0;
    os' := os;
    var bound := KillBound(r.toKill);
    while i < |m.Keys|
      invariant 0 <= i <= bound
      invariant Grown(m, r.toKill, i)
      invariant os' == Killed(os, HandledBelow(r.toKill, i))
      decreases bound - i
    {
      KeysWithin(m, if i < bound then bound else i);
      var h := if i in m then m[i] else NullHandle;
      KillStep(os, r.toKill, i, h);
      GrownStep(m, r.toKill, i, h);
      m := m[i := h];
      os' := Terminate(os', h);
      i := i + 1;
    }
    KillLoopExit(m, r.toKill, i);
    r' := r.(toKill := map[]);
    killed := i;
  }

  /**
   The map of the as-written loop after `i` rounds: the kill set, with a NULL
   handle inserted for every absent id below `i`.
   */
  ghost predicate Grown(m: map<ThreadId, Handle>, toKill: map<ThreadId, Handle>, i: int) {
    && (forall k :: k in m <==> k in toKill || 0 <= k < i)
    && (forall k :: k in toKill ==> m[k] == toKill[k])
    && (forall k :: k in m && k !in toKill ==> m[k] == NullHandle)
  }

  /** A round reads entry `i`, inserting a NULL handle when it is absent. */
  lemma GrownStep(m: map<ThreadId, Handle>, toKill: map<ThreadId, Handle>, i: ThreadId, h: Handle)
    requires Grown(m, toKill, i)
    requires h == (if i in m then m[i] else NullHandle)
    ensures Grown(m[i := h], toKill, i + 1)
  {
  }

  /**
   When the as-written loop stops, the grown map holds exactly the ids below
   `i`, so `i` has reached the largest key plus one and every entry was visited.
   */
  lemma KillLoopExit(m: map<ThreadId, Handle>, toKill: map<ThreadId, Handle>, i: nat)
    requires Grown(m, toKill, i)
    requires i <= KillBound(toKill) && |m.Keys| <= i
    ensures i == KillBound(toKill)
    ensures HandledBelow(toKill, i) == HandledThreads(toKill)
  {
    var keys: set<int> := m.Keys;
    assert Below(i) <= keys;
    SubsetOfSameSize(Below(i), keys);
    if toKill != map[] {
      assert KillBound(toKill) - 1 in keys;
    }
  }

  /** A kill set whose ids lie below `n` has at most `n` entries. */
  lemma KeysWithin(m: map<ThreadId, Handle>, n: nat)
    requires forall k :: k in m ==> k < n
    ensures |m.Keys| <= n
  {
    var keys: set<int> := m.Keys;
    assert keys <= Below(n);
    SubsetSize(keys, Below(n));
  }

  /** One round of the as-written loop terminates the handle of id `i`, or nothing when the id is absent. */
  lemma KillStep(os: Os, m: map<ThreadId, Handle>, i: int, h: Handle)
    requires i >= 0
    requires h == (if i in m then m[i] else NullHandle)
    ensures Terminate(Killed(os, HandledBelow(m, i)), h) == Killed(os, HandledBelow(m, i + 1))
  {
    var s0 := HandledBelow(m, i);
    var s1 := HandledBelow(m, i + 1);
    if h.ThreadHandle? {
      assert s1 == s0 + {h.tid};
      assert os.threads - s0 - {h.tid} == os.threads - s1;
    } else {
      assert s1 == s0;
    }
  }

  lemma SubsetOfSameSize(a: set<int>, b: set<int>)
    requires a <= b && |b| <= |a|
    ensures a == b
  {
    assert |b - a| == |b| - |a|;
  }

  /** The entries of the kill set in key order, each handle terminated in turn; the count is the number of entries. */
  function KillEntries(m: map<ThreadId, Handle>, keys: seq<int>, os: Os): (res: (Os, nat))
    requires forall i :: 0 <= i < |keys| ==> keys[i] in m
    ensures res.1 == |keys|
    ensures res.0.pages == os.pages && res.0.locked == os.locked && res.0.spawnIds == os.spawnIds
    decreases |keys|
  {
    if keys == [] then (os, 0)
    else
      var k: ThreadId := keys[0];
      var (os1, n) := KillEntries(m, keys[1..], Terminate(os, m[k]));
      (os1, n + 1)
  }

  /** Terminating the entries of `keys` one by one removes exactly the threads their handles name. */
  lemma {:induction false} KillEntriesEffect(m: map<ThreadId, Handle>, keys: seq<int>, os: Os)
    requires forall i :: 0 <= i < |keys| ==> keys[i] in m
    ensures KillEntries(m, keys, os).0 == Killed(os, set k | k in keys && m[k].ThreadHandle? :: m[k].tid)
    decreases |keys|
  {
    if keys != [] {
      var k: ThreadId := keys[0];
      var os1 := Terminate(os, m[k]);
      KillEntriesEffect(m, keys[1..], os1);
      var rest := set j | j in keys[1..] && m[j].ThreadHandle? :: m[j].tid;
      var all := set j | j in keys && m[j].ThreadHandle? :: m[j].tid;
      assert forall j :: j in keys <==> j == keys[0] || j in keys[1..];
      assert all == rest + (if m[k].ThreadHandle? then {m[k].tid} else {});
      assert os1.threads - rest == os.threads - all;
    }
  }

  /**
   kill_threads as evidently intended: terminate the handle of every entry of
   the kill set, clear it, and return the number of threads terminated.
   */
  function KillThreads(r: ThreadRestorer, os: Os): (res: (ThreadRestorer, Os, int))
    ensures res.0 == r.(toKill := map[])
    ensures res.1 == Killed(os, HandledThreads(r.toKill))
    ensures res.2 == |r.toKill|
  {
    var keys := SortedKeys(r.toKill.Keys);
    KillInKeyOrder(r.toKill, os);
    var (os1, n) := KillEntries(r.toKill, keys, os);
    (r.(toKill := map[]), os1, n)
  }

  /** Walking the whole kill set in key order terminates every handle of it, once per entry. */
  lemma KillInKeyOrder(m: map<ThreadId, Handle>, os: Os)
    ensures var keys := SortedKeys(m.Keys);
      && (forall i :: 0 <= i < |keys| ==> keys[i] in m)
      && KillEntries(m, keys, os) == (Killed(os, HandledThreads(m)), |m|)
  {
    var keys := SortedKeys(m.Keys);
    SortedKeysOf(m);
    KillEntriesEffect(m, keys, os);
    HandledInKeys(m, keys);
  }

  /** The key order of a map lists exactly its keys, once each. */
  lemma SortedKeysOf<V>(m: map<ThreadId, V>)
    ensures var keys := SortedKeys(m.Keys);
      && (forall i :: 0 <= i < |keys| ==> keys[i] in m)
      && (forall k :: k in m ==> k in keys)
      && |keys| == |m|
  {
    var keys := SortedKeys(m.Keys);
    forall i | 0 <= i < |keys| ensures keys[i] in m {
      assert keys[i] in keys;
    }
    assert |m.Keys| == |m|;
  }

  lemma HandledInKeys(m: map<ThreadId, Handle>, keys: seq<int>)
    requires forall i :: 0 <= i < |keys| ==> keys[i] in m
    requires forall k :: k in m ==> k in keys
    ensures (set k | k in keys && m[k].ThreadHandle? :: m[k].tid) == HandledThreads(m)
  {
    var a := set k | k in keys && m[k].ThreadHandle? :: m[k].tid;
    forall t | t in HandledThreads(m) ensures t in a {
      var k :| k in m && m[k] == ThreadHandle(t);
      assert k in keys;
    }
  }

  /**
   The as-written count is never below the number of entries, and equals it
   exactly when the ids are 0, 1, ..., n-1; a single thread of id 4 is counted
   as five.
   */
  lemma KillCountAsWritten(m: map<ThreadId, Handle>)
    ensures KillBound(m) >= |m|
    ensures KillBound(m) == |m| <==> forall k :: k in m <==> 0 <= k < |m|
    ensures KillBound(map[4 := NullHandle]) == 5
  {
    var keys: set<int> := m.Keys;
    var below := Below(KillBound(m));
    assert keys <= below;
    SubsetSize(keys, below);
    if KillBound(m) == |m| {
      SubsetOfSameSize(keys, below);
    }
    if forall k :: k in m <==> 0 <= k < |m| {
      if m != map[] {
        assert KillBound(m) - 1 < |m|;
      }
    }
    var single: map<ThreadId, Handle> := map[4 := NullHandle];
    var singleKeys: set<int> := single.Keys;
    assert singleKeys == {4};
  }

  /**
   The tracked backups in `std::map` order, each restored in turn; a throw
   stops the walk. The count is the number restored.
   */
  function RestoreAll(threads: map<ThreadId, ThreadBackup>, keys: seq<int>, os: Os)
    : (res: Exec<(map<ThreadId, ThreadBackup>, Os), int>)
    requires forall i :: 0 <= i < |keys| ==> keys[i] in threads
    ensures res.state.0.Keys == threads.Keys
    ensures forall k :: k in threads ==> res.state.0[k].context == threads[k].context
    ensures res.Done? ==> res.value == |keys|
    ensures res.state.1.pages == os.pages
    decreases |keys|
  {
    if keys == [] then Done((threads, os), 0)
    else
      var k: ThreadId := keys[0];
      var restored := RestoreThread(threads[k], os);
      var threads1 := threads[k := restored.state.0];
      if restored.Raised? then Raised((threads1, restored.state.1), restored.error)
      else
        var rest := RestoreAll(threads1, keys[1..], restored.state.1);
        if rest.Raised? then rest else Done(rest.state, rest.value + 1)
  }

  /**
   restore_state: terminate the threads of the kill set, then restore every
   tracked backup; the count is the number of tracked backups.
   */
  function RestoreState(r: ThreadRestorer, os: Os): (res: Exec<(ThreadRestorer, Os), int>)
    ensures res.state.0.toKill == map[]
    ensures res.state.0.threads.Keys == r.threads.Keys
    ensures forall k :: k in r.threads ==> res.state.0.threads[k].context == r.threads[k].context
    ensures res.Done? ==> res.value == |r.threads|
    ensures res.state.1.pages == os.pages
  {
    var (r1, os1, _) := KillThreads(r, os);
    var keys := SortedKeys(r.threads.Keys);
    var restored := RestoreAll(r.threads, keys, os1);
    assert |r.threads.Keys| == |r.threads|;
    var r2 := r1.(threads := restored.state.0);
    if restored.Raised? then Raised((r2, restored.state.1), restored.error) else Done((r2, restored.state.1), restored.value)
  }

  /** A restore over a single tracked thread kills the kill set first and leaves the saved registers live on that thread. */
  lemma RestoreStateSingle(r: ThreadRestorer, os: Os, t: ThreadId)
    requires r.threads.Keys == {t}
    requires RestoreState(r, os).Done?
    ensures var res := RestoreState(r, os);
      GetContext(res.state.1, res.state.0.threads[t].handle) == Some(r.threads[t].context)
  {
    var os1 := KillThreads(r, os).1;
    var keys := SortedKeys(r.threads.Keys);
    assert keys == [t] by {
      assert |keys| == 1 && keys[0] in r.threads.Keys;
    }
    var restored := RestoreThread(r.threads[t], os1);
    assert RestoreAll(r.threads, keys, os1).Raised? == restored.Raised?;
    RestoreThreadReapplies(r.threads[t], os1);
    assert RestoreAll(r.threads, keys, os1) == Done((r.threads[t := restored.state.0], restored.state.1), 1);
  }

  /**
   restore_thread(thread_id): an id without a backup throws, as the thread was
   created after the snapshot; otherwise its backup is restored and 1 returned.
   */
  function RestoreTrackedThread(r: ThreadRestorer, os: Os, tid: ThreadId): (res: Exec<(ThreadRestorer, Os), int>)
    ensures tid !in r.threads <==> res.Raised? && res.error == AttemptToRestoreUnTrackedThread
    ensures tid !in r.threads ==> res.state == (r, os)
    ensures res.state.0.threads.Keys == r.threads.Keys && res.state.0.toKill == r.toKill
    ensures res.Done? ==> res.value == 1
    ensures res.Done? ==> GetContext(res.state.1, res.state.0.threads[tid].handle) == Some(r.threads[tid].context)
  {
    if tid !in r.threads then Raised((r, os), AttemptToRestoreUnTrackedThread)
    else
      var restored := RestoreThread(r.threads[tid], os);
      var r1 := r.(threads := r.threads[tid := restored.state.0]);
      if restored.Raised? then
        assert restored.error == SetThreadContextFailed;
        Raised((r1, restored.state.1), restored.error)
      else
        RestoreThreadReapplies(r.threads[tid], os);
        Done((r1, restored.state.1), 1)
  }

  /** The operations of the restorer, for stating what holds across any sequence of them. */
  datatype ThreadOp =
    | SaveStateOp(ids: seq<ThreadId>, blank: Context)
    | SaveThreadOp(tid: ThreadId, blank: Context)
    | RestoreStateOp
    | RestoreThreadOp(tid: ThreadId)
    | AddKillOp(tid: ThreadId, h: Handle)
    | RemoveKillOp(tid: ThreadId)

  /** One operation on the restorer and the target. */
  function Apply(r: ThreadRestorer, os: Os, op: ThreadOp): (res: (ThreadRestorer, Os)) {
    match op
    case SaveStateOp(ids, blank) => (SaveState(r, os, ids, blank).0, os)
    case SaveThreadOp(tid, blank) => (SaveThread(r, os, tid, blank).0, os)
    case RestoreStateOp => RestoreState(r, os).state
    case RestoreThreadOp(tid) => RestoreTrackedThread(r, os, tid).state
    case AddKillOp(tid, h) => (AddThreadToKill(r, tid, h), os)
    case RemoveKillOp(tid) => (RemoveThreadFromKill(r, tid), os)
  }

  /** A sequence of operations, in order, whether each returned or threw. */
  function ApplyAll(r: ThreadRestorer, os: Os, ops: seq<ThreadOp>): (res: (ThreadRestorer, Os))
    decreases |ops|
  {
    if ops == [] then (r, os)
    else
      var (r1, os1) := Apply(r, os, ops[0]);
      ApplyAll(r1, os1, ops[1..])
  }

  /** No operation ever erases a backup: the set of tracked ids only grows. */
  lemma {:induction false} TrackedIdsOnlyGrow(r: ThreadRestorer, os: Os, ops: seq<ThreadOp>)
    ensures r.threads.Keys <= ApplyAll(r, os, ops).0.threads.Keys
    decreases |ops|
  {
    if ops != [] {
      var (r1, os1) := Apply(r, os, ops[0]);
      assert r.threads.Keys <= r1.threads.Keys;
      TrackedIdsOnlyGrow(r1, os1, ops[1..]);
    }
  }
}

=== FILE: thread_state.dfy ===
/**
 The register cache of one thread (ThreadState): a lazily pulled, dirty-tracked
 copy of the thread's CONTEXT record.

 - Get, Set and ContextCopy pull the context from the OS first iff it has not
   been read; Set marks the cache dirty, Get never does.
 - Flush writes the cache back iff it is dirty and has been read, then re-reads it.
 - Invalidate forgets the cache, discarding unflushed writes.

 A cache that has never pulled holds an unspecified CONTEXT; the model gives it
 the all-zero record, which no operation lets a caller observe except through
 the pointer `GetMutableContext` hands out.
 */
module ThreadStates {
  import opened Base
  import opened Errors
  import opened Registers
  import opened TargetOs
  import Hwbp

  datatype ThreadState = ThreadState(
    threadId: ThreadId,
    handle: Handle,
    ctx: Context,
    dirty: bool,
    contextRead: bool,
    ownThreadHandle: bool)

  /** ThreadState(threadId): no handle yet; the first pull opens one. */
  function FromId(tid: ThreadId): (t: ThreadState)
    ensures t.threadId == tid && t.handle == InvalidHandle
    ensures !t.dirty && !t.contextRead && !t.ownThreadHandle
  {
    ThreadState(tid, InvalidHandle, ZeroContext(), false, false, false)
  }

  /** ThreadState(threadId, threadHandle): pulls through the given handle. */
  function FromHandle(tid: ThreadId, h: Handle): (t: ThreadState)
    ensures t.threadId == tid && t.handle == h
    ensures !t.dirty && !t.contextRead && !t.ownThreadHandle
  {
    ThreadState(tid, h, ZeroContext(), false, false, false)
  }

  /** ThreadState(threadId, threadHandle, context): already read, with the given context. */
  function FromContext(tid: ThreadId, h: Handle, c: Context): (t: ThreadState)
    ensures t.threadId == tid && t.handle == h && t.ctx == c
    ensures !t.dirty && t.contextRead && !t.ownThreadHandle
  {
    ThreadState(tid, h, c, false, true, false)
  }

  /**
   PullThreadContext: open a handle if there is none (an INVALID_HANDLE_VALUE
   handle), then GetThreadContext. The handle opened is kept even when the read
   fails; a failed read throws GetThreadContextFailureException.
   */
  function Pull(t: ThreadState, os: Os): (r: Exec<ThreadState, ()>)
    ensures r.state.threadId == t.threadId && r.state.dirty == t.dirty
    ensures r.state.handle == (if t.handle == InvalidHandle then OpenThread(os, t.threadId) else t.handle)
    ensures r.Done? <==> GetContext(os, r.state.handle).Some?
    ensures r.Done? ==> r.state.ctx == GetContext(os, r.state.handle).value
    ensures r.Done? ==> r.state.contextRead && r.state.ownThreadHandle
    ensures r.Raised? ==> r.error == GetThreadContextFailure && r.state == t.(handle := r.state.handle)
  {
    var h := if t.handle == InvalidHandle then OpenThread(os, t.threadId) else t.handle;
    match GetContext(os, h)
    case None => Raised(t.(handle := h), GetThreadContextFailure)
    case Some(c) => Done(t.(handle := h, ctx := c, ownThreadHandle := true, contextRead := true), ())
  }

  /** The pull `Get`, `Set` and `ContextCopy` do first: only when the context has not been read. */
  function EnsureRead(t: ThreadState, os: Os): (r: Exec<ThreadState, ()>)
    ensures t.contextRead ==> r == Done(t, ())
    ensures !t.contextRead ==> r == Pull(t, os)
  {
    if t.contextRead then Done(t, ()) else Pull(t, os)
  }

  /**
   GetRegisterValue: the register zero-extended to `size_t`. A CONTEXTREGISTER
   value that names no register throws InvalidRegisterException, after the pull.
   */
  function Get(t: ThreadState, os: Os, reg: RegId): (r: Exec<ThreadState, bv64>)
    ensures r.Done? <==> EnsureRead(t, os).Done? && reg.Named?
    ensures r.state == EnsureRead(t, os).state
    ensures r.Raised? && EnsureRead(t, os).Done? ==> r.error == InvalidRegister
    ensures r.Done? ==> r.value == Read(r.state.ctx, reg.reg)
    ensures r.state.dirty == t.dirty
  {
    match EnsureRead(t, os)
    case Raised(t', e) => Raised(t', e)
    case Done(t', _) =>
      if reg.Unlisted? then Raised(t', InvalidRegister)
      else Done(t', Read(t'.ctx, reg.reg))
  }

  /**
   SetRegisterValue: store `v` through a pointer of the register's width and mark
   the cache dirty. A register value that names no register throws
   InvalidRegisterException after the pull, without marking the cache dirty.
   */
  function Set(t: ThreadState, os: Os, reg: RegId, v: bv64): (r: Exec<ThreadState, ()>)
    ensures r.Done? <==> EnsureRead(t, os).Done? && reg.Named?
    ensures r.Raised? ==> r.state == EnsureRead(t, os).state
    ensures r.Raised? && EnsureRead(t, os).Done? ==> r.error == InvalidRegister
    ensures r.Done? ==> r.state == EnsureRead(t, os).state.(ctx := Write(EnsureRead(t, os).state.ctx, reg.reg, v), dirty := true)
  {
    match EnsureRead(t, os)
    case Raised(t', e) => Raised(t', e)
    case Done(t', _) =>
      if reg.Unlisted? then Raised(t', InvalidRegister)
      else Done(t'.(ctx := Write(t'.ctx, reg.reg, v), dirty := true), ())
  }

  /**
   Get after Set returns the value's low 8·width bits, whatever the OS holds by
   then: no pull happens in between.
   */
  lemma GetAfterSet(t: ThreadState, os: Os, os2: Os, reg: Reg, v: bv64)
    requires Set(t, os, Named(reg), v).Done?
    ensures Get(Set(t, os, Named(reg), v).state, os2, Named(reg)).Done?
    ensures Get(Set(t, os, Named(reg), v).state, os2, Named(reg)).value == Read(Write(EnsureRead(t, os).state.ctx, reg, v), reg)
  {
  }

  /** Set on one register leaves every other register's cached value as it was. */
  lemma SetLeavesOthers(t: ThreadState, os: Os, reg: Reg, v: bv64, other: Reg)
    requires other != reg
    requires Set(t, os, Named(reg), v).Done?
    ensures Get(Set(t, os, Named(reg), v).state, os, Named(other)).value == Get(t, os, Named(other)).value
  {
  }

  /** Once read, the cache answers without the OS: any two OS states give the same register value. */
  lemma GetIsCached(t: ThreadState, os1: Os, os2: Os, reg: RegId)
    requires t.contextRead
    ensures Get(t, os1, reg) == Get(t, os2, reg)
  {
  }

  /** GetContextCopy: the whole cached record, pulling first if it has not been read. */
  function ContextCopy(t: ThreadState, os: Os): (r: Exec<ThreadState, Context>)
    ensures r.state == EnsureRead(t, os).state
    ensures r.Done? <==> EnsureRead(t, os).Done?
    ensures r.Done? ==> forall q :: Read(r.value, q) == Get(t, os, Named(q)).value
  {
    match EnsureRead(t, os)
    case Raised(t', e) => Raised(t', e)
    case Done(t', _) => Done(t', t'.ctx)
  }

  /**
   GetMutableContext followed by the caller's edits through the pointer: the
   record becomes `edited` and the cache is marked dirty. No pull happens, so an
   edit of a never-read cache is lost at the next flush.
   */
  function EditContext(t: ThreadState, edited: Context): (u: ThreadState)
    ensures u.dirty && u.ctx == edited
    ensures u.contextRead == t.contextRead && u.handle == t.handle && u.threadId == t.threadId
  {
    t.(ctx := edited, dirty := true)
  }

  /** Invalidate: forget the cache and any pending writes; the next access pulls again. */
  function Invalidate(t: ThreadState): (u: ThreadState)
    ensures !u.dirty && !u.contextRead
    ensures u.handle == t.handle && u.threadId == t.threadId
  {
    t.(dirty := false, contextRead := false)
  }

  /** After Invalidate the next Get reads the OS, not the discarded cache. */
  lemma InvalidateRereads(t: ThreadState, os: Os, reg: Reg)
    requires t.handle.ThreadHandle? && t.handle.tid in os.threads
    ensures Get(Invalidate(t), os, Named(reg)).Done?
    ensures Get(Invalidate(t), os, Named(reg)).value == Read(os.threads[t.handle.tid], reg)
  {
  }

  /**
   FlushContext: when dirty and read, SetThreadContext the cache, then re-read it
   and clear dirty. A failed write throws SetThreadContextFailureException and a
   failed re-read GetThreadContextFailureException. Otherwise nothing happens.
   */
  function Flush(t: ThreadState, os: Os): (r: Exec<(ThreadState, Os), ()>)
    ensures !(t.dirty && t.contextRead) ==> r == Done((t, os), ())
    ensures t.dirty && t.contextRead && SetContext(os, t.handle, t.ctx).None? ==>
              r == Raised((t, os), SetThreadContextFailure)
    ensures r.Done? && t.contextRead ==> !r.state.0.dirty
    ensures r.Done? && t.dirty && t.contextRead ==> r.state.1 == SetContext(os, t.handle, t.ctx).value
  {
    if t.dirty && t.contextRead then
      match SetContext(os, t.handle, t.ctx)
      case None => Raised((t, os), SetThreadContextFailure)
      case Some(os') =>
        match Pull(t.(contextRead := false), os')
        case Raised(t', e) => Raised((t', os'), e)
        case Done(t', _) => Done((t'.(dirty := false), os'), ())
    else Done((t, os), ())
  }

  /**
   A successful flush of a dirty cache publishes it: the thread now holds the
   cached registers, and the cache, re-read, still holds them and is clean.
   */
  lemma FlushPublishes(t: ThreadState, os: Os)
    requires t.dirty && t.contextRead
    requires t.handle.ThreadHandle? && t.handle.tid in os.threads
    ensures Flush(t, os).Done?
    ensures Flush(t, os).state.1.threads[t.handle.tid] == t.ctx
    ensures Flush(t, os).state.0 == t.(dirty := false, ownThreadHandle := true)
  {
    SetThenGetContext(os, t.handle, t.ctx);
  }

  /** ~ThreadState: flush iff dirty (a throw here would leave the destructor). */
  function Release(t: ThreadState, os: Os): (r: Exec<(ThreadState, Os), ()>)
    ensures !t.dirty ==> r == Done((t, os), ())
    ensures t.dirty ==> r == Flush(t, os)
  {
    if t.dirty then Flush(t, os) else Done((t, os), ())
  }

  /** A DWORD holding the low 32 bits of a register value. */
  function LowDword(v: bv64): (w: bv32)
    ensures w as bv64 == v & 0xFFFF_FFFF
  {
    (v & 0xFFFF_FFFF) as bv32
  }

  /** Widening a DWORD to `size_t` and taking its low 32 bits gives it back. */
  lemma LowDwordOfDword(w: bv32)
    ensures LowDword(w as bv64) == w
  {
  }

  /** A DWORD widened to `size_t` has its upper 32 bits clear. */
  lemma DwordUpperHalfClear(w: bv32)
    ensures (w as bv64) & !0xFFFF_FFFF == 0
  {
  }

  /**
   The DR7 value DisableHWBPByIndex stores for a DR7 value `v` it read: the low
   DWORD, viewed as Dr7_Fields, with the local enable of slot `index` cleared, and
   widened back to `size_t`.
   */
  function DisabledDr7(v: bv64, index: int): bv64 {
    Hwbp.Encode(Hwbp.ClearLocal(Hwbp.Decode(LowDword(v)), index)) as bv64
  }

  /**
   DisableHWBPByIndex: read DR7 into a DWORD (dropping its upper 32 bits), clear
   the local enable of slot `index` in the bit-field view, and store the DWORD
   back. Any other index stores the truncated value unchanged and still marks
   the cache dirty.
   */
  function DisableHwbpByIndex(t: ThreadState, os: Os, index: int): (r: Exec<ThreadState, ()>)
    ensures r.Done? <==> EnsureRead(t, os).Done?
    ensures r.Raised? ==> r == Raised(EnsureRead(t, os).state, GetThreadContextFailure)
    ensures r.Done? ==> r.state.dirty && r.state.contextRead
    ensures r.Done? ==> forall q :: q != Dr7 ==> Read(r.state.ctx, q) == Read(EnsureRead(t, os).state.ctx, q)
  {
    match Get(t, os, Named(Dr7))
    case Raised(t', e) => Raised(t', e)
    case Done(t', v) =>
      Set(t', os, Named(Dr7), DisabledDr7(v, index))
  }

  /**
   What DisableHWBPByIndex leaves in DR7, in the bit-field view: slot `index`
   locally disabled and every other field as in the low 32 bits of the DR7 value
   it read.
   */
  lemma DisableHwbpByIndexClearsOneBit(t: ThreadState, os: Os, index: int)
    requires DisableHwbpByIndex(t, os, index).Done?
    ensures Hwbp.Decode(LowDword(Read(DisableHwbpByIndex(t, os, index).state.ctx, Dr7)))
         == Hwbp.ClearLocal(Hwbp.Decode(LowDword(Get(t, os, Named(Dr7)).value)), index)
  {
    StoredDword(t, os, index);
    Hwbp.DecodeEncode(Hwbp.ClearLocal(Hwbp.Decode(LowDword(Get(t, os, Named(Dr7)).value)), index));
  }

  /** The DWORD DisableHWBPByIndex stores is the encoded bit-field view it built. */
  lemma StoredDword(t: ThreadState, os: Os, index: int)
    requires DisableHwbpByIndex(t, os, index).Done?
    ensures LowDword(Read(DisableHwbpByIndex(t, os, index).state.ctx, Dr7))
         == Hwbp.Encode(Hwbp.ClearLocal(Hwbp.Decode(LowDword(Get(t, os, Named(Dr7)).value)), index))
  {
    var stored := Hwbp.Encode(Hwbp.ClearLocal(Hwbp.Decode(LowDword(Get(t, os, Named(Dr7)).value)), index));
    DisableIsSet(t, os, index);
    DwordSetReadsBack(Get(t, os, Named(Dr7)).state, os, stored);
  }

  /** Once DR7 has been read, DisableHWBPByIndex is one Set of the rebuilt DWORD. */
  lemma DisableIsSet(t: ThreadState, os: Os, index: int)
    requires Get(t, os, Named(Dr7)).Done?
    ensures DisableHwbpByIndex(t, os, index)
         == Set(Get(t, os, Named(Dr7)).state, os, Named(Dr7), DisabledDr7(Get(t, os, Named(Dr7)).value, index))
  {
  }

  /** A DWORD stored into DR7 of a read cache reads back, in its low 32 bits, as itself. */
  lemma DwordSetReadsBack(t: ThreadState, os: Os, w: bv32)
    requires t.contextRead
    ensures LowDword(Read(Set(t, os, Named(Dr7), w as bv64).state.ctx, Dr7)) == w
  {
    SetOnReadCache(t, os, Dr7, w as bv64);
    ReadAfterWrite(t.ctx, Dr7, w as bv64);
    LowDwordOfDword(w);
  }

  /** A run of SetRegisterValue calls; the first throw ends it. */
  function SetAll(t: ThreadState, os: Os, stores: seq<(Reg, bv64)>): Exec<ThreadState, ()>
    decreases |stores|
  {
    if stores == [] then Done(t, ())
    else
      match Set(t, os, Named(stores[0].0), stores[0].1)
      case Raised(t', e) => Raised(t', e)
      case Done(t', _) => SetAll(t', os, stores[1..])
  }

  /** On a cache that has been read, a run of stores is the run of writes, and marks it dirty. */
  lemma {:induction false} SetAllOnReadCache(t: ThreadState, os: Os, stores: seq<(Reg, bv64)>)
    requires t.contextRead && stores != []
    ensures SetAll(t, os, stores) == Done(t.(ctx := WriteAll(t.ctx, stores), dirty := true), ())
    decreases |stores|
  {
    SetOnReadCache(t, os, stores[0].0, stores[0].1);
    var t' := t.(ctx := Write(t.ctx, stores[0].0, stores[0].1), dirty := true);
    if |stores| > 1 {
      SetAllOnReadCache(t', os, stores[1..]);
    }
  }

  /**
   Only the first store of a run can pull, so only it can throw: the run
   succeeds iff the pull does, and then the cache holds the run of writes over
   what was pulled.
   */
  lemma SetAllPullsOnce(t: ThreadState, os: Os, stores: seq<(Reg, bv64)>)
    requires stores != []
    ensures SetAll(t, os, stores).Done? <==> EnsureRead(t, os).Done?
    ensures SetAll(t, os, stores).Raised? ==> SetAll(t, os, stores) == EnsureRead(t, os)
    ensures SetAll(t, os, stores).Done? ==>
      SetAll(t, os, stores).state == EnsureRead(t, os).state.(ctx := WriteAll(EnsureRead(t, os).state.ctx, stores), dirty := true)
  {
    match EnsureRead(t, os)
    case Raised(_, _) =>
    case Done(t', _) =>
      SetAllOnReadCache(t', os, stores);
      assert SetAll(t, os, stores) == SetAll(t', os, stores);
  }

  /** Get on a cache that has been read reads it without consulting the OS. */
  lemma GetOnReadCache(t: ThreadState, os: Os, reg: Reg)
    requires t.contextRead
    ensures Get(t, os, Named(reg)) == Done(t, Read(t.ctx, reg))
  {
  }

  /** Set on a cache that has been read stores into it without consulting the OS. */
  lemma SetOnReadCache(t: ThreadState, os: Os, reg: Reg, v: bv64)
    requires t.contextRead
    ensures Set(t, os, Named(reg), v) == Done(t.(ctx := Write(t.ctx, reg, v), dirty := true), ())
  {
  }

  /** DisableHWBPByIndex leaves the upper 32 bits of DR7 zero, whatever they held. */
  lemma DisableHwbpByIndexZeroesUpperHalf(t: ThreadState, os: Os, index: int)
    requires DisableHwbpByIndex(t, os, index).Done?
    ensures Read(DisableHwbpByIndex(t, os, index).state.ctx, Dr7) & !0xFFFF_FFFF == 0
  {
    var stored := Hwbp.Encode(Hwbp.ClearLocal(Hwbp.Decode(LowDword(Get(t, os, Named(Dr7)).value)), index));
    DisableIsSet(t, os, index);
    DwordSetClearsUpperHalf(Get(t, os, Named(Dr7)).state, os, stored);
  }

  /** A DWORD stored into DR7 of a read cache leaves the register's upper 32 bits zero. */
  lemma DwordSetClearsUpperHalf(t: ThreadState, os: Os, w: bv32)
    requires t.contextRead
    ensures Read(Set(t, os, Named(Dr7), w as bv64).state.ctx, Dr7) & !0xFFFF_FFFF == 0
  {
    SetOnReadCache(t, os, Dr7, w as bv64);
    ReadAfterWrite(t.ctx, Dr7, w as bv64);
    DwordUpperHalfClear(w);
  }
}
